=== FILE: README.md ===
# JavaScript tutorial core, modelled in Dafny

This project models the behaviour of a set of JavaScript and TypeScript tutorial scripts: truthiness
and coercion, the logical and nullish operators, array helpers, value and reference semantics, loop
control, error handling with custom error classes, classes with private fields, getters and setters,
static members and factories, property attributes, and the three integrity levels (preventExtensions,
seal, freeze) up to a recursive deepFreeze. Each script's functions and classes become pure Dafny
functions (or methods where the source loops), and their contracts state what the scripts promise
about them: which inputs are accepted or refused and with which error, what a result contains, what
an operation leaves untouched, and round trips between a value and its written form.

## How the model is built

- `js_values.dfy` (module `JsValues`) is the shared value model. A JavaScript value is `Undefined`,
  `Null`, a boolean, a number, a BigInt, a string or a reference into a heap (`map<nat, JsObject>`).
  Numbers are `Finite(real)`, `NegZero`, `NaN` and the two infinities, so exactly eight values are
  falsy. An object holds its own data properties with their attributes (writable, enumerable,
  configurable), its keys in creation order (an engine lists array-index keys first; the model does
  not), its extensible flag and its kind (plain, array,
  function). Property reads, optional chaining, object literals and spreads follow sections 7.3 and
  13.2.5 of ECMA-262.
- `common.dfy` (module `Common`) holds `Result`/`Option`, `String.prototype.trim`, number-to-string
  conversion and splitting.
- Classes become datatypes holding their fields. Each method becomes a function from the old state
  to the new one, or to a `Result` when it can throw. Private fields are the datatype's fields; the
  getters read them.
- The scripts run in sloppy mode. A refused assignment or `delete` is therefore ignored, while a
  refused `Object.defineProperty` throws a TypeError.
- Clocks, `JSON.parse`, template-literal conversion of arbitrary values and similar host behaviour
  are parameters of the functions that use them (`today`, `parse`, `show`).
- Each module names the script it models in its header comment. Two versions of the class scripts
  exist in the repository, under `JavaScript/js-beginner/` and under `js-beginner/`. They differ in
  behaviour and are modelled separately: `ClassKeyword`/`ClassKeywordBasics`,
  `StaticFactories`/`StaticBasics`, with `Shop` shared by both shopping-cart examples.

Where a script's comment and its code disagree, the model follows the code:
- `js-beginner/1_basics/7_operators.js:519-522` — the `isValid` results are the operand values
  (`'test@test.com'` and `undefined`), not booleans (`Operators.ValidateFormSample`).
- `js-beginner/2_class_and_oop/1_class_keyword.js:212` — the one-character name '컴' is refused by
  the name check (`ClassKeywordBasics`).
- `js-beginner/1_basics/12_function.js:794` — the composed `multiply3` doubles (`FunctionUtils`).
- `JavaScript/js-beginner/3_all_about_object/3_2_immutable_object.js:219-225` — redefining a frozen
  property as `{ writable: false }` does not throw (`PropertyAttributes.FrozenRedefineReadOnlySucceeds`).
- `js-beginner/2_class_and_oop/6_class_problem.js:121` — `members[1]` of the second group is '진', not
  RM (`ClassProblem.KpopSample`).
- `JavaScript/js-beginner/1_basics/13_array_functions.js:440` — the cart total is 85000, not 75000
  (`ArrayFunctions`).
- `js-beginner/2_class_and_oop/2_getter_and_setter.js:443` — 'password123' is rated 강함, not 보통
  (`GetterSetter`).
- `js-beginner/2_class_and_oop/3_static_keyword.js:118` — formatDate prints `2026-1-24`, not the
  padded form its comment shows (`StaticBasics.FormatDateSample`).

## Model

| member | source | states |
|---|---|---|
| Coercion.FalsyExactlyTable | JavaScript/js-beginner/1_basics/11_coercion.js:128-151 | ToBoolean is false on exactly eight values (false, 0, -0, 0n, '', null, undefined, NaN), and the eight are distinct |
| Coercion.TruthyExamples | JavaScript/js-beginner/1_basics/11_coercion.js:153-160 | '0', 'false', ' ', -1, an array and an object are all truthy |
| Coercion.ValidateInput | JavaScript/js-beginner/1_basics/11_coercion.js:183-191 | validateInput answers false exactly for the eight falsy values |
| Coercion.SafeGetValue | JavaScript/js-beginner/1_basics/11_coercion.js:373-382 | the default replaces the read value only when that value is null or undefined; any other value comes back as stored |
| Coercion.SafeGetValueKeepsFalsy | JavaScript/js-beginner/1_basics/11_coercion.js:384-389 | a stored 0 or '' comes back as stored, although it is falsy |
| Coercion.IsEmpty | JavaScript/js-beginner/1_basics/11_coercion.js:427-429 | isEmpty holds exactly for null, undefined and '', and only for falsy values |
| Coercion.HasValue | JavaScript/js-beginner/1_basics/11_coercion.js:437-439 | hasValue holds exactly for the values that are not null or undefined, so 0, false and '' count |
| Coercion.BuildSearchFilter | JavaScript/js-beginner/1_basics/11_coercion.js:338-357 | each key is present exactly when its source is truthy; prices go through Number and inStock becomes true; null or undefined params throw |
| Coercion.BuildSearchFilterSample | JavaScript/js-beginner/1_basics/11_coercion.js:359-370 | the sample keeps keyword, minPrice 10000 and inStock true, and leaves out the empty maxPrice |
| Operators.GetGrade | js-beginner/1_basics/7_operators.js:223-228 | the grade is one of A, B, C, F: A exactly from 90, B exactly from 80 to below 90, C exactly from 70 to below 80, F exactly below 70 and for NaN |
| Operators.GradeMonotone | js-beginner/1_basics/7_operators.js:223-228 | a higher score never earns a worse grade |
| Operators.GradeReachesFloor | js-beginner/1_basics/7_operators.js:223-228 | the grade is A, B or C or better exactly when the score reaches that grade's floor (90, 80, 70) |
| Operators.GradeSample | js-beginner/1_basics/7_operators.js:216-220 | a score of 75 is a C |
| Operators.CoalesceVersusOr | js-beginner/1_basics/7_operators.js:331-338 | `??` and `\|\|` agree unless the left operand is falsy but not nullish; then `??` keeps it and `\|\|` takes the right one |
| Operators.CoalesceVersusOrSamples | js-beginner/1_basics/7_operators.js:349-360 | 0, '' and false give 10, '기본값' and true under `\|\|` but stay themselves under `??` |
| Operators.CoalesceSettles | js-beginner/1_basics/7_operators.js:341-347 | once `x ?? y` has given a value, a further `?? z` leaves it alone |
| Operators.Coalesce | js-beginner/1_basics/7_operators.js:332-338 | `a ?? b` is one of its operands, a itself whenever a is not null or undefined, and nullish only when both are |
| Operators.Or | js-beginner/1_basics/7_operators.js:284-290 | `a || b` is one of its operands, and truthy exactly when a or b is |
| Operators.And | js-beginner/1_basics/7_operators.js:275-281 | `a && b` is one of its operands, and truthy exactly when both are |
| Operators.AndTruthy | js-beginner/1_basics/7_operators.js:502 | an `&&` chain is truthy exactly when every operand is |
| Operators.CheckPermission | js-beginner/1_basics/7_operators.js:485-491 | true exactly for a non-nullish user whose role is 'admin' or whose id is 1; a nullish user has no permission |
| Operators.CreateConfig | js-beginner/1_basics/7_operators.js:525-536 | each field is the caller's value when that is neither null nor undefined, and the default (5000, 3, true) when it is; no field of the result is nullish |
| Operators.CreateConfigIdempotent | js-beginner/1_basics/7_operators.js:525-536 | feeding a created configuration back into createConfig returns it unchanged |
| Operators.CreateConfigRoundTrip | js-beginner/1_basics/7_operators.js:525-536 | a configuration object whose three fields are all set comes back field for field |
| Operators.CreateConfigSample | js-beginner/1_basics/7_operators.js:539-541 | `{ timeout: 0, cache: false }` gives timeout 0, retries 3, cache false |
| Operators.TrimmedName | js-beginner/1_basics/7_operators.js:499 | `data?.name?.trim()` is undefined for nullish data or a nullish name, throws exactly for a name that is neither nullish nor a string, and otherwise yields the trimmed string |
| Operators.ValidateForm | js-beginner/1_basics/7_operators.js:498-516 | the error is the name message exactly when the trimmed name is falsy, the age message exactly when only the age is falsy, the email message exactly when only the email is, else none; isValid is the first falsy field, or the email when none is |
| Operators.ValidFormIffFilled | js-beginner/1_basics/7_operators.js:498-516 | the form has no error exactly when the name is a string that is not blank once trimmed and age and email are truthy, and isValid is then the email itself |
| Operators.ValidateFormSample | js-beginner/1_basics/7_operators.js:518-519 | the complete form's isValid is the string 'test@test.com', not true, and its error is null |
| Operators.ValidateFormMissingAge | js-beginner/1_basics/7_operators.js:521-522 | a form with only a name has isValid undefined, not false, and reports the missing age |
| TypeGuards.NonNullObjectIsRef | TypeScript/onebite-typescript/02_ts_basics/src/06_any_unknown_safety.ts:106 | `typeof value === 'object' && value !== null` holds exactly for references to objects that are not functions |
| TypeGuards.IsUser | TypeScript/onebite-typescript/02_ts_basics/src/06_any_unknown_safety.ts:105-113 | the guard accepts exactly the non-null, non-function objects whose id and name are both strings |
| TypeGuards.UserRoundTrip | TypeScript/onebite-typescript/02_ts_basics/src/06_any_unknown_safety.ts:105-119 | a user written as an `{ id, name }` object passes the guard and is read back unchanged |
| TypeGuards.IsUserEdges | TypeScript/onebite-typescript/02_ts_basics/src/06_any_unknown_safety.ts:105-113 | null, undefined and strings are refused; a function object is refused while an array carrying id and name is accepted |
| TypeGuards.IsSettings | TypeScript/onebite-typescript/02_ts_basics/src/06_any_unknown_safety.ts:142-150 | the guard accepts exactly the non-null, non-function objects whose theme is 'light' or 'dark' and whose fontSize is a number |
| TypeGuards.SettingsRoundTrip | TypeScript/onebite-typescript/02_ts_basics/src/06_any_unknown_safety.ts:142-150 | settings written as an object pass the guard exactly when they are valid, and are then read back unchanged |
| TypeGuards.ParseSettings | TypeScript/onebite-typescript/02_ts_basics/src/06_any_unknown_safety.ts:153-161 | the result is always valid settings: the parsed value when it passes the guard, the defaults when parsing fails or the guard refuses |
| TypeGuards.ParseSettingsSamples | TypeScript/onebite-typescript/02_ts_basics/src/06_any_unknown_safety.ts:163-169 | the dark/16 string gives those settings; the purple/'big' string and 'not-json' give the defaults |
| ErrorHandling.NormalizeError | JavaScript/js-beginner/1_basics/16_try_catch.js:204-219 | an Error keeps its name, message and stack; anything else becomes an UnknownError without a stack, whose message is the thrown string or else its JSON text |
| ErrorHandling.NormalizeErrorRoundTrip | JavaScript/js-beginner/1_basics/16_try_catch.js:204-211 | normalising an Error without extra fields and rebuilding an Error from the result gives back the same Error |
| ErrorHandling.NormalizeThrownString | JavaScript/js-beginner/1_basics/16_try_catch.js:204-219 | a thrown string ends up with the same message as an Error carrying that message, under the name UnknownError |
| ErrorHandling.Assert | JavaScript/js-beginner/1_basics/16_try_catch.js:300-302 | assert raises exactly when the condition is falsy, and what it raises is a ValidationError |
| ErrorHandling.Register | JavaScript/js-beginner/1_basics/16_try_catch.js:304-314 | register succeeds exactly for strings of at least five UTF-16 code units; a non-string raises the "must be a string" ValidationError with the password as meta, and a short string the "at least five characters" one |
| ErrorHandling.RegisterSample | JavaScript/js-beginner/1_basics/16_try_catch.js:316-318 | register('1234') raises the too-short ValidationError |
| ErrorHandling.Retry | JavaScript/js-beginner/1_basics/16_try_catch.js:409-431 | with retries >= 0 the task is called between 1 and retries+1 times; the result is the last call's; every earlier call failed and was allowed to retry; a failure is returned only on the last permitted attempt or when shouldRetry refuses it |
| ErrorHandling.RetryWith | JavaScript/js-beginner/1_basics/16_try_catch.js:409-431 | with the count left out the task is called one to three times (two retries); the result is the last call's, every earlier call failed with a retryable error, and a failure comes back only from the third call or when shouldRetry refuses it; with a given count the same four promises hold over that count: a negative count throws undefined without a call, otherwise at most count + 1 calls, the last call's result after retryable failures, and a failure only from the last allowed call or when shouldRetry refuses it |
| ErrorHandling.RetryDemo | JavaScript/js-beginner/1_basics/16_try_catch.js:434-443 | a task failing on attempts 0 and 1 succeeds on the third call with retries 3 |
| FunctionUtils.ValidateUser | js-beginner/1_basics/12_function.js:288-299 | the checks run in order: a falsy user gives '사용자 정보 없음', else a falsy name gives '이름 필수', else a falsy age gives '나이 필수', and success comes exactly when all three are truthy |
| FunctionUtils.ValidateUserSamples | js-beginner/1_basics/12_function.js:301-303 | null, a user without age and a full user give the three documented answers |
| FunctionUtils.CreateCounter | js-beginner/1_basics/12_function.js:655-657 | a new counter reads 0 |
| FunctionUtils.Increment | js-beginner/1_basics/12_function.js:660-663 | increment raises the count by one and returns the new count |
| FunctionUtils.Decrement | js-beginner/1_basics/12_function.js:664-667 | decrement lowers the count by one and returns the new count |
| FunctionUtils.IncrementDecrementInverse | js-beginner/1_basics/12_function.js:660-667 | increment then decrement, or the reverse, leaves the counter as it was |
| FunctionUtils.CountIsNetCalls | js-beginner/1_basics/12_function.js:655-672 | after any run of increment and decrement calls the count is the start plus the increments minus the decrements |
| FunctionUtils.CounterSample | js-beginner/1_basics/12_function.js:673-677 | increment, increment, decrement, getCount answer 1, 2, 1, 1 |
| FunctionUtils.Factorial | js-beginner/1_basics/12_function.js:723-726 | factorial is at least 1, and at least n when n >= 1 |
| FunctionUtils.FactorialDivisible | js-beginner/1_basics/12_function.js:723-726 | for 1 <= k <= n, factorial(n) is a multiple of k |
| FunctionUtils.FactorialSample | js-beginner/1_basics/12_function.js:728 | factorial(5) is 120 |
| FunctionUtils.FlattenAppend | js-beginner/1_basics/12_function.js:731-741 | flattening a concatenation concatenates the flattenings, so the leaves come out left to right |
| FunctionUtils.Flatten | js-beginner/1_basics/12_function.js:730-740 | an array without nested arrays flattens to as many values as it has elements |
| FunctionUtils.FlattenLeaves | js-beginner/1_basics/12_function.js:731-741 | an array without nested arrays flattens to itself |
| FunctionUtils.FlattenSingleArray | js-beginner/1_basics/12_function.js:731-741 | one wrapping array level disappears under flattening |
| FunctionUtils.FlattenSample | js-beginner/1_basics/12_function.js:743-744 | [1,[2,[3,[4,5]]]] flattens to [1,2,3,4,5] |
| FunctionUtils.FirstIndex | js-beginner/1_basics/12_function.js:766 | the first index holding a value: it holds the value and no earlier index does |
| FunctionUtils.Unique | js-beginner/1_basics/12_function.js:766 | the result has no repeats, holds exactly the values of the input, and lists them in the order of their first occurrence |
| FunctionUtils.UniqueSample | js-beginner/1_basics/12_function.js:784 | [1,2,2,3,3,4] gives [1,2,3,4] |
| FunctionUtils.UniqueSampleIsSorted | js-beginner/1_basics/12_function.js:784 | any repeat-free list with the values of [1,2,2,3,3,4] in first-occurrence order is [1,2,3,4] |
| FunctionUtils.DistinctSize | js-beginner/1_basics/12_function.js:766 | a list without repeats has as many elements as its set of values |
| FunctionUtils.ChunkRef | js-beginner/1_basics/12_function.js:769-775 | reference chunking: the chunks concatenate to the input, each holds 1 to size elements, and all but the last hold exactly size |
| FunctionUtils.ChunkRefStep | js-beginner/1_basics/12_function.js:769-775 | chunking from position i takes the slice up to i+size (clipped) and chunks the rest |
| FunctionUtils.Chunk | js-beginner/1_basics/12_function.js:769-775 | the loop's chunks concatenate to the input, are non-empty, at most size long, full except possibly the last, and equal the reference chunking |
| FunctionUtils.ChunkSample | js-beginner/1_basics/12_function.js:785 | [1..6] in chunks of 2 gives [[1,2],[3,4],[5,6]] |
| FunctionUtils.Reverse | js-beginner/1_basics/12_function.js:788-791 | reversal keeps the length and reads the input from the end |
| FunctionUtils.PipeAppend | js-beginner/1_basics/12_function.js:860-863 | piping a concatenation applies the first list of functions, then the second |
| FunctionUtils.Pipe | js-beginner/1_basics/12_function.js:860-863 | pipe of no functions is the identity, and of two applies the first and then the second |
| FunctionUtils.Compose | js-beginner/1_basics/12_function.js:787-791 | compose of no functions is the identity, and of two applies the second and then the first |
| FunctionUtils.ComposeIsReversedPipe | js-beginner/1_basics/12_function.js:788-791 | compose is pipe applied to the reversed list of functions |
| FunctionUtils.ComposePipeSamples | js-beginner/1_basics/12_function.js:793-798 | composedFunc(5) is 25 (multiply3 doubles) and transform(3) is 64 |
| FunctionUtils.MemoCall | js-beginner/1_basics/12_function.js:819-832 | a cached key answers the cached value without calling fn; an unseen key calls fn once and caches its result; either way the cache then maps the key to the answer |
| FunctionUtils.MemoCallSound | js-beginner/1_basics/12_function.js:819-832 | when distinct argument lists have distinct keys and the cache holds only real results, a memoized call answers fn(args) and the cache stays sound |
| FunctionUtils.MemoSecondCallCached | js-beginner/1_basics/12_function.js:819-832 | a second call with the same arguments is answered from the cache, without calling fn and without changing the cache |
| ArrayFunctions.ResolveIndex | JavaScript/js-beginner/1_basics/13_array_functions.js:788-791 | a slice bound is clipped to the array: a bound in range stays, one past the end becomes the length, a negative one counts from the end and stops at 0 |
| ArrayFunctions.Slice | JavaScript/js-beginner/1_basics/13_array_functions.js:790 | `slice` returns the elements from the resolved start up to the resolved end, in order, and none when the end falls before the start |
| ArrayFunctions.Paginate | JavaScript/js-beginner/1_basics/13_array_functions.js:788-791 | a page never holds more items than the array |
| ArrayFunctions.PaginateWindow | JavaScript/js-beginner/1_basics/13_array_functions.js:788-791 | from page 1 on, a page holds at most perPage items, item i of the page is item (page-1)·perPage+i of the array, a page fully inside the array is full, and a page starting past the end is empty |
| ArrayFunctions.SliceWindow | JavaScript/js-beginner/1_basics/13_array_functions.js:790 | a slice of n items from a non-negative start reads the array from that start, is full while the array lasts and empty past its end |
| ArrayFunctions.SliceAdjoin | JavaScript/js-beginner/1_basics/13_array_functions.js:790 | two adjacent slices of n items make up the slice of 2n items |
| ArrayFunctions.PagesAdjoin | JavaScript/js-beginner/1_basics/13_array_functions.js:788-791 | consecutive pages neither overlap nor leave a gap: pages p and p+1 together are the 2·perPage items from page p's start |
| ArrayFunctions.PaginateSample | JavaScript/js-beginner/1_basics/13_array_functions.js:793-795 | of 25 items, page 1 is items 1-10, page 2 items 11-20 and page 3 the last five |
| ArrayFunctions.FindIndex | JavaScript/js-beginner/1_basics/13_array_functions.js:394 | findIndex is the first index with the id, or -1 exactly when no item has it |
| ArrayFunctions.RenameById | JavaScript/js-beginner/1_basics/13_array_functions.js:394-397 | only the first item with the id is replaced, by one with that id and the new name; the length is kept and an absent id leaves the array unchanged |
| ArrayFunctions.RenameSample | JavaScript/js-beginner/1_basics/13_array_functions.js:389-397 | renaming id 2 in the script's items changes the second item only |
| ArrayFunctions.TotalPrice | JavaScript/js-beginner/1_basics/13_array_functions.js:437-440 | the reduce equals the sum of price·quantity over the lines |
| ArrayFunctions.CartSumAppend | JavaScript/js-beginner/1_basics/13_array_functions.js:437-440 | the total of two carts in a row is the sum of their totals |
| ArrayFunctions.TotalPriceSample | JavaScript/js-beginner/1_basics/13_array_functions.js:431-440 | the script's cart totals 85000 |
| ArrayFunctions.WithGrade | JavaScript/js-beginner/1_basics/13_array_functions.js:458-465 | a group holds exactly the students with that grade |
| ArrayFunctions.GradeOrder | JavaScript/js-beginner/1_basics/13_array_functions.js:458-465 | the group keys are exactly the grades that occur, each once |
| ArrayFunctions.GroupByGrade | JavaScript/js-beginner/1_basics/13_array_functions.js:458-465 | the keys are the grades in order of first appearance; each key's group is the students with that grade in input order, and is non-empty |
| ArrayFunctions.StudentInOneGroup | JavaScript/js-beginner/1_basics/13_array_functions.js:458-465 | each student is in the group of their own grade and in no other |
| ArrayFunctions.CountOccurrences | JavaScript/js-beginner/1_basics/13_array_functions.js:471-474 | the counter has exactly the fruits that occur as keys, each mapped to its number of occurrences |
| ArrayFunctions.CountSample | JavaScript/js-beginner/1_basics/13_array_functions.js:470-475 | the script's fruits count to apple 3, banana 2, orange 1 |
| ArrayFunctions.ComparePeople | JavaScript/js-beginner/1_basics/13_array_functions.js:769-772 | people are ordered by age first; equal ages fall back to comparing the names |
| ArrayFunctions.ComparePeopleAntisymmetric | JavaScript/js-beginner/1_basics/13_array_functions.js:769-772 | when the name comparison is antisymmetric, so is the comparator |
| ArrayFunctions.ComparePeopleTransitive | JavaScript/js-beginner/1_basics/13_array_functions.js:769-772 | when the name comparison is transitive, so is the comparator |
| ArrayFunctions.SortSample | JavaScript/js-beginner/1_basics/13_array_functions.js:762-773 | the script's three people sorted are 김철수, 박민수 (both 25) then 이영희 (30), a permutation of the input |
| ValueReference.EveryKeyEqual | JavaScript/js-beginner/1_basics/15_value_reference.js:92 | `every` over a key list holds exactly when each listed key reads strictly equal in both operands |
| ValueReference.ShallowEqualAsWritten | JavaScript/js-beginner/1_basics/15_value_reference.js:84-93 | as written: the same reference is equal, a falsy operand is not, differing key counts are not; otherwise the result is true exactly when every key of a reads strictly equal in a and b (a key b lacks reads undefined there) |
| ValueReference.ShallowEqualAsWrittenIsAsymmetric | JavaScript/js-beginner/1_basics/15_value_reference.js:84-93 | {x: undefined} against {y: 1} is shallow-equal one way round and not the other, while the corrected comparison refuses both |
| ValueReference.EveryKeySharedAndEqual | JavaScript/js-beginner/1_basics/15_value_reference.js:92 | the corrected check holds exactly when each listed key of a is also a key of b and reads strictly equal in both |
| ValueReference.ShallowEqual | JavaScript/js-beginner/1_basics/15_value_reference.js:84-93 | corrected comparison: the same reference is equal, a falsy operand is not, differing key counts are not |
| ValueReference.ShallowEqualOfRefs | JavaScript/js-beginner/1_basics/15_value_reference.js:84-93 | for two distinct references, the corrected comparison is true exactly when the key counts agree and every key of a is a key of b with a strictly equal value |
| ValueReference.ShallowEqualAgreesOnSharedKeys | JavaScript/js-beginner/1_basics/15_value_reference.js:84-93 | when every key of a is also a key of b, the written and the corrected comparisons agree |
| ValueReference.ShallowEqualSymmetric | JavaScript/js-beginner/1_basics/15_value_reference.js:84-93 | for objects whose key lists have no repeats, the corrected comparison gives the same answer both ways round |
| ValueReference.ShallowEqualObjects | JavaScript/js-beginner/1_basics/15_value_reference.js:84-95 | two different objects with the same keys and strictly equal values compare equal |
| ValueReference.StrictEqualsSymmetric | JavaScript/js-beginner/1_basics/15_value_reference.js:84 | `===` is symmetric |
| ValueReference.SpreadWith | JavaScript/js-beginner/1_basics/15_value_reference.js:111-115 | `{ ...o, overrides }` is a well-formed, extensible plain object |
| ValueReference.SpreadUnder | JavaScript/js-beginner/1_basics/15_value_reference.js:120-123 | `{ overrides, ...o }` is a well-formed, extensible plain object |
| ValueReference.SpreadWithValue | JavaScript/js-beginner/1_basics/15_value_reference.js:108-115 | after `{ ...o, overrides }` a key is present exactly when overridden or spread from o; an override wins, otherwise o's value shows |
| ValueReference.OverrideThenSpread | JavaScript/js-beginner/1_basics/15_value_reference.js:118-124 | in `{ k: v, ...o }` the key holds o's value whenever o spreads it, and v only otherwise |
| ValueReference.OverrideOrderSample | JavaScript/js-beginner/1_basics/15_value_reference.js:102-124 | nextYuJin's group is '코드팩토리' while wrongOrder's group is still '아이브' |
| ValueReference.ShallowCopy | JavaScript/js-beginner/1_basics/15_value_reference.js:105-109 | the spread copy is stored at a new address and every existing object is untouched |
| ValueReference.ShallowCopyShares | JavaScript/js-beginner/1_basics/15_value_reference.js:138-142 | the copy reads the original's values, so nested objects are shared; assigning a top-level key of the copy leaves the original unchanged |
| ValueReference.ShallowCopyNestedWrite | JavaScript/js-beginner/1_basics/15_value_reference.js:144-146 | writing a nested property through the copy is seen through the original too |
| ValueReference.Put3 | JavaScript/js-beginner/1_basics/15_value_reference.js:178-187 | the three new objects are stored at their addresses and nothing else in the heap changes |
| ValueReference.PathUpdate | JavaScript/js-beginner/1_basics/15_value_reference.js:178-187 | the update fails exactly when state.user is null or undefined; otherwise it only adds three new objects and leaves every existing object untouched, including the old state |
| ValueReference.SpreadOfThenSet | JavaScript/js-beginner/1_basics/15_value_reference.js:178-187 | `{ ...v, name: x }` reads x under name and v's value under every other key v spreads |
| ValueReference.PathUpdateChangesOnlyCity | JavaScript/js-beginner/1_basics/15_value_reference.js:169-194 | the new state reaches the new city through new user and profile objects; every other profile key reads as before, and the profile object is not the old one |
| ValueReference.AddTodo | JavaScript/js-beginner/1_basics/15_value_reference.js:207 | the new list is the old one with the todo appended |
| ValueReference.MarkDone | JavaScript/js-beginner/1_basics/15_value_reference.js:210 | ids and texts are kept in place; exactly the entries with the id become done and the others keep their flag |
| ValueReference.RemoveTodo | JavaScript/js-beginner/1_basics/15_value_reference.js:213 | the result holds exactly the entries whose id differs, and is no longer than the input |
| ValueReference.MarkDoneIdempotent | JavaScript/js-beginner/1_basics/15_value_reference.js:210 | marking the same id done twice equals marking it once |
| ValueReference.RemoveTodoAppend | JavaScript/js-beginner/1_basics/15_value_reference.js:213 | filtering a concatenation filters each part, so order is kept |
| ValueReference.RemoveAfterMarkDone | JavaScript/js-beginner/1_basics/15_value_reference.js:210-213 | marking done and removing by id commute |
| ValueReference.TodoPipelineSample | JavaScript/js-beginner/1_basics/15_value_reference.js:201-218 | add 3, mark 2 done, remove 1 gives [2 done, 3 open]; the original list is an unchanged value |
| LoopControl.OddValues | React/01-onebite-react/javascript-basic/07_loop_control/app.js:47-54 | the continue loop processes the odd numbers from 1 to n in increasing order, (n+1)/2 of them |
| LoopControl.OddValuesSample | React/01-onebite-react/javascript-basic/07_loop_control/app.js:47-57 | over 1..10 exactly 1, 3, 5, 7, 9 are processed |
| LoopControl.OutsideFacts | React/01-onebite-react/javascript-basic/07_loop_control/app.js:71-77 | the excluded-set loop keeps exactly the numbers of 1..n not in the set, in increasing order |
| LoopControl.Outside | React/01-onebite-react/javascript-basic/07_loop_control/app.js:71-77 | the kept numbers are at most n, each between 1 and n and outside the excluded set |
| LoopControl.KeptValues | React/01-onebite-react/javascript-basic/07_loop_control/app.js:71-77 | the loop's result is the reference list: exactly 1..n minus the excluded set, in increasing order |
| LoopControl.KeptValuesSample | React/01-onebite-react/javascript-basic/07_loop_control/app.js:60-77 | excluding {2, 4, 6} from 1..6 keeps 1, 3, 5 |
| LoopControl.OutsideSample | React/01-onebite-react/javascript-basic/07_loop_control/app.js:71-77 | the reference list for 1..6 without {2, 4, 6} is [1, 3, 5] |
| LoopControl.FoundIndex | React/01-onebite-react/javascript-basic/07_loop_control/app.js:86-99 | the index is -1 exactly when the target is absent; otherwise it holds the target and no earlier index does |
| LoopControl.FoundIndexSample | React/01-onebite-react/javascript-basic/07_loop_control/app.js:86-103 | target 9 in [3,7,2,9,5,9,1] is found at 3, not at 5 |
| LoopControl.FirstInvalid | React/01-onebite-react/javascript-basic/07_loop_control/app.js:128-141 | the answer is null exactly when every e-mail passes; otherwise it is the first e-mail that fails |
| LoopControl.FirstInvalidSample | React/01-onebite-react/javascript-basic/07_loop_control/app.js:128-145 | for the script's list the first invalid e-mail is 'bad-email' |
| LoopControl.ActiveNames | React/01-onebite-react/javascript-basic/07_loop_control/app.js:151-170 | the loop's result is the reference list, and holds exactly the names of active users whose trimmed name is non-empty |
| LoopControl.KeptNamesMembers | React/01-onebite-react/javascript-basic/07_loop_control/app.js:158-170 | the reference list holds exactly the names of users that are active and not blank |
| LoopControl.KeptNames | React/01-onebite-react/javascript-basic/07_loop_control/app.js:158-170 | the reference list never holds more names than there are users |
| LoopControl.ActiveNamesSample | React/01-onebite-react/javascript-basic/07_loop_control/app.js:151-172 | the script's users give ['Jaejun', 'Soo'] |
| LoopControl.PickedAsWritten | React/01-onebite-react/javascript-basic/07_loop_control/app.js:179-188 | as written: the first min(limit, length) posts, but at least one post from a non-empty feed, since the check comes after the push |
| LoopControl.PickedAsWrittenOverTakes | React/01-onebite-react/javascript-basic/07_loop_control/app.js:182-188 | with limit 0 the loop as written still picks 'post1' |
| LoopControl.Picked | React/01-onebite-react/javascript-basic/07_loop_control/app.js:179-188 | corrected: exactly the first min(limit, length) posts, none for a limit of 0 or less |
| LoopControl.PickedSample | React/01-onebite-react/javascript-basic/07_loop_control/app.js:179-190 | with limit 3 both versions pick post1 to post3 |
| ClassKeyword.Deposit | JavaScript/js-beginner/2_class_and_oop/1_class_keyword.js:154-161 | deposit throws exactly on a wrong password or an amount <= 0, with the matching message; otherwise the balance grows by exactly the amount, which is returned |
| ClassKeyword.Withdraw | JavaScript/js-beginner/2_class_and_oop/1_class_keyword.js:163-171 | withdraw throws exactly on a wrong password, an amount <= 0 or an amount above the balance, with the message of the first failing check; otherwise the balance shrinks by the amount and stays >= 0 |
| ClassKeyword.GetBalance | JavaScript/js-beginner/2_class_and_oop/1_class_keyword.js:173-177 | the balance is returned exactly for the right password |
| ClassKeyword.DepositWithdrawInverse | JavaScript/js-beginner/2_class_and_oop/1_class_keyword.js:154-171 | depositing and then withdrawing the same positive amount, or the reverse when the balance allows, restores the account |
| ClassKeyword.BalanceStaysNonNegative | JavaScript/js-beginner/2_class_and_oop/1_class_keyword.js:154-171 | from a non-negative balance, every accepted deposit or withdrawal leaves it non-negative |
| ClassKeyword.AccountSample | JavaScript/js-beginner/2_class_and_oop/1_class_keyword.js:180-188 | 10000 +5000 gives 15000, -3000 gives 12000, and reading with '0000' throws |
| ClassKeyword.SetName | JavaScript/js-beginner/2_class_and_oop/1_class_keyword.js:218-223 | the name setter accepts exactly strings whose trimmed length in UTF-16 code units is at least 2 and stores the trimmed text; otherwise it throws the name message |
| ClassKeyword.SetPrice | JavaScript/js-beginner/2_class_and_oop/1_class_keyword.js:229-237 | the price setter accepts exactly numbers that are not NaN and not negative; a non-number or NaN throws the "must be a number" message, a negative number the "0 or more" message |
| ClassKeyword.NewProduct | JavaScript/js-beginner/2_class_and_oop/1_class_keyword.js:209-212 | the constructor succeeds exactly when both setters accept, giving the trimmed name and the price; a bad name is reported first |
| ClassKeyword.SetNameIdempotent | JavaScript/js-beginner/2_class_and_oop/1_class_keyword.js:218-223 | setting the stored (already trimmed) name again changes nothing |
| ClassKeyword.NewProductOfTrimmed | JavaScript/js-beginner/2_class_and_oop/1_class_keyword.js:209-237 | a name without surrounding blanks of length >= 2 and a price >= 0 are stored as given |
| ClassKeyword.ProductRejects | JavaScript/js-beginner/2_class_and_oop/1_class_keyword.js:251-252 | '컴' is rejected as a name and -1 as a price, with the "0 or more" message |
| ClassKeyword.ShortNameRejected | JavaScript/js-beginner/2_class_and_oop/1_class_keyword.js:218-223 | any string shorter than two UTF-16 code units is rejected as a name |
| ClassKeyword.SurrogatePairNameAccepted | JavaScript/js-beginner/2_class_and_oop/1_class_keyword.js:218-223 | a single emoji outside the Basic Multilingual Plane has length 2 in UTF-16 code units and is accepted as a name, while the one-unit '컴' is refused |
| ClassKeyword.ProductSample | JavaScript/js-beginner/2_class_and_oop/1_class_keyword.js:245-248 | the laptop is made with price 1500000 and then repriced to 1600000 |
| ClassKeyword.Reset | JavaScript/js-beginner/2_class_and_oop/1_class_keyword.js:466-469 | reset leaves the value 0 |
| ClassKeyword.NewCalculator | JavaScript/js-beginner/2_class_and_oop/1_class_keyword.js:440-442 | a new calculator holds the given initial value, or 0 when the argument is left out |
| ClassKeyword.DefaultCalculatorIsReset | JavaScript/js-beginner/2_class_and_oop/1_class_keyword.js:440-469 | a calculator made without an argument equals any reset calculator, and adding a value to it gives a calculator holding that value |
| ClassKeyword.Divide | JavaScript/js-beginner/2_class_and_oop/1_class_keyword.js:460-464 | divide throws exactly for 0; otherwise the new value times the divisor is the old value |
| ClassKeyword.Add | JavaScript/js-beginner/2_class_and_oop/1_class_keyword.js:445-448 | the new value minus the added number is the old value |
| ClassKeyword.Subtract | JavaScript/js-beginner/2_class_and_oop/1_class_keyword.js:450-453 | the new value plus the subtracted number is the old value |
| ClassKeyword.Multiply | JavaScript/js-beginner/2_class_and_oop/1_class_keyword.js:455-458 | dividing the new value by a non-zero factor gives the old value, and a factor of 0 leaves 0 |
| ClassKeyword.CalculatorInverses | JavaScript/js-beginner/2_class_and_oop/1_class_keyword.js:445-464 | subtract undoes add, and divide undoes multiply by the same non-zero number |
| ClassKeyword.CalculatorSample | JavaScript/js-beginner/2_class_and_oop/1_class_keyword.js:477-486 | 10 +5 ×2 -10 ÷2 gives 10, and reset +100 ×2 ÷4 gives 50 |
| ClassKeyword.NewDatabase | JavaScript/js-beginner/2_class_and_oop/1_class_keyword.js:506-510 | `new Database()` hands back the stored instance once there is one; the first call stores the fresh object, which starts disconnected; no object's flag changes |
| ClassKeyword.GetInstance | JavaScript/js-beginner/2_class_and_oop/1_class_keyword.js:512-515 | getInstance always answers the stored instance, creating it only on the first call, and changes no flag |
| ClassKeyword.Connect | JavaScript/js-beginner/2_class_and_oop/1_class_keyword.js:517-521 | a connected instance answers 'already connected' and nothing changes; otherwise only that instance becomes connected |
| ClassKeyword.SingletonFacts | JavaScript/js-beginner/2_class_and_oop/1_class_keyword.js:502-526 | a second getInstance or a `new` gives the same object, and a second connect changes nothing |
| ClassKeyword.DatabaseSample | JavaScript/js-beginner/2_class_and_oop/1_class_keyword.js:528-533 | db1 and db2 are the same object, so connecting db1 shows through db2 |
| ClassKeyword.Checkout | JavaScript/js-beginner/2_class_and_oop/1_class_keyword.js:634-655 | an empty cart answers success false with the empty-cart message; otherwise checkout succeeds exactly when every line's quantity is positive and in stock, and then the cart is emptied and the receipt holds the decremented lines with the pre-checkout totals; on failure the error is the message of the first line whose decrease throws, the lines before it keep their lowered stock and the rest are untouched |
| ClassKeyword.ShopSample | JavaScript/js-beginner/2_class_and_oop/1_class_keyword.js:658-679 | laptop 2, mouse 1, laptop 1 make 4 items for 4530000 in two lines; checkout leaves 7 laptops and 49 mice |
| ClassKeywordBasics.Deposit | js-beginner/2_class_and_oop/1_class_keyword.js:119-125 | a wrong password is reported and changes nothing; otherwise the amount is added whatever its sign, and the message quotes amount and new balance |
| ClassKeywordBasics.Withdraw | js-beginner/2_class_and_oop/1_class_keyword.js:127-136 | a wrong password or an amount above the balance is reported and changes nothing; otherwise the amount is taken off and the balance stays >= 0 |
| ClassKeywordBasics.GetBalance | js-beginner/2_class_and_oop/1_class_keyword.js:139-144 | the wrong-password message comes exactly for a wrong password; otherwise the '현재 잔액: …원' message around the balance |
| ClassKeywordBasics.GetBalanceShowsBalance | js-beginner/2_class_and_oop/1_class_keyword.js:139-144 | for the right password the message carries the balance's decimal digits between the fixed prefix and '원' |
| ClassKeywordBasics.GetBalanceReadsBack | js-beginner/2_class_and_oop/1_class_keyword.js:139-144 | two accounts whose balance messages are equal have equal balances, so the message reads back as the balance |
| ClassKeywordBasics.DepositWithdrawInverse | js-beginner/2_class_and_oop/1_class_keyword.js:119-136 | a withdrawal undoes a deposit of the same amount, and a negative withdrawal acts as a deposit |
| ClassKeywordBasics.AccountSample | js-beginner/2_class_and_oop/1_class_keyword.js:147-156 | 10000 +5000 -3000 leaves 12000, and a withdrawal with 'wrong' changes nothing |
| ClassKeywordBasics.SetPrice | js-beginner/2_class_and_oop/1_class_keyword.js:184-190 | a negative price is ignored and the old one kept; any other is stored |
| ClassKeywordBasics.SetName | js-beginner/2_class_and_oop/1_class_keyword.js:192-198 | a name shorter than two UTF-16 code units is ignored and the old one kept; any other is stored |
| ClassKeywordBasics.SettersTouchOneField | js-beginner/2_class_and_oop/1_class_keyword.js:184-198 | each setter leaves the other field alone, and setting the current value again changes nothing |
| ClassKeywordBasics.ProductSample | js-beginner/2_class_and_oop/1_class_keyword.js:201-212 | the laptop ends with price 1600000 and name '노트북': -1000 and '컴' are both ignored |
| ClassKeywordBasics.Divide | js-beginner/2_class_and_oop/1_class_keyword.js:443-450 | dividing by 0 leaves the value; otherwise the new value times the divisor is the old value |
| ClassKeywordBasics.DivideAgrees | js-beginner/2_class_and_oop/1_class_keyword.js:443-450 | the logging divide agrees with the throwing one where that succeeds, and keeps the value where that throws |
| ClassKeywordBasics.CalculatorSample | js-beginner/2_class_and_oop/1_class_keyword.js:463-474 | the chains give 10 and 50, and dividing by 0 keeps the value |
| ClassKeywordBasics.Disconnect | js-beginner/2_class_and_oop/1_class_keyword.js:516-519 | disconnect clears that instance's flag and changes nothing else |
| ClassKeywordBasics.ConnectionFollowsLastCall | js-beginner/2_class_and_oop/1_class_keyword.js:508-523 | after connect the instance is connected, after disconnect it is not, and a connect after a disconnect succeeds again |
| ClassKeywordBasics.DatabaseSample | js-beginner/2_class_and_oop/1_class_keyword.js:527-535 | db1 connects, db2 is told it is already connected, and both report connected |
| ClassKeywordBasics.Checkout | js-beginner/2_class_and_oop/1_class_keyword.js:656-679 | an empty cart answers a bare message string; otherwise checkout succeeds exactly when every line's quantity is within its stock, and then empties the cart and returns the decremented lines with the pre-checkout totals; on failure the error is the message of the first line whose decrease throws, the lines before it keep their lowered stock and the rest are untouched |
| ClassKeywordBasics.ShopSample | js-beginner/2_class_and_oop/1_class_keyword.js:683-709 | checkout of the sample cart leaves 7 laptops and 49 mice, with 4 items in two lines |
| Shop.DecreaseStock | JavaScript/js-beginner/2_class_and_oop/1_class_keyword.js:567-571 | decreaseStock succeeds exactly when the quantity is within the stock (and, in this script, positive); it then lowers only the stock, which stays >= 0; the failure message names the first failing check |
| Shop.DecreaseStockUndo | JavaScript/js-beginner/2_class_and_oop/1_class_keyword.js:567-571 | taking off a positive quantity lowers the stock, and restoring the stock gives the product back |
| Shop.FindLine | JavaScript/js-beginner/2_class_and_oop/1_class_keyword.js:609-611 | the first line for the id, or -1 exactly when there is none |
| Shop.AddItem | JavaScript/js-beginner/2_class_and_oop/1_class_keyword.js:608-620 | an existing line for the id gets the quantity added, otherwise a new line is appended; line ids stay unique and the product then has a line |
| Shop.AddItemDefault | JavaScript/js-beginner/2_class_and_oop/1_class_keyword.js:608-620 | addItem without a quantity raises the item count by exactly one and the total by the price of the line the product lands on; a new product gets a line of quantity one, and line ids stay unique |
| Shop.AddItemTotals | JavaScript/js-beginner/2_class_and_oop/1_class_keyword.js:608-632 | adding raises the item count by exactly the quantity and the total by the quantity times the price of the line it lands on |
| Shop.TotalsUpdate | JavaScript/js-beginner/2_class_and_oop/1_class_keyword.js:626-632 | changing one line's quantity changes the count by the difference and the total by price times the difference |
| Shop.ItemCount | JavaScript/js-beginner/2_class_and_oop/1_class_keyword.js:630-632 | the sum of the quantities, never negative when no line has a negative quantity or price |
| Shop.TotalPrice | JavaScript/js-beginner/2_class_and_oop/1_class_keyword.js:626-628 | the sum of price times quantity over the lines, never negative when no line has a negative quantity or price |
| Shop.TotalsAppend | JavaScript/js-beginner/2_class_and_oop/1_class_keyword.js:626-632 | appending a line adds its quantity and its price times quantity |
| Shop.AddToExisting | JavaScript/js-beginner/2_class_and_oop/1_class_keyword.js:612-616 | adding to the line at i raises the count by the quantity and the total by that line's price times it |
| Shop.AddTwiceOnce | JavaScript/js-beginner/2_class_and_oop/1_class_keyword.js:663-665 | adding p, then q, then p again gives one line per product with p's quantities summed |
| Shop.TwoLineTotals | JavaScript/js-beginner/2_class_and_oop/1_class_keyword.js:663-668 | the totals of a two-line cart |
| Shop.RemoveItem | js-beginner/2_class_and_oop/1_class_keyword.js:631-642 | an unknown id answers the not-found message and changes nothing; otherwise exactly that line is removed, the others keep their order, and ids stay unique |
| Shop.RemoveUndoesAdd | js-beginner/2_class_and_oop/1_class_keyword.js:615-642 | removing a product just added as a new line gives the cart back |
| Shop.FindAppended | js-beginner/2_class_and_oop/1_class_keyword.js:615-629 | a line for a new id, once appended, is found at the end |
| Shop.TotalsIgnoreStock | JavaScript/js-beginner/2_class_and_oop/1_class_keyword.js:626-632 | carts whose lines differ only in stock have the same totals, so the receipt's totals are the pre-checkout ones |
| Shop.DecreaseAll | JavaScript/js-beginner/2_class_and_oop/1_class_keyword.js:639-640 | the stocks are taken line by line; if one fails, the lines before it keep their decreased stock (no rollback) and the rest are untouched; otherwise every line is decremented |
| Shop.Decremented | JavaScript/js-beginner/2_class_and_oop/1_class_keyword.js:639-641 | one line per input line, each with its stock lowered by its own quantity and everything else as it was |
| Shop.CheckoutLines | JavaScript/js-beginner/2_class_and_oop/1_class_keyword.js:638-654 | a non-empty checkout pays exactly when every decrease succeeds, returning the decremented lines and unchanged totals and emptying the cart; on failure the cart keeps its lines, decremented up to the failing one, and the message is that failure's |
| GetterSetter.Pad3 | js-beginner/2_class_and_oop/2_getter_and_setter.js:124-126 | a group after the first is exactly three digits |
| GetterSetter.Ungroup | js-beginner/2_class_and_oop/2_getter_and_setter.js:124-126 | removing the separators leaves no comma |
| GetterSetter.UngroupAppend | js-beginner/2_class_and_oop/2_getter_and_setter.js:124-126 | removing commas distributes over concatenation |
| GetterSetter.UngroupDigits | js-beginner/2_class_and_oop/2_getter_and_setter.js:124-126 | a digit string has no commas to remove |
| GetterSetter.NatToStringSplit3 | js-beginner/2_class_and_oop/2_getter_and_setter.js:124-126 | the decimal text of n >= 1000 is that of n/1000 followed by the last three digits, zero-padded |
| GetterSetter.GroupedDigits | js-beginner/2_class_and_oop/2_getter_and_setter.js:124-126 | the grouped text with its commas removed is the plain decimal text, so grouping only inserts separators |
| GetterSetter.GroupedStep | js-beginner/2_class_and_oop/2_getter_and_setter.js:124-126 | one more group keeps the grouped text equal to the decimal text once commas are removed |
| GetterSetter.UngroupGroup | js-beginner/2_class_and_oop/2_getter_and_setter.js:124-126 | removing commas from "g,ddd" gives g's digits followed by ddd |
| GetterSetter.GroupedInjective | js-beginner/2_class_and_oop/2_getter_and_setter.js:124-126 | two amounts with the same grouped text are equal |
| GetterSetter.Grouped | js-beginner/2_class_and_oop/2_getter_and_setter.js:125 | the grouped form of a non-negative integer is non-empty and starts with a digit |
| GetterSetter.LocaleInt | js-beginner/2_class_and_oop/2_getter_and_setter.js:125 | the grouped form of an integer is non-empty and starts with a minus sign exactly for a negative number |
| GetterSetter.LocaleIntInjective | js-beginner/2_class_and_oop/2_getter_and_setter.js:125 | two integers with the same grouped form are equal |
| GetterSetter.WonLabelInjective | js-beginner/2_class_and_oop/2_getter_and_setter.js:125 | two integers with the same ₩-prefixed label are equal |
| GetterSetter.BalanceLabel | js-beginner/2_class_and_oop/2_getter_and_setter.js:124-126 | the balance getter's text starts with ₩, and a minus follows exactly for a negative balance |
| GetterSetter.BalanceLabelReadsBack | js-beginner/2_class_and_oop/2_getter_and_setter.js:124-126 | two accounts with the same balance text have the same balance |
| GetterSetter.SetBalance | js-beginner/2_class_and_oop/2_getter_and_setter.js:134-145 | the setter refuses a negative amount or one above 10,000,000, logging why and keeping the balance; otherwise it sets the balance to exactly the amount; the owner never changes |
| GetterSetter.Deposit | js-beginner/2_class_and_oop/2_getter_and_setter.js:148-154 | an amount <= 0 is refused with no change; otherwise the balance grows by the amount and the message quotes the new formatted balance |
| GetterSetter.Withdraw | js-beginner/2_class_and_oop/2_getter_and_setter.js:156-165 | an amount <= 0 or above the balance is refused with no change; otherwise the balance shrinks by the amount, stays >= 0, and the message quotes it |
| GetterSetter.AccountInvariants | js-beginner/2_class_and_oop/2_getter_and_setter.js:134-165 | the setter keeps the balance within [0, 10,000,000]; deposit and withdraw keep it >= 0; a withdrawal undoes a deposit of the same amount |
| GetterSetter.GroupedThousands | js-beginner/2_class_and_oop/2_getter_and_setter.js:124-126 | a two-digit number of thousands prints as two digits, a comma and 000 |
| GetterSetter.LabelSamples | js-beginner/2_class_and_oop/2_getter_and_setter.js:170-175 | 10000, 20000, 50000 and 96000 print as 10,000, 20,000, 50,000 and 96,000 |
| GetterSetter.AccountSample | js-beginner/2_class_and_oop/2_getter_and_setter.js:168-179 | the account shows ₩10,000, refuses -5000, takes 20000 (₩20,000), and +5000 -3000 leave 22000 |
| GetterSetter.SetWidth | js-beginner/2_class_and_oop/2_getter_and_setter.js:219-225 | a width <= 0 is refused and the rectangle kept; otherwise the width is set; the height never changes |
| GetterSetter.SetHeight | js-beginner/2_class_and_oop/2_getter_and_setter.js:227-233 | a height <= 0 is refused and the rectangle kept; otherwise the height is set; the width never changes |
| GetterSetter.Area | js-beginner/2_class_and_oop/2_getter_and_setter.js:206-208 | the area of a rectangle with positive sides is positive, and 0 when a side is 0 |
| GetterSetter.Perimeter | js-beginner/2_class_and_oop/2_getter_and_setter.js:210-212 | the perimeter of a rectangle with positive sides exceeds twice either side |
| GetterSetter.ComputedFollowSetters | js-beginner/2_class_and_oop/2_getter_and_setter.js:206-233 | area and perimeter are those of the current sides after every setter call, and a rectangle with positive sides keeps positive sides, area and perimeter |
| GetterSetter.RectangleSample | js-beginner/2_class_and_oop/2_getter_and_setter.js:236-246 | 10 by 20 has area 200 and perimeter 60, and area 300 once the width is 15 |
| GetterSetter.SumBelow | js-beginner/2_class_and_oop/2_getter_and_setter.js:272-276 | the loop sums 0..n-1, which is n(n-1)/2 |
| GetterSetter.Result | js-beginner/2_class_and_oop/2_getter_and_setter.js:263-280 | a filled cache is returned as is with the cache message; an empty one is computed (499999500000), stored, and logged as computing |
| GetterSetter.ResetCache | js-beginner/2_class_and_oop/2_getter_and_setter.js:282-284 | after resetCache the cache is empty |
| GetterSetter.ExpensiveSample | js-beginner/2_class_and_oop/2_getter_and_setter.js:287-291 | three reads compute once and then hit the cache; after a reset the next read computes again, always giving 499999500000 |
| GetterSetter.WithName | js-beginner/2_class_and_oop/2_getter_and_setter.js:352-354 | withName gives an idol with the new name and the same age |
| GetterSetter.WithAge | js-beginner/2_class_and_oop/2_getter_and_setter.js:356-358 | withAge gives an idol with the new age and the same name |
| GetterSetter.WithLaws | js-beginner/2_class_and_oop/2_getter_and_setter.js:352-358 | the later of two withName (or withAge) calls wins, the two commute, and re-setting the current value changes nothing |
| GetterSetter.IdolSample | js-beginner/2_class_and_oop/2_getter_and_setter.js:365-370 | withName('장원영') gives 장원영, 21, a different value from the original, which is unchanged |
| GetterSetter.MaskedEmail | js-beginner/2_class_and_oop/2_getter_and_setter.js:396-400 | the mask starts with at most three characters of the part before '@', followed by '***@' |
| GetterSetter.MaskedEmailOfAddress | js-beginner/2_class_and_oop/2_getter_and_setter.js:396-400 | for local@domain the mask is the first three characters of local, '***@' and the whole domain |
| GetterSetter.MaskedEmailWithoutAt | js-beginner/2_class_and_oop/2_getter_and_setter.js:396-400 | without an '@' the domain part reads 'undefined' |
| GetterSetter.PasswordStrength | js-beginner/2_class_and_oop/2_getter_and_setter.js:403-408 | 약함 exactly under 6 UTF-16 code units, 보통 exactly from 6 to 9, 강함 exactly from 10 |
| GetterSetter.StrengthRank | js-beginner/2_class_and_oop/2_getter_and_setter.js:403-408 | the rank is 0, 1 or 2, and 0 exactly for fewer than 6 UTF-16 code units |
| GetterSetter.StrengthMonotone | js-beginner/2_class_and_oop/2_getter_and_setter.js:403-408 | a password with more UTF-16 code units is never rated weaker |
| GetterSetter.ChangePassword | js-beginner/2_class_and_oop/2_getter_and_setter.js:418-427 | the password changes exactly when the old one matches and the new one has at least 6 UTF-16 code units; otherwise the user is unchanged and the message names the first failing check |
| GetterSetter.ChangePasswordFacts | js-beginner/2_class_and_oop/2_getter_and_setter.js:418-427 | after a change the strength is not 약함, the e-mail is the same, and changing back restores the user |
| GetterSetter.MaskSample | js-beginner/2_class_and_oop/2_getter_and_setter.js:439-442 | yujin@ive.com masks to yuj***@ive.com |
| GetterSetter.UserSample | js-beginner/2_class_and_oop/2_getter_and_setter.js:439-447 | password123 rates 강함, a wrong old password is refused, and the right one lets newpass123 in |
| GetterSetter.UpdatePrice | js-beginner/2_class_and_oop/2_getter_and_setter.js:482-487 | a negative price throws the price message and nothing changes; otherwise only the price is replaced |
| GetterSetter.UpdateQuantity | js-beginner/2_class_and_oop/2_getter_and_setter.js:489-494 | a negative quantity throws the quantity message; otherwise only the quantity is replaced |
| GetterSetter.IncreaseQuantity | js-beginner/2_class_and_oop/2_getter_and_setter.js:496-498 | the quantity grows by exactly the amount, the price is kept |
| GetterSetter.DecreaseQuantity | js-beginner/2_class_and_oop/2_getter_and_setter.js:500-505 | it throws the stock message exactly when the amount exceeds the quantity; otherwise the quantity shrinks by the amount |
| GetterSetter.IncreaseQuantityDefault | js-beginner/2_class_and_oop/2_getter_and_setter.js:496-498 | without an argument the quantity grows by exactly one and the price is kept |
| GetterSetter.DecreaseQuantityDefault | js-beginner/2_class_and_oop/2_getter_and_setter.js:500-505 | without an argument it throws exactly when the quantity is below one, and otherwise takes exactly one off, the price kept |
| GetterSetter.DefaultQuantityInverse | js-beginner/2_class_and_oop/2_getter_and_setter.js:496-505 | the argument-less increase and decrease undo each other, from a non-negative quantity or whenever the decrease is accepted |
| GetterSetter.Total | js-beginner/2_class_and_oop/2_getter_and_setter.js:468-470 | the total of a non-negative price and quantity is non-negative, and 0 when either is 0 |
| GetterSetter.FormattedTotal | js-beginner/2_class_and_oop/2_getter_and_setter.js:472-474 | the formatted total starts with ₩, and a minus follows exactly for a negative total |
| GetterSetter.FormattedTotalReadsBack | js-beginner/2_class_and_oop/2_getter_and_setter.js:472-474 | two products with the same formatted total have the same total |
| GetterSetter.ProductLaws | js-beginner/2_class_and_oop/2_getter_and_setter.js:468-505 | the total follows every update, decreasing undoes increasing, and non-negative price and quantity keep the total non-negative |
| GetterSetter.ProductSample | js-beginner/2_class_and_oop/2_getter_and_setter.js:508-516 | the product shows ₩50,000, and after price 12000 and three more ₩96,000 |
| StaticFactories.AssertValid | JavaScript/js-beginner/2_class_and_oop/3_static_keyword.js:93-100 | it passes exactly when the name is a string of at least two UTF-16 code units once trimmed and the age is a finite number not below zero; otherwise it names the TypeError of the first failing check, the name before the age |
| StaticFactories.Construct | JavaScript/js-beginner/2_class_and_oop/3_static_keyword.js:87-90 | a user built after the check passes always holds a trimmed name of two or more characters and a finite, non-negative age |
| StaticFactories.Checked | JavaScript/js-beginner/2_class_and_oop/3_static_keyword.js:103-110 | construction succeeds exactly when the check passes, the error is the check's own, and the stored name is the trimmed input with the age unchanged |
| StaticFactories.FromObject | JavaScript/js-beginner/2_class_and_oop/3_static_keyword.js:103-110 | reading name and age through optional chaining, the factory succeeds exactly when those values pass the check; a null or undefined object fails on the name instead of throwing on the read |
| StaticFactories.FromList | JavaScript/js-beginner/2_class_and_oop/3_static_keyword.js:113-119 | index 0 supplies the name and index 1 the age, under the same check, and the stored name is the trimmed string |
| StaticFactories.FromJson | JavaScript/js-beginner/2_class_and_oop/3_static_keyword.js:122-132 | success exactly when the text parses and the parsed object passes fromObject, with that user as result; every other outcome is the one JSON TypeError |
| StaticFactories.FromObjectOfLiteral | JavaScript/js-beginner/2_class_and_oop/3_static_keyword.js:103-110 | for a { name, age } literal, fromObject gives exactly the outcome of checking those two values |
| StaticFactories.FromListOfLiteral | JavaScript/js-beginner/2_class_and_oop/3_static_keyword.js:113-119 | for a two-element array, fromList gives exactly the outcome of checking its two elements |
| StaticFactories.FromObjectRoundTrip | JavaScript/js-beginner/2_class_and_oop/3_static_keyword.js:103-110 | a valid user written back as an object literal is rebuilt unchanged by fromObject |
| StaticFactories.FromListRoundTrip | JavaScript/js-beginner/2_class_and_oop/3_static_keyword.js:113-119 | a valid user written back as a two-element array is rebuilt unchanged by fromList |
| StaticFactories.TrimSpaced | JavaScript/js-beginner/2_class_and_oop/3_static_keyword.js:109 | trim removes exactly one surrounding space on each side of a name whose ends are not whitespace |
| StaticFactories.CheckedSpaced | JavaScript/js-beginner/2_class_and_oop/3_static_keyword.js:103-110 | a space-padded name of two or more characters with a non-negative integer age is accepted and stored without the padding |
| StaticFactories.SpacedNameSample | JavaScript/js-beginner/2_class_and_oop/3_static_keyword.js:140 | the object with name ' 장원영 ' and age 20 gives the user 장원영, 20 |
| StaticFactories.ListSample | JavaScript/js-beginner/2_class_and_oop/3_static_keyword.js:141 | the list ['안유진', 21] gives the user 안유진, 21 |
| StaticFactories.JsonSample | JavaScript/js-beginner/2_class_and_oop/3_static_keyword.js:142 | the JSON text for 가을 at 22 gives that user, and '{broken json}' gives the JSON TypeError |
| StaticFactories.ShortNameSample | JavaScript/js-beginner/2_class_and_oop/3_static_keyword.js:149 | name 'A' with age -1 fails, and on the name because it is checked first |
| StaticFactories.PriceOf | JavaScript/js-beginner/2_class_and_oop/3_static_keyword.js:169-174 | a price is created exactly for a finite, non-negative number and keeps it; anything else throws the price TypeError |
| StaticFactories.AddFinite | JavaScript/js-beginner/2_class_and_oop/3_static_keyword.js:187-189 | the sum of two finite numbers is finite and equals their exact real sum |
| StaticFactories.PriceAdd | JavaScript/js-beginner/2_class_and_oop/3_static_keyword.js:187-189 | the sum is returned exactly when both operands are valid prices, and it is their exact sum; otherwise the price TypeError |
| StaticFactories.PriceAddLaws | JavaScript/js-beginner/2_class_and_oop/3_static_keyword.js:187-189 | adding prices is commutative, and a successful sum is itself a valid price |
| StaticFactories.PriceSample | JavaScript/js-beginner/2_class_and_oop/3_static_keyword.js:192-194 | Price.of(19900) holds 19900, Price.add(1000, 2500) is 3500, and -1 and NaN are refused |
| DateUtils.NewDateUtils | JavaScript/js-beginner/2_class_and_oop/3_static_keyword.js:214-219 | creating an instance always throws an Error carrying the static-only message |
| DateUtils.PadStart | JavaScript/js-beginner/2_class_and_oop/3_static_keyword.js:232-233 | padStart keeps the string as the suffix, fills only the front with the pad character, and reaches the target length unless the string is already longer |
| DateUtils.TwoDigitsIsPadStart | JavaScript/js-beginner/2_class_and_oop/3_static_keyword.js:232-233 | padding a number below 100 to two digits gives exactly its two-digit form |
| DateUtils.PadOneDigit | JavaScript/js-beginner/2_class_and_oop/3_static_keyword.js:232-233 | a one-digit number gets a single leading zero |
| DateUtils.PadTwoDigits | JavaScript/js-beginner/2_class_and_oop/3_static_keyword.js:232-233 | a two-digit number is left as it is |
| DateUtils.TwoDigitsValue | JavaScript/js-beginner/2_class_and_oop/3_static_keyword.js:232-233 | the two-digit form reads back as the number |
| DateUtils.FormatDate | JavaScript/js-beginner/2_class_and_oop/3_static_keyword.js:221-235 | formatting throws the date TypeError exactly when the argument is not a valid Date |
| DateUtils.FormatDateRoundTrip | JavaScript/js-beginner/2_class_and_oop/3_static_keyword.js:226-235 | splitting a formatted date at its dashes and reading the digits back gives the year, month and day that were formatted |
| DateUtils.FormatDateSplit | JavaScript/js-beginner/2_class_and_oop/3_static_keyword.js:226-235 | a formatted date splits at '-' into exactly three digit fields, year, two-digit month and two-digit day |
| DateUtils.DigitFieldsSplit | JavaScript/js-beginner/2_class_and_oop/3_static_keyword.js:234 | three digit fields joined with dashes split back into those three fields |
| DateUtils.FormatDateText | JavaScript/js-beginner/2_class_and_oop/3_static_keyword.js:231-234 | the text is the year's digits, a dash, the one-based month padded to two digits, a dash and the day padded to two digits |
| DateUtils.NoDashInDigits | JavaScript/js-beginner/2_class_and_oop/3_static_keyword.js:231-233 | a field made only of digits contains no dash |
| DateUtils.SplitThree | JavaScript/js-beginner/2_class_and_oop/3_static_keyword.js:234 | three fields without the separator, joined by it, split back into those three fields |
| DateUtils.FormatDateInjective | JavaScript/js-beginner/2_class_and_oop/3_static_keyword.js:226-235 | two different days never format to the same text |
| DateUtils.IsToday | JavaScript/js-beginner/2_class_and_oop/3_static_keyword.js:238-247 | a value is today exactly when it is a valid Date on the same year, month and day as the clock's day; an invalid value is never today |
| DateUtils.FormatDateSample | JavaScript/js-beginner/2_class_and_oop/3_static_keyword.js:250-251 | the date 24 January 2026 is formatted as 2026-01-24, and an invalid Date or a non-Date throws |
| DateUtils.SampleDigits | JavaScript/js-beginner/2_class_and_oop/3_static_keyword.js:231-233 | 2026 prints as 2026, and months or days 1 and 24 pad to 01 and 24 |
| StaticBasics.StaticFieldOnClassOnly | js-beginner/2_class_and_oop/3_static_keyword.js:20-46 | the static groupName is read as '아이브' on the class and as undefined on an instance, which holds only the name and year its constructor set |
| StaticBasics.NewIdolModel | js-beginner/2_class_and_oop/3_static_keyword.js:27-30 | an instance is a plain object whose own fields are exactly name and year, in that order, holding the constructor's arguments |
| StaticBasics.ReturnGroupName | js-beginner/2_class_and_oop/3_static_keyword.js:33-35 | the sentence starts with the fixed opening and ends with the fixed closing, with room for exactly the group name between them |
| StaticBasics.ReturnGroupNameRoundTrip | js-beginner/2_class_and_oop/3_static_keyword.js:33-35 | the group name can be read back out of the sentence unchanged |
| StaticBasics.ReturnGroupNameSample | js-beginner/2_class_and_oop/3_static_keyword.js:25-47 | the class's sentence is '우리는 아이브입니다.' |
| StaticBasics.FromObject | js-beginner/2_class_and_oop/3_static_keyword.js:74-79 | a null or undefined object throws a TypeError on the read; otherwise the user is built exactly when name and age are both truthy, and holds them unchanged, else the incomplete-data Error |
| StaticBasics.FromList | js-beginner/2_class_and_oop/3_static_keyword.js:82-84 | only a null or undefined list throws (a TypeError); any other list gives the user holding its elements 0 and 1 unchecked |
| StaticBasics.FromJson | js-beginner/2_class_and_oop/3_static_keyword.js:87-90 | unparsable text throws the SyntaxError, text parsing to null or undefined throws a TypeError, and otherwise the user holds the parsed name and age unchecked |
| StaticBasics.FromObjectRoundTrip | js-beginner/2_class_and_oop/3_static_keyword.js:74-79 | a user written as an object literal comes back exactly when both fields are truthy, and otherwise the incomplete-data Error is thrown |
| StaticBasics.FromListRoundTrip | js-beginner/2_class_and_oop/3_static_keyword.js:82-84 | every user written as an array comes back unchanged, falsy fields included |
| StaticBasics.FromJsonAcceptsMore | js-beginner/2_class_and_oop/3_static_keyword.js:74-90 | fromJson agrees with fromObject on every parsed record fromObject accepts, and also accepts records with a falsy name that fromObject refuses |
| StaticBasics.AgeZeroSplitsVersions | js-beginner/2_class_and_oop/3_static_keyword.js:74-79 | a record with a valid name and age 0 is refused here but accepted by the validating fromObject of the other version of the script |
| StaticBasics.FromObjectSample | js-beginner/2_class_and_oop/3_static_keyword.js:94 | { name: '장원영', age: 20 } gives that user |
| StaticBasics.FromListSample | js-beginner/2_class_and_oop/3_static_keyword.js:98 | ['안유진', 21] gives that user |
| StaticBasics.FromJsonOfLiteral | js-beginner/2_class_and_oop/3_static_keyword.js:87-90 | text that parses to a { name, age } object gives the user holding those two values |
| StaticBasics.FromJsonSample | js-beginner/2_class_and_oop/3_static_keyword.js:102 | the JSON text for 가을 at 22 gives that user |
| StaticBasics.FormatDate | js-beginner/2_class_and_oop/3_static_keyword.js:119-121 | only a value that is not a Date throws (a TypeError); an Invalid Date prints NaN-NaN-NaN |
| StaticBasics.FormatDateRoundTrip | js-beginner/2_class_and_oop/3_static_keyword.js:119-121 | even without padding, the formatted text reads back as the day that was formatted |
| StaticBasics.ShortNumberLength | js-beginner/2_class_and_oop/3_static_keyword.js:120 | a month or day below 10 prints as one digit and one from 10 to 99 as two, equal to its padded form |
| StaticBasics.FormatsAgreeIffTwoDigits | js-beginner/2_class_and_oop/3_static_keyword.js:119-121 | the unpadded format equals the padded one of the other version exactly when the one-based month and the day are both at least 10 |
| StaticBasics.FormatDateSample | js-beginner/2_class_and_oop/3_static_keyword.js:118-132 | 24 January 2026 prints as 2026-1-24, not in the 2026-01-24 form the comment announces |
| StaticBasics.IsTodayAsWritten | js-beginner/2_class_and_oop/3_static_keyword.js:124-127 | a non-Date throws, an Invalid Date is never today, and a valid date counts as today exactly when its day of the month equals today's |
| StaticBasics.IsTodayAsWrittenTooLoose | js-beginner/2_class_and_oop/3_static_keyword.js:124-127 | every real today passes, and the check agrees with the full year-month-day comparison only when year and month already match |
| StaticBasics.IsTodayAsWrittenMonthSlip | js-beginner/2_class_and_oop/3_static_keyword.js:124-127 | on 24 February 2026, the date 24 January 2026 counts as today although it is not |
| IdolEntities.From | js-beginner/3_all_about_object/1_introduction.js:89-100 | an entity is built exactly from a non-nullish record whose name is a non-empty string and whose year is a number other than 0 and NaN, holding those two values; a null or undefined record throws a TypeError, a bad name the name Error quoting it, and a good name with a bad year the year Error quoting the year |
| IdolEntities.FromRecordRoundTrip | js-beginner/3_all_about_object/1_introduction.js:89-118 | an entity written back as a { name, year } record is rebuilt unchanged by the getters exactly when its name is non-empty and its year truthy |
| IdolEntities.FalsyYearRefused | js-beginner/3_all_about_object/1_introduction.js:94-96 | a year of 0 or a year given as a string is refused with the year Error |
| IdolEntities.Introduce | js-beginner/3_all_about_object/1_introduction.js:111-113 | the introduction starts with the class tag and ends with the closing words, its length being the parts' lengths added up |
| IdolEntities.IntroduceNamesEntity | js-beginner/3_all_about_object/1_introduction.js:111-113 | the entity's name and printed year can be read back from their places in the introduction |
| IdolEntities.SafeMembers | js-beginner/3_all_about_object/1_introduction.js:131-140 | map-with-try followed by the null filter gives exactly the entities of the acceptable records, in input order, never more entities than records |
| IdolEntities.KeptAppend | js-beginner/3_all_about_object/1_introduction.js:131-140 | the pipeline over two lists in a row is its result for the first followed by its result for the second |
| IdolEntities.KeptSingle | js-beginner/3_all_about_object/1_introduction.js:131-140 | one record gives its entity when acceptable and nothing otherwise |
| IdolEntities.KeptAllAcceptable | js-beginner/3_all_about_object/1_introduction.js:131-140 | when every record is acceptable nothing is dropped and each entity sits at its record's position |
| IdolEntities.KeptNoneAcceptable | js-beginner/3_all_about_object/1_introduction.js:131-140 | when no record is acceptable the result is empty |
| IdolEntities.KeptTwoOfThree | js-beginner/3_all_about_object/1_introduction.js:131-140 | of three records of which only the first two are acceptable, exactly the first two entities remain |
| IdolEntities.RecordAt | js-beginner/3_all_about_object/1_introduction.js:89-100 | a { name, year } record is acceptable exactly when its two values are, and then describes the entity holding them |
| IdolEntities.PipelineSample | js-beginner/3_all_about_object/1_introduction.js:124-140 | the script's records give the entities 장원영 (2004) and 이서 (2007); the record whose year is '몰라' is dropped |
| ClassProblem.MakeIdol | js-beginner/2_class_and_oop/6_class_problem.js:85-92 | a member record becomes an idol exactly when it is not null or undefined, keeping its name and birth, a FemaleIdol exactly when the group's gender is strictly 'female' and a MaleIdol otherwise; a missing record is a TypeError |
| ClassProblem.MembersOf | js-beginner/2_class_and_oop/6_class_problem.js:85-92 | the members map succeeds exactly when no member record is null or undefined, giving one idol per record in order; otherwise a TypeError |
| ClassProblem.GroupOf | js-beginner/2_class_and_oop/6_class_problem.js:83-96 | a group record becomes a group exactly when it is present, its members value is an array and every member is present; the group keeps the record's name and its members in order |
| ClassProblem.GroupsOf | js-beginner/2_class_and_oop/6_class_problem.js:83-96 | the groups map succeeds exactly when every group record converts, giving one group per record in order |
| ClassProblem.FromData | js-beginner/2_class_and_oop/6_class_problem.js:81-100 | fromData succeeds exactly when the record, its groups array and every group and member in it are present and arrays where required; the country keeps its name and one group per record, every failure being a TypeError |
| ClassProblem.FromDataGroupsUniform | js-beginner/2_class_and_oop/6_class_problem.js:85-92 | every group fromData builds has members all of one class |
| ClassProblem.GroupRoundTrip | js-beginner/2_class_and_oop/6_class_problem.js:83-96 | a group whose members are of one class, written back as a record with the matching gender, is rebuilt unchanged |
| ClassProblem.FromDataRoundTrip | js-beginner/2_class_and_oop/6_class_problem.js:81-100 | a country whose groups are each of one class, written back as a record, is rebuilt unchanged |
| ClassProblem.GroupMadeUnique | js-beginner/2_class_and_oop/6_class_problem.js:83-96 | a group record describes only one group, the one fromData builds from it |
| ClassProblem.Sing | js-beginner/2_class_and_oop/6_class_problem.js:49-53 | only a MaleIdol can sing, and the line is its name followed by the singing words; on a FemaleIdol the call is a TypeError |
| ClassProblem.Dance | js-beginner/2_class_and_oop/6_class_problem.js:55-59 | only a FemaleIdol can dance, and the line is its name followed by the dancing words; on a MaleIdol the call is a TypeError |
| ClassProblem.GenderDecidesMethods | js-beginner/2_class_and_oop/6_class_problem.js:81-100 | in a country fromData built, a member can dance exactly when its group's gender is 'female' and can sing exactly otherwise |
| ClassProblem.FromDataOfTwo | js-beginner/2_class_and_oop/6_class_problem.js:81-100 | a record of two convertible groups gives the country of those two groups, in order |
| ClassProblem.GroupsOfCons | js-beginner/2_class_and_oop/6_class_problem.js:83-96 | converting a group followed by more groups gives that group's result followed by theirs |
| ClassProblem.KpopSample | js-beginner/2_class_and_oop/6_class_problem.js:109-121 | the script's record gives 대한민국 with 아이브 (6 members) and 방탄소년단 (7 members); members[1] of 아이브 is FemaleIdol 안유진, who dances, and members[1] of 방탄소년단 is MaleIdol 진 (not RM as the comment says), who sings |
| PropertyAttributes.DefineOwnProperty | js-beginner/3_all_about_object/2_property_attribute.js:207-256 | a new key is accepted exactly on an extensible object and is appended with absent attributes false; a configurable property accepts any descriptor; a non-configurable one accepts only descriptors that keep configurable and enumerable and, when it is read-only, keep it read-only with the same value; accepted fields replace the old ones, absent ones are kept, every other property is untouched, and a refusal is a TypeError |
| PropertyAttributes.SetProp | js-beginner/3_all_about_object/2_property_attribute.js:119-133 | an assignment takes effect exactly when the property is writable, or absent on an extensible object (then it is appended as writable, enumerable and configurable); a refused one leaves the object as it was; no other property changes |
| PropertyAttributes.SetPropIsDefine | js-beginner/3_all_about_object/2_property_attribute.js:119-121 | a successful assignment has the same effect as defineProperty with the value alone, or with a full all-true descriptor for a new key |
| PropertyAttributes.DeleteProp | js-beginner/3_all_about_object/2_property_attribute.js:225-248 | delete succeeds exactly when the key is absent or configurable, and then the key is gone; a refused delete leaves the object as it was; no other property changes |
| PropertyAttributes.PreventExtensions | JavaScript/js-beginner/3_all_about_object/3_2_immutable_object.js:77-78 | afterwards the object is not extensible and keeps all its properties unchanged |
| PropertyAttributes.FrozenIsSealed | JavaScript/js-beginner/3_all_about_object/3_2_immutable_object.js:193-203 | every frozen object is sealed, and an object without properties is frozen exactly when it is not extensible |
| PropertyAttributes.FrozenCopyFacts | JavaScript/js-beginner/3_all_about_object/3_2_immutable_object.js:193-216 | freezing gives a frozen object, freezing twice is the same as once, a frozen object is its own frozen copy, and every value is kept |
| PropertyAttributes.Seal | JavaScript/js-beginner/3_all_about_object/3_2_immutable_object.js:119-129 | Object.seal, defining each own key in turn, ends non-extensible with the same keys, each property only made non-configurable, so the object is sealed |
| PropertyAttributes.Freeze | JavaScript/js-beginner/3_all_about_object/3_2_immutable_object.js:193-203 | Object.freeze, defining each own key in turn, ends non-extensible with the same keys, each property made non-configurable and read-only, so the object is frozen |
| PropertyAttributes.NonExtensibleNeverGrows | JavaScript/js-beginner/3_all_about_object/3_2_immutable_object.js:77-101 | once an object is not extensible, no sequence of definitions, assignments and deletions gives it a new key |
| PropertyAttributes.NonConfigurableIsPermanent | js-beginner/3_all_about_object/2_property_attribute.js:229-266 | a non-configurable property survives every sequence of steps, stays non-configurable with the same enumerability, and if read-only keeps its value and attributes |
| PropertyAttributes.SealedKeepsItsKeys | JavaScript/js-beginner/3_all_about_object/3_2_immutable_object.js:128-158 | a sealed object stays sealed with exactly the same keys whatever steps are tried |
| PropertyAttributes.FrozenNeverChanges | JavaScript/js-beginner/3_all_about_object/3_2_immutable_object.js:202-225 | no sequence of steps changes a frozen object |
| PropertyAttributes.SealedStillWritable | JavaScript/js-beginner/3_all_about_object/3_2_immutable_object.js:139-142 | on a sealed object a writable property can still be assigned but not deleted |
| PropertyAttributes.FrozenRedefineReadOnlySucceeds | JavaScript/js-beginner/3_all_about_object/3_2_immutable_object.js:219-225 | redefining a frozen property as read-only returns normally and changes nothing, so the catch block the script expects is never reached |
| PropertyAttributes.NonConfigurableOnlyLocksDown | js-beginner/3_all_about_object/2_property_attribute.js:229-257 | on the non-configurable apiKey, making it enumerable throws, deleting it is refused, and making it read-only is accepted |
| PropertyAttributes.NonEnumerableHiddenButReadable | js-beginner/3_all_about_object/2_property_attribute.js:163-181 | a property defined non-enumerable is left out of Object.keys, the other keys are as before, and it can still be read |
| PropertyAttributes.EnumerableKeysAppend | js-beginner/3_all_about_object/2_property_attribute.js:171-172 | appending a non-enumerable key leaves Object.keys unchanged |
| PropertyAttributes.EnumerableKeysSameProps | js-beginner/3_all_about_object/2_property_attribute.js:171-172 | Object.keys depends only on the key order and the properties it names |
| PropertyAttributes.ConfigurableRedefineThenDelete | js-beginner/3_all_about_object/2_property_attribute.js:207-227 | a configurable property can have its attributes redefined, stays configurable, and can then be deleted so that it reads as undefined |
| PropertyAttributes.PreventExtensionsRules | JavaScript/js-beginner/3_all_about_object/3_2_immutable_object.js:65-90 | after preventExtensions a new key is silently not added, while a configurable property can still be deleted and a writable one still assigned |
| PropertyAttributes.ComparisonTable | JavaScript/js-beginner/3_all_about_object/3_2_immutable_object.js:259-284 | after the same additions, deletions and assignments, the preventExtensions object ends empty, the sealed one holds a: 10 and the frozen one still a: 1 |
| PropertyAttributes.DefineProperties | js-beginner/3_all_about_object/2_property_attribute.js:296-316 | on success every earlier key is kept, every described key is present and the object's extensibility is unchanged; a refusal throws a TypeError |
| PropertyAttributes.DefinePropertiesFresh | js-beginner/3_all_about_object/2_property_attribute.js:296-316 | defining distinct new names on an extensible object never throws; each name holds its descriptor's value with its writable, enumerable and configurable flags (undefined and false when absent), and every earlier property is unchanged |
| PropertyAttributes.ConstantObjectIgnoresAssignments | js-beginner/3_all_about_object/2_property_attribute.js:332-363 | the CONFIG constants are defined, and assigning new API_URL and TIMEOUT values leaves the object exactly as it was |
| PropertyAttributes.Login | js-beginner/3_all_about_object/2_property_attribute.js:452-459 | the right password clears the counter and reports success; a wrong one adds one to the counter and reports the new count; username and password never change |
| PropertyAttributes.LoginCountsTrailingFailures | js-beginner/3_all_about_object/2_property_attribute.js:452-459 | after a run of attempts the counter equals the failures since the last successful one, or the earlier count plus all attempts when none succeeded |
| PropertyAttributes.TrailingAllFail | js-beginner/3_all_about_object/2_property_attribute.js:452-459 | with no right password among the attempts, every attempt counts as a failure |
| PropertyAttributes.LoginSample | js-beginner/3_all_about_object/2_property_attribute.js:471-477 | 'wrong' reports failure 1, and then 'password123' succeeds and brings the counter back to 0 |
| ImmutableObjects.DeepFreeze | JavaScript/js-beginner/3_all_about_object/3_2_immutable_object.js:322-338 | afterwards only freezing has happened, the object passed in is frozen, every object the call visited is frozen along with all its children, objects it did not visit are unchanged, and no object became unfrozen |
| ImmutableObjects.DescendDecreases | JavaScript/js-beginner/3_all_about_object/3_2_immutable_object.js:330-336 | each recursive call faces fewer unfrozen objects, or as many with an unfrozen object in place of a frozen one, so the recursion ends even on cyclic objects |
| ImmutableObjects.FreezesOnlyFacts | JavaScript/js-beginner/3_all_about_object/3_2_immutable_object.js:322-338 | freezing some objects keeps every reference, leaves frozen objects as they are and never adds an unfrozen object |
| ImmutableObjects.DeepFreezeReachesUnfrozenChildren | JavaScript/js-beginner/3_all_about_object/3_2_immutable_object.js:322-338 | every unfrozen child of a visited object is itself visited and frozen, so an object tree nobody froze before ends up frozen throughout |
| ImmutableObjects.DeepFreezeLeavesUnreached | JavaScript/js-beginner/3_all_about_object/3_2_immutable_object.js:330-334 | an object that was frozen already, or that no visited object refers to, is never visited and is left exactly as it was |
| ImmutableObjects.DeepFreezeSample | JavaScript/js-beginner/3_all_about_object/3_2_immutable_object.js:341-364 | the script's object, its members and the positions inside them are all frozen afterwards |
| ImmutableObjects.FrozenBranchUntouched | JavaScript/js-beginner/3_all_about_object/3_2_immutable_object.js:330-334 | when the members object is frozen already, the mutable positions object below it stays unfrozen |
| ImmutableObjects.DeepFreezeSkipsFrozenBranch | JavaScript/js-beginner/3_all_about_object/3_2_immutable_object.js:330-334 | deepFreeze from the top leaves a mutable object below an already frozen one unfrozen |
| ImmutableObjects.FreezeIsShallow | JavaScript/js-beginner/3_all_about_object/3_2_immutable_object.js:299-319 | after Object.freeze an assignment to the frozen object's own property is ignored, but the nested object it refers to is unchanged, not frozen, and still accepts assignments and new properties |
| ImmutableObjects.CreateUser | JavaScript/js-beginner/3_all_about_object/3_2_immutable_object.js:451-457 | the merged options are a fresh extensible object whose properties are all writable and configurable, so it is not frozen like the defaults |
| ImmutableObjects.SpreadMerge | JavaScript/js-beginner/3_all_about_object/3_2_immutable_object.js:453-456 | in { ...d, ...o } each name comes from o when o has it as an enumerable own property and from d otherwise, and no other name appears |
| ImmutableObjects.DefaultOptionsFacts | JavaScript/js-beginner/3_all_about_object/3_2_immutable_object.js:444-449 | DEFAULT_OPTIONS is frozen and all four options are enumerable own properties |
| ImmutableObjects.CreateUserMerge | JavaScript/js-beginner/3_all_about_object/3_2_immutable_object.js:451-460 | each option comes from the caller's object when it has it as an enumerable own property and from the defaults otherwise, and the defaults stay frozen |
| ImmutableObjects.CreateUserDefaults | JavaScript/js-beginner/3_all_about_object/3_2_immutable_object.js:451-459 | without an argument the options are exactly the defaults |
| Common.Trim | JavaScript/js-beginner/2_class_and_oop/3_static_keyword.js:94 | trim removes only whitespace and line terminators, only from the two ends, and leaves a string that starts and ends with another character when anything is left |
| Common.TrimIdempotent | JavaScript/js-beginner/2_class_and_oop/3_static_keyword.js:109 | trimming a trimmed string changes nothing, so the stored name passes the check again |
| Common.TrimEmptyIff | JavaScript/js-beginner/2_class_and_oop/3_static_keyword.js:94 | trim gives the empty string exactly when every character is whitespace |
| Common.NatToStringRoundTrip | JavaScript/js-beginner/2_class_and_oop/3_static_keyword.js:231 | String of a non-negative integer is a digit string that reads back as the same number |
| Common.NatToStringCanonical | JavaScript/js-beginner/2_class_and_oop/3_static_keyword.js:231 | String of a non-negative integer has only digits and no leading zero |
| Common.IntToString | js-beginner/2_class_and_oop/2_getter_and_setter.js:143-164 | String of an integer is non-empty and starts with a minus sign exactly for a negative number |
| Common.IntToStringRoundTrip | js-beginner/2_class_and_oop/2_getter_and_setter.js:143-164 | after the optional minus sign, String of an integer is a digit string that reads back as its magnitude |
| Common.IntToStringInjective | js-beginner/2_class_and_oop/2_getter_and_setter.js:143-164 | two integers with the same String are equal |
| Common.Split | js-beginner/2_class_and_oop/2_getter_and_setter.js:397 | split gives at least one piece, and no piece contains the separator |
| Common.Join | JavaScript/js-beginner/2_class_and_oop/3_static_keyword.js:234 | joining starts with the first piece, then the separator and the join of the rest when there are more pieces |
| Common.SplitJoin | JavaScript/js-beginner/2_class_and_oop/3_static_keyword.js:234 | splitting pieces joined by a separator that none of them contains gives the pieces back |
| Common.Utf16Length | JavaScript/js-beginner/2_class_and_oop/3_static_keyword.js:94 | a string's length in UTF-16 code units lies between its number of characters and twice that |
| Common.Utf16LengthAppend | JavaScript/js-beginner/2_class_and_oop/3_static_keyword.js:94 | the code-unit length of a concatenation is the sum of the lengths |
| Common.TrimShortens | JavaScript/js-beginner/2_class_and_oop/3_static_keyword.js:94 | trimming never makes a string longer in code units |
| JsValues.OptionalGet | JavaScript/js-beginner/2_class_and_oop/3_static_keyword.js:105-106 | optional chaining gives undefined on a null or undefined base and the ordinary property read otherwise |
| JsValues.Truthy | JavaScript/js-beginner/1_basics/11_coercion.js:128-151 | null and undefined are falsy and every object reference is truthy |
| JsValues.StrictEquals | js-beginner/1_basics/7_operators.js:160-163 | `===` holds between equal values except NaN, never for NaN, and otherwise only for equal values or numerically equal numbers |
| JsValues.Get | js-beginner/2_class_and_oop/3_static_keyword.js:75 | a property read gives the own property's value when the object has it, and undefined otherwise |
| JsValues.StrictGet | js-beginner/2_class_and_oop/3_static_keyword.js:75 | a property read throws exactly when the base is null or undefined, and otherwise gives the property's value |
| JsValues.EnumerableKeys | js-beginner/3_all_about_object/2_property_attribute.js:172 | Object.keys lists exactly the own enumerable keys, never more names than the object has, and each once when the key list has no repeats |
| JsValues.ObjectLiteralLastWins | JavaScript/js-beginner/3_all_about_object/3_2_immutable_object.js:453-456 | in an object literal a name is present exactly when some entry gives it, and it holds the value of the last such entry |
| JsValues.LastValueAppend | JavaScript/js-beginner/3_all_about_object/3_2_immutable_object.js:453-456 | in two spreads in a row, a name of the second overrides the same name of the first |
| JsValues.ObjectLiteral | JavaScript/js-beginner/3_all_about_object/3_2_immutable_object.js:453-456 | an object literal is a well-formed, extensible plain object |
| JsValues.CreateDataProperty | JavaScript/js-beginner/3_all_about_object/3_2_immutable_object.js:453-456 | defining a name stores the value as a writable, enumerable, configurable property, appends the name to the keys only when it is new, and keeps the object well-formed |

## Left out

- Timers and asynchronous code are not modelled: debounce and throttle (`js-beginner/1_basics/12_function.js:801-857`), `setTimeout` callbacks, `mockApi`/`fetchUserData`, and the `sleep` between retries. `ErrorHandling.Retry` runs over a sequence of attempt outcomes given by a `task` parameter.
- Clocks and randomness are not modelled: `Date.now`/`Math.random` ids, the age and `daysSinceCreated` getters, and receipt and creation timestamps. `isToday` takes the current day as its `today` parameter. The Date getters' local time zone is not modelled.
- Floating point is not modelled. The Calculator of both class scripts works over exact `real`s, and `StaticFactories.AddFinite` adds exactly, without rounding the sum to a double. Rectangle sides are `real`s too; the diagonal (a square root) is not modelled.
- GetterSetter.BalanceLabel / GetterSetter.FormattedTotal: the argument-less `toLocaleString()` depends on the host's default locale (de-DE would give "₩10.000"); it is modelled as if that locale groups with commas in threes, as ko-KR and en-US do.
- `toLocaleString('ko-KR')` is modelled only as thousands grouping of integers. `Price.formatKRW` is not modelled, and neither are the other locale labels.
- `localeCompare` is not modelled. The sort comparator takes a total order on names as a parameter.
- Number parsing from strings (`Number`, `parseInt`, `parseFloat`) is not modelled.
- `JSON.parse` is a `parse` parameter returning the value and the heap it creates, or nothing when it throws. `JSON.stringify` is a parameter too. Neither is modelled in itself.
- The conversion a template literal applies to an arbitrary value is a `show` parameter. Number-to-string conversion is modelled only for non-negative integers.
- The email regular expression is a predicate parameter.
- Only the `name` of engine error messages is modelled. The text of messages thrown by the engine itself (not by the scripts) is a placeholder.
- The value model has no prototype chain, no accessor properties and no string index properties. Reads of a property of a primitive give `undefined`, and `Set` equality is equality of the modelled values, not SameValueZero on floats.
- `ClassProblem.FromData` takes the nested record as structured datatypes rather than heap objects. A member or group that is `null` or `undefined`, and a `groups` or `members` value that is not an array, are still modelled, as the TypeErrors they cause.
- The mutable variant of the idol class in the getter/setter script and its static `info` getter are not modelled. Only the behaviour of its immutable counterpart is part of the model.
- Shop prices and totals are integers, as in every example.
- ClassKeyword.Deposit: the amount is an integer. A string amount (which `+=` would concatenate), NaN, a fraction and other non-number arguments are not modelled, because number parsing and ToPrimitive are out of scope.
- ClassKeyword.Withdraw: the amount is an integer, for the same reason as Deposit; non-number amounts are not modelled.
- ClassKeywordBasics.Deposit: the amount is an integer; string, NaN and other non-number amounts are not modelled.
- ClassKeywordBasics.Withdraw: the amount is an integer; string, NaN and other non-number amounts are not modelled.
- ClassKeywordBasics.SetName: the name is a string. The script's setter has no type check: a number or boolean is stored, because its `.length` is undefined and `undefined < 2` is false, and null or undefined throws a TypeError on the `.length` read. Names of other types are not modelled, because the product's name is a string throughout the model.
- ClassKeywordBasics.SetPrice: the price is an integer; string, NaN and other non-number prices are not modelled.
- GetterSetter.SetBalance: the amount is an integer; string, NaN and fractional amounts are not modelled, nor their comparison with 0 and the ceiling after coercion.
- GetterSetter.Deposit: the amount is an integer; string, NaN and fractional amounts are not modelled.
- GetterSetter.Withdraw: the amount is an integer; string, NaN and fractional amounts are not modelled.
- GetterSetter.MaskedEmail: `slice(0, 3)` counts UTF-16 code units, while the model takes the first three characters (code points). The two differ only when a character outside the Basic Multilingual Plane falls among the first three, and a result that splits a surrogate pair cannot be represented as a Dafny string.
- GetterSetter.MaskedEmailOfAddress: states the mask in characters, not UTF-16 code units, for the same reason as MaskedEmail.
- Shop.CheckoutLines: a cart line holds a copy of its product, not a reference to a shared product object. Checkout returns the lines with their decreased stock instead of changing the caller's product, and a stock change made to the product elsewhere after it was added is not seen by the cart.
- JsValues.EnumerableKeys: keys are listed in creation order. An engine lists array-index keys ('0', '1', …) first in ascending numeric order; the scripts apply Object.keys and object spread only to objects whose keys are names, where the two orders agree. Keys and spreads of objects with index keys are not modelled faithfully.
- FunctionUtils.Chunk: for a size of 0 or less and a non-empty array, the loop of `chunkArray` never ends (`i += size` does not move past the end). That call does not terminate and is excluded by the requires rather than modelled.
- Top-level script execution is not modelled, only the functions and classes of each script. Some scripts fail as whole programs: `12_function.js` declares `sum` twice, `16_try_catch.js` declares `fetchUserData` twice, and `11_coercion.js` uses `document`.
- Scripts that only show syntax or engine behaviour are not modelled: hoisting, declarations, data types, prototypes and inheritance, and the TypeScript type-level notes.
- console output is not modelled. Where a method's result is a log line, the line is the function's result.

## Findings

| source | as written | input that shows it | evidently intended | confidence | as-written member | corrected member |
|---|---|---|---|---|---|---|
| JavaScript/js-beginner/1_basics/15_value_reference.js:84-93 | `aKeys.every(k => a[k] === b[k])` checks only a's keys, so a key of a missing from b whose value is `undefined` still matches | `shallowEqual({x: undefined}, {y: 1})` is true, the reverse call false | objects are shallow-equal only when they have the same keys with strictly equal values, the same answer both ways round | medium, not executed | ValueReference.ShallowEqualAsWritten, ValueReference.ShallowEqualAsWrittenIsAsymmetric | ValueReference.ShallowEqual, ValueReference.ShallowEqualSymmetric |
| React/01-onebite-react/javascript-basic/07_loop_control/app.js:179-190 | the item is pushed before `picked.length >= limit` is checked | a limit of 0 still picks 'post1' | the first min(limit, feed.length) items, none for a limit of 0 | low (the script's limit is 3), not executed | LoopControl.PickedAsWritten, LoopControl.PickedAsWrittenOverTakes | LoopControl.Picked |
| js-beginner/2_class_and_oop/3_static_keyword.js:124-127 | isToday compares only the day of the month | 24 January 2026 checked on 24 February 2026 counts as today | the same year, month and day as today | high, not executed | StaticBasics.IsTodayAsWritten, StaticBasics.IsTodayAsWrittenMonthSlip | DateUtils.IsToday |

=== FILE: array_functions.dfy ===
/** The array patterns of JavaScript/js-beginner/1_basics/13_array_functions.js: updating the item
    findIndex locates, reductions to a total, to groups and to counts, a two-key comparator and
    pagination with `slice`. Prices, ages and page numbers are integers here. */
module ArrayFunctions {
  import opened Common

  /** The start or end argument of `slice` (section 23.1.3.28 of ECMA-262) resolved against the length:
      a negative value counts from the end, and the result is clamped to `0..len`. */
  function ResolveIndex(i: int, len: nat): (r: nat)
    ensures r <= len
    ensures 0 <= i <= len ==> r == i
    ensures i > len ==> r == len
    ensures i < 0 ==> r == if len + i > 0 then len + i else 0
  {
    if i < 0 then (if len + i > 0 then len + i else 0) else if i > len then len else i
  }

  /** `arr.slice(start, end)`: the elements from the resolved start up to the resolved end, none when
      the end falls before the start. */
  function Slice<T>(arr: seq<T>, start: int, end: int): (r: seq<T>)
    ensures var from, to := ResolveIndex(start, |arr|), ResolveIndex(end, |arr|);
            && |r| == (if from <= to then to - from else 0)
            && forall i :: 0 <= i < |r| ==> r[i] == arr[from + i]
  {
    var from := ResolveIndex(start, |arr|);
    var to := ResolveIndex(end, |arr|);
    if from <= to then arr[from..to] else []
  }

  /** paginate: page `page` of `perPage` items, `array.slice((page - 1) * perPage, page * perPage)`. */
  function Paginate<T>(arr: seq<T>, page: int, perPage: int): (r: seq<T>)
    ensures |r| <= |arr|
  {
    var start := (page - 1) * perPage;
    Slice(arr, start, start + perPage)
  }

  /** For a page from 1 on: at most `perPage` items, read from the page's first position on, a full
      page while the array lasts, and nothing past its end. */
  lemma PaginateWindow<T>(arr: seq<T>, page: int, perPage: int)
    requires page >= 1 && perPage >= 0
    ensures var r := Paginate(arr, page, perPage);
      && |r| <= perPage
      && (forall i :: 0 <= i < |r| ==> (page - 1) * perPage + i < |arr| && r[i] == arr[(page - 1) * perPage + i])
      && (page * perPage <= |arr| ==> |r| == perPage)
      && ((page - 1) * perPage >= |arr| ==> r == [])
  {
    PageBounds(page, perPage);
    SliceWindow(arr, (page - 1) * perPage, perPage);
  }

  /** A slice of `n` items from a non-negative start: at most `n` items, read from `start` on, exactly
      `n` when the array is long enough, none when it starts past the end. */
  lemma SliceWindow<T>(arr: seq<T>, start: int, n: int)
    requires start >= 0 && n >= 0
    ensures var r := Slice(arr, start, start + n);
      && |r| <= n
      && (forall i :: 0 <= i < |r| ==> start + i < |arr| && r[i] == arr[start + i])
      && (start + n <= |arr| ==> |r| == n)
      && (start >= |arr| ==> r == [])
  {
  }

  /** Two slices of `n` items, one right after the other, make up the slice of `2 * n` items. */
  lemma SliceAdjoin<T>(arr: seq<T>, s: int, n: nat)
    requires s >= 0
    ensures Slice(arr, s, s + n) + Slice(arr, s + n, s + 2 * n) == Slice(arr, s, s + 2 * n)
  {
    var a, b, c := ResolveIndex(s, |arr|), ResolveIndex(s + n, |arr|), ResolveIndex(s + 2 * n, |arr|);
    assert a <= b <= c;
    assert arr[a..b] + arr[b..c] == arr[a..c];
  }

  lemma PageBounds(page: int, perPage: int)
    ensures page * perPage == (page - 1) * perPage + perPage
    ensures (page + 1) * perPage == (page - 1) * perPage + 2 * perPage
    ensures page >= 1 && perPage >= 0 ==> (page - 1) * perPage >= 0
  {
  }

  /** Consecutive pages do not overlap and leave nothing out: pages `p` and `p + 1` are the slice of
      `2 * perPage` items starting at page `p`. */
  lemma PagesAdjoin<T>(arr: seq<T>, page: int, perPage: int)
    requires page >= 1 && perPage >= 0
    ensures Paginate(arr, page, perPage) + Paginate(arr, page + 1, perPage)
            == Slice(arr, (page - 1) * perPage, (page + 1) * perPage)
  {
    var s := (page - 1) * perPage;
    PageBounds(page, perPage);
    PaginateAt(arr, page, perPage, s);
    PaginateAt(arr, page + 1, perPage, s + perPage);
    SliceAdjoin(arr, s, perPage);
    SliceAt(arr, s, s + 2 * perPage, (page + 1) * perPage);
  }

  /** Page `page` is the slice of `perPage` items from its first position `s`. */
  lemma PaginateAt<T>(arr: seq<T>, page: int, perPage: int, s: int)
    requires s == (page - 1) * perPage
    ensures Paginate(arr, page, perPage) == Slice(arr, s, s + perPage)
  {
  }

  lemma SliceAt<T>(arr: seq<T>, s: int, e: int, e': int)
    requires e == e'
    ensures Slice(arr, s, e) == Slice(arr, s, e')
  {
  }

  /** The script's pages of 25 items: page 1 holds items 1 to 10, page 2 items 11 to 20, page 3 the
      last five. */
  lemma PaginateSample<T>(all: seq<T>)
    requires |all| == 25
    ensures Paginate(all, 1, 10) == all[0..10]
    ensures Paginate(all, 2, 10) == all[10..20]
    ensures Paginate(all, 3, 10) == all[20..25]
  {
  }

  /** One entry of the list findIndex searches. */
  datatype Item = Item(id: int, name: string)

  /** `items.findIndex((item) => item.id === id)`: the first position holding the id, or -1. */
  function FindIndex(items: seq<Item>, id: int): (r: int)
    ensures -1 <= r < |items|
    ensures r == -1 <==> forall i :: 0 <= i < |items| ==> items[i].id != id
    ensures r >= 0 ==> items[r].id == id && forall i :: 0 <= i < r ==> items[i].id != id
  {
    if items == [] then -1
    else if items[0].id == id then 0
    else
      var rest := FindIndex(items[1..], id);
      if rest == -1 then -1 else rest + 1
  }

  /** The update: the first item with the id is replaced by a copy carrying the new name;
      without such an item the array is left as it is. */
  function RenameById(items: seq<Item>, id: int, name: string): (r: seq<Item>)
    ensures |r| == |items|
    ensures FindIndex(items, id) == -1 ==> r == items
    ensures var k := FindIndex(items, id);
            k >= 0 ==> r[k] == Item(id, name) && forall i :: 0 <= i < |items| && i != k ==> r[i] == items[i]
  {
    var k := FindIndex(items, id);
    if k != -1 then items[k := Item(items[k].id, name)] else items
  }

  /** The script's update of item 2. */
  lemma RenameSample()
    ensures RenameById([Item(1, "아이템1"), Item(2, "아이템2")], 2, "수정됨") == [Item(1, "아이템1"), Item(2, "수정됨")]
  {
    assert FindIndex([Item(1, "아이템1"), Item(2, "아이템2")], 2) == 1;
  }

  /** One line of the cart. */
  datatype CartLine = CartLine(name: string, price: int, quantity: int)

  /** Reference reading of the total: the sum of price times quantity over the lines. */
  function CartSum(cart: seq<CartLine>): int {
    if cart == [] then 0 else CartSum(cart[..|cart| - 1]) + cart[|cart| - 1].price * cart[|cart| - 1].quantity
  }

  /** The reduce computing totalPrice. */
  method TotalPrice(cart: seq<CartLine>) returns (sum: int)
    ensures sum == CartSum(cart)
  {
    sum := 0;
    for i := 0 to |cart|
      invariant sum == CartSum(cart[..i])
    {
      assert cart[..i + 1][..i] == cart[..i];
      sum := sum + cart[i].price * cart[i].quantity;
    }
    assert cart[..|cart|] == cart;
  }

  /** A cart split in two totals to the sum of the parts. */
  lemma {:induction false} CartSumAppend(a: seq<CartLine>, b: seq<CartLine>)
    ensures CartSum(a + b) == CartSum(a) + CartSum(b)
    decreases |b|
  {
    if b == [] {
      assert a + b == a;
    } else {
      assert (a + b)[..|a + b| - 1] == a + b[..|b| - 1];
      CartSumAppend(a, b[..|b| - 1]);
    }
  }

  /** The script's cart totals 85000 (its comment says 75000). */
  method TotalPriceSample() returns (sum: int)
    ensures sum == 85000
  {
    var cart := [CartLine("상품1", 10000, 2), CartLine("상품2", 20000, 1), CartLine("상품3", 15000, 3)];
    sum := TotalPrice(cart);
    assert cart[..2][..1] == cart[..1] && cart[..1][..0] == [];
    assert CartSum(cart[..1]) == 20000;
    assert CartSum(cart[..2]) == 40000;
    assert cart[..|cart| - 1] == cart[..2];
    assert CartSum(cart) == CartSum(cart[..2]) + 45000;
  }

  /** One student of the grouping example. */
  datatype Student = Student(name: string, grade: string)

  /** Reference reading of one group: the students with that grade, in their original order. */
  function WithGrade(students: seq<Student>, grade: string): (r: seq<Student>)
    ensures forall s :: s in r <==> s in students && s.grade == grade
  {
    if students == [] then []
    else
      var init := WithGrade(students[..|students| - 1], grade);
      var last := students[|students| - 1];
      assert students == students[..|students| - 1] + [last];
      if last.grade == grade then init + [last] else init
  }

  /** The grades in order of first appearance, as the group object's keys. */
  function GradeOrder(students: seq<Student>): (r: seq<string>)
    ensures forall g :: g in r <==> g in Grades(students)
    ensures forall a, b :: 0 <= a < b < |r| ==> r[a] != r[b]
  {
    if students == [] then []
    else
      var init := GradeOrder(students[..|students| - 1]);
      var last := students[|students| - 1];
      assert students == students[..|students| - 1] + [last];
      if last.grade in init then init else init + [last.grade]
  }

  /** The grades that occur. */
  function Grades(students: seq<Student>): set<string> {
    set s | s in students :: s.grade
  }

  /** The groups built from the first `i` students. */
  ghost predicate Grouped(students: seq<Student>, i: nat, keys: seq<string>, groups: map<string, seq<Student>>)
    requires i <= |students|
  {
    && keys == GradeOrder(students[..i])
    && (forall g :: g in groups <==> g in keys)
    && (forall g :: g in groups ==> groups[g] == WithGrade(students[..i], g) && groups[g] != [])
  }

  /** One step of the reduce: create the student's group when it is missing, then push the student. */
  function AddToGroup(keys: seq<string>, groups: map<string, seq<Student>>, s: Student): (seq<string>, map<string, seq<Student>>) {
    var current := if s.grade in groups then groups[s.grade] else [];
    (if s.grade in groups then keys else keys + [s.grade], groups[s.grade := current + [s]])
  }

  /** Appending a student extends that student's group only. */
  lemma WithGradeStep(prev: seq<Student>, s: Student, g: string)
    ensures WithGrade(prev + [s], g) == if s.grade == g then WithGrade(prev, g) + [s] else WithGrade(prev, g)
  {
    assert (prev + [s])[..|prev|] == prev;
  }

  /** Appending a student adds a key only for a grade not seen before. */
  lemma GradeOrderStep(prev: seq<Student>, s: Student)
    ensures GradeOrder(prev + [s]) == if s.grade in GradeOrder(prev) then GradeOrder(prev) else GradeOrder(prev) + [s.grade]
  {
    assert (prev + [s])[..|prev|] == prev;
  }

  /** A grade without a group has no students yet. */
  lemma NoGroupYet(prev: seq<Student>, g: string)
    requires g !in Grades(prev)
    ensures WithGrade(prev, g) == []
  {
  }

  /** The group the step extends holds that grade's earlier students. */
  lemma CurrentGroup(prev: seq<Student>, keys: seq<string>, groups: map<string, seq<Student>>, s: Student)
    requires keys == GradeOrder(prev) && (forall g :: g in groups <==> g in keys)
    requires forall g :: g in groups ==> groups[g] == WithGrade(prev, g)
    ensures (if s.grade in groups then groups[s.grade] else []) == WithGrade(prev, s.grade)
  {
    if s.grade !in groups {
      assert s.grade !in GradeOrder(prev);
      NoGroupYet(prev, s.grade);
    }
  }

  lemma AddToGroupStep(students: seq<Student>, i: nat, keys: seq<string>, groups: map<string, seq<Student>>)
    requires i < |students| && Grouped(students, i, keys, groups)
    ensures Grouped(students, i + 1, AddToGroup(keys, groups, students[i]).0, AddToGroup(keys, groups, students[i]).1)
  {
    var s := students[i];
    var prev := students[..i];
    var next := students[..i + 1];
    assert next == prev + [s];
    GradeOrderStep(prev, s);
    CurrentGroup(prev, keys, groups, s);
    AddToGroupMaps(prev, keys, groups, s);
  }

  /** The step's effect on the groups, stated over the students so far and the next one. */
  lemma AddToGroupMaps(prev: seq<Student>, keys: seq<string>, groups: map<string, seq<Student>>, s: Student)
    requires keys == GradeOrder(prev) && (forall g :: g in groups <==> g in keys)
    requires forall g :: g in groups ==> groups[g] == WithGrade(prev, g) && groups[g] != []
    requires (if s.grade in groups then groups[s.grade] else []) == WithGrade(prev, s.grade)
    requires GradeOrder(prev + [s]) == if s.grade in GradeOrder(prev) then GradeOrder(prev) else GradeOrder(prev) + [s.grade]
    ensures var (k2, g2) := AddToGroup(keys, groups, s);
      && k2 == GradeOrder(prev + [s])
      && (forall g :: g in g2 <==> g in k2)
      && (forall g :: g in g2 ==> g2[g] == WithGrade(prev + [s], g) && g2[g] != [])
  {
    var (k2, g2) := AddToGroup(keys, groups, s);
    forall g | g in g2
      ensures g2[g] == WithGrade(prev + [s], g) && g2[g] != []
    {
      WithGradeStep(prev, s, g);
    }
  }

  /** The reduce grouping students by grade: `keys` is the order the groups were created in. */
  method GroupByGrade(students: seq<Student>) returns (keys: seq<string>, groups: map<string, seq<Student>>)
    ensures keys == GradeOrder(students)
    ensures forall g :: g in groups <==> g in keys
    ensures forall g :: g in groups ==> groups[g] == WithGrade(students, g) && groups[g] != []
  {
    keys := [];
    groups := map[];
    for i := 0 to |students|
      invariant Grouped(students, i, keys, groups)
    {
      AddToGroupStep(students, i, keys, groups);
      keys, groups := AddToGroup(keys, groups, students[i]).0, AddToGroup(keys, groups, students[i]).1;
    }
    assert students[..|students|] == students;
  }

  /** Every student lands in exactly the group of their grade. */
  lemma StudentInOneGroup(students: seq<Student>, s: Student, g: string)
    requires s in students
    ensures s in WithGrade(students, g) <==> g == s.grade
  {
  }

  /** The count reduction over the fruit names: each name's number of occurrences. */
  method CountOccurrences(fruits: seq<string>) returns (counter: map<string, nat>)
    ensures forall f :: f in counter <==> f in fruits
    ensures forall f :: f in counter ==> counter[f] == multiset(fruits)[f]
  {
    counter := map[];
    for i := 0 to |fruits|
      invariant forall f :: f in counter <==> f in fruits[..i]
      invariant forall f :: f in counter ==> counter[f] == multiset(fruits[..i])[f]
    {
      var fruit := fruits[i];
      assert fruits[..i + 1] == fruits[..i] + [fruit];
      var current := if fruit in counter then counter[fruit] else 0;
      if fruit !in counter {
        assert fruit !in fruits[..i];
      }
      counter := counter[fruit := current + 1];
    }
    assert fruits[..|fruits|] == fruits;
  }

  /** The script's fruits count to apple 3, banana 2, orange 1. */
  method CountSample() returns (counter: map<string, nat>)
    ensures counter == map["apple" := 3, "banana" := 2, "orange" := 1]
  {
    var fruits := ["apple", "banana", "apple", "orange", "banana", "apple"];
    counter := CountOccurrences(fruits);
    assert multiset(fruits)["apple"] == 3 && multiset(fruits)["banana"] == 2 && multiset(fruits)["orange"] == 1;
    assert "apple" in fruits && "banana" in fruits && "orange" in fruits;
    assert counter.Keys == {"apple", "banana", "orange"};
  }

  /** One person of the sorting example. */
  datatype Person = Person(name: string, age: int, city: string)

  /** The sort's comparator: by age, then by name. `localeCompare` stands for String.prototype.localeCompare,
      whose order depends on the locale. */
  function ComparePeople(localeCompare: (string, string) -> int, a: Person, b: Person): (r: int)
    ensures a.age < b.age ==> r < 0
    ensures a.age > b.age ==> r > 0
    ensures a.age == b.age ==> r == localeCompare(a.name, b.name)
  {
    if a.age != b.age then a.age - b.age else localeCompare(a.name, b.name)
  }

  /** A consistent name order makes the comparator one as well: swapping the arguments flips the sign. */
  lemma ComparePeopleAntisymmetric(localeCompare: (string, string) -> int, a: Person, b: Person)
    requires forall x, y :: localeCompare(x, y) < 0 <==> localeCompare(y, x) > 0
    ensures ComparePeople(localeCompare, a, b) < 0 <==> ComparePeople(localeCompare, b, a) > 0
  {
  }

  /** ... and it is transitive when the name order is. */
  lemma ComparePeopleTransitive(localeCompare: (string, string) -> int, a: Person, b: Person, c: Person)
    requires forall x, y, z :: localeCompare(x, y) <= 0 && localeCompare(y, z) <= 0 ==> localeCompare(x, z) <= 0
    requires ComparePeople(localeCompare, a, b) <= 0 && ComparePeople(localeCompare, b, c) <= 0
    ensures ComparePeople(localeCompare, a, c) <= 0
  {
  }

  /** Ordered by a comparator: no neighbour pair is out of order. */
  predicate SortedBy(localeCompare: (string, string) -> int, people: seq<Person>) {
    forall i :: 0 <= i < |people| - 1 ==> ComparePeople(localeCompare, people[i], people[i + 1]) <= 0
  }

  /** The script's people sorted: the two 25-year-olds by name, then the 30-year-old. */
  lemma SortSample(localeCompare: (string, string) -> int)
    requires localeCompare("김철수", "박민수") < 0
    ensures var sorted := [Person("김철수", 25, "서울"), Person("박민수", 25, "서울"), Person("이영희", 30, "부산")];
            && SortedBy(localeCompare, sorted)
            && multiset(sorted) == multiset([Person("김철수", 25, "서울"), Person("이영희", 30, "부산"), Person("박민수", 25, "서울")])
  {
  }
}

=== FILE: class_keyword.dfy ===
/** The classes of JavaScript/js-beginner/2_class_and_oop/1_class_keyword.js, each as a record and its
    methods as transitions: the throwing BankAccount, the validating Product, the chaining Calculator,
    the singleton Database and the shop's checkout. */
module ClassKeyword {
  import opened Common
  import opened JsValues
  import opened Shop

  /** A BankAccount: the public owner and the private balance and password. Amounts are integers. */
  datatype Account = Account(owner: string, balance: int, password: string)

  const WrongPassword := "비밀번호가 틀렸습니다."
  const DepositNotPositive := "입금액은 0보다 커야 합니다."
  const WithdrawNotPositive := "출금액은 0보다 커야 합니다."
  const Insufficient := "잔액이 부족합니다."

  /** deposit: a wrong password or an amount of 0 or less throws and changes nothing; otherwise the
      amount is added and the new balance returned. */
  function Deposit(acc: Account, amount: int, password: string): (r: Result<(Account, int)>)
    ensures r.Throws? <==> password != acc.password || amount <= 0
    ensures r.Throws? ==> r.error.message == (if password != acc.password then WrongPassword else DepositNotPositive)
    ensures r.Ok? ==> r.value.0 == acc.(balance := acc.balance + amount) && r.value.1 == r.value.0.balance
    ensures r.Ok? ==> r.value.0.balance > acc.balance
  {
    if password != acc.password then Throws(Exception("Error", WrongPassword))
    else if amount <= 0 then Throws(Exception("Error", DepositNotPositive))
    else
      var next := acc.(balance := acc.balance + amount);
      Ok((next, next.balance))
  }

  /** withdraw: a wrong password, an amount of 0 or less, or more than the balance throws and changes
      nothing; otherwise the amount is taken off, so the balance never goes below zero. */
  function Withdraw(acc: Account, amount: int, password: string): (r: Result<(Account, int)>)
    ensures r.Throws? <==> password != acc.password || amount <= 0 || acc.balance < amount
    ensures r.Throws? && password != acc.password ==> r.error.message == WrongPassword
    ensures r.Throws? && password == acc.password && amount <= 0 ==> r.error.message == WithdrawNotPositive
    ensures r.Throws? && password == acc.password && amount > 0 ==> r.error.message == Insufficient
    ensures r.Ok? ==> r.value.0 == acc.(balance := acc.balance - amount) && r.value.1 == r.value.0.balance
    ensures r.Ok? ==> 0 <= r.value.0.balance < acc.balance
  {
    if password != acc.password then Throws(Exception("Error", WrongPassword))
    else if amount <= 0 then Throws(Exception("Error", WithdrawNotPositive))
    else if acc.balance < amount then Throws(Exception("Error", Insufficient))
    else
      var next := acc.(balance := acc.balance - amount);
      Ok((next, next.balance))
  }

  /** getBalance: the balance, for the right password only. */
  function GetBalance(acc: Account, password: string): (r: Result<int>)
    ensures r.Ok? <==> password == acc.password
    ensures r.Ok? ==> r.value == acc.balance
  {
    if password != acc.password then Throws(Exception("Error", WrongPassword)) else Ok(acc.balance)
  }

  /** A withdrawal undoes a deposit of the same amount, and the other way round. */
  lemma DepositWithdrawInverse(acc: Account, amount: int)
    requires amount > 0 && acc.balance >= 0
    ensures Deposit(acc, amount, acc.password).Ok?
    ensures Withdraw(Deposit(acc, amount, acc.password).value.0, amount, acc.password).Ok?
    ensures Withdraw(Deposit(acc, amount, acc.password).value.0, amount, acc.password).value.0 == acc
    ensures acc.balance >= amount ==>
      Withdraw(acc, amount, acc.password).Ok?
      && Deposit(Withdraw(acc, amount, acc.password).value.0, amount, acc.password).value.0 == acc
  {
  }

  /** Starting from a non-negative balance, no successful deposit or withdrawal makes it negative. */
  lemma BalanceStaysNonNegative(acc: Account, amount: int, password: string)
    requires acc.balance >= 0
    ensures Deposit(acc, amount, password).Ok? ==> Deposit(acc, amount, password).value.0.balance >= 0
    ensures Withdraw(acc, amount, password).Ok? ==> Withdraw(acc, amount, password).value.0.balance >= 0
  {
  }

  /** The script's account: 10000, +5000 gives 15000, -3000 gives 12000, and the wrong password throws. */
  lemma AccountSample()
    ensures var a0 := Account("신재준", 10000, "1234");
      && Deposit(a0, 5000, "1234") == Ok((a0.(balance := 15000), 15000))
      && Withdraw(a0.(balance := 15000), 3000, "1234") == Ok((a0.(balance := 12000), 12000))
      && GetBalance(a0.(balance := 12000), "0000").Throws?
  {
  }

  /** A Product's private name and price. */
  datatype Product = Product(name: string, price: Number)

  const NameTooShort := "상품명은 공백 제외 2글자 이상이어야 합니다."
  const PriceNotNumber := "가격은 숫자여야 합니다."
  const PriceNegative := "가격은 0 이상이어야 합니다."

  /** The name setter's check: a string at least two UTF-16 code units long once trimmed. */
  predicate ValidName(value: JsValue) {
    value.Str? && Utf16Length(Trim(value.s)) >= 2
  }

  /** The price setter's check: a number that is not NaN and not below zero. */
  predicate ValidPrice(value: JsValue) {
    value.Num? && !value.n.NaN? && !NumberLess(value.n, Finite(0.0))
  }

  /** `set name`: stores the trimmed string, or throws and keeps the old name (`typeof value` must be
      'string'). */
  function SetName(p: Product, value: JsValue): (r: Result<Product>)
    ensures r.Ok? <==> ValidName(value)
    ensures r.Ok? ==> r.value == p.(name := Trim(value.s))
    ensures r.Throws? ==> r.error.message == NameTooShort
  {
    if !value.Str? || Utf16Length(Trim(value.s)) < 2 then Throws(Exception("Error", NameTooShort))
    else Ok(p.(name := Trim(value.s)))
  }

  /** `set price`: a non-number (by `typeof`) or NaN and a negative number are refused with their own
      messages. */
  function SetPrice(p: Product, value: JsValue): (r: Result<Product>)
    ensures r.Ok? <==> ValidPrice(value)
    ensures r.Ok? ==> r.value == p.(price := value.n)
    ensures r.Throws? ==> r.error.message == (if value.Num? && !value.n.NaN? then PriceNegative else PriceNotNumber)
  {
    if !value.Num? || value.n.NaN? then Throws(Exception("Error", PriceNotNumber))
    else if NumberLess(value.n, Finite(0.0)) then Throws(Exception("Error", PriceNegative))
    else Ok(p.(price := value.n))
  }

  /** The constructor: both fields go through their setters, the name first. */
  function NewProduct(name: JsValue, price: JsValue): (r: Result<Product>)
    ensures r.Ok? <==> ValidName(name) && ValidPrice(price)
    ensures r.Ok? ==> r.value == Product(Trim(name.s), price.n)
    ensures !ValidName(name) ==> r.Throws? && r.error.message == NameTooShort
  {
    match SetName(Product("", NaN), name)
    case Throws(e) => Throws(e)
    case Ok(p) => SetPrice(p, price)
  }

  /** A stored name is its own trimmed form: assigning it back changes nothing. */
  lemma SetNameIdempotent(p: Product, value: JsValue)
    requires SetName(p, value).Ok?
    ensures SetName(SetName(p, value).value, Str(SetName(p, value).value.name)) == SetName(p, value)
  {
    TrimIdempotent(value.s);
  }

  /** The script's product: '노트북' at 1500000, then 1600000. */
  lemma ProductSample()
    ensures NewProduct(Str("노트북"), Int(1500000)) == Ok(Product("노트북", Finite(1500000.0)))
    ensures SetPrice(Product("노트북", Finite(1500000.0)), Int(1600000)) == Ok(Product("노트북", Finite(1600000.0)))
  {
    NewProductOfTrimmed("노트북", 1500000);
  }

  /** A name with no white space at either end and a non-negative price are stored as given. */
  lemma NewProductOfTrimmed(name: string, price: int)
    requires |name| >= 2 && !IsTrimmable(name[0]) && !IsTrimmable(name[|name| - 1]) && price >= 0
    ensures NewProduct(Str(name), Int(price)) == Ok(Product(name, Finite(price as real)))
  {
    TrimNoChange(name);
  }

  /** The two assignments the script leaves commented out, '컴' and -1, would throw. */
  lemma ProductRejects(p: Product)
    ensures SetName(p, Str("컴")).Throws?
    ensures SetPrice(p, Int(-1)).Throws? && SetPrice(p, Int(-1)).error.message == PriceNegative
  {
    Utf16LengthOfBmp("컴");
    ShortNameRejected(p, "컴");
  }

  /** Trimming never lengthens a string, so a name shorter than two code units cannot pass. */
  lemma ShortNameRejected(p: Product, s: string)
    requires Utf16Length(s) < 2
    ensures SetName(p, Str(s)).Throws?
  {
    TrimShortens(s);
  }

  /** `.length` counts code units: a single character beyond U+FFFF, such as an emoji, is long enough
      to be a name, while a single Hangul syllable is not. */
  lemma SurrogatePairNameAccepted(p: Product)
    ensures SetName(p, Str("\U{1F600}")) == Ok(p.(name := "\U{1F600}"))
    ensures SetName(p, Str("컴")).Throws?
  {
    TrimNoChange("\U{1F600}");
    assert Utf16Length("\U{1F600}") == Utf16Length([]) + 2;
    Utf16LengthOfBmp("컴");
    ShortNameRejected(p, "컴");
  }

  /** The Calculator's private value. Arithmetic is exact here; floating-point rounding is not part of
      this model. */
  datatype Calculator = Calculator(value: real)

  /** `new Calculator(initialValue = 0)`: the given value, or 0 when the argument is left out. */
  function NewCalculator(initialValue: Option<real>): (c: Calculator)
    ensures initialValue.Some? ==> c.value == initialValue.value
    ensures initialValue.None? ==> c.value == 0.0
  {
    Calculator(initialValue.GetOr(0.0))
  }

  /** A calculator made without an argument is the one reset gives, whatever the value before. */
  lemma DefaultCalculatorIsReset(c: Calculator)
    ensures NewCalculator(None) == Reset(c)
    ensures Add(NewCalculator(None), c.value) == c
  {
  }

  /** add: the value grows by the argument. */
  function Add(c: Calculator, num: real): (r: Calculator)
    ensures r.value - num == c.value
  {
    c.(value := c.value + num)
  }

  /** subtract: the value shrinks by the argument. */
  function Subtract(c: Calculator, num: real): (r: Calculator)
    ensures r.value + num == c.value
  {
    c.(value := c.value - num)
  }

  /** multiply: the value is scaled by the argument; multiplying by 0 loses it. */
  function Multiply(c: Calculator, num: real): (r: Calculator)
    ensures num != 0.0 ==> r.value / num == c.value
    ensures num == 0.0 ==> r.value == 0.0
  {
    c.(value := c.value * num)
  }
  function Reset(c: Calculator): (r: Calculator)
    ensures r.value == 0.0
  {
    Calculator(0.0)
  }

  const DivideByZero := "0으로 나눌 수 없습니다."

  /** divide: 0 throws before the value is touched. */
  function Divide(c: Calculator, num: real): (r: Result<Calculator>)
    ensures r.Throws? <==> num == 0.0
    ensures r.Throws? ==> r.error.message == DivideByZero
    ensures r.Ok? ==> r.value.value * num == c.value
  {
    if num == 0.0 then Throws(Exception("Error", DivideByZero)) else Ok(c.(value := c.value / num))
  }

  /** Subtracting undoes adding, and dividing by a non-zero number undoes multiplying by it. */
  lemma CalculatorInverses(c: Calculator, num: real)
    ensures Subtract(Add(c, num), num) == c
    ensures num != 0.0 ==> Divide(Multiply(c, num), num) == Ok(c)
  {
    if num != 0.0 {
      var m := Multiply(c, num);
      MultiplyDivide(c.value, num);
      assert Divide(m, num) == Ok(m.(value := m.value / num));
      assert m.(value := m.value / num) == c;
    }
  }

  lemma MultiplyDivide(x: real, num: real)
    requires num != 0.0
    ensures x * num / num == x
  {
  }

  /** The script's chains: 10 +5 ×2 −10 ÷2 gives 10; reset +100 ×2 ÷4 gives 50. */
  lemma CalculatorSample()
    ensures Divide(Subtract(Multiply(Add(Calculator(10.0), 5.0), 2.0), 10.0), 2.0) == Ok(Calculator(10.0))
    ensures Divide(Multiply(Add(Reset(Calculator(10.0)), 100.0), 2.0), 4.0) == Ok(Calculator(50.0))
  {
  }

  /** The Database objects made so far: the static instance slot, each object's private `connected`
      flag by address, and the next free address. */
  datatype DbWorld = DbWorld(instance: Option<nat>, connected: map<nat, bool>, next: nat)

  /** The slot, when set, names an allocated object, and every address is below `next`. */
  predicate DbOk(w: DbWorld) {
    (w.instance.Some? ==> w.instance.value in w.connected) && forall a :: a in w.connected ==> a < w.next
  }

  /** `new Database()`: a fresh object is made; when the slot is already set the constructor returns the
      stored instance instead, otherwise the fresh object goes into the slot. */
  function NewDatabase(w: DbWorld): (r: (DbWorld, nat))
    requires DbOk(w)
    ensures DbOk(r.0) && r.0.instance == Some(r.1) && r.1 in r.0.connected
    ensures w.instance.Some? ==> r.1 == w.instance.value
    ensures w.instance.None? ==> r.1 !in w.connected && !r.0.connected[r.1]
    ensures forall a :: a in w.connected ==> a in r.0.connected && r.0.connected[a] == w.connected[a]
  {
    var made := w.(connected := w.connected[w.next := false], next := w.next + 1);
    if w.instance.Some? then (made, w.instance.value) else (made.(instance := Some(w.next)), w.next)
  }

  /** getInstance: the stored instance, made on first use. */
  function GetInstance(w: DbWorld): (r: (DbWorld, nat))
    requires DbOk(w)
    ensures DbOk(r.0) && r.0.instance == Some(r.1) && r.1 in r.0.connected
    ensures w.instance.Some? ==> r == (w, w.instance.value)
    ensures forall a :: a in w.connected ==> a in r.0.connected && r.0.connected[a] == w.connected[a]
  {
    if w.instance.None? then NewDatabase(w) else (w, w.instance.value)
  }

  const AlreadyConnected := "이미 연결되어 있습니다."
  const Connected := "✅ 데이터베이스 연결 성공"

  /** connect on the object at `db`: sets the flag the first time; later calls only report. */
  function Connect(w: DbWorld, db: nat): (r: (DbWorld, string))
    requires db in w.connected
    ensures w.connected[db] ==> r == (w, AlreadyConnected)
    ensures !w.connected[db] ==> r == (w.(connected := w.connected[db := true]), Connected)
  {
    if w.connected[db] then (w, AlreadyConnected) else (w.(connected := w.connected[db := true]), Connected)
  }

  /** There is one instance: getInstance, called again or after `new`, hands back the same object, and
      connecting twice changes nothing the second time. */
  lemma SingletonFacts(w: DbWorld)
    requires DbOk(w)
    ensures var (w1, a) := GetInstance(w);
      && GetInstance(w1) == (w1, a)
      && NewDatabase(w1).1 == a
    ensures var (w1, a) := GetInstance(w);
      var (w2, _) := Connect(w1, a);
      a in w2.connected && w2.connected[a] && Connect(w2, a) == (w2, AlreadyConnected)
  {
  }

  /** The script's sample: db1 and db2 are the same object, so connecting db1 shows on db2. */
  lemma DatabaseSample()
    ensures var (w1, db1) := GetInstance(DbWorld(None, map[], 0));
      var (w2, db2) := GetInstance(w1);
      var (w3, msg) := Connect(w2, db1);
      && db1 == db2 && msg == Connected && db2 in w3.connected && w3.connected[db2]
  {
  }

  /** checkout: an empty cart answers `{ success: false, error }` and stays as it is; otherwise the
      stock is taken line by line, refusing quantities of 0 or less. */
  method Checkout(lines: seq<Line>) returns (cart: seq<Line>, reply: CheckoutReply)
    ensures lines == [] ==> cart == [] && reply == Failed(EmptyCart)
    ensures reply.Paid? ==> lines != [] && cart == [] && reply.receipt.items == Decremented(lines)
    ensures reply.Paid? ==> reply.receipt.totalPrice == TotalPrice(lines) && reply.receipt.itemCount == ItemCount(lines)
    ensures lines != [] ==> (reply.Paid? <==> forall i :: 0 <= i < |lines| ==> DecreaseStock(lines[i].product, lines[i].quantity, true).Ok?)
    ensures reply.Failed? && lines != [] ==> exists k :: StoppedAt(lines, cart, reply.error, k, true)
  {
    if |lines| == 0 {
      return lines, Failed(EmptyCart);
    }
    cart, reply := CheckoutLines(lines, true);
  }

  /** The script's cart: two laptops, a mouse and one more laptop make one laptop line of 3 and a mouse
      line of 1, 4 items for 4,530,000; checkout leaves 7 laptops and 49 mice. */
  method ShopSample() returns (reply: CheckoutReply)
    ensures reply.Paid? && reply.receipt.itemCount == 4 && reply.receipt.totalPrice == 4530000
    ensures reply.Paid? && |reply.receipt.items| == 2
    ensures reply.receipt.items[0].product.stock == 7 && reply.receipt.items[1].product.stock == 49
  {
    var laptop := ShopProduct("p1", "노트북", 1500000, 10);
    var mouse := ShopProduct("p2", "마우스", 30000, 50);
    var lines := AddItem([], laptop, 2).0;
    lines := AddItem(lines, mouse, 1).0;
    lines := AddItem(lines, laptop, 1).0;
    AddTwiceOnce(laptop, mouse, 2, 1, 1);
    TwoLineTotals(Line(laptop, 3), Line(mouse, 1));
    var cart;
    cart, reply := Checkout(lines);
  }
}

=== FILE: class_keyword_basics.dfy ===
/** The classes of js-beginner/2_class_and_oop/1_class_keyword.js. They share their shapes with the
    JavaScript/ version of the script but answer with message strings instead of throwing, and check
    less: deposit takes any amount, the setters only log a refusal, divide by zero is skipped. */
module ClassKeywordBasics {
  import opened Common
  import opened Shop
  import ClassKeyword

  type Account = ClassKeyword.Account

  const WrongPassword := "❌ 비밀번호가 틀렸습니다."
  const Insufficient := "❌ 잔액이 부족합니다."

  /** The message of an accepted deposit or withdrawal: the amount and the new balance in won. */
  function DoneMessage(amount: int, action: string, balance: int): string {
    "✅ " + IntToString(amount) + "원 " + action + " 완료. 잔액: " + IntToString(balance) + "원"
  }

  /** deposit: a wrong password is reported and changes nothing; otherwise the amount is added, whatever
      its sign. */
  function Deposit(acc: Account, amount: int, password: string): (r: (Account, string))
    ensures password != acc.password ==> r == (acc, WrongPassword)
    ensures password == acc.password ==>
      r.0 == acc.(balance := acc.balance + amount) && r.1 == DoneMessage(amount, "입금", r.0.balance)
  {
    if password != acc.password then (acc, WrongPassword)
    else
      var next := acc.(balance := acc.balance + amount);
      (next, DoneMessage(amount, "입금", next.balance))
  }

  /** withdraw: a wrong password or an amount above the balance is reported and changes nothing;
      otherwise the amount is taken off, and the balance left is never negative. */
  function Withdraw(acc: Account, amount: int, password: string): (r: (Account, string))
    ensures password != acc.password ==> r == (acc, WrongPassword)
    ensures password == acc.password && acc.balance < amount ==> r == (acc, Insufficient)
    ensures password == acc.password && acc.balance >= amount ==>
      r.0 == acc.(balance := acc.balance - amount) && r.0.balance >= 0 && r.1 == DoneMessage(amount, "출금", r.0.balance)
  {
    if password != acc.password then (acc, WrongPassword)
    else if acc.balance < amount then (acc, Insufficient)
    else
      var next := acc.(balance := acc.balance - amount);
      (next, DoneMessage(amount, "출금", next.balance))
  }

  /** getBalance: the balance as a message, for the right password only. */
  function GetBalance(acc: Account, password: string): (r: string)
    ensures password != acc.password <==> r == WrongPassword
    ensures password == acc.password ==> |r| > |BalancePrefix| && r[..|BalancePrefix|] == BalancePrefix && r[|r| - 1] == '원'
  {
    if password != acc.password then WrongPassword
    else
      var s := BalancePrefix + IntToString(acc.balance) + "원";
      assert s[0] == '현' != WrongPassword[0];
      s
  }

  const BalancePrefix := "현재 잔액: "

  /** The right password's answer holds the balance in decimal between the prefix and '원'. */
  lemma GetBalanceShowsBalance(acc: Account)
    ensures var r := GetBalance(acc, acc.password);
      |r| > |BalancePrefix| && r[|BalancePrefix|..|r| - 1] == IntToString(acc.balance)
  {
  }

  /** The answer gives the balance back: two accounts answering alike hold the same balance. */
  lemma GetBalanceReadsBack(a: Account, b: Account)
    requires GetBalance(a, a.password) == GetBalance(b, b.password)
    ensures a.balance == b.balance
  {
    GetBalanceShowsBalance(a);
    GetBalanceShowsBalance(b);
    IntToStringInjective(a.balance, b.balance);
  }

  /** With no sign check, a deposit is undone by a withdrawal of the same amount and vice versa, and a
      negative "withdrawal" raises the balance. */
  lemma DepositWithdrawInverse(acc: Account, amount: int)
    requires acc.balance >= 0 && amount >= 0
    ensures Withdraw(Deposit(acc, amount, acc.password).0, amount, acc.password).0 == acc
    ensures Withdraw(acc, -amount, acc.password).0.balance == acc.balance + amount
  {
  }

  /** The script's account: 10000, +5000, -3000 leaves 12000; the wrong password changes nothing. */
  lemma AccountSample()
    ensures var a0 := ClassKeyword.Account("신재준", 10000, "1234");
      var a1 := Deposit(a0, 5000, "1234").0;
      var a2 := Withdraw(a1, 3000, "1234").0;
      && a2.balance == 12000
      && Withdraw(a2, 3000, "wrong") == (a2, WrongPassword)
  {
  }

  /** This script's Product: the constructor stores its arguments unchecked. */
  datatype Product = Product(name: string, price: int)

  /** `set price`: a negative value is refused (logged) and the old price kept. */
  function SetPrice(p: Product, value: int): (r: Product)
    ensures value < 0 ==> r == p
    ensures value >= 0 ==> r == p.(price := value)
  {
    if value < 0 then p else p.(price := value)
  }

  /** `set name`: a name shorter than two UTF-16 code units is refused (logged) and the old name kept. */
  function SetName(p: Product, value: string): (r: Product)
    ensures Utf16Length(value) < 2 ==> r == p
    ensures Utf16Length(value) >= 2 ==> r == p.(name := value)
  {
    if Utf16Length(value) < 2 then p else p.(name := value)
  }

  /** Each setter either changes only its own field or nothing, and setting the current value is a
      no-op. */
  lemma SettersTouchOneField(p: Product, price: int, name: string)
    ensures SetPrice(p, price).name == p.name && SetName(p, name).price == p.price
    ensures p.price >= 0 ==> SetPrice(p, p.price) == p
    ensures SetName(p, p.name) == p
  {
  }

  /** The script's laptop: 1600000 is taken, -1000 is not, and '컴' is too short to be taken. */
  lemma ProductSample()
    ensures var laptop := SetPrice(Product("노트북", 1500000), 1600000);
      && laptop == Product("노트북", 1600000)
      && SetPrice(laptop, -1000) == laptop
      && SetName(SetPrice(laptop, -1000), "컴") == laptop
  {
    Utf16LengthOfBmp("컴");
  }

  /** divide: dividing by zero is reported and the value left as it is. */
  function Divide(c: ClassKeyword.Calculator, num: real): (r: ClassKeyword.Calculator)
    ensures num == 0.0 ==> r == c
    ensures num != 0.0 ==> r.value * num == c.value
  {
    if num == 0.0 then c else c.(value := c.value / num)
  }

  /** This divide agrees with the throwing one wherever that one returns. */
  lemma DivideAgrees(c: ClassKeyword.Calculator, num: real)
    ensures ClassKeyword.Divide(c, num).Ok? ==> ClassKeyword.Divide(c, num).value == Divide(c, num)
    ensures ClassKeyword.Divide(c, num).Throws? ==> Divide(c, num) == c
  {
  }

  /** The script's chains give 10 and 50, and dividing by zero on the way would change nothing. */
  lemma CalculatorSample()
    ensures Divide(ClassKeyword.Subtract(ClassKeyword.Multiply(ClassKeyword.Add(ClassKeyword.Calculator(10.0), 5.0), 2.0), 10.0), 2.0)
            == ClassKeyword.Calculator(10.0)
    ensures Divide(ClassKeyword.Multiply(ClassKeyword.Add(ClassKeyword.Reset(ClassKeyword.Calculator(10.0)), 100.0), 2.0), 4.0)
            == ClassKeyword.Calculator(50.0)
    ensures Divide(ClassKeyword.Calculator(10.0), 0.0) == ClassKeyword.Calculator(10.0)
  {
  }

  /** disconnect: clears the object's flag. */
  function Disconnect(w: ClassKeyword.DbWorld, db: nat): (r: (ClassKeyword.DbWorld, string))
    requires db in w.connected
    ensures db in r.0.connected && !r.0.connected[db]
    ensures forall a :: a in w.connected && a != db ==> a in r.0.connected && r.0.connected[a] == w.connected[a]
    ensures r.0.connected.Keys == w.connected.Keys && r.0.instance == w.instance
  {
    (w.(connected := w.connected[db := false]), "✅ 연결 해제")
  }

  /** isConnected follows the last transition: true after connect (whether or not it was already
      connected), false after disconnect; connect after disconnect connects afresh. */
  lemma ConnectionFollowsLastCall(w: ClassKeyword.DbWorld, db: nat)
    requires db in w.connected
    ensures ClassKeyword.Connect(w, db).0.connected[db]
    ensures !Disconnect(w, db).0.connected[db]
    ensures ClassKeyword.Connect(Disconnect(w, db).0, db).1 == ClassKeyword.Connected
  {
  }

  /** The script's sample: db1 connects, db2 (the same object) is told it is already connected, and both
      report connected. */
  lemma DatabaseSample()
    ensures var (w1, db1) := ClassKeyword.GetInstance(ClassKeyword.DbWorld(None, map[], 0));
      var (w2, db2) := ClassKeyword.GetInstance(w1);
      var (w3, m1) := ClassKeyword.Connect(w2, db1);
      var (w4, m2) := ClassKeyword.Connect(w3, db2);
      && db1 == db2 && m1 == ClassKeyword.Connected && m2 == ClassKeyword.AlreadyConnected
      && db1 in w4.connected && w4.connected[db1]
  {
  }

  /** checkout: an empty cart answers with a bare message string; otherwise the stock is taken line by
      line, with no check on the quantity's sign. */
  method Checkout(lines: seq<Line>) returns (cart: seq<Line>, reply: CheckoutReply)
    ensures lines == [] ==> cart == [] && reply == Message("❌ " + EmptyCart)
    ensures reply.Paid? ==> lines != [] && cart == [] && reply.receipt.items == Decremented(lines)
    ensures reply.Paid? ==> reply.receipt.totalPrice == TotalPrice(lines) && reply.receipt.itemCount == ItemCount(lines)
    ensures lines != [] ==> (reply.Paid? <==> forall i :: 0 <= i < |lines| ==> lines[i].quantity <= lines[i].product.stock)
    ensures reply.Failed? ==> exists k :: StoppedAt(lines, cart, reply.error, k, false)
  {
    if |lines| == 0 {
      return lines, Message("❌ " + EmptyCart);
    }
    cart, reply := CheckoutLines(lines, false);
  }

  /** The script's cart: checkout leaves 7 laptops (10 - 3) and 49 mice (50 - 1). */
  method ShopSample() returns (reply: CheckoutReply)
    ensures reply.Paid? && |reply.receipt.items| == 2 && reply.receipt.itemCount == 4
    ensures reply.receipt.items[0].product.stock == 7 && reply.receipt.items[1].product.stock == 49
  {
    var laptop := ShopProduct("p1", "노트북", 1500000, 10);
    var mouse := ShopProduct("p2", "마우스", 30000, 50);
    var lines := AddItem([], laptop, 2).0;
    lines := AddItem(lines, mouse, 1).0;
    lines := AddItem(lines, laptop, 1).0;
    AddTwiceOnce(laptop, mouse, 2, 1, 1);
    TwoLineTotals(Line(laptop, 3), Line(mouse, 1));
    assert FindLine(lines, "p3") == -1;
    assert RemoveItem(lines, "p3").0 == lines;
    var cart;
    cart, reply := Checkout(lines);
  }
}

=== FILE: class_problem.dfy ===
/** Country.fromData of js-beginner/2_class_and_oop/6_class_problem.js: one call turns a nested record
    of a country, its groups and their members into a Country of IdolGroups of Idols, choosing the
    member class from the group's gender. */
module ClassProblem {
  import opened Common
  import opened JsValues

  // ---------------------------------------------------------------- the raw record

  /** A member record: null or undefined, or an object whose name and birth are read (a missing one
      reads as undefined). */
  datatype MemberData = NoMember | MemberData(name: JsValue, birth: JsValue)

  /** A group record: null or undefined, or an object with a group name, a gender and a members list;
      `members` is None when that property is not an array, so has no `map` to call. */
  datatype GroupData = NoGroup | GroupData(groupName: JsValue, gender: JsValue, members: Option<seq<MemberData>>)

  /** The whole record, shaped like the same three levels. */
  datatype CountryData = NoData | CountryData(country: JsValue, groups: Option<seq<GroupData>>)

  // ---------------------------------------------------------------- the classes

  /** An Idol made by `new FemaleIdol(name, birth)` or `new MaleIdol(name, birth)`. */
  datatype Idol = FemaleIdol(name: JsValue, birth: JsValue) | MaleIdol(name: JsValue, birth: JsValue)

  datatype IdolGroup = IdolGroup(name: JsValue, members: seq<Idol>)

  datatype Country = Country(name: JsValue, idolGroups: seq<IdolGroup>)

  const ReadOfNullish := "Cannot read properties of null or undefined"
  const MapNotAFunction := "map is not a function"

  /** `groupData.gender === 'female'`. */
  predicate IsFemale(gender: JsValue) {
    StrictEquals(gender, Str("female"))
  }

  /** The idol a member record becomes in a group of the given gender. */
  predicate Made(gender: JsValue, m: MemberData, i: Idol) {
    m.MemberData? && i.name == m.name && i.birth == m.birth && (i.FemaleIdol? <==> IsFemale(gender))
  }

  /** The callback of `groupData.members.map`: the gender decides the class, then the member's name
      and birth are read, which throws for a null or undefined member. */
  function MakeIdol(gender: JsValue, m: MemberData): (r: Result<Idol>)
    ensures r.Ok? <==> m.MemberData?
    ensures r.Ok? ==> Made(gender, m, r.value)
    ensures r.Throws? ==> r.error.name == "TypeError"
  {
    var female := IsFemale(gender);
    match m
    case NoMember => Throws(Exception("TypeError", ReadOfNullish))
    case MemberData(name, birth) => Ok(if female then FemaleIdol(name, birth) else MaleIdol(name, birth))
  }

  /** A members list with no null or undefined record. */
  predicate MembersShaped(ms: seq<MemberData>) {
    forall i :: 0 <= i < |ms| ==> ms[i].MemberData?
  }

  /** `groupData.members.map(...)`: one idol per record, in order; the first null or undefined record
      ends the map with its TypeError. */
  function MembersOf(gender: JsValue, ms: seq<MemberData>): (r: Result<seq<Idol>>)
    ensures r.Ok? <==> MembersShaped(ms)
    ensures r.Ok? ==> |r.value| == |ms| && forall i :: 0 <= i < |ms| ==> Made(gender, ms[i], r.value[i])
    ensures r.Throws? ==> r.error.name == "TypeError"
  {
    if ms == [] then Ok([])
    else
      match MakeIdol(gender, ms[0])
      case Throws(e) => Throws(e)
      case Ok(first) =>
        match MembersOf(gender, ms[1..])
        case Throws(e) => Throws(e)
        case Ok(rest) => Ok([first] + rest)
  }

  /** A group record fromData can convert: an object whose members are an array of records. */
  predicate GroupShaped(g: GroupData) {
    g.GroupData? && g.members.Some? && MembersShaped(g.members.value)
  }

  /** The group a group record becomes: the same name and one idol per member record. */
  predicate GroupMade(g: GroupData, x: IdolGroup) {
    && GroupShaped(g)
    && x.name == g.groupName
    && |x.members| == |g.members.value|
    && forall i :: 0 <= i < |x.members| ==> Made(g.gender, g.members.value[i], x.members[i])
  }

  /** The callback of `data.groups.map`: the members first, then `new IdolGroup(groupData.groupName,
      members)`. */
  function GroupOf(g: GroupData): (r: Result<IdolGroup>)
    ensures r.Ok? <==> GroupShaped(g)
    ensures r.Ok? ==> GroupMade(g, r.value)
    ensures r.Throws? ==> r.error.name == "TypeError"
  {
    match g
    case NoGroup => Throws(Exception("TypeError", ReadOfNullish))
    case GroupData(groupName, gender, members) =>
      if members.None? then Throws(Exception("TypeError", MapNotAFunction))
      else
        match MembersOf(gender, members.value)
        case Throws(e) => Throws(e)
        case Ok(idols) => Ok(IdolGroup(groupName, idols))
  }

  predicate GroupsShaped(gs: seq<GroupData>) {
    forall i :: 0 <= i < |gs| ==> GroupShaped(gs[i])
  }

  /** `data.groups.map(...)`: one group per record, in order, the first failure ending the map. */
  function GroupsOf(gs: seq<GroupData>): (r: Result<seq<IdolGroup>>)
    ensures r.Ok? <==> GroupsShaped(gs)
    ensures r.Ok? ==> |r.value| == |gs| && forall i :: 0 <= i < |gs| ==> GroupMade(gs[i], r.value[i])
    ensures r.Throws? ==> r.error.name == "TypeError"
  {
    if gs == [] then Ok([])
    else
      match GroupOf(gs[0])
      case Throws(e) => Throws(e)
      case Ok(first) =>
        match GroupsOf(gs[1..])
        case Throws(e) => Throws(e)
        case Ok(rest) => Ok([first] + rest)
  }

  /** A record fromData converts without throwing. */
  predicate DataShaped(d: CountryData) {
    d.CountryData? && d.groups.Some? && GroupsShaped(d.groups.value)
  }

  /** Country.fromData: the groups, then `new Country(data.country, groups)`. Every failure is a
      TypeError: a null or undefined record at any level, or a groups or members value that is not an
      array. */
  function FromData(d: CountryData): (r: Result<Country>)
    ensures r.Ok? <==> DataShaped(d)
    ensures r.Throws? ==> r.error.name == "TypeError"
    ensures r.Ok? ==> && r.value.name == d.country
                      && |r.value.idolGroups| == |d.groups.value|
                      && forall i :: 0 <= i < |d.groups.value| ==> GroupMade(d.groups.value[i], r.value.idolGroups[i])
  {
    match d
    case NoData => Throws(Exception("TypeError", ReadOfNullish))
    case CountryData(country, groups) =>
      if groups.None? then Throws(Exception("TypeError", MapNotAFunction))
      else
        match GroupsOf(groups.value)
        case Throws(e) => Throws(e)
        case Ok(idolGroups) => Ok(Country(country, idolGroups))
  }

  // ---------------------------------------------------------------- back to the record

  /** A group whose members are all of one class, as every group fromData builds is. */
  predicate Uniform(g: IdolGroup) {
    (forall i :: 0 <= i < |g.members| ==> g.members[i].FemaleIdol?)
    || (forall i :: 0 <= i < |g.members| ==> g.members[i].MaleIdol?)
  }

  /** The record of an idol: its name and birth. */
  function MemberRecord(i: Idol): MemberData {
    MemberData(i.name, i.birth)
  }

  /** The record of a group: 'female' when its first member is a FemaleIdol, else 'male'. */
  function GroupRecord(g: IdolGroup): GroupData {
    var gender := if |g.members| > 0 && g.members[0].FemaleIdol? then Str("female") else Str("male");
    GroupData(g.name, gender, Some(seq(|g.members|, i requires 0 <= i < |g.members| => MemberRecord(g.members[i]))))
  }

  /** The record of a country. */
  function CountryRecord(c: Country): CountryData {
    CountryData(c.name, Some(seq(|c.idolGroups|, i requires 0 <= i < |c.idolGroups| => GroupRecord(c.idolGroups[i]))))
  }

  /** Every group fromData builds is uniform: the group's gender decides every member's class. */
  lemma FromDataGroupsUniform(d: CountryData)
    requires FromData(d).Ok?
    ensures forall k :: 0 <= k < |FromData(d).value.idolGroups| ==> Uniform(FromData(d).value.idolGroups[k])
  {
    var c := FromData(d).value;
    forall k | 0 <= k < |c.idolGroups|
      ensures Uniform(c.idolGroups[k])
    {
      var g := d.groups.value[k];
      assert GroupMade(g, c.idolGroups[k]);
      if !IsFemale(g.gender) {
        assert forall i :: 0 <= i < |c.idolGroups[k].members| ==> Made(g.gender, g.members.value[i], c.idolGroups[k].members[i]);
      }
    }
  }

  /** Writing a group back as a record loses nothing when it is uniform. */
  lemma GroupRoundTrip(g: IdolGroup)
    requires Uniform(g)
    ensures GroupOf(GroupRecord(g)) == Ok(g)
  {
    var rec := GroupRecord(g);
    assert GroupShaped(rec);
    var x := GroupOf(rec).value;
    assert |x.members| == |g.members|;
    assert |g.members| > 0 && g.members[0].MaleIdol? ==> forall i :: 0 <= i < |g.members| ==> g.members[i].MaleIdol?;
    forall i | 0 <= i < |g.members|
      ensures x.members[i] == g.members[i]
    {
      assert Made(rec.gender, rec.members.value[i], x.members[i]);
      assert g.members[i].FemaleIdol? <==> IsFemale(rec.gender);
    }
    assert x.members == g.members;
  }

  /** fromData inverts the writing of a country whose groups are uniform: the record of such a country
      converts back into the same country. */
  lemma FromDataRoundTrip(c: Country)
    requires forall k :: 0 <= k < |c.idolGroups| ==> Uniform(c.idolGroups[k])
    ensures FromData(CountryRecord(c)) == Ok(c)
  {
    var d := CountryRecord(c);
    forall k | 0 <= k < |c.idolGroups|
      ensures GroupShaped(d.groups.value[k]) && GroupOf(d.groups.value[k]) == Ok(c.idolGroups[k])
    {
      GroupRoundTrip(c.idolGroups[k]);
    }
    var x := FromData(d).value;
    forall k | 0 <= k < |c.idolGroups|
      ensures x.idolGroups[k] == c.idolGroups[k]
    {
      GroupMadeUnique(d.groups.value[k], x.idolGroups[k], c.idolGroups[k]);
    }
    assert x.idolGroups == c.idolGroups;
  }

  /** A group record makes exactly one group. */
  lemma GroupMadeUnique(g: GroupData, x: IdolGroup, y: IdolGroup)
    requires GroupMade(g, x) && GroupOf(g) == Ok(y)
    ensures x == y
  {
    forall i | 0 <= i < |x.members|
      ensures x.members[i] == y.members[i]
    {
      assert Made(g.gender, g.members.value[i], x.members[i]);
      assert Made(g.gender, g.members.value[i], y.members[i]);
    }
  }

  // ---------------------------------------------------------------- the subclasses' methods

  const SingSuffix := "이(가) 노래를 부릅니다 🎤"
  const DanceSuffix := "이(가) 춤을 춥니다 💃"

  /** `idol.sing()`: only a MaleIdol has it; on a FemaleIdol the call is a TypeError. `show` stands for
      the template literal's conversion of the name. */
  function Sing(i: Idol, show: JsValue -> string): (r: Result<string>)
    ensures r.Ok? <==> i.MaleIdol?
    ensures r.Ok? ==> r.value == show(i.name) + SingSuffix
  {
    if i.MaleIdol? then Ok(show(i.name) + SingSuffix) else Throws(Exception("TypeError", "sing is not a function"))
  }

  /** `idol.dance()`: only a FemaleIdol has it. */
  function Dance(i: Idol, show: JsValue -> string): (r: Result<string>)
    ensures r.Ok? <==> i.FemaleIdol?
    ensures r.Ok? ==> r.value == show(i.name) + DanceSuffix
  {
    if i.FemaleIdol? then Ok(show(i.name) + DanceSuffix) else Throws(Exception("TypeError", "dance is not a function"))
  }

  /** In a country fromData built, every member of a 'female' group can dance and every member of any
      other group can sing, and never the other way round. */
  lemma GenderDecidesMethods(d: CountryData, k: nat, i: nat, show: JsValue -> string)
    requires FromData(d).Ok? && k < |FromData(d).value.idolGroups| && i < |FromData(d).value.idolGroups[k].members|
    ensures var idol := FromData(d).value.idolGroups[k].members[i];
      && (Dance(idol, show).Ok? <==> IsFemale(d.groups.value[k].gender))
      && (Sing(idol, show).Ok? <==> !IsFemale(d.groups.value[k].gender))
  {
    var g := d.groups.value[k];
    assert GroupMade(g, FromData(d).value.idolGroups[k]);
    assert Made(g.gender, g.members.value[i], FromData(d).value.idolGroups[k].members[i]);
  }

  /** Members of the script's record, in order. */
  function IveMembers(): seq<MemberData> {
    [ MemberData(Str("가을"), Str("2002-09-24")), MemberData(Str("안유진"), Str("2003-09-01")),
      MemberData(Str("레이"), Str("2004-02-03")), MemberData(Str("장원영"), Str("2004-08-31")),
      MemberData(Str("리즈"), Str("2004-11-21")), MemberData(Str("이서"), Str("2007-02-21")) ]
  }

  function BtsMembers(): seq<MemberData> {
    [ MemberData(Str("RM"), Str("1994-09-12")), MemberData(Str("진"), Str("1992-12-04")),
      MemberData(Str("슈가"), Str("1993-03-09")), MemberData(Str("제이홉"), Str("1994-02-18")),
      MemberData(Str("지민"), Str("1995-10-13")), MemberData(Str("뷔"), Str("1995-12-30")),
      MemberData(Str("정국"), Str("1997-09-01")) ]
  }

  /** A record of two convertible groups converts into a country of the two groups they make. */
  lemma FromDataOfTwo(country: JsValue, g0: GroupData, g1: GroupData)
    requires GroupShaped(g0) && GroupShaped(g1)
    ensures FromData(CountryData(country, Some([g0, g1]))) == Ok(Country(country, [GroupOf(g0).value, GroupOf(g1).value]))
  {
    assert GroupsOf([]) == Ok([]);
    GroupsOfCons(g1, []);
    assert [g1] + [] == [g1];
    GroupsOfCons(g0, [g1]);
    assert [g0] + [g1] == [g0, g1];
    var x0, x1 := GroupOf(g0).value, GroupOf(g1).value;
    assert [x0] + ([x1] + []) == [x0, x1];
  }

  /** Converting one more group in front puts its group in front. */
  lemma GroupsOfCons(g: GroupData, gs: seq<GroupData>)
    requires GroupShaped(g) && GroupsShaped(gs)
    ensures GroupsOf([g] + gs) == Ok([GroupOf(g).value] + GroupsOf(gs).value)
  {
    assert ([g] + gs)[1..] == gs;
  }

  /** The second member of the script's two groups. */
  lemma SecondMembers(g0: GroupData, g1: GroupData)
    requires g0 == GroupData(Str("아이브"), Str("female"), Some(IveMembers()))
    requires g1 == GroupData(Str("방탄소년단"), Str("male"), Some(BtsMembers()))
    ensures GroupShaped(g0) && GroupShaped(g1)
    ensures GroupOf(g0).value.name == Str("아이브") && |GroupOf(g0).value.members| == 6
    ensures GroupOf(g1).value.name == Str("방탄소년단") && |GroupOf(g1).value.members| == 7
    ensures GroupOf(g0).value.members[1] == FemaleIdol(Str("안유진"), Str("2003-09-01"))
    ensures GroupOf(g1).value.members[1] == MaleIdol(Str("진"), Str("1992-12-04"))
  {
    assert GroupShaped(g0) && GroupShaped(g1);
    assert Made(g0.gender, IveMembers()[1], GroupOf(g0).value.members[1]);
    assert Made(g1.gender, BtsMembers()[1], GroupOf(g1).value.members[1]);
  }

  /** The script's record converts: two groups named 아이브 and 방탄소년단 with 6 and 7 members;
      the second member of 아이브 is the FemaleIdol 안유진, who dances, and the second member of
      방탄소년단 is the MaleIdol 진 (not RM), who sings. */
  lemma KpopSample(d: CountryData, g0: GroupData, g1: GroupData, show: JsValue -> string)
    requires g0 == GroupData(Str("아이브"), Str("female"), Some(IveMembers()))
    requires g1 == GroupData(Str("방탄소년단"), Str("male"), Some(BtsMembers()))
    requires d == CountryData(Str("대한민국"), Some([g0, g1]))
    ensures FromData(d).Ok?
    ensures var c := FromData(d).value;
      && c.name == Str("대한민국") && |c.idolGroups| == 2
      && c.idolGroups[0].name == Str("아이브") && |c.idolGroups[0].members| == 6
      && c.idolGroups[1].name == Str("방탄소년단") && |c.idolGroups[1].members| == 7
      && c.idolGroups[0].members[1] == FemaleIdol(Str("안유진"), Str("2003-09-01"))
      && c.idolGroups[1].members[1] == MaleIdol(Str("진"), Str("1992-12-04"))
      && Dance(c.idolGroups[0].members[1], show) == Ok(show(Str("안유진")) + DanceSuffix)
      && Sing(c.idolGroups[1].members[1], show) == Ok(show(Str("진")) + SingSuffix)
  {
    SecondMembers(g0, g1);
    FromDataOfTwo(Str("대한민국"), g0, g1);
  }
}

=== FILE: coercion.dfy ===
/** Truthiness and the null/undefined-aware helpers of JavaScript/js-beginner/1_basics/11_coercion.js. */
module Coercion {
  import opened Common
  import opened JsValues

  /** The eight falsy values the script lists: false, 0, -0, 0n, '', null, undefined and NaN. */
  const FalsyTable: set<JsValue> :=
    {Bool(false), Num(Finite(0.0)), Num(NegZero), BigInt(0), Str(""), Null, Undefined, Num(NaN)}

  /** The table really has eight distinct entries, and ToBoolean is false on exactly those. */
  lemma FalsyExactlyTable(v: JsValue)
    ensures |FalsyTable| == 8
    ensures !Truthy(v) <==> v in FalsyTable
  {
    assert Num(Finite(0.0)) != Num(NegZero);
  }

  /** The values the script singles out as truthy: '0', 'false', [], {}, -1 and ' '. */
  lemma TruthyExamples(h: Heap, arr: nat, obj: nat)
    ensures Truthy(Str("0")) && Truthy(Str("false")) && Truthy(Str(" "))
    ensures Truthy(Num(Finite(-1.0)))
    ensures Truthy(Ref(arr)) && Truthy(Ref(obj))
  {
  }

  /** validateInput: false (after logging) for a falsy input, true otherwise. */
  function ValidateInput(input: JsValue): (r: bool)
    ensures r <==> input !in FalsyTable
  {
    FalsyExactlyTable(input);
    if !Truthy(input) then false else true
  }

  /** safeGetValue: `obj?.[key]`, replaced by the default only when it is null or undefined. */
  function SafeGetValue(h: Heap, obj: JsValue, key: string, default: JsValue): (r: JsValue)
    ensures IsNullish(OptionalGet(h, obj, key)) ==> r == default
    ensures !IsNullish(OptionalGet(h, obj, key)) ==> r == OptionalGet(h, obj, key)
  {
    var value := OptionalGet(h, obj, key);
    if value == Null || value == Undefined then default else value
  }

  /** Unlike a `||` fallback, safeGetValue keeps a stored 0 or ''. */
  lemma SafeGetValueKeepsFalsy(h: Heap, a: nat, key: string, default: JsValue)
    requires a in h && key in h[a].props
    requires h[a].props[key].value in {Int(0), Str("")}
    ensures SafeGetValue(h, Ref(a), key, default) == h[a].props[key].value
    ensures !Truthy(SafeGetValue(h, Ref(a), key, default))
  {
  }

  /** isEmpty: true for null, undefined and the empty string, and for nothing else. */
  function IsEmpty(value: JsValue): (r: bool)
    ensures r <==> value in {Null, Undefined, Str("")}
    ensures r ==> !Truthy(value)
  {
    StrictEquals(value, Null) || StrictEquals(value, Undefined) || StrictEquals(value, Str(""))
  }

  /** hasValue: true unless the value is null or undefined; 0, false and '' count as values. */
  function HasValue(value: JsValue): (r: bool)
    ensures r <==> !IsNullish(value)
    ensures value in {Int(0), Bool(false), Str("")} ==> r
  {
    !StrictEquals(value, Null) && !StrictEquals(value, Undefined)
  }

  /** The search filter as a record: which optional keys are present and with what value. */
  datatype SearchFilter = SearchFilter(
    keyword: Option<JsValue>,
    minPrice: Option<Number>,
    maxPrice: Option<Number>,
    inStock: Option<bool>)

  /** buildSearchFilter: a key is copied only when the parameter is truthy; the prices go through
      Number(...) (here the caller-supplied `toNumber`) and inStock becomes the boolean true.
      Reading a property of a null or undefined `params` throws. */
  function BuildSearchFilter(h: Heap, params: JsValue, toNumber: JsValue -> Number): (r: Result<SearchFilter>)
    ensures r.Throws? <==> IsNullish(params)
    ensures r.Ok? ==> var f := r.value;
      && (f.keyword.Some? <==> Truthy(Get(h, params, "keyword")))
      && (f.keyword.Some? ==> f.keyword.value == Get(h, params, "keyword"))
      && (f.minPrice.Some? <==> Truthy(Get(h, params, "minPrice")))
      && (f.minPrice.Some? ==> f.minPrice.value == toNumber(Get(h, params, "minPrice")))
      && (f.maxPrice.Some? <==> Truthy(Get(h, params, "maxPrice")))
      && (f.maxPrice.Some? ==> f.maxPrice.value == toNumber(Get(h, params, "maxPrice")))
      && (f.inStock.Some? <==> Truthy(Get(h, params, "inStock")))
      && (f.inStock.Some? ==> f.inStock.value)
  {
    if IsNullish(params) then Throws(Exception("TypeError", "Cannot read properties of params"))
    else
      var keyword := Get(h, params, "keyword");
      var minPrice := Get(h, params, "minPrice");
      var maxPrice := Get(h, params, "maxPrice");
      var inStock := Get(h, params, "inStock");
      Ok(SearchFilter(
        if Truthy(keyword) then Some(keyword) else None,
        if Truthy(minPrice) then Some(toNumber(minPrice)) else None,
        if Truthy(maxPrice) then Some(toNumber(maxPrice)) else None,
        if Truthy(inStock) then Some(Truthy(inStock)) else None))
  }

  /** The script's sample: an empty maxPrice string is left out and 'on' becomes true. */
  lemma BuildSearchFilterSample(toNumber: JsValue -> Number)
    requires toNumber(Str("10000")) == Finite(10000.0)
    ensures var params := JsObject(PlainObject, ["keyword", "minPrice", "maxPrice", "inStock"],
                         map["keyword" := Property(Str("아이브"), true, true, true),
                             "minPrice" := Property(Str("10000"), true, true, true),
                             "maxPrice" := Property(Str(""), true, true, true),
                             "inStock" := Property(Str("on"), true, true, true)], true);
            BuildSearchFilter(map[0 := params], Ref(0), toNumber)
              == Ok(SearchFilter(Some(Str("아이브")), Some(Finite(10000.0)), None, Some(true)))
  {
  }
}

=== FILE: common.dfy ===
/** Shared vocabulary of the model: failure wrappers for calls that may throw,
    and the string trimming that many of the scripts' validations rely on. */
module Common {

  datatype Option<+T> = None | Some(value: T) {
    function GetOr(default: T): T {
      match this
      case Some(v) => v
      case None => default
    }
  }

  /** A thrown JavaScript error: the constructor's name ('Error', 'TypeError', ...) and its message. */
  datatype Exception = Exception(name: string, message: string)

  /** The outcome of a call that may throw. */
  datatype Result<+T> = Ok(value: T) | Throws(error: Exception)

  /** The white space and line terminator code points that String.prototype.trim removes
      (sections 12.2 and 12.3 of ECMA-262, with the Zs category as of Unicode 15). */
  predicate IsTrimmable(c: char) {
    || c == '\U{9}' || c == '\U{A}' || c == '\U{B}' || c == '\U{C}' || c == '\U{D}'
    || c == ' ' || c == '\U{A0}' || c == '\U{1680}'
    || ('\U{2000}' <= c <= '\U{200A}')
    || c == '\U{2028}' || c == '\U{2029}' || c == '\U{202F}' || c == '\U{205F}'
    || c == '\U{3000}' || c == '\U{FEFF}'
  }

  /** The index of the first character at or after `i` that is not trimmable (`|s|` when there is
      none). */
  function StartIndex(s: string, i: nat): (r: nat)
    requires i <= |s|
    ensures i <= r <= |s|
    ensures forall k :: i <= k < r ==> IsTrimmable(s[k])
    ensures r < |s| ==> !IsTrimmable(s[r])
    decreases |s| - i
  {
    if i < |s| && IsTrimmable(s[i]) then StartIndex(s, i + 1) else i
  }

  /** The index just past the last character before `j`, and not before `lo`, that is not trimmable
      (`lo` when there is none). */
  function EndIndex(s: string, lo: nat, j: nat): (r: nat)
    requires lo <= j <= |s|
    ensures lo <= r <= j
    ensures forall k :: r <= k < j ==> IsTrimmable(s[k])
    ensures r > lo ==> !IsTrimmable(s[r - 1])
    decreases j
  {
    if j > lo && IsTrimmable(s[j - 1]) then EndIndex(s, lo, j - 1) else j
  }

  /** Drops the leading trimmable characters. */
  function TrimStart(s: string): (r: string)
    ensures |r| <= |s| && r == s[|s| - |r|..]
    ensures forall k :: 0 <= k < |s| - |r| ==> IsTrimmable(s[k])
    ensures r != [] ==> !IsTrimmable(r[0])
  {
    s[StartIndex(s, 0)..]
  }

  /** Drops the trailing trimmable characters. */
  function TrimEnd(s: string): (r: string)
    ensures |r| <= |s| && r == s[..|r|]
    ensures forall k :: |r| <= k < |s| ==> IsTrimmable(s[k])
    ensures r != [] ==> !IsTrimmable(r[|r| - 1])
  {
    s[..EndIndex(s, 0, |s|)]
  }

  /** String.prototype.trim: the contiguous middle of `s` left after stripping both ends. */
  function Trim(s: string): (r: string)
    ensures |r| <= |s|
    ensures var i := |s| - |TrimStart(s)|;
      && i + |r| <= |s|
      && r == s[i..i + |r|]
      && (forall k :: 0 <= k < i ==> IsTrimmable(s[k]))
      && (forall k :: i + |r| <= k < |s| ==> IsTrimmable(s[k]))
    ensures r != [] ==> !IsTrimmable(r[0]) && !IsTrimmable(r[|r| - 1])
  {
    var i := StartIndex(s, 0);
    s[i..EndIndex(s, i, |s|)]
  }

  /** Trimming is idempotent: a trimmed string has nothing left to strip. */
  lemma TrimIdempotent(s: string)
    ensures Trim(Trim(s)) == Trim(s)
  {
    var r := Trim(s);
    if r != [] {
      assert TrimStart(r) == r;
      assert TrimEnd(r) == r;
    }
  }

  /** A string whose first and last characters are not white space is its own trim. */
  lemma TrimNoChange(s: string)
    requires s != [] && !IsTrimmable(s[0]) && !IsTrimmable(s[|s| - 1])
    ensures Trim(s) == s
  {
    assert TrimStart(s) == s;
    assert TrimEnd(s) == s;
  }

  /** A string trims to nothing exactly when every character of it is trimmable. */
  lemma TrimEmptyIff(s: string)
    ensures Trim(s) == [] <==> forall k {:trigger IsTrimmable(s[k])} :: 0 <= k < |s| ==> IsTrimmable(s[k])
  {
    var t := TrimStart(s);
    if forall k {:trigger IsTrimmable(s[k])} :: 0 <= k < |s| ==> IsTrimmable(s[k]) {
      assert t == [];
    } else {
      var k :| 0 <= k < |s| && !IsTrimmable(s[k]);
      assert k >= |s| - |t|;
      assert t != [];
      assert !IsTrimmable(t[0]);
      assert TrimEnd(t) != [];
    }
  }
  /** The UTF-16 code units a character takes: a code point beyond U+FFFF is a surrogate pair. */
  function CodeUnits(c: char): nat {
    if c as int > 0xFFFF then 2 else 1
  }

  /** `s.length` (section 6.1.4 of ECMA-262): a JavaScript string is a sequence of UTF-16 code units, so
      a character beyond U+FFFF counts twice. */
  function Utf16Length(s: string): (n: nat)
    ensures |s| <= n <= 2 * |s|
  {
    if s == [] then 0 else Utf16Length(s[..|s| - 1]) + CodeUnits(s[|s| - 1])
  }

  /** The length of a concatenation is the sum of the lengths. */
  lemma {:induction false} Utf16LengthAppend(a: string, b: string)
    ensures Utf16Length(a + b) == Utf16Length(a) + Utf16Length(b)
    decreases |b|
  {
    if b == [] {
      assert a + b == a;
    } else {
      assert (a + b)[..|a + b| - 1] == a + b[..|b| - 1];
      Utf16LengthAppend(a, b[..|b| - 1]);
    }
  }

  /** For text within the Basic Multilingual Plane (Hangul and Latin included), `.length` counts
      characters. */
  lemma {:induction false} Utf16LengthOfBmp(s: string)
    requires forall i :: 0 <= i < |s| ==> s[i] as int <= 0xFFFF
    ensures Utf16Length(s) == |s|
  {
    if s != [] {
      Utf16LengthOfBmp(s[..|s| - 1]);
    }
  }

  /** A piece of a string is never longer than the string. */
  lemma Utf16LengthSlice(s: string, i: nat, j: nat)
    requires i <= j <= |s|
    ensures Utf16Length(s[i..j]) <= Utf16Length(s)
  {
    var a, m, b := s[..i], s[i..j], s[j..];
    assert s == a + m + b;
    Utf16LengthAppend(a + m, b);
    Utf16LengthAppend(a, m);
  }

  /** Trimming never makes a string longer, counted in code units. */
  lemma TrimShortens(s: string)
    ensures Utf16Length(Trim(s)) <= Utf16Length(s)
  {
    var i := |s| - |TrimStart(s)|;
    Utf16LengthSlice(s, i, i + |Trim(s)|);
  }

  /** The decimal digit for 0..9. */
  function DigitChar(d: nat): (c: char)
    requires d < 10
    ensures '0' <= c <= '9' && c as int - '0' as int == d
  {
    ['0', '1', '2', '3', '4', '5', '6', '7', '8', '9'][d]
  }

  /** A natural number in decimal, as a template literal `${n}` prints it. */
  function NatToString(n: nat): (s: string)
    ensures |s| >= 1 && '0' <= s[0] <= '9'
  {
    if n < 10 then [DigitChar(n)] else NatToString(n / 10) + [DigitChar(n % 10)]
  }

  /** An integer in decimal, with a leading minus sign when negative. */
  function IntToString(i: int): (s: string)
    ensures |s| >= 1
    ensures s[0] == '-' <==> i < 0
  {
    if i < 0 then "-" + NatToString(-i) else NatToString(i)
  }

  /** A string of decimal digits only. */
  predicate IsDigits(s: string) {
    forall i :: 0 <= i < |s| ==> '0' <= s[i] <= '9'
  }

  /** Reads a string of decimal digits back as a number. */
  function DigitsValue(s: string): nat
    requires IsDigits(s)
  {
    if s == [] then 0 else 10 * DigitsValue(s[..|s| - 1]) + (s[|s| - 1] as int - '0' as int)
  }

  /** The decimal form is made of digits only, with no leading zero. */
  lemma {:induction false} NatToStringCanonical(n: nat)
    ensures IsDigits(NatToString(n))
    ensures n >= 10 ==> NatToString(n)[0] != '0'
  {
    if n >= 10 {
      NatToStringCanonical(n / 10);
      var s := NatToString(n);
      assert s[0] == NatToString(n / 10)[0];
    }
  }

  /** Printing a number in decimal loses nothing: the digits read back as the same number. */
  lemma {:induction false} NatToStringRoundTrip(n: nat)
    ensures IsDigits(NatToString(n)) && DigitsValue(NatToString(n)) == n
  {
    NatToStringCanonical(n);
    if n >= 10 {
      NatToStringRoundTrip(n / 10);
      var s := NatToString(n);
      assert s[..|s| - 1] == NatToString(n / 10);
    }
  }

  /** Different numbers print differently. */
  lemma NatToStringInjective(m: nat, n: nat)
    requires NatToString(m) == NatToString(n)
    ensures m == n
  {
    NatToStringRoundTrip(m);
    NatToStringRoundTrip(n);
  }

  /** An integer's decimal form gives it back: the sign is the leading minus, the rest reads as the
      magnitude. */
  lemma IntToStringRoundTrip(i: int)
    ensures var s := IntToString(i);
      var digits := if i < 0 then s[1..] else s;
      IsDigits(digits) && (if i < 0 then -(DigitsValue(digits) as int) else DigitsValue(digits) as int) == i
  {
    NatToStringCanonical(if i < 0 then -i else i);
    NatToStringRoundTrip(if i < 0 then -i else i);
    if i < 0 {
      assert IntToString(i)[1..] == NatToString(-i);
    }
  }

  /** Different integers print differently. */
  lemma IntToStringInjective(i: int, j: int)
    requires IntToString(i) == IntToString(j)
    ensures i == j
  {
    IntToStringRoundTrip(i);
    IntToStringRoundTrip(j);
  }

  /** String.prototype.split with a one-character separator: the pieces between separators, at least
      one, none containing the separator. */
  function Split(s: string, sep: char): (parts: seq<string>)
    ensures |parts| >= 1
    ensures forall k :: 0 <= k < |parts| ==> sep !in parts[k]
  {
    if s == [] then [""]
    else
      var rest := Split(s[1..], sep);
      if s[0] == sep then [""] + rest else [[s[0]] + rest[0]] + rest[1..]
  }

  /** Array.prototype.join with a one-character separator: the first piece, then each further piece
      after a separator. */
  function Join(parts: seq<string>, sep: char): (s: string)
    requires |parts| >= 1
    ensures |s| >= |parts[0]| && s[..|parts[0]|] == parts[0]
    ensures |parts| > 1 ==> |s| > |parts[0]| && s[|parts[0]|] == sep && s[|parts[0]| + 1..] == Join(parts[1..], sep)
  {
    if |parts| == 1 then parts[0] else parts[0] + [sep] + Join(parts[1..], sep)
  }

  /** Splitting loses nothing: joining the pieces back gives the string. */
  lemma {:induction false} JoinSplit(s: string, sep: char)
    ensures Join(Split(s, sep), sep) == s
  {
    if s != [] {
      JoinSplit(s[1..], sep);
      var rest := Split(s[1..], sep);
      if s[0] == sep {
        assert Split(s, sep)[1..] == rest;
      } else {
        var parts := Split(s, sep);
        assert parts[0] == [s[0]] + rest[0];
        if |rest| > 1 {
          assert parts[1..] == rest[1..];
        }
      }
    }
  }

  /** Splitting a string made of a separator-free piece, the separator and a tail gives the piece first. */
  lemma {:induction false} SplitAtFirst(a: string, sep: char, b: string)
    requires sep !in a
    ensures Split(a + [sep] + b, sep) == [a] + Split(b, sep)
  {
    if a == [] {
      assert a + [sep] + b == [sep] + b;
    } else {
      assert (a + [sep] + b)[1..] == a[1..] + [sep] + b;
      SplitAtFirst(a[1..], sep, b);
      assert [a[0]] + a[1..] == a;
    }
  }

  /** Joining pieces that do not contain the separator loses nothing: splitting gives them back. */
  lemma {:induction false} SplitJoin(parts: seq<string>, sep: char)
    requires |parts| >= 1 && forall k :: 0 <= k < |parts| ==> sep !in parts[k]
    ensures Split(Join(parts, sep), sep) == parts
    decreases |parts|
  {
    if |parts| == 1 {
      SplitNoSeparator(parts[0], sep);
    } else {
      SplitJoin(parts[1..], sep);
      SplitAtFirst(parts[0], sep, Join(parts[1..], sep));
      assert [parts[0]] + parts[1..] == parts;
    }
  }

  /** A string without the separator splits into itself alone. */
  lemma {:induction false} SplitNoSeparator(s: string, sep: char)
    requires sep !in s
    ensures Split(s, sep) == [s]
  {
    if s != [] {
      SplitNoSeparator(s[1..], sep);
      assert [s[0]] + s[1..] == s;
    }
  }
}

=== FILE: date_utils.dfy ===
/** The DateUtils class of JavaScript/js-beginner/2_class_and_oop/3_static_keyword.js: a static-only
    utility that refuses to be instantiated, formats a Date as YYYY-MM-DD and tells whether a Date falls
    on today. */
module DateUtils {
  import opened Common


  /** A calendar day as the local-time getters report it: getFullYear, getMonth (0 for January)
      and getDate. */
  datatype Day = Day(year: int, month: int, date: int)

  /** The days a valid Date can report: getMonth is 0 to 11 and getDate 1 to 31. */
  type CalendarDay = d: Day | 0 <= d.month < 12 && 1 <= d.date <= 31 witness Day(1970, 0, 1)

  /** What is passed as a date: something that is not a Date, an Invalid Date (its time value is
      NaN), or a valid Date seen through its local-time getters. */
  datatype DateArg = NotADate | InvalidDate | ValidDate(day: CalendarDay)

  const NoInstance := "DateUtils는 인스턴스화 할 수 없습니다. (static only)"
  const InvalidDateMessage := "유효한 Date 객체를 전달하세요."

  /** `new DateUtils()`: the constructor always throws. */
  function NewDateUtils(): (r: Result<()>)
    ensures r.Throws? && r.error.name == "Error" && r.error.message == NoInstance
  {
    Throws(Exception("Error", NoInstance))
  }

  /** String.prototype.padStart with a one-character filler. */
  function PadStart(s: string, n: nat, c: char): (r: string)
    ensures |r| == if |s| >= n then |s| else n
    ensures r[|r| - |s|..] == s
    ensures forall i :: 0 <= i < |r| - |s| ==> r[i] == c
    decreases n - |s|
  {
    if |s| >= n then s else PadStart([c] + s, n, c)
  }

  /** The two digits of a number below 100: the tens digit (a zero for one-digit numbers) and the units
      digit. */
  function TwoDigits(n: nat): string
    requires n < 100
  {
    [DigitChar(n / 10), DigitChar(n % 10)]
  }

  /** TwoDigits is what padStart(2, '0') makes of the decimal form of a number below 100. */
  lemma TwoDigitsIsPadStart(n: nat)
    requires n < 100
    ensures PadStart(NatToString(n), 2, '0') == TwoDigits(n)
  {
    if n < 10 {
      PadOneDigit(n);
    } else {
      PadTwoDigits(n);
    }
  }

  /** One digit gets a leading zero. */
  lemma PadOneDigit(n: nat)
    requires n < 10
    ensures PadStart(NatToString(n), 2, '0') == TwoDigits(n)
  {
    var s := NatToString(n);
    assert s == [DigitChar(n)];
    assert [DigitChar(0)] + s == TwoDigits(n);
  }

  /** Two digits are left as they are. */
  lemma PadTwoDigits(n: nat)
    requires 10 <= n < 100
    ensures PadStart(NatToString(n), 2, '0') == TwoDigits(n)
  {
    assert NatToString(n / 10) == [DigitChar(n / 10)];
    assert NatToString(n) == TwoDigits(n);
  }

  /** The two digits read back as the number. */
  lemma TwoDigitsValue(n: nat)
    requires n < 100
    ensures DigitsValue(TwoDigits(n)) == n
  {
    var r := TwoDigits(n);
    assert r[..1][..0] == [];
    assert DigitsValue(r[..1]) == n / 10;
    assert DigitsValue(r) == 10 * (n / 10) + n % 10;
  }

  /** formatDate: YYYY-MM-DD from the year, the month plus one and the day, month and day padded to two
      digits by padStart(2, '0') (written TwoDigits, see TwoDigitsIsPadStart); anything but a valid Date
      throws. */
  function FormatDate(d: DateArg): (r: Result<string>)
    ensures r.Throws? <==> !d.ValidDate?
    ensures r.Throws? ==> r.error == Exception("TypeError", InvalidDateMessage)
  {
    if !d.ValidDate? then Throws(Exception("TypeError", InvalidDateMessage))
    else Ok(IntToString(d.day.year) + "-" + TwoDigits(d.day.month + 1) + "-" + TwoDigits(d.day.date))
  }

  /** Reads YYYY-MM-DD back: split at '-', there must be three digit strings, the last two of exactly
      two digits; the middle one is the one-based month. */
  function ParseDate(text: string): Option<Day> {
    var parts := Split(text, '-');
    if |parts| == 3 && IsDigits(parts[0]) && |parts[1]| == 2 && IsDigits(parts[1]) && |parts[2]| == 2 && IsDigits(parts[2])
    then Some(Day(DigitsValue(parts[0]), DigitsValue(parts[1]) - 1, DigitsValue(parts[2])))
    else None
  }

  /** The formatted date gives the day back: reading it as YYYY-MM-DD yields the same year, month and
      day. */
  lemma FormatDateRoundTrip(day: CalendarDay)
    requires day.year >= 0
    ensures ParseDate(FormatDate(ValidDate(day)).value) == Some(day)
  {
    var y := NatToString(day.year);
    var m := TwoDigits(day.month + 1);
    var dd := TwoDigits(day.date);
    FormatDateSplit(day);
    NatToStringRoundTrip(day.year);
    TwoDigitsValue(day.month + 1);
    TwoDigitsValue(day.date);
    assert IsDigits(y) && IsDigits(m) && IsDigits(dd);
  }

  /** The formatted date splits at '-' into the year's digits and the two padded fields. */
  lemma FormatDateSplit(day: CalendarDay)
    requires day.year >= 0
    ensures Split(FormatDate(ValidDate(day)).value, '-')
            == [NatToString(day.year), TwoDigits(day.month + 1), TwoDigits(day.date)]
  {
    var y := NatToString(day.year);
    var m := TwoDigits(day.month + 1);
    var dd := TwoDigits(day.date);
    FormatDateText(day);
    NatToStringCanonical(day.year);
    DigitFieldsSplit(FormatDate(ValidDate(day)).value, y, m, dd);
  }

  /** Digit strings joined by '-' split back into the same strings. */
  lemma DigitFieldsSplit(text: string, y: string, m: string, dd: string)
    requires IsDigits(y) && IsDigits(m) && IsDigits(dd)
    requires text == y + ['-'] + m + ['-'] + dd
    ensures Split(text, '-') == [y, m, dd]
  {
    NoDashInDigits(y);
    NoDashInDigits(m);
    NoDashInDigits(dd);
    SplitThree(y, m, dd, '-');
  }

  lemma FormatDateText(day: CalendarDay)
    requires day.year >= 0
    ensures FormatDate(ValidDate(day)).value
            == NatToString(day.year) + ['-'] + TwoDigits(day.month + 1) + ['-'] + TwoDigits(day.date)
  {
    var y := IntToString(day.year);
    assert y == NatToString(day.year);
    var m := TwoDigits(day.month + 1);
    var dd := TwoDigits(day.date);
    assert FormatDate(ValidDate(day)) == Ok(y + "-" + m + "-" + dd);
  }

  lemma NoDashInDigits(s: string)
    requires IsDigits(s)
    ensures '-' !in s
  {
  }

  /** Three pieces without the separator, joined by it, split back into the three. */
  lemma SplitThree(a: string, b: string, c: string, sep: char)
    requires sep !in a && sep !in b && sep !in c
    ensures Split(a + [sep] + b + [sep] + c, sep) == [a, b, c]
  {
    assert a + [sep] + b + [sep] + c == a + [sep] + (b + [sep] + c);
    SplitAtFirst(a, sep, b + [sep] + c);
    SplitAtFirst(b, sep, c);
    SplitNoSeparator(c, sep);
  }

  /** Distinct days format differently. */
  lemma FormatDateInjective(a: CalendarDay, b: CalendarDay)
    requires a.year >= 0 && b.year >= 0
    requires FormatDate(ValidDate(a)) == FormatDate(ValidDate(b))
    ensures a == b
  {
    FormatDateRoundTrip(a);
    FormatDateRoundTrip(b);
  }

  /** isToday: false for anything but a valid Date, otherwise true exactly when year, month and day all
      match today's. `today` stands for `new Date()`. */
  function IsToday(d: DateArg, today: CalendarDay): (r: bool)
    ensures r <==> d == ValidDate(today)
  {
    if !d.ValidDate? then false
    else d.day.year == today.year && d.day.month == today.month && d.day.date == today.date
  }

  /** A day in January 2026 is formatted with a padded month and day. */
  lemma FormatDateSample(day: CalendarDay)
    requires day == Day(2026, 0, 24)
    ensures FormatDate(ValidDate(day)) == Ok("2026-01-24")
    ensures FormatDate(InvalidDate).Throws? && FormatDate(NotADate).Throws?
  {
    FormatDateText(day);
    SampleDigits();
    var r := FormatDate(ValidDate(day));
    var text := NatToString(day.year) + ['-'] + TwoDigits(day.month + 1) + ['-'] + TwoDigits(day.date);
    assert r.value == text;
    assert text == "2026" + ['-'] + "01" + ['-'] + "24";
    SampleText(text);
    assert r == Ok(r.value);
  }

  lemma SampleText(text: string)
    requires text == "2026" + ['-'] + "01" + ['-'] + "24"
    ensures text == "2026-01-24"
  {
  }

  lemma SampleDigits()
    ensures NatToString(2026) == "2026" && TwoDigits(1) == "01" && TwoDigits(24) == "24"
  {
    YearDigits();
  }

  lemma YearDigits()
    ensures NatToString(2026) == "2026"
  {
    assert NatToString(20) == "20";
    assert NatToString(202) == "202";
  }
}

=== FILE: error_handling.dfy ===
/** Error handling in JavaScript/js-beginner/1_basics/16_try_catch.js: turning whatever was thrown
    into one record, validation by assertion, and retrying a failing task a bounded number of times. */
module ErrorHandling {
  import opened Common
  import opened JsValues

  /** A thrown value: an Error instance (its name, message, the stack string the engine recorded and,
      for a ValidationError, the entries of its `meta` object), or any other value. */
  datatype Thrown =
    | ErrorValue(name: string, message: string, stack: JsValue, meta: seq<(string, JsValue)>)
    | Plain(v: JsValue)

  /** How a call ends: it returns a value or throws one. */
  datatype Outcome<+T> = Returned(value: T) | Raised(thrown: Thrown)

  /** What normalizeError returns: `{ name, message, stack }`. */
  datatype NormalizedError = NormalizedError(name: string, message: JsValue, stack: JsValue)

  /** normalizeError: an Error keeps its name, message and stack; anything else is an 'UnknownError'
      whose message is the string itself or, for other values, what `stringify` (JSON.stringify) makes
      of it, and whose stack is undefined. */
  function NormalizeError(e: Thrown, stringify: JsValue -> JsValue): (r: NormalizedError)
    ensures e.ErrorValue? ==> r.name == e.name && r.message == Str(e.message) && r.stack == e.stack
    ensures e.Plain? ==> r.name == "UnknownError" && r.stack == Undefined
    ensures e.Plain? && e.v.Str? ==> r.message == e.v
    ensures e.Plain? && !e.v.Str? ==> r.message == stringify(e.v)
  {
    match e
    case ErrorValue(name, message, stack, _) => NormalizedError(name, Str(message), stack)
    case Plain(v) => NormalizedError("UnknownError", if TypeOf(map[], v) == "string" then v else stringify(v), Undefined)
  }

  /** An Error rebuilt from a normalized record (without meta). */
  function ErrorOf(n: NormalizedError): Thrown
    requires n.message.Str?
  {
    ErrorValue(n.name, n.message.s, n.stack, [])
  }

  /** Normalizing loses nothing of an Error but its meta: rebuilding gives it back, and normalizing
      again gives the same record. */
  lemma NormalizeErrorRoundTrip(e: Thrown, stringify: JsValue -> JsValue)
    requires e.ErrorValue? && e.meta == []
    ensures NormalizeError(e, stringify).message.Str?
    ensures ErrorOf(NormalizeError(e, stringify)) == e
  {
  }

  /** A thrown string and an Error with that message read alike once normalized, apart from the name. */
  lemma NormalizeThrownString(s: string, name: string, stack: JsValue, stringify: JsValue -> JsValue)
    ensures NormalizeError(Plain(Str(s)), stringify).message == NormalizeError(ErrorValue(name, s, stack, []), stringify).message
    ensures NormalizeError(Plain(Str(s)), stringify).name == "UnknownError"
  {
  }

  /** `new ValidationError(message, meta)`; `stack` is the trace the engine records. */
  function ValidationError(message: string, meta: seq<(string, JsValue)>, stack: JsValue): Thrown {
    ErrorValue("ValidationError", message, stack, meta)
  }

  /** assert: a ValidationError with the message and meta when the condition is falsy. */
  function Assert(condition: JsValue, message: string, meta: seq<(string, JsValue)>, stack: JsValue): (r: Outcome<()>)
    ensures r.Raised? <==> !Truthy(condition)
    ensures r.Raised? ==> r.thrown.ErrorValue? && r.thrown.name == "ValidationError"
                          && r.thrown.message == message && r.thrown.meta == meta
  {
    if !Truthy(condition) then Raised(ValidationError(message, meta, stack)) else Returned(())
  }

  const NotAString := "비밀번호는 문자열이어야 합니다."
  const TooShort := "비밀번호는 5자 이상이어야 합니다."
  const Registered := "가입 성공"

  /** register: the password must be a string at least five UTF-16 code units long; the error's meta
      reports the length in code units. */
  function Register(password: JsValue, stack: JsValue): (r: Outcome<string>)
    ensures r.Returned? <==> password.Str? && Utf16Length(password.s) >= 5
    ensures r.Returned? ==> r.value == Registered
    ensures !password.Str? ==> r == Raised(ValidationError(NotAString, [("password", password)], stack))
    ensures password.Str? && Utf16Length(password.s) < 5
            ==> r == Raised(ValidationError(TooShort, [("length", Int(Utf16Length(password.s)))], stack))
  {
    match Assert(Bool(TypeOf(map[], password) == "string"), NotAString, [("password", password)], stack)
    case Raised(e) => Raised(e)
    case Returned(_) =>
      match Assert(Bool(Utf16Length(password.s) >= 5), TooShort, [("length", Int(Utf16Length(password.s)))], stack)
      case Raised(e) => Raised(e)
      case Returned(_) => Returned(Registered)
  }

  /** The script's call: '1234' is one character short. */
  lemma RegisterSample(stack: JsValue)
    ensures Register(Str("1234"), stack).Raised?
    ensures Register(Str("1234"), stack).thrown.message == TooShort
  {
    Utf16LengthOfBmp("1234");
  }

  /** `allowRetry`: the caller's shouldRetry, when it is a function, decides by the truthiness of its
      answer; without one every error may be retried. */
  predicate AllowRetry(shouldRetry: Option<Thrown -> JsValue>, e: Thrown) {
    match shouldRetry
    case None => true
    case Some(f) => Truthy(f(e))
  }

  /** The attempts before `n` all failed with an error the caller allowed to retry. */
  predicate FailedAndRetried(task: nat -> Outcome<JsValue>, shouldRetry: Option<Thrown -> JsValue>, n: nat) {
    forall j: nat :: j < n ==> task(j).Raised? && AllowRetry(shouldRetry, task(j).thrown)
  }

  /** retry: calls the task with attempts 0, 1, ... (the delay between calls left out) and returns the
      first success; an error the caller does not allow to retry, or the error of the last attempt,
      is thrown on; with a negative count no call is made and undefined is thrown. `calls` counts the
      task's invocations. */
  method Retry(task: nat -> Outcome<JsValue>, retries: int, shouldRetry: Option<Thrown -> JsValue>)
    returns (r: Outcome<JsValue>, calls: nat)
    ensures retries < 0 ==> calls == 0 && r == Raised(Plain(Undefined))
    ensures retries >= 0 ==> 1 <= calls <= retries + 1
    ensures retries >= 0 ==> r == task(calls - 1) && FailedAndRetried(task, shouldRetry, calls - 1)
    ensures retries >= 0 && r.Raised? ==> calls == retries + 1 || !AllowRetry(shouldRetry, r.thrown)
  {
    var lastError := Plain(Undefined);
    var attempt := 0;
    calls := 0;
    while attempt <= retries
      invariant 0 <= attempt && calls == attempt
      invariant retries >= 0 ==> attempt <= retries
      invariant retries < 0 ==> attempt == 0 && lastError == Plain(Undefined)
      invariant FailedAndRetried(task, shouldRetry, attempt)
      decreases retries - attempt
    {
      var outcome := task(attempt);
      calls := calls + 1;
      if outcome.Returned? {
        return outcome, calls;
      }
      lastError := outcome.thrown;
      var allowRetry := AllowRetry(shouldRetry, lastError);
      if !allowRetry || attempt == retries {
        return outcome, calls;
      }
      attempt := attempt + 1;
    }
    r := Raised(lastError);
  }

  /** The count of retries when the options leave it out (`{ retries = 2 } = {}`). */
  const DefaultRetries := 2

  /** retry with its options object: an omitted count means two retries, so at most three calls, and
      the answer is the last call's outcome, reached only after every earlier call failed with a
      retryable error. `retry(task)` is `RetryWith(task, None, None)`. */
  method RetryWith(task: nat -> Outcome<JsValue>, retries: Option<int>, shouldRetry: Option<Thrown -> JsValue>)
    returns (r: Outcome<JsValue>, calls: nat)
    ensures retries.None? ==> 1 <= calls <= DefaultRetries + 1
    ensures retries.None? ==> r == task(calls - 1) && FailedAndRetried(task, shouldRetry, calls - 1)
    ensures retries.None? && r.Raised? ==> calls == DefaultRetries + 1 || !AllowRetry(shouldRetry, r.thrown)
    ensures retries.Some? && retries.value < 0 ==> calls == 0 && r == Raised(Plain(Undefined))
    ensures retries.Some? && retries.value >= 0 ==> 1 <= calls <= retries.value + 1 && r == task(calls - 1)
    ensures retries.Some? && retries.value >= 0 ==> FailedAndRetried(task, shouldRetry, calls - 1)
    ensures retries.Some? && retries.value >= 0 && r.Raised? ==>
      calls == retries.value + 1 || !AllowRetry(shouldRetry, r.thrown)
  {
    r, calls := Retry(task, retries.GetOr(DefaultRetries), shouldRetry);
  }

  /** The script's demo: attempts 0 and 1 fail with '503 Service Unavailable', the third call succeeds. */
  method RetryDemo(data: JsValue, stack: JsValue) returns (r: Outcome<JsValue>, calls: nat)
    ensures r == Returned(data) && calls == 3
  {
    var task := (attempt: nat) =>
      if attempt < 2 then Raised(ErrorValue("Error", "503 Service Unavailable", stack, [])) else Returned(data);
    r, calls := Retry(task, 3, None);
    assert !task(2).Raised?;
  }
}

=== FILE: function_utils.dfy ===
/** The function utilities of js-beginner/1_basics/12_function.js: early-return validation, a
    closure counter, recursion (factorial, flattening), array helpers, composition and memoization. */
module FunctionUtils {
  import opened JsValues

  /** validateUser's answer: `{ error }` or `{ success: true }`. */
  datatype Validation = Invalid(error: string) | Valid

  /** validateUser: the first failing check, in the order missing user, missing name, missing age. */
  function ValidateUser(h: Heap, user: JsValue): (r: Validation)
    ensures !Truthy(user) <==> r == Invalid("사용자 정보 없음")
    ensures r == Invalid("이름 필수") <==> Truthy(user) && !Truthy(Get(h, user, "name"))
    ensures r == Invalid("나이 필수") <==> Truthy(user) && Truthy(Get(h, user, "name")) && !Truthy(Get(h, user, "age"))
    ensures r.Valid? <==> Truthy(user) && Truthy(Get(h, user, "name")) && Truthy(Get(h, user, "age"))
  {
    if !Truthy(user) then Invalid("사용자 정보 없음")
    else if !Truthy(Get(h, user, "name")) then Invalid("이름 필수")
    else if !Truthy(Get(h, user, "age")) then Invalid("나이 필수")
    else Valid
  }

  /** The script's three calls: null, `{ name: '안유진' }` and `{ name: '안유진', age: 21 }`. */
  lemma ValidateUserSamples()
    ensures ValidateUser(map[], Null) == Invalid("사용자 정보 없음")
    ensures ValidateUser(map[0 := JsObject(PlainObject, ["name"], map["name" := Property(Str("안유진"), true, true, true)], true)], Ref(0))
            == Invalid("나이 필수")
    ensures ValidateUser(map[0 := JsObject(PlainObject, ["name", "age"],
                                           map["name" := Property(Str("안유진"), true, true, true),
                                               "age" := Property(Int(21), true, true, true)], true)], Ref(0))
            == Valid
  {
  }

  /** The private `count` of createCounter, reachable only through the three closures. */
  datatype Counter = Counter(count: int)

  /** `createCounter()`: the count starts at 0. */
  function CreateCounter(): (c: Counter)
    ensures GetCount(c) == 0
  {
    Counter(0)
  }

  /** `increment()`: the count grows by one and the new count is returned. */
  function Increment(c: Counter): (r: (Counter, int))
    ensures r.1 == GetCount(r.0) == GetCount(c) + 1
  {
    var next := Counter(c.count + 1);
    (next, next.count)
  }

  /** `decrement()`: the count shrinks by one and the new count is returned. */
  function Decrement(c: Counter): (r: (Counter, int))
    ensures r.1 == GetCount(r.0) == GetCount(c) - 1
  {
    var next := Counter(c.count - 1);
    (next, next.count)
  }

  /** `getCount()`: reads the count without changing it. */
  function GetCount(c: Counter): int {
    c.count
  }

  /** The closures' calls in order: `true` for increment, `false` for decrement. */
  function Calls(c: Counter, ops: seq<bool>): Counter
    decreases |ops|
  {
    if ops == [] then c
    else Calls(if ops[0] then Increment(c).0 else Decrement(c).0, ops[1..])
  }

  /** How many of the calls were increments. */
  function Increments(ops: seq<bool>): nat {
    if ops == [] then 0 else (if ops[0] then 1 else 0) + Increments(ops[1..])
  }

  /** Whatever the order of the calls, getCount answers the increments minus the decrements. */
  lemma {:induction false} CountIsNetCalls(c: Counter, ops: seq<bool>)
    ensures GetCount(Calls(c, ops)) == GetCount(c) + Increments(ops) - (|ops| - Increments(ops))
    decreases |ops|
  {
    if ops != [] {
      CountIsNetCalls(if ops[0] then Increment(c).0 else Decrement(c).0, ops[1..]);
    }
  }

  /** Decrementing undoes incrementing. */
  lemma IncrementDecrementInverse(c: Counter)
    ensures Decrement(Increment(c).0).0 == c && Increment(Decrement(c).0).0 == c
  {
  }

  /** The script's sequence increment, increment, decrement, getCount answers 1, 2, 1, 1. */
  lemma CounterSample()
    ensures var c0 := CreateCounter();
            var (c1, a) := Increment(c0);
            var (c2, b) := Increment(c1);
            var (c3, d) := Decrement(c2);
            a == 1 && b == 2 && d == 1 && GetCount(c3) == 1
  {
  }

  /** factorial: 1 for every n up to 1 (negative numbers included), else n times factorial(n - 1). */
  function Factorial(n: int): (r: int)
    ensures r >= 1
    ensures n >= 1 ==> r >= n
    decreases if n < 0 then 0 else n
  {
    if n <= 1 then 1 else n * Factorial(n - 1)
  }

  /** factorial(n) is a multiple of every k from 1 to n: the quotient `m` is returned. */
  lemma {:induction false} FactorialDivisible(n: int, k: int) returns (m: int)
    requires 1 <= k <= n
    ensures Factorial(n) == k * m
    decreases n
  {
    if k < n {
      var m' := FactorialDivisible(n - 1, k);
      m := n * m';
      calc {
        Factorial(n);
        n * Factorial(n - 1);
        n * (k * m');
        { MulCommutes(n, k, m'); }
        k * (n * m');
      }
    } else {
      m := Factorial(n - 1);
    }
  }

  lemma MulCommutes(a: int, b: int, c: int)
    ensures a * (b * c) == b * (a * c)
  {
  }

  lemma FactorialSample()
    ensures Factorial(5) == 120
  {
  }

  /** An element of a nested array: a value that is not an array, or an array of further elements. */
  datatype Nested<T> = Leaf(value: T) | Array(items: seq<Nested<T>>)

  /** flattenArray: the values of a nested array, left to right, with every level of nesting removed. */
  function Flatten<T>(arr: seq<Nested<T>>): (r: seq<T>)
    ensures (forall i :: 0 <= i < |arr| ==> arr[i].Leaf?) ==> |r| == |arr|
    decreases arr
  {
    if arr == [] then []
    else
      var head := match arr[0]
        case Leaf(v) => [v]
        case Array(items) => Flatten(items);
      head + Flatten(arr[1..])
  }

  /** An array of plain values. */
  function Leaves<T>(xs: seq<T>): (r: seq<Nested<T>>)
    ensures |r| == |xs| && forall i :: 0 <= i < |xs| ==> r[i] == Leaf(xs[i])
  {
    seq(|xs|, i requires 0 <= i < |xs| => Leaf(xs[i]))
  }

  /** Flattening works piecewise: `[...a, ...b]` flattens to the two results one after the other. */
  lemma {:induction false} FlattenAppend<T>(a: seq<Nested<T>>, b: seq<Nested<T>>)
    ensures Flatten(a + b) == Flatten(a) + Flatten(b)
    decreases |a|
  {
    if a == [] {
      assert a + b == b;
    } else {
      assert (a + b)[0] == a[0];
      assert (a + b)[1..] == a[1..] + b;
      FlattenAppend(a[1..], b);
    }
  }

  /** An array without nesting flattens to its own values, so flattening a result changes nothing. */
  lemma {:induction false} FlattenLeaves<T>(xs: seq<T>)
    ensures Flatten(Leaves(xs)) == xs
    decreases |xs|
  {
    if xs != [] {
      assert Leaves(xs)[1..] == Leaves(xs[1..]);
      FlattenLeaves(xs[1..]);
    }
  }

  lemma FlattenSingleArray<T>(xs: seq<Nested<T>>)
    ensures Flatten([Array(xs)]) == Flatten(xs)
  {
    assert [Array(xs)][1..] == [];
  }

  /** The script's sample `[1, [2, [3, [4, 5]]]]` flattens to `[1, 2, 3, 4, 5]`. */
  lemma FlattenSample()
    ensures Flatten([Leaf(1), Array([Leaf(2), Array([Leaf(3), Array([Leaf(4), Leaf(5)])])])]) == [1, 2, 3, 4, 5]
  {
    var inner := [Leaf(4), Leaf(5)];
    assert inner[1..] == [Leaf(5)];
    assert Flatten(inner) == [4, 5];
    FlattenSingleArray(inner);
    var l3 := [Leaf(3), Array(inner)];
    assert l3[1..] == [Array(inner)];
    assert Flatten(l3) == [3, 4, 5];
    FlattenSingleArray(l3);
    var l2 := [Leaf(2), Array(l3)];
    assert l2[1..] == [Array(l3)];
    assert Flatten(l2) == [2, 3, 4, 5];
    FlattenSingleArray(l2);
    var l1 := [Leaf(1), Array(l2)];
    assert l1[1..] == [Array(l2)];
  }

  /** The position at which `x` first occurs in `s`. */
  function FirstIndex<T(==)>(s: seq<T>, x: T): (i: nat)
    requires x in s
    ensures i < |s| && s[i] == x && x !in s[..i]
  {
    if s[0] == x then 0 else 1 + FirstIndex(s[1..], x)
  }

  /** No value occurs twice. */
  predicate Distinct<T(==)>(s: seq<T>) {
    forall i, j :: 0 <= i < j < |s| ==> s[i] != s[j]
  }

  /** unique, `[...new Set(arr)]`: each value once, in the order of first occurrence. Values are
      compared with Dafny's equality. */
  method Unique<T(==)>(arr: seq<T>) returns (r: seq<T>)
    ensures Distinct(r)
    ensures forall x :: x in r <==> x in arr
    ensures forall a, b :: 0 <= a < b < |r| ==> FirstIndex(arr, r[a]) < FirstIndex(arr, r[b])
  {
    r := [];
    for i := 0 to |arr|
      invariant Distinct(r)
      invariant forall a :: 0 <= a < |r| ==> r[a] in arr
      invariant forall x :: x in r <==> x in arr[..i]
      invariant forall a :: 0 <= a < |r| ==> FirstIndex(arr, r[a]) < i
      invariant forall a, b :: 0 <= a < b < |r| ==> FirstIndex(arr, r[a]) < FirstIndex(arr, r[b])
    {
      assert arr[..i + 1] == arr[..i] + [arr[i]];
      if arr[i] !in r {
        assert arr[i] !in arr[..i];
        assert FirstIndex(arr, arr[i]) == i by {
          var f := FirstIndex(arr, arr[i]);
          assert forall j :: 0 <= j < i ==> arr[..i][j] == arr[j];
          assert arr[..f + 1][f] == arr[i];
        }
        r := r + [arr[i]];
      }
    }
    assert arr[..|arr|] == arr;
  }

  /** The script's sample: `[1, 2, 2, 3, 3, 4]` gives `[1, 2, 3, 4]`. */
  method UniqueSample() returns (r: seq<int>)
    ensures r == [1, 2, 3, 4]
  {
    var arr := [1, 2, 2, 3, 3, 4];
    r := Unique(arr);
    SampleFirstIndices();
    UniqueSampleIsSorted(r, arr);
  }

  /** Where each value of the sample first occurs. */
  lemma SampleFirstIndices()
    ensures var arr := [1, 2, 2, 3, 3, 4];
            FirstIndex(arr, 1) == 0 && FirstIndex(arr, 2) == 1 && FirstIndex(arr, 3) == 3 && FirstIndex(arr, 4) == 5
  {
    var arr := [1, 2, 2, 3, 3, 4];
    assert arr[1..] == [2, 2, 3, 3, 4];
    assert arr[1..][1..] == [2, 3, 3, 4];
    assert arr[1..][1..][1..] == [3, 3, 4];
    assert arr[1..][1..][1..][1..] == [3, 4];
    assert arr[1..][1..][1..][1..][1..] == [4];
  }

  /** The only repeat-free list of the sample's values ordered by first occurrence. */
  lemma UniqueSampleIsSorted(r: seq<int>, arr: seq<int>)
    requires arr == [1, 2, 2, 3, 3, 4]
    requires FirstIndex(arr, 1) == 0 && FirstIndex(arr, 2) == 1 && FirstIndex(arr, 3) == 3 && FirstIndex(arr, 4) == 5
    requires Distinct(r) && forall x :: x in r <==> x in arr
    requires forall a, b :: 0 <= a < b < |r| ==> FirstIndex(arr, r[a]) < FirstIndex(arr, r[b])
    ensures r == [1, 2, 3, 4]
  {
    SampleValuesCount(r, arr);
    var f0, f1, f2, f3 := FirstIndex(arr, r[0]), FirstIndex(arr, r[1]), FirstIndex(arr, r[2]), FirstIndex(arr, r[3]);
    assert f0 < f1 < f2 < f3;
    assert r[0] in arr && r[1] in arr && r[2] in arr && r[3] in arr;
    assert f0 == 0 && f1 == 1 && f2 == 3 && f3 == 5;
  }

  /** A repeat-free list of exactly the sample's values has four entries. */
  lemma SampleValuesCount(r: seq<int>, arr: seq<int>)
    requires arr == [1, 2, 2, 3, 3, 4]
    requires Distinct(r) && forall x :: x in r <==> x in arr
    ensures |r| == 4
  {
    assert forall y :: y in arr <==> y in {1, 2, 3, 4};
    assert (set y | y in r) == {1, 2, 3, 4};
    DistinctSize(r);
  }

  /** A sequence without repeats has as many distinct values as positions. */
  lemma {:induction false} DistinctSize<T>(s: seq<T>)
    requires Distinct(s)
    ensures |set x | x in s| == |s|
  {
    if s != [] {
      var init := s[..|s| - 1];
      DistinctSize(init);
      assert (set x | x in s) == (set x | x in init) + {s[|s| - 1]};
    }
  }

  /** The arrays of a list joined end to end. */
  function Concat<T>(chunks: seq<seq<T>>): seq<T> {
    if chunks == [] then [] else chunks[0] + Concat(chunks[1..])
  }

  /** Reference reading of chunk: the first `size` elements, then the chunks of the rest. */
  function ChunkRef<T>(arr: seq<T>, size: nat): (r: seq<seq<T>>)
    requires size >= 1
    ensures Concat(r) == arr
    ensures forall c :: 0 <= c < |r| ==> 1 <= |r[c]| <= size
    ensures forall c :: 0 <= c < |r| - 1 ==> |r[c]| == size
    decreases |arr|
  {
    if arr == [] then []
    else if |arr| <= size then [arr]
    else
      var rest := ChunkRef(arr[size..], size);
      assert ([arr[..size]] + rest)[1..] == rest;
      assert arr == arr[..size] + arr[size..];
      [arr[..size]] + rest
  }

  /** One step of the reference chunking: the slice up to `end` comes off the front. */
  lemma ChunkRefStep<T>(arr: seq<T>, i: nat, end: nat, size: nat)
    requires size >= 1 && i < |arr| && end == (if i + size <= |arr| then i + size else |arr|)
    ensures ChunkRef(arr[i..], size) == [arr[i..end]] + ChunkRef(arr[end..], size)
  {
    var rest := arr[i..];
    if |rest| > size {
      assert rest[..size] == arr[i..end] && rest[size..] == arr[end..];
    } else {
      assert rest == arr[i..end] && arr[end..] == [];
    }
  }

  /** Moving one element across the join of two sequences. */
  lemma PushFront<T>(a: seq<T>, x: T, b: seq<T>)
    ensures (a + [x]) + b == a + ([x] + b)
  {
  }

  /** chunk: consecutive slices of `size` elements, the last one possibly shorter, joining up to the
      input. A size below 1 makes the source's loop run forever on a non-empty array, so it is excluded. */
  method Chunk<T>(arr: seq<T>, size: int) returns (chunks: seq<seq<T>>)
    requires size >= 1 || arr == []
    ensures Concat(chunks) == arr
    ensures forall c :: 0 <= c < |chunks| ==> 1 <= |chunks[c]| <= size
    ensures forall c :: 0 <= c < |chunks| - 1 ==> |chunks[c]| == size
    ensures size >= 1 ==> chunks == ChunkRef(arr, size)
  {
    chunks := [];
    if arr == [] {
      return;
    }
    var i := 0;
    while i < |arr|
      invariant 0 <= i <= |arr|
      invariant chunks + ChunkRef(arr[i..], size) == ChunkRef(arr, size)
      decreases |arr| - i
    {
      var end := if i + size <= |arr| then i + size else |arr|;
      ChunkRefStep(arr, i, end, size);
      PushFront(chunks, arr[i..end], ChunkRef(arr[end..], size));
      chunks := chunks + [arr[i..end]];
      i := end;
    }
    assert ChunkRef(arr[|arr|..], size) == [];
    assert chunks == ChunkRef(arr, size);
  }

  /** The script's sample: `[1, 2, 3, 4, 5, 6]` in chunks of 2. */
  method ChunkSample() returns (chunks: seq<seq<int>>)
    ensures chunks == [[1, 2], [3, 4], [5, 6]]
  {
    var arr := [1, 2, 3, 4, 5, 6];
    chunks := Chunk(arr, 2);
    assert arr[..2] == [1, 2] && arr[2..] == [3, 4, 5, 6];
    assert arr[2..][..2] == [3, 4] && arr[2..][2..] == [5, 6];
    assert ChunkRef([5, 6], 2) == [[5, 6]];
  }

  /** pipe: `fns.reduce((acc, fn) => fn(acc), x)`, the functions applied first to last. */
  function Pipe(fns: seq<int -> int>, x: int): (r: int)
    ensures fns == [] ==> r == x
    ensures |fns| == 2 ==> r == fns[1](fns[0](x))
  {
    if fns == [] then x else Pipe(fns[1..], fns[0](x))
  }

  /** compose: `fns.reduceRight((acc, fn) => fn(acc), x)`, the functions applied last to first. */
  function Compose(fns: seq<int -> int>, x: int): (r: int)
    ensures fns == [] ==> r == x
    ensures |fns| == 2 ==> r == fns[0](fns[1](x))
  {
    if fns == [] then x else Compose(fns[..|fns| - 1], fns[|fns| - 1](x))
  }

  function Reverse<T>(s: seq<T>): (r: seq<T>)
    ensures |r| == |s| && forall i :: 0 <= i < |s| ==> r[i] == s[|s| - 1 - i]
  {
    if s == [] then [] else Reverse(s[1..]) + [s[0]]
  }

  /** Piping a concatenation pipes through the first part and then the second. */
  lemma {:induction false} PipeAppend(f: seq<int -> int>, g: seq<int -> int>, x: int)
    ensures Pipe(f + g, x) == Pipe(g, Pipe(f, x))
    decreases |f|
  {
    if f == [] {
      assert f + g == g;
    } else {
      assert (f + g)[1..] == f[1..] + g;
      PipeAppend(f[1..], g, f[0](x));
    }
  }

  /** compose is pipe over the reversed list. */
  lemma {:induction false} ComposeIsReversedPipe(fns: seq<int -> int>, x: int)
    ensures Compose(fns, x) == Pipe(Reverse(fns), x)
    decreases |fns|
  {
    if fns != [] {
      var init := fns[..|fns| - 1];
      var last := fns[|fns| - 1];
      ComposeIsReversedPipe(init, last(x));
      assert Reverse(fns) == [last] + Reverse(init);
      assert ([last] + Reverse(init))[1..] == Reverse(init);
    }
  }

  function Add10(x: int): int { x + 10 }
  /** Named multiply3 in the script, but it doubles its argument. */
  function Multiply3(x: int): int { x * 2 }
  function Subtract5(x: int): int { x - 5 }
  function AddOne(x: int): int { x + 1 }
  function Double2(x: int): int { x * 2 }
  function Square(x: int): int { x * x }

  /** The script's samples: compose(subtract5, multiply3, add10)(5) is 25 and
      pipe(addOne, double2, square)(3) is 64. */
  lemma ComposePipeSamples()
    ensures Compose([Subtract5, Multiply3, Add10], 5) == 25
    ensures Pipe([AddOne, Double2, Square], 3) == 64
  {
    var c: seq<int -> int> := [Subtract5, Multiply3, Add10];
    assert c[..2] == [Subtract5, Multiply3] && c[..2][..1] == [Subtract5] && c[..2][..1][..0] == [];
    assert Compose(c, 5) == Compose([Subtract5, Multiply3], 15);
    assert Compose([Subtract5, Multiply3], 15) == Compose([Subtract5], 30);
    assert Compose([Subtract5], 30) == Compose([], 25);
    var p: seq<int -> int> := [AddOne, Double2, Square];
    assert p[1..] == [Double2, Square] && p[1..][1..] == [Square] && p[1..][1..][1..] == [];
    assert Pipe(p, 3) == Pipe([Double2, Square], 4);
    assert Pipe([Double2, Square], 4) == Pipe([Square], 8);
    assert Pipe([Square], 8) == Pipe([], 64);
  }

  /** memoize's `cache` object, keyed by `JSON.stringify(args)`. */
  type Cache<V> = map<string, V>

  /** One call of the memoized function: a cached result is returned without calling `fn`;
      otherwise `fn` is called and its result stored. `key` stands for JSON.stringify of the
      argument list; the third component tells whether `fn` was called. */
  function MemoCall<A, V>(fn: A -> V, key: A -> string, cache: Cache<V>, args: A): (r: (V, Cache<V>, bool))
    ensures key(args) in cache ==> r == (cache[key(args)], cache, false)
    ensures key(args) !in cache ==> r.0 == fn(args) && r.1 == cache[key(args) := fn(args)] && r.2
    ensures key(args) in r.1 && r.1[key(args)] == r.0
  {
    var k := key(args);
    if k in cache then (cache[k], cache, false)
    else
      var result := fn(args);
      (result, cache[k := result], true)
  }

  /** The cache only holds results `fn` really produced for an argument list with that key. */
  ghost predicate CacheSound<A(!new), V>(fn: A -> V, key: A -> string, cache: Cache<V>) {
    forall a :: key(a) in cache ==> cache[key(a)] == fn(a)
  }

  /** When distinct argument lists have distinct keys, a memoized call answers what `fn` would, and the
      cache stays sound: memoization is invisible apart from the calls it saves. */
  lemma MemoCallSound<A(!new), V>(fn: A -> V, key: A -> string, cache: Cache<V>, args: A)
    requires forall a, b :: key(a) == key(b) ==> a == b
    requires CacheSound(fn, key, cache)
    ensures MemoCall(fn, key, cache, args).0 == fn(args)
    ensures CacheSound(fn, key, MemoCall(fn, key, cache, args).1)
  {
    var k := key(args);
    if k in cache {
      assert cache[key(args)] == fn(args);
    } else {
      var c := cache[k := fn(args)];
      forall a | key(a) in c
        ensures c[key(a)] == fn(a)
      {
        if key(a) == k {
          assert a == args;
        }
      }
    }
  }

  /** The second call with the same arguments is answered from the cache. */
  lemma MemoSecondCallCached<A, V>(fn: A -> V, key: A -> string, cache: Cache<V>, args: A)
    ensures var (v1, c1, _) := MemoCall(fn, key, cache, args);
            var (v2, c2, called) := MemoCall(fn, key, c1, args);
            v2 == v1 && c2 == c1 && !called
  {
  }
}

=== FILE: getter_setter.dfy ===
/** The classes of js-beginner/2_class_and_oop/2_getter_and_setter.js: validating setters, computed
    getters, a cached getter, copy-on-write "with" methods, derived user facts and explicit update
    methods. */
module GetterSetter {
  import opened Common

  // ---------------------------------------------------------------- number formatting

  /** Three digits with leading zeros, for the groups after the first. */
  function Pad3(m: nat): (s: string)
    requires m < 1000
    ensures |s| == 3 && IsDigits(s)
  {
    [DigitChar(m / 100), DigitChar(m / 10 % 10), DigitChar(m % 10)]
  }

  /** Number.prototype.toLocaleString for a whole number, in a locale that groups digits by three
      with commas (ko-KR and en-US both do). */
  function Grouped(n: nat): (s: string)
    ensures |s| >= 1 && '0' <= s[0] <= '9'
    decreases n
  {
    if n < 1000 then NatToString(n) else Grouped(n / 1000) + "," + Pad3(n % 1000)
  }

  /** The same for any integer: a leading minus sign, then the grouped magnitude. */
  function LocaleInt(i: int): (s: string)
    ensures |s| >= 1 && (s[0] == '-' <==> i < 0)
  {
    if i < 0 then "-" + Grouped(-i) else Grouped(i)
  }

  /** The string with its commas removed. */
  function Ungroup(s: string): (r: string)
    ensures ',' !in r
  {
    if s == [] then [] else Ungroup(s[..|s| - 1]) + (if s[|s| - 1] == ',' then [] else [s[|s| - 1]])
  }

  lemma {:induction false} UngroupAppend(a: string, b: string)
    ensures Ungroup(a + b) == Ungroup(a) + Ungroup(b)
    decreases |b|
  {
    if b == [] {
      assert a + b == a;
    } else {
      var b' := b[..|b| - 1];
      assert (a + b)[..|a + b| - 1] == a + b';
      UngroupAppend(a, b');
    }
  }

  lemma {:induction false} UngroupDigits(s: string)
    requires IsDigits(s)
    ensures Ungroup(s) == s
  {
    if s != [] {
      var t, c := s[..|s| - 1], s[|s| - 1];
      assert IsDigits(t) by {
        forall i | 0 <= i < |t| ensures '0' <= t[i] <= '9' {
          assert t[i] == s[i];
        }
      }
      UngroupDigits(t);
      assert '0' <= c <= '9';
      assert s == t + [c];
    }
  }

  /** Peeling three digits off the end of a number of four digits or more. */
  lemma NatToStringSplit3(n: nat)
    requires n >= 1000
    ensures NatToString(n) == NatToString(n / 1000) + Pad3(n % 1000)
  {
    DivisionFacts(n);
    assert NatToString(n / 100) == NatToString(n / 1000) + [DigitChar(n % 1000 / 100)];
    assert NatToString(n / 10) == NatToString(n / 100) + [DigitChar(n % 1000 / 10 % 10)];
    assert NatToString(n) == NatToString(n / 10) + [DigitChar(n % 1000 % 10)];
  }

  /** How the last three decimal digits of `n` sit in its successive quotients by ten. */
  lemma DivisionFacts(n: nat)
    ensures n / 10 / 10 == n / 100 && n / 100 / 10 == n / 1000
    ensures n / 100 % 10 == n % 1000 / 100 && n / 10 % 10 == n % 1000 / 10 % 10 && n % 10 == n % 1000 % 10
  {
  }

  /** Grouping only inserts separators: without its commas the grouped form is the plain decimal. */
  lemma {:induction false} GroupedDigits(n: nat)
    ensures Ungroup(Grouped(n)) == NatToString(n)
    decreases n
  {
    if n < 1000 {
      NatToStringCanonical(n);
      UngroupDigits(NatToString(n));
    } else {
      GroupedDigits(n / 1000);
      GroupedStep(n);
    }
  }

  /** One step of the induction: the last group joins the ungrouped digits of the rest. */
  lemma GroupedStep(n: nat)
    requires n >= 1000 && Ungroup(Grouped(n / 1000)) == NatToString(n / 1000)
    ensures Ungroup(Grouped(n)) == NatToString(n)
  {
    UngroupGroup(Grouped(n / 1000), Pad3(n % 1000));
    NatToStringSplit3(n);
  }

  /** Removing the commas from `g,p` where `p` is all digits leaves `g` without commas, then `p`. */
  lemma UngroupGroup(g: string, p: string)
    requires IsDigits(p)
    ensures Ungroup(g + "," + p) == Ungroup(g) + p
  {
    UngroupAppend(g + ",", p);
    UngroupAppend(g, ",");
    UngroupDigits(p);
    assert Ungroup(",") == [] by {
      assert ","[..0] == [];
    }
    assert Ungroup(g) + [] == Ungroup(g);
  }

  /** Hence different amounts never print alike. */
  lemma GroupedInjective(m: nat, n: nat)
    requires Grouped(m) == Grouped(n)
    ensures m == n
  {
    GroupedDigits(m);
    GroupedDigits(n);
    NatToStringInjective(m, n);
  }

  /** The sign survives too: different integers never print alike. */
  lemma LocaleIntInjective(i: int, j: int)
    requires LocaleInt(i) == LocaleInt(j)
    ensures i == j
  {
    if i < 0 && j < 0 {
      var si, sj := LocaleInt(i), LocaleInt(j);
      assert Grouped(-i) == si[1..];
      assert Grouped(-j) == sj[1..];
      GroupedInjective(-i, -j);
    } else if i >= 0 && j >= 0 {
      GroupedInjective(i, j);
    }
  }

  /** Nor do their won labels. */
  lemma WonLabelInjective(i: int, j: int)
    requires "₩" + LocaleInt(i) == "₩" + LocaleInt(j)
    ensures i == j
  {
    var a, b := "₩" + LocaleInt(i), "₩" + LocaleInt(j);
    assert LocaleInt(i) == a[1..];
    assert LocaleInt(j) == b[1..];
    LocaleIntInjective(i, j);
  }

  // ---------------------------------------------------------------- BankAccount

  /** BankAccount: the owner and the private balance. */
  datatype Account = Account(owner: string, balance: int)

  const Ceiling := 10000000
  const NegativeBalance := "❌ 잔액은 음수가 될 수 없습니다!"
  const NeedsVerification := "❌ 1천만원 이상은 본인 인증이 필요합니다!"
  const DepositNotPositive := "❌ 입금액은 0보다 커야 합니다."
  const WithdrawNotPositive := "❌ 출금액은 0보다 커야 합니다."
  const Insufficient := "❌ 잔액이 부족합니다."

  /** `get balance`: the balance formatted in won, with the sign after the currency symbol. */
  function BalanceLabel(acc: Account): (r: string)
    ensures |r| >= 2 && r[0] == '₩' && (r[1] == '-' <==> acc.balance < 0)
  {
    "₩" + LocaleInt(acc.balance)
  }

  /** The label gives the balance back: accounts labelled alike hold the same balance. */
  lemma BalanceLabelReadsBack(a: Account, b: Account)
    requires BalanceLabel(a) == BalanceLabel(b)
    ensures a.balance == b.balance
  {
    WonLabelInjective(a.balance, b.balance);
  }

  /** `set balance`: a negative amount or one above ten million is refused and logged; any other amount
      replaces the balance. The second component is the logged line. */
  function SetBalance(acc: Account, amount: int): (r: (Account, string))
    ensures amount < 0 ==> r == (acc, NegativeBalance)
    ensures amount > Ceiling ==> r == (acc, NeedsVerification)
    ensures 0 <= amount <= Ceiling ==> r.0 == acc.(balance := amount)
    ensures r.0.owner == acc.owner
  {
    if amount < 0 then (acc, NegativeBalance)
    else if amount > Ceiling then (acc, NeedsVerification)
    else (acc.(balance := amount), "✅ 잔액을 " + IntToString(amount) + "원으로 변경합니다.")
  }

  /** deposit: only a positive amount is added. */
  function Deposit(acc: Account, amount: int): (r: (Account, string))
    ensures amount <= 0 ==> r == (acc, DepositNotPositive)
    ensures amount > 0 ==> r.0 == acc.(balance := acc.balance + amount)
    ensures amount > 0 ==> r.1 == "✅ " + IntToString(amount) + "원 입금 완료. 잔액: " + BalanceLabel(r.0)
  {
    if amount <= 0 then (acc, DepositNotPositive)
    else
      var next := acc.(balance := acc.balance + amount);
      (next, "✅ " + IntToString(amount) + "원 입금 완료. 잔액: " + BalanceLabel(next))
  }

  /** withdraw: only a positive amount no larger than the balance is taken off. */
  function Withdraw(acc: Account, amount: int): (r: (Account, string))
    ensures amount <= 0 ==> r == (acc, WithdrawNotPositive)
    ensures amount > 0 && acc.balance < amount ==> r == (acc, Insufficient)
    ensures amount > 0 && acc.balance >= amount ==> r.0 == acc.(balance := acc.balance - amount) && r.0.balance >= 0
    ensures amount > 0 && acc.balance >= amount ==> r.1 == "✅ " + IntToString(amount) + "원 출금 완료. 잔액: " + BalanceLabel(r.0)
  {
    if amount <= 0 then (acc, WithdrawNotPositive)
    else if acc.balance < amount then (acc, Insufficient)
    else
      var next := acc.(balance := acc.balance - amount);
      (next, "✅ " + IntToString(amount) + "원 출금 완료. 잔액: " + BalanceLabel(next))
  }

  /** Whatever is called, a balance in [0, ten million] before the setter stays in it after the setter,
      a balance that is not negative stays so, and a deposit is undone by the withdrawal of the same
      amount. */
  lemma AccountInvariants(acc: Account, amount: int)
    ensures 0 <= acc.balance <= Ceiling ==> 0 <= SetBalance(acc, amount).0.balance <= Ceiling
    ensures acc.balance >= 0 ==> Deposit(acc, amount).0.balance >= 0 && Withdraw(acc, amount).0.balance >= 0
    ensures acc.balance >= 0 ==> Withdraw(Deposit(acc, amount).0, amount).0 == acc
  {
  }

  /** A whole number of thousands between 10 and 99 prints as two digits, a comma and three zeros. */
  lemma GroupedThousands(a: nat)
    requires 10 <= a < 100
    ensures Grouped(a * 1000) == [DigitChar(a / 10), DigitChar(a % 10), ',', '0', '0', '0']
  {
    assert a * 1000 / 1000 == a && a * 1000 % 1000 == 0;
    assert NatToString(a) == [DigitChar(a / 10), DigitChar(a % 10)];
  }

  /** The groupings the samples print. */
  lemma LabelSamples()
    ensures Grouped(10000) == "10,000" && Grouped(20000) == "20,000"
    ensures Grouped(50000) == "50,000" && Grouped(96000) == "96,000"
  {
    GroupedThousands(10);
    GroupedThousands(20);
    GroupedThousands(50);
    GroupedThousands(96);
  }

  /** The script's account: ₩10,000; -5000 is refused; 20000 is taken (₩20,000); +5000, -3000 leaves
      22000. */
  lemma AccountSample()
    ensures var a0 := Account("신재준", 10000);
      var a1 := SetBalance(SetBalance(a0, -5000).0, 20000).0;
      var a2 := Withdraw(Deposit(a1, 5000).0, 3000).0;
      && BalanceLabel(a0) == "₩10,000"
      && SetBalance(a0, -5000).0 == a0
      && BalanceLabel(a1) == "₩20,000"
      && a2.balance == 22000
  {
    LabelSamples();
    var a1 := SetBalance(SetBalance(Account("신재준", 10000), -5000).0, 20000).0;
    assert a1 == Account("신재준", 20000);
    assert Withdraw(Deposit(a1, 5000).0, 3000).0.balance == 22000;
  }

  // ---------------------------------------------------------------- Rectangle

  /** Rectangle: width and height; the constructor stores them unchecked. */
  datatype Rectangle = Rectangle(width: real, height: real)

  /** `get area`. */
  function Area(r: Rectangle): (a: real)
    ensures r.width > 0.0 && r.height > 0.0 ==> a > 0.0
    ensures r.width == 0.0 || r.height == 0.0 ==> a == 0.0
  {
    r.width * r.height
  }

  /** `get perimeter`. */
  function Perimeter(r: Rectangle): (p: real)
    ensures r.width > 0.0 && r.height > 0.0 ==> p > 2.0 * r.width && p > 2.0 * r.height
  {
    2.0 * (r.width + r.height)
  }

  /** `set width`: only a positive width is taken. */
  function SetWidth(r: Rectangle, value: real): (s: Rectangle)
    ensures value <= 0.0 ==> s == r
    ensures value > 0.0 ==> s.width == value
    ensures s.height == r.height
  {
    if value <= 0.0 then r else r.(width := value)
  }

  /** `set height`: only a positive height is taken. */
  function SetHeight(r: Rectangle, value: real): (s: Rectangle)
    ensures value <= 0.0 ==> s == r
    ensures value > 0.0 ==> s.height == value
    ensures s.width == r.width
  {
    if value <= 0.0 then r else r.(height := value)
  }

  /** The computed getters follow the setters: after an accepted width the area and perimeter are those of
      the new width, after a refused one they are unchanged; a rectangle with positive sides keeps
      positive sides, area and perimeter whatever is set. */
  lemma ComputedFollowSetters(r: Rectangle, v: real)
    ensures v > 0.0 ==> Area(SetWidth(r, v)) == v * r.height && Perimeter(SetWidth(r, v)) == 2.0 * (v + r.height)
    ensures v > 0.0 ==> Area(SetHeight(r, v)) == r.width * v && Perimeter(SetHeight(r, v)) == 2.0 * (r.width + v)
    ensures v <= 0.0 ==> Area(SetWidth(r, v)) == Area(r) && Area(SetHeight(r, v)) == Area(r)
    ensures r.width > 0.0 && r.height > 0.0 ==>
      var s := SetHeight(SetWidth(r, v), v);
      s.width > 0.0 && s.height > 0.0 && Area(s) > 0.0 && Perimeter(s) > 0.0
  {
  }

  /** The script's rectangle: 10 by 20 has area 200 and perimeter 60; with width 15 the area is 300. */
  lemma RectangleSample()
    ensures Area(Rectangle(10.0, 20.0)) == 200.0 && Perimeter(Rectangle(10.0, 20.0)) == 60.0
    ensures Area(SetWidth(Rectangle(10.0, 20.0), 15.0)) == 300.0
  {
  }

  // ---------------------------------------------------------------- ExpensiveCalculation

  /** ExpensiveCalculation: the cache, null until the first read. */
  datatype Expensive = Expensive(cache: Option<int>)

  const Computing := "계산 중..."
  const FromCache := "캐시에서 반환"

  /** The loop of the first read: the sum of 0..n-1. */
  method SumBelow(n: nat) returns (sum: int)
    ensures sum == n * (n - 1) / 2
  {
    sum := 0;
    var i := 0;
    while i < n
      invariant 0 <= i <= n
      invariant sum * 2 == i * (i - 1)
    {
      sum := sum + i;
      i := i + 1;
    }
  }

  /** `get result`: a cached value is returned as it is; otherwise the sum of 0..999999 is computed and
      cached. The log line says which happened. */
  method Result(e: Expensive) returns (next: Expensive, value: int, log: string)
    ensures e.cache.Some? ==> next == e && value == e.cache.value && log == FromCache
    ensures e.cache.None? ==> value == 499999500000 && next.cache == Some(value) && log == Computing
  {
    if e.cache.Some? {
      return e, e.cache.value, FromCache;
    }
    value := SumBelow(1000000);
    next := Expensive(Some(value));
    log := Computing;
  }

  /** resetCache: back to null, so that the next read computes again. */
  function ResetCache(e: Expensive): (r: Expensive)
    ensures r.cache.None?
  {
    Expensive(None)
  }

  /** Three reads compute once and agree; after resetCache the next read computes again and gives the
      same value. */
  method ExpensiveSample() returns (logs: seq<string>, values: seq<int>)
    ensures logs == [Computing, FromCache, FromCache, Computing]
    ensures values == [499999500000, 499999500000, 499999500000, 499999500000]
  {
    var e := Expensive(None);
    var v1, l1, v2, l2, v3, l3, v4, l4;
    e, v1, l1 := Result(e);
    e, v2, l2 := Result(e);
    e, v3, l3 := Result(e);
    e, v4, l4 := Result(ResetCache(e));
    logs := [l1, l2, l3, l4];
    values := [v1, v2, v3, v4];
  }

  // ---------------------------------------------------------------- ImmutableIdol

  datatype Idol = Idol(name: string, age: int)

  /** withName: a new idol with the name replaced and the age kept. */
  function WithName(i: Idol, newName: string): (r: Idol)
    ensures r.name == newName && r.age == i.age
  {
    Idol(newName, i.age)
  }

  /** withAge: a new idol with the age replaced and the name kept. */
  function WithAge(i: Idol, newAge: int): (r: Idol)
    ensures r.age == newAge && r.name == i.name
  {
    Idol(i.name, newAge)
  }

  /** The "with" methods overwrite rather than accumulate, commute with each other, and give back the
      receiver itself when given its own values. */
  lemma WithLaws(i: Idol, a: string, b: string, m: int, n: int)
    ensures WithName(WithName(i, a), b) == WithName(i, b)
    ensures WithAge(WithAge(i, m), n) == WithAge(i, n)
    ensures WithName(WithAge(i, m), a) == WithAge(WithName(i, a), m)
    ensures WithName(i, i.name) == i && WithAge(i, i.age) == i
  {
  }

  /** The script's idols: the copy is named 장원영 at 21 and differs from the original 안유진. */
  lemma IdolSample()
    ensures WithName(Idol("안유진", 21), "장원영") == Idol("장원영", 21) != Idol("안유진", 21)
  {
  }

  // ---------------------------------------------------------------- User

  /** User: e-mail and password; the creation date is left out. */
  datatype User = User(email: string, password: string)

  /** `get maskedEmail`: the first three characters of the part before the first '@', then '***@', then
      the part between the first and the second '@' — the string "undefined" when there is no '@'. */
  function MaskedEmail(u: User): (r: string)
    ensures var parts := Split(u.email, '@');
      var n := if |parts[0]| < 3 then |parts[0]| else 3;
      && |r| >= n + 4
      && r[..n] == parts[0][..n]
      && r[n..n + 4] == "***@"
  {
    var parts := Split(u.email, '@');
    var local := parts[0];
    var domain := if |parts| >= 2 then parts[1] else "undefined";
    var shown := if |local| < 3 then local else local[..3];
    assert (shown + "***@" + domain)[..|shown|] == shown;
    assert (shown + "***@" + domain)[|shown|..|shown| + 4] == "***@";
    shown + "***@" + domain
  }

  /** For an address local@domain (one '@') the mask keeps at most three characters of the local part
      and the whole domain. */
  lemma MaskedEmailOfAddress(local: string, domain: string, password: string)
    requires '@' !in local && '@' !in domain
    ensures MaskedEmail(User(local + "@" + domain, password))
            == (if |local| < 3 then local else local[..3]) + "***@" + domain
  {
    SplitAtFirst(local, '@', domain);
    SplitNoSeparator(domain, '@');
    assert Split(local + "@" + domain, '@') == [local, domain];
  }

  /** Without an '@' the domain reads "undefined". */
  lemma MaskedEmailWithoutAt(email: string, password: string)
    requires '@' !in email
    ensures MaskedEmail(User(email, password)) == (if |email| < 3 then email else email[..3]) + "***@undefined"
  {
    SplitNoSeparator(email, '@');
  }

  /** `get passwordStrength` as a rank: 0 for 약함 (under 6), 1 for 보통 (under 10), 2 for 강함, the
      length counted in UTF-16 code units. */
  function StrengthRank(password: string): (rank: nat)
    ensures rank <= 2
    ensures rank == 0 <==> Utf16Length(password) < 6
  {
    if Utf16Length(password) < 6 then 0 else if Utf16Length(password) < 10 then 1 else 2
  }

  function StrengthLabel(rank: nat): string {
    if rank == 0 then "약함" else if rank == 1 then "보통" else "강함"
  }

  /** `get passwordStrength`. */
  function PasswordStrength(u: User): (r: string)
    ensures r == "약함" <==> Utf16Length(u.password) < 6
    ensures r == "강함" <==> Utf16Length(u.password) >= 10
    ensures r == "보통" <==> 6 <= Utf16Length(u.password) < 10
  {
    StrengthLabel(StrengthRank(u.password))
  }

  /** A longer password never rates lower. */
  lemma StrengthMonotone(p: string, q: string)
    requires Utf16Length(p) <= Utf16Length(q)
    ensures StrengthRank(p) <= StrengthRank(q)
  {
  }

  const OldMismatch := "❌ 기존 비밀번호가 일치하지 않습니다."
  const TooShort := "❌ 비밀번호는 6자 이상이어야 합니다."
  const Changed := "✅ 비밀번호가 변경되었습니다."

  /** changePassword: the old password must match and the new one be at least six code units long; a
      refusal leaves the user unchanged. */
  function ChangePassword(u: User, oldPassword: string, newPassword: string): (r: (User, string))
    ensures r.1 == Changed <==> oldPassword == u.password && Utf16Length(newPassword) >= 6
    ensures r.1 == Changed ==> r.0 == u.(password := newPassword)
    ensures r.1 != Changed ==> r.0 == u
    ensures oldPassword != u.password ==> r.1 == OldMismatch
    ensures oldPassword == u.password && Utf16Length(newPassword) < 6 ==> r.1 == TooShort
  {
    if u.password != oldPassword then (u, OldMismatch)
    else if Utf16Length(newPassword) < 6 then (u, TooShort)
    else (u.(password := newPassword), Changed)
  }

  /** An accepted change never leaves a weak password, keeps the e-mail, and can be undone with the new
      password when the old one was long enough. */
  lemma ChangePasswordFacts(u: User, newPassword: string)
    requires ChangePassword(u, u.password, newPassword).1 == Changed
    ensures PasswordStrength(ChangePassword(u, u.password, newPassword).0) != "약함"
    ensures ChangePassword(u, u.password, newPassword).0.email == u.email
    ensures Utf16Length(u.password) >= 6 ==> ChangePassword(ChangePassword(u, u.password, newPassword).0, newPassword, u.password).0 == u
  {
  }

  /** The script's user: masked as yuj***@ive.com. */
  lemma MaskSample(local: string, domain: string)
    requires local == "yujin" && domain == "ive.com"
    ensures MaskedEmail(User(local + "@" + domain, "password123")) == "yuj***@ive.com"
  {
    MaskedEmailOfAddress(local, domain, "password123");
  }

  /** The script's password 'password123' has eleven characters and rates 강함; 'wrong' is refused as the
      old password and 'newpass123' is accepted as the new one. */
  lemma UserSample()
    ensures PasswordStrength(User("yujin@ive.com", "password123")) == "강함"
    ensures ChangePassword(User("yujin@ive.com", "password123"), "wrong", "new").1 == OldMismatch
    ensures ChangePassword(User("yujin@ive.com", "password123"), "password123", "newpass123").0.password == "newpass123"
  {
  }

  // ---------------------------------------------------------------- Product

  /** This script's Product: price and quantity. */
  datatype Product = Product(price: int, quantity: int)

  /** `get total`. */
  function Total(p: Product): (t: int)
    ensures p.price >= 0 && p.quantity >= 0 ==> t >= 0
    ensures p.price == 0 || p.quantity == 0 ==> t == 0
  {
    p.price * p.quantity
  }

  /** `get formattedTotal`: the total formatted in won. */
  function FormattedTotal(p: Product): (r: string)
    ensures |r| >= 2 && r[0] == '₩' && (r[1] == '-' <==> Total(p) < 0)
  {
    "₩" + LocaleInt(Total(p))
  }

  /** The formatted total gives the total back. */
  lemma FormattedTotalReadsBack(p: Product, q: Product)
    requires FormattedTotal(p) == FormattedTotal(q)
    ensures Total(p) == Total(q)
  {
    WonLabelInjective(Total(p), Total(q));
  }

  /** updatePrice: a negative price throws and changes nothing. */
  function UpdatePrice(p: Product, newPrice: int): (r: Result<Product>)
    ensures r.Throws? <==> newPrice < 0
    ensures r.Throws? ==> r.error == Exception("Error", "가격은 0 이상이어야 합니다.")
    ensures r.Ok? ==> r.value == p.(price := newPrice)
  {
    if newPrice < 0 then Throws(Exception("Error", "가격은 0 이상이어야 합니다.")) else Ok(p.(price := newPrice))
  }

  /** updateQuantity: a negative quantity throws and changes nothing. */
  function UpdateQuantity(p: Product, newQuantity: int): (r: Result<Product>)
    ensures r.Throws? <==> newQuantity < 0
    ensures r.Throws? ==> r.error == Exception("Error", "수량은 0 이상이어야 합니다.")
    ensures r.Ok? ==> r.value == p.(quantity := newQuantity)
  {
    if newQuantity < 0 then Throws(Exception("Error", "수량은 0 이상이어야 합니다.")) else Ok(p.(quantity := newQuantity))
  }

  /** increaseQuantity: adds the amount, unchecked. */
  function IncreaseQuantity(p: Product, amount: int): (r: Product)
    ensures r.price == p.price && r.quantity - p.quantity == amount
  {
    p.(quantity := p.quantity + amount)
  }

  /** decreaseQuantity: throws when the amount exceeds the quantity. */
  function DecreaseQuantity(p: Product, amount: int): (r: Result<Product>)
    ensures r.Throws? <==> p.quantity < amount
    ensures r.Throws? ==> r.error == Exception("Error", "재고가 부족합니다.")
    ensures r.Ok? ==> r.value.price == p.price && p.quantity - r.value.quantity == amount
  {
    if p.quantity < amount then Throws(Exception("Error", "재고가 부족합니다."))
    else Ok(p.(quantity := p.quantity - amount))
  }

  /** `increaseQuantity()` with the amount left out: the default of one. */
  function IncreaseQuantityDefault(p: Product): (r: Product)
    ensures r.price == p.price && r.quantity == p.quantity + 1
  {
    IncreaseQuantity(p, 1)
  }

  /** `decreaseQuantity()` with the amount left out: takes one off, and throws exactly when the
      quantity is below one. */
  function DecreaseQuantityDefault(p: Product): (r: Result<Product>)
    ensures r.Throws? <==> p.quantity < 1
    ensures r.Ok? ==> r.value.price == p.price && r.value.quantity == p.quantity - 1
  {
    DecreaseQuantity(p, 1)
  }

  /** The two defaults undo each other: one more and then one fewer gives the product back, and one
      fewer and then one more does too when there was one to take. */
  lemma DefaultQuantityInverse(p: Product)
    ensures p.quantity >= 0 ==> DecreaseQuantityDefault(IncreaseQuantityDefault(p)) == Ok(p)
    ensures DecreaseQuantityDefault(p).Ok? ==> IncreaseQuantityDefault(DecreaseQuantityDefault(p).value) == p
  {
  }

  /** The total follows the updates, decreasing undoes increasing, and a product whose price and quantity
      are not negative keeps a total that is not negative through every accepted update. */
  lemma ProductLaws(p: Product, n: int)
    ensures UpdatePrice(p, n).Ok? ==> Total(UpdatePrice(p, n).value) == n * p.quantity
    ensures UpdateQuantity(p, n).Ok? ==> Total(UpdateQuantity(p, n).value) == p.price * n
    ensures Total(IncreaseQuantity(p, n)) == Total(p) + p.price * n
    ensures p.quantity >= 0 ==> DecreaseQuantity(IncreaseQuantity(p, n), n) == Ok(p)
    ensures p.price >= 0 && p.quantity >= 0 ==>
      && (UpdatePrice(p, n).Ok? ==> Total(UpdatePrice(p, n).value) >= 0)
      && (UpdateQuantity(p, n).Ok? ==> Total(UpdateQuantity(p, n).value) >= 0)
      && (DecreaseQuantity(p, n).Ok? && n >= 0 ==> Total(DecreaseQuantity(p, n).value) >= 0)
  {
  }

  /** The script's product: ₩50,000, then price 12000 and three more give 12000 × 8 = ₩96,000. */
  lemma ProductSample()
    ensures FormattedTotal(Product(10000, 5)) == "₩50,000"
    ensures UpdatePrice(Product(10000, 5), 12000).Ok?
    ensures FormattedTotal(IncreaseQuantity(UpdatePrice(Product(10000, 5), 12000).value, 3)) == "₩96,000"
  {
    LabelSamples();
    var p := IncreaseQuantity(UpdatePrice(Product(10000, 5), 12000).value, 3);
    assert p == Product(12000, 8) && Total(p) == 96000;
    assert Total(Product(10000, 5)) == 50000;
  }
}

=== FILE: idol_entity.dfy ===
/** The robust class of js-beginner/3_all_about_object/1_introduction.js: IdolEntity checks the record
    it is built from, keeps name and year in private fields that only getters read, and a map-and-filter
    pipeline turns raw records into entities, dropping the records the constructor refuses. */
module IdolEntities {
  import opened Common
  import opened JsValues

  /** An entity: its private #name and #year. The getters return them and nothing writes them after
      construction, so the datatype's fields are the getters. */
  datatype IdolEntity = IdolEntity(name: string, year: Number)

  const NamePrefix := "잘못된 이름입니다: "
  const YearPrefix := "잘못된 연도입니다: "
  const NoRecord := "Cannot destructure the argument: it is null or undefined"

  /** `!name || typeof name !== 'string'` fails: a name must be a non-empty string. */
  predicate GoodName(v: JsValue) {
    Truthy(v) && v.Str?
  }

  /** `!year || typeof year !== 'number'` fails: a year must be a number other than 0, -0 and NaN. */
  predicate GoodYear(v: JsValue) {
    Truthy(v) && v.Num?
  }

  /** The records the constructor accepts. */
  predicate Acceptable(h: Heap, data: JsValue) {
    !IsNullish(data) && GoodName(Get(h, data, "name")) && GoodYear(Get(h, data, "year"))
  }

  /** The entity an acceptable record describes. */
  function Entity(h: Heap, data: JsValue): IdolEntity
    requires Acceptable(h, data)
  {
    IdolEntity(Get(h, data, "name").s, Get(h, data, "year").n)
  }

  /** `new IdolEntity(data)`, which is also what IdolEntity.from(data) returns. Destructuring a null or
      undefined argument throws a TypeError; then the name is checked before the year, each failure an
      Error quoting the value. `show` stands for the conversion a template literal applies to a value. */
  function From(h: Heap, data: JsValue, show: JsValue -> string): (r: Result<IdolEntity>)
    ensures r.Ok? <==> Acceptable(h, data)
    ensures r.Ok? ==> r.value == Entity(h, data)
    ensures IsNullish(data) ==> r.Throws? && r.error.name == "TypeError"
    ensures var name := Get(h, data, "name");
      !IsNullish(data) && !GoodName(name) ==> r == Throws(Exception("Error", NamePrefix + show(name)))
    ensures var year := Get(h, data, "year");
      !IsNullish(data) && GoodName(Get(h, data, "name")) && !GoodYear(year) ==>
        r == Throws(Exception("Error", YearPrefix + show(year)))
  {
    if IsNullish(data) then Throws(Exception("TypeError", NoRecord))
    else
      var name := Get(h, data, "name");
      var year := Get(h, data, "year");
      if !Truthy(name) || !name.Str? then Throws(Exception("Error", NamePrefix + show(name)))
      else if !Truthy(year) || !year.Num? then Throws(Exception("Error", YearPrefix + show(year)))
      else Ok(IdolEntity(name.s, year.n))
  }

  /** An entity written back as a `{ name, year }` record. */
  function Record(e: IdolEntity): JsObject {
    ObjectLiteral([("name", Str(e.name)), ("year", Num(e.year))])
  }

  /** The getters give back exactly what the record held: building from an entity's own record yields
      the same entity, and only entities with a non-empty name and a truthy year can be built at all. */
  lemma FromRecordRoundTrip(h: Heap, a: nat, e: IdolEntity, show: JsValue -> string)
    ensures From(h[a := Record(e)], Ref(a), show) == Ok(e) <==> e.name != "" && Truthy(Num(e.year))
  {
    PairLiteral("name", Str(e.name), "year", Num(e.year));
  }

  /** Year 0 is refused like a missing year, and so is a year given as a string. */
  lemma FalsyYearRefused(h: Heap, a: nat, name: string, year: JsValue, show: JsValue -> string)
    requires name != ""
    requires year == Int(0) || year.Str?
    ensures From(h[a := ObjectLiteral([("name", Str(name)), ("year", year)])], Ref(a), show)
            == Throws(Exception("Error", YearPrefix + show(year)))
  {
    PairLiteral("name", Str(name), "year", year);
  }

  const ClassTag := "[Class] "
  const BornIn := "년생 "
  const Closing := "입니다."

  /** introduce: the year as a template literal prints it, then the name. */
  function Introduce(e: IdolEntity, show: JsValue -> string): (r: string)
    ensures |r| == |ClassTag| + |show(Num(e.year))| + |BornIn| + |e.name| + |Closing|
    ensures r[..|ClassTag|] == ClassTag && r[|r| - |Closing|..] == Closing
  {
    ClassTag + show(Num(e.year)) + BornIn + e.name + Closing
  }

  /** The introduction names the entity: the name stands right after the printed year and before the
      closing words, so it can be read back. */
  lemma IntroduceNamesEntity(e: IdolEntity, show: JsValue -> string)
    ensures var r := Introduce(e, show);
      var start := |ClassTag| + |show(Num(e.year))| + |BornIn|;
      r[start..|r| - |Closing|] == e.name && r[|ClassTag|..|ClassTag| + |show(Num(e.year))|] == show(Num(e.year))
  {
    var t := show(Num(e.year));
    var r := Introduce(e, show);
    assert r == ClassTag + t + BornIn + e.name + Closing;
  }

  // ---------------------------------------------------------------- the ingestion pipeline

  /** Reference reading of the pipeline: the entities of the acceptable records, in input order. */
  function Kept(h: Heap, list: seq<JsValue>): seq<IdolEntity> {
    if list == [] then []
    else
      var last := list[|list| - 1];
      Kept(h, list[..|list| - 1]) + (if Acceptable(h, last) then [Entity(h, last)] else [])
  }

  /** `rawDataList.map(try IdolEntity.from … catch null).filter(m => m !== null)`, as one loop: each
      record is tried, a refused one is skipped and an accepted one appended. */
  method SafeMembers(h: Heap, list: seq<JsValue>, show: JsValue -> string) returns (members: seq<IdolEntity>)
    ensures members == Kept(h, list)
    ensures |members| <= |list|
  {
    members := [];
    var i := 0;
    while i < |list|
      invariant 0 <= i <= |list|
      invariant members == Kept(h, list[..i])
      invariant |members| <= i
    {
      assert list[..i + 1][..i] == list[..i];
      match From(h, list[i], show) {
        case Ok(e) =>
          members := members + [e];
        case Throws(_) =>
      }
      i := i + 1;
    }
    assert list[..|list|] == list;
  }

  /** The pipeline keeps order: the entities of two lists in a row are those of the first list followed
      by those of the second. */
  lemma {:induction false} KeptAppend(h: Heap, a: seq<JsValue>, b: seq<JsValue>)
    ensures Kept(h, a + b) == Kept(h, a) + Kept(h, b)
    decreases |b|
  {
    if b == [] {
      assert a + b == a;
    } else {
      var init := b[..|b| - 1];
      assert (a + b)[..|a + b| - 1] == a + init;
      KeptAppend(h, a, init);
    }
  }

  /** A single record yields its entity when it is acceptable and nothing otherwise. */
  lemma KeptSingle(h: Heap, x: JsValue)
    ensures Kept(h, [x]) == if Acceptable(h, x) then [Entity(h, x)] else []
  {
    assert [x][..0] == [];
  }

  /** A list of acceptable records loses none: each record gives its entity, at its own position. */
  lemma {:induction false} KeptAllAcceptable(h: Heap, list: seq<JsValue>)
    requires forall i :: 0 <= i < |list| ==> Acceptable(h, list[i])
    ensures |Kept(h, list)| == |list|
    ensures forall i :: 0 <= i < |list| ==> Kept(h, list)[i] == Entity(h, list[i])
    decreases |list|
  {
    if list != [] {
      var init := list[..|list| - 1];
      KeptAllAcceptable(h, init);
      assert Kept(h, list) == Kept(h, init) + [Entity(h, list[|list| - 1])];
    }
  }

  /** A list of refused records gives nothing. */
  lemma {:induction false} KeptNoneAcceptable(h: Heap, list: seq<JsValue>)
    requires forall i :: 0 <= i < |list| ==> !Acceptable(h, list[i])
    ensures Kept(h, list) == []
    decreases |list|
  {
    if list != [] {
      KeptNoneAcceptable(h, list[..|list| - 1]);
    }
  }

  /** Three records of which the first two are acceptable give the first two entities. */
  lemma KeptTwoOfThree(h: Heap, r0: JsValue, r1: JsValue, r2: JsValue)
    requires Acceptable(h, r0) && Acceptable(h, r1) && !Acceptable(h, r2)
    ensures Kept(h, [r0, r1, r2]) == [Entity(h, r0), Entity(h, r1)]
  {
    KeptAllAcceptable(h, [r0, r1]);
    KeptSingle(h, r2);
    KeptAppend(h, [r0, r1], [r2]);
    assert [r0, r1] + [r2] == [r0, r1, r2];
  }

  /** A record stored as a `{ name, year }` literal is acceptable exactly when its two values are, and
      then describes the entity holding them. */
  lemma RecordAt(h: Heap, a: nat, name: JsValue, year: JsValue)
    requires a in h && h[a] == ObjectLiteral([("name", name), ("year", year)])
    ensures Acceptable(h, Ref(a)) <==> GoodName(name) && GoodYear(year)
    ensures Acceptable(h, Ref(a)) ==> Entity(h, Ref(a)) == IdolEntity(name.s, year.n)
  {
    PairLiteral("name", name, "year", year);
  }

  /** Three `{ name, year }` records of which the first two hold good values give those two entities. */
  lemma KeptOfRecords(h: Heap, n0: JsValue, y0: JsValue, n1: JsValue, y1: JsValue, n2: JsValue, y2: JsValue)
    requires 0 in h && h[0] == ObjectLiteral([("name", n0), ("year", y0)])
    requires 1 in h && h[1] == ObjectLiteral([("name", n1), ("year", y1)])
    requires 2 in h && h[2] == ObjectLiteral([("name", n2), ("year", y2)])
    requires GoodName(n0) && GoodYear(y0) && GoodName(n1) && GoodYear(y1) && !(GoodName(n2) && GoodYear(y2))
    ensures Kept(h, [Ref(0), Ref(1), Ref(2)]) == [IdolEntity(n0.s, y0.n), IdolEntity(n1.s, y1.n)]
  {
    RecordAt(h, 0, n0, y0);
    RecordAt(h, 1, n1, y1);
    RecordAt(h, 2, n2, y2);
    KeptTwoOfThree(h, Ref(0), Ref(1), Ref(2));
  }

  lemma SampleValues(n0: JsValue, y0: JsValue, n1: JsValue, y1: JsValue, y2: JsValue)
    requires n0 == Str("장원영") && y0 == Int(2004) && n1 == Str("이서") && y1 == Int(2007) && y2 == Str("몰라")
    ensures GoodName(n0) && GoodYear(y0) && GoodName(n1) && GoodYear(y1) && !GoodYear(y2)
  {
  }

  /** The script's records: 장원영 and 이서 become entities, the record whose year is the string '몰라'
      is dropped. */
  method PipelineSample(h: Heap, show: JsValue -> string, n0: JsValue, y0: JsValue, n1: JsValue, y1: JsValue,
                        n2: JsValue, y2: JsValue) returns (members: seq<IdolEntity>)
    requires n0 == Str("장원영") && y0 == Int(2004) && n1 == Str("이서") && y1 == Int(2007)
    requires n2 == Str("오류남") && y2 == Str("몰라")
    requires 0 in h && h[0] == ObjectLiteral([("name", n0), ("year", y0)])
    requires 1 in h && h[1] == ObjectLiteral([("name", n1), ("year", y1)])
    requires 2 in h && h[2] == ObjectLiteral([("name", n2), ("year", y2)])
    ensures members == [IdolEntity("장원영", Finite(2004.0)), IdolEntity("이서", Finite(2007.0))]
  {
    SampleValues(n0, y0, n1, y1, y2);
    KeptOfRecords(h, n0, y0, n1, y1, n2, y2);
    members := SafeMembers(h, [Ref(0), Ref(1), Ref(2)], show);
  }
}

=== FILE: immutable_objects.dfy ===
/** The deep freeze and the defaults merge of JavaScript/js-beginner/3_all_about_object/3_2_immutable_object.js.
    Objects live in a heap so that nested objects, shared objects and cycles are all expressible. */
module ImmutableObjects {
  import opened Common
  import opened JsValues
  import opened PropertyAttributes

  /** The addresses an object's own properties refer to. */
  function ChildAddrs(o: JsObject): set<nat> {
    set k | k in o.props && o.props[k].value.Ref? :: o.props[k].value.addr
  }

  /** An object whose only reference is the property `key` has exactly that child. */
  lemma ChildAddrsSingle(o: JsObject, key: string, b: nat)
    requires key in o.props && o.props[key].value == Ref(b)
    requires forall k :: k in o.props && k != key ==> !o.props[k].value.Ref?
    ensures ChildAddrs(o) == {b}
  {
  }

  /** An object holding only primitives has no children. */
  lemma ChildAddrsNone(o: JsObject)
    requires forall k :: k in o.props ==> !o.props[k].value.Ref?
    ensures ChildAddrs(o) == {}
  {
  }

  /** Every object is well formed and refers only to objects in the heap. */
  ghost predicate HeapOk(h: Heap) {
    forall b :: b in h ==> WellFormed(h[b]) && ChildAddrs(h[b]) <= h.Keys
  }

  function Unfrozen(h: Heap): set<nat> {
    set b | b in h && !IsFrozen(h[b])
  }

  /** `h2` comes from `h1` by freezing some objects and touching nothing else. */
  ghost predicate FreezesOnly(h1: Heap, h2: Heap) {
    h2.Keys == h1.Keys && forall b :: b in h1 ==> h2[b] == h1[b] || h2[b] == FrozenCopy(h1[b])
  }

  /** All the objects `o` refers to are frozen in `h`. */
  ghost predicate ChildrenFrozen(h: Heap, o: JsObject) {
    forall c :: c in ChildAddrs(o) ==> c in h && IsFrozen(h[c])
  }

  lemma ChildAddrsOfFrozenCopy(o: JsObject)
    ensures ChildAddrs(FrozenCopy(o)) == ChildAddrs(o)
  {
    assert forall k :: k in o.props ==> FrozenCopy(o).props[k].value == o.props[k].value;
  }

  /** Freezing more objects keeps the heap sound, keeps frozen objects as they are, keeps every
      reference, and only shrinks the set of unfrozen objects. */
  lemma FreezesOnlyFacts(h1: Heap, h2: Heap)
    requires HeapOk(h1) && FreezesOnly(h1, h2)
    ensures HeapOk(h2)
    ensures forall b :: b in h1 ==> ChildAddrs(h2[b]) == ChildAddrs(h1[b])
    ensures forall b :: b in h1 && IsFrozen(h1[b]) ==> h2[b] == h1[b]
    ensures forall b :: b in h1 && !IsFrozen(h2[b]) ==> h2[b] == h1[b]
    ensures Unfrozen(h2) <= Unfrozen(h1)
  {
    forall b | b in h1
      ensures WellFormed(h2[b]) && ChildAddrs(h2[b]) == ChildAddrs(h1[b])
      ensures IsFrozen(h1[b]) ==> h2[b] == h1[b]
      ensures !IsFrozen(h2[b]) ==> h2[b] == h1[b]
    {
      FrozenCopyFacts(h1[b]);
      ChildAddrsOfFrozenCopy(h1[b]);
    }
  }

  lemma FreezesOnlyTransitive(h1: Heap, h2: Heap, h3: Heap)
    requires HeapOk(h1) && FreezesOnly(h1, h2) && FreezesOnly(h2, h3)
    ensures FreezesOnly(h1, h3)
  {
    forall b | b in h1
      ensures h3[b] == h1[b] || h3[b] == FrozenCopy(h1[b])
    {
      FrozenCopyFacts(h1[b]);
    }
  }

  /** `v` is not a reference, or refers to a frozen object of `h`. */
  predicate ValueFrozen(h: Heap, v: JsValue) {
    v.Ref? ==> v.addr in h && IsFrozen(h[v.addr])
  }

  /** The condition deepFreeze tests before descending into `obj[prop]`: not null, of type 'object' or
      'function', and not frozen yet. */
  predicate ShouldDescend(h: Heap, v: JsValue) {
    && !StrictEquals(v, Null)
    && (TypeOf(h, v) == "object" || TypeOf(h, v) == "function")
    && v.Ref? && v.addr in h
    && !IsFrozen(h[v.addr])
  }

  /** What a call `deepFreeze(a)` on heap `h` achieves, giving heap `r` and the set `visited` of
      objects it was called on: only freezing happens; `a` is frozen; the objects left unvisited are
      unchanged; every visited object is frozen with all its children frozen; and every visited object
      other than `a` was unfrozen before and is a child of another visited object. */
  ghost predicate DeepFreezePost(h: Heap, a: nat, r: Heap, visited: set<nat>) {
    && HeapOk(r) && FreezesOnly(h, r)
    && a in r && IsFrozen(r[a])
    && Unfrozen(r) <= Unfrozen(h)
    && a in visited && visited <= h.Keys
    && (forall b :: b in h && b !in visited ==> r[b] == h[b])
    && (forall b :: b in visited ==> IsFrozen(r[b]) && ChildrenFrozen(r, r[b]))
    && (forall b :: b in visited && b != a ==> !IsFrozen(h[b]) && exists p :: p in visited && b in ChildAddrs(h[p]))
  }

  /** The state of deepFreeze's loop over the property names of `frozen` (the frozen `a`) after `i` of
      them: as DeepFreezePost, except that only the first `i` children of `a` are known to be frozen. */
  ghost predicate LoopState(h: Heap, a: nat, frozen: JsObject, i: nat, r: Heap, visited: set<nat>) {
    LoopInv(h, a, frozen, r, visited) && KeysDone(frozen, i, r)
  }

  /** The part of the loop state that does not depend on how many names are done. */
  ghost predicate LoopInv(h: Heap, a: nat, frozen: JsObject, r: Heap, visited: set<nat>) {
    && HeapOk(h) && a in h && frozen == FrozenCopy(h[a]) && WellFormed(frozen)
    && HeapOk(r) && FreezesOnly(h, r) && r[a] == frozen
    && Unfrozen(r) <= Unfrozen(h) - {a}
    && a in visited && visited <= h.Keys
    && (forall b :: b in h && b !in visited ==> r[b] == h[b])
    && (forall b :: b in visited && b != a ==> IsFrozen(r[b]) && ChildrenFrozen(r, r[b]))
    && (forall b :: b in visited && b != a ==> !IsFrozen(h[b]) && exists p :: p in visited && b in ChildAddrs(h[p]))
  }

  /** The values of the first `i` names of `frozen` are primitives or frozen objects of `r`. */
  ghost predicate KeysDone(frozen: JsObject, i: nat, r: Heap) {
    && i <= |frozen.keys|
    && (forall j :: 0 <= j < i ==> frozen.keys[j] in frozen.props && ValueFrozen(r, frozen.props[frozen.keys[j]].value))
  }

  lemma LoopStart(h: Heap, a: nat, frozen: JsObject)
    requires HeapOk(h) && a in h && frozen == FrozenCopy(h[a])
    ensures LoopState(h, a, frozen, 0, h[a := frozen], {a})
  {
    FrozenCopyFacts(h[a]);
    ChildAddrsOfFrozenCopy(h[a]);
    assert FreezesOnly(h, h[a := frozen]);
    FreezesOnlyFacts(h, h[a := frozen]);
  }

  /** A property value deepFreeze does not descend into is a primitive or an object already frozen. */
  lemma LoopSkip(a: nat, frozen: JsObject, i: nat, r: Heap)
    requires HeapOk(r) && a in r && r[a] == frozen && WellFormed(frozen)
    requires KeysDone(frozen, i, r) && i < |frozen.keys|
    requires !ShouldDescend(r, frozen.props[frozen.keys[i]].value)
    ensures KeysDone(frozen, i + 1, r)
  {
    var v := frozen.props[frozen.keys[i]].value;
    if v.Ref? {
      assert v.addr in ChildAddrs(r[a]);
    }
    assert ValueFrozen(r, v);
  }

  /** After descending into the i-th value, the loop state holds for i + 1. */
  lemma LoopDescend(h: Heap, a: nat, frozen: JsObject, i: nat, r: Heap, visited: set<nat>,
                    r2: Heap, below: set<nat>)
    requires LoopState(h, a, frozen, i, r, visited) && i < |frozen.keys|
    requires ShouldDescend(r, frozen.props[frozen.keys[i]].value)
    requires DeepFreezePost(r, frozen.props[frozen.keys[i]].value.addr, r2, below)
    ensures LoopState(h, a, frozen, i + 1, r2, visited + below)
  {
    FreezesOnlyFacts(r, r2);
    FreezesOnlyTransitive(h, r, r2);
    FreezesOnlyFacts(h, r2);
    DescendKeepsClosure(h, a, frozen, i, r, visited, r2, below);
    DescendKeepsOrigins(h, a, frozen, i, r, visited, r2, below);
    assert frozen.keys[i] in frozen.props;
    DescendKeepsChildren(frozen, i, r, r2);
  }

  /** Objects visited before or during the descent are frozen with frozen children. */
  lemma DescendKeepsClosure(h: Heap, a: nat, frozen: JsObject, i: nat, r: Heap, visited: set<nat>,
                            r2: Heap, below: set<nat>)
    requires LoopState(h, a, frozen, i, r, visited) && i < |frozen.keys|
    requires ShouldDescend(r, frozen.props[frozen.keys[i]].value)
    requires DeepFreezePost(r, frozen.props[frozen.keys[i]].value.addr, r2, below)
    ensures forall b :: b in visited + below && b != a ==> IsFrozen(r2[b]) && ChildrenFrozen(r2, r2[b])
  {
    FreezesOnlyFacts(r, r2);
    forall b | b in visited + below && b != a
      ensures IsFrozen(r2[b]) && ChildrenFrozen(r2, r2[b])
    {
      if b !in below {
        assert ChildrenFrozen(r, r[b]);
      }
    }
  }

  /** Every object visited during the descent was unfrozen and hangs below a visited object. */
  lemma DescendKeepsOrigins(h: Heap, a: nat, frozen: JsObject, i: nat, r: Heap, visited: set<nat>,
                            r2: Heap, below: set<nat>)
    requires LoopState(h, a, frozen, i, r, visited) && i < |frozen.keys|
    requires ShouldDescend(r, frozen.props[frozen.keys[i]].value)
    requires DeepFreezePost(r, frozen.props[frozen.keys[i]].value.addr, r2, below)
    ensures forall b :: b in visited + below && b != a ==> !IsFrozen(h[b]) && exists p :: p in visited + below && b in ChildAddrs(h[p])
  {
    var v := frozen.props[frozen.keys[i]].value;
    assert v.addr in ChildAddrs(frozen);
    ChildAddrsOfFrozenCopy(h[a]);
    FreezesOnlyFacts(h, r);
    var all := visited + below;
    forall b | b in all && b != a
      ensures !IsFrozen(h[b]) && exists p :: p in all && b in ChildAddrs(h[p])
    {
      if b in below {
        assert !IsFrozen(r[b]);
        if b == v.addr {
          assert b in ChildAddrs(h[a]);
        } else {
          var p :| p in below && b in ChildAddrs(r[p]);
          assert b in ChildAddrs(h[p]);
        }
      }
    }
  }

  /** The first i + 1 children of `a` are frozen after the descent. */
  lemma DescendKeepsChildren(frozen: JsObject, i: nat, r: Heap, r2: Heap)
    requires HeapOk(r) && FreezesOnly(r, r2) && i < |frozen.keys| && frozen.keys[i] in frozen.props
    requires forall j :: 0 <= j < i ==> frozen.keys[j] in frozen.props && ValueFrozen(r, frozen.props[frozen.keys[j]].value)
    requires ValueFrozen(r2, frozen.props[frozen.keys[i]].value)
    ensures forall j :: 0 <= j < i + 1 ==> frozen.keys[j] in frozen.props && ValueFrozen(r2, frozen.props[frozen.keys[j]].value)
  {
    FreezesOnlyFacts(r, r2);
    forall j | 0 <= j < i + 1
      ensures frozen.keys[j] in frozen.props && ValueFrozen(r2, frozen.props[frozen.keys[j]].value)
    {
      if j < i {
        assert ValueFrozen(r, frozen.props[frozen.keys[j]].value);
      }
    }
  }

  /** Once every name is done, all of `a`'s children are frozen. */
  lemma LoopEnd(h: Heap, a: nat, frozen: JsObject, r: Heap, visited: set<nat>)
    requires LoopState(h, a, frozen, |frozen.keys|, r, visited)
    ensures DeepFreezePost(h, a, r, visited)
  {
    FrozenCopyFacts(h[a]);
    forall c | c in ChildAddrs(frozen)
      ensures c in r && IsFrozen(r[c])
    {
      var k :| k in frozen.props && frozen.props[k].value.Ref? && frozen.props[k].value.addr == c;
      var j :| 0 <= j < |frozen.keys| && frozen.keys[j] == k;
      assert ValueFrozen(r, frozen.props[frozen.keys[j]].value);
    }
  }

  /** deepFreeze: freezes `a`, then visits its own property names in order and descends into every value
      that is an object or function not frozen yet. It returns the new heap and the objects it was
      called on. Objects that were frozen already are skipped, so what hangs below them is left as
      it was. */
  method DeepFreeze(h: Heap, a: nat) returns (r: Heap, visited: set<nat>)
    requires HeapOk(h) && a in h
    ensures DeepFreezePost(h, a, r, visited)
    ensures IsFrozen(r[a]) && Unfrozen(r) <= Unfrozen(h)
    decreases Unfrozen(h), if IsFrozen(h[a]) then 1 else 0
  {
    var frozen := Freeze(h[a]);
    r := h[a := frozen];
    visited := {a};
    LoopStart(h, a, frozen);
    var i := 0;
    while i < |frozen.keys|
      invariant LoopState(h, a, frozen, i, r, visited)
    {
      var v := r[a].props[frozen.keys[i]].value;
      if ShouldDescend(r, v) {
        DescendDecreases(h, a, r, v.addr);
        var r2, below := DeepFreeze(r, v.addr);
        LoopDescend(h, a, frozen, i, r, visited, r2, below);
        r, visited := r2, visited + below;
      } else {
        LoopSkip(a, frozen, i, r);
      }
      i := i + 1;
    }
    LoopEnd(h, a, frozen, r, visited);
  }

  /** The recursive call is on a smaller problem: fewer unfrozen objects, or as many with an unfrozen
      object in place of a frozen one. */
  lemma DescendDecreases(h: Heap, a: nat, r: Heap, b: nat)
    requires a in h && b in r && !IsFrozen(r[b]) && Unfrozen(r) <= Unfrozen(h) - {a}
    ensures Unfrozen(r) < Unfrozen(h) || (Unfrozen(r) == Unfrozen(h) && IsFrozen(h[a]))
  {
    if !IsFrozen(h[a]) {
      assert a in Unfrozen(h) && a !in Unfrozen(r);
    }
  }

  /** deepFreeze reaches every unfrozen child of an object it visits, so a tree nobody has frozen
      yet ends up frozen throughout. */
  lemma DeepFreezeReachesUnfrozenChildren(h: Heap, a: nat, r: Heap, visited: set<nat>, b: nat, c: nat)
    requires HeapOk(h) && DeepFreezePost(h, a, r, visited)
    requires b in visited && c in ChildAddrs(h[b]) && !IsFrozen(h[c])
    ensures c in visited && IsFrozen(r[c])
  {
    FreezesOnlyFacts(h, r);
    assert c in ChildAddrs(r[b]);
  }

  /** deepFreeze never visits an object that was frozen already, nor one that no visited object
      refers to; such an object is left exactly as it was. */
  lemma DeepFreezeLeavesUnreached(h: Heap, a: nat, r: Heap, visited: set<nat>, c: nat)
    requires DeepFreezePost(h, a, r, visited)
    requires c in h && c != a
    requires IsFrozen(h[c]) || forall p :: p in visited ==> c !in ChildAddrs(h[p])
    ensures c !in visited && r[c] == h[c]
  {
  }

  /** A property as an object literal creates it: writable, enumerable and configurable. */
  function Plain(v: JsValue): Property {
    Property(v, true, true, true)
  }

  function RefAddrs(v: JsValue): set<nat> {
    if v.Ref? then {v.addr} else {}
  }

  /** An object literal with two distinct keys. */
  function PairObject(k1: string, v1: JsValue, k2: string, v2: JsValue): JsObject {
    JsObject(PlainObject, [k1, k2], map[k1 := Plain(v1), k2 := Plain(v2)], true)
  }

  lemma PairObjectFacts(k1: string, v1: JsValue, k2: string, v2: JsValue)
    requires k1 != k2
    ensures var o := PairObject(k1, v1, k2, v2);
      WellFormed(o) && !IsFrozen(o) && ChildAddrs(o) == RefAddrs(v1) + RefAddrs(v2)
  {
    var o := PairObject(k1, v1, k2, v2);
    assert o.props.Keys == {k1, k2};
  }

  /** A heap of three well-formed objects that refer only to each other is sound. */
  lemma ThreeObjects(o0: JsObject, o1: JsObject, o2: JsObject)
    requires WellFormed(o0) && WellFormed(o1) && WellFormed(o2)
    requires ChildAddrs(o0) <= {0, 1, 2} && ChildAddrs(o1) <= {0, 1, 2} && ChildAddrs(o2) <= {0, 1, 2}
    ensures var h := map[0 := o0, 1 := o1, 2 := o2]; HeapOk(h) && h.Keys == {0, 1, 2}
  {
  }

  /** The script's object: `{ name, members: { leader, positions: { vocal, dance } } }` at 0, 1, 2. */
  function IveHeap(): Heap {
    map[0 := PairObject("name", Str("아이브"), "members", Ref(1)),
        1 := PairObject("leader", Str("안유진"), "positions", Ref(2)),
        2 := PairObject("vocal", Str("리즈"), "dance", Str("가을"))]
  }

  lemma IveHeapFacts()
    ensures var h := IveHeap();
      && HeapOk(h) && h.Keys == {0, 1, 2}
      && ChildAddrs(h[0]) == {1} && ChildAddrs(h[1]) == {2}
      && !IsFrozen(h[1]) && !IsFrozen(h[2])
  {
    PairObjectFacts("name", Str("아이브"), "members", Ref(1));
    PairObjectFacts("leader", Str("안유진"), "positions", Ref(2));
    PairObjectFacts("vocal", Str("리즈"), "dance", Str("가을"));
    ThreeObjects(IveHeap()[0], IveHeap()[1], IveHeap()[2]);
  }

  /** The script's sample: the object, its `members` and the `positions` inside those all end up frozen. */
  method DeepFreezeSample() returns (r: Heap)
    ensures 0 in r && 1 in r && 2 in r
    ensures IsFrozen(r[0]) && IsFrozen(r[1]) && IsFrozen(r[2])
  {
    var h := IveHeap();
    IveHeapFacts();
    var visited;
    r, visited := DeepFreeze(h, 0);
    DeepFreezeReachesUnfrozenChildren(h, 0, r, visited, 0, 1);
    DeepFreezeReachesUnfrozenChildren(h, 0, r, visited, 1, 2);
  }

  /** An object at 0 whose `members` (1) is frozen already but holds a mutable `positions` (2). */
  function FrozenBranchHeap(): Heap {
    map[0 := JsObject(PlainObject, ["members"], map["members" := Plain(Ref(1))], true),
        1 := JsObject(PlainObject, ["positions"], map["positions" := Property(Ref(2), false, true, false)], false),
        2 := JsObject(PlainObject, ["vocal"], map["vocal" := Plain(Str("리즈"))], true)]
  }

  lemma FrozenBranchHeapFacts()
    ensures var h := FrozenBranchHeap();
      && HeapOk(h) && h.Keys == {0, 1, 2}
      && ChildAddrs(h[0]) == {1} && ChildAddrs(h[2]) == {}
      && IsFrozen(h[1]) && !IsFrozen(h[2])
  {
    var h := FrozenBranchHeap();
    ChildAddrsSingle(h[0], "members", 1);
    ChildAddrsSingle(h[1], "positions", 2);
    ChildAddrsNone(h[2]);
    ThreeObjects(h[0], h[1], h[2]);
  }

  /** With 1 frozen, deepFreeze from 0 visits 1 not at all, hence never reaches 2. */
  lemma FrozenBranchUntouched(h: Heap, r: Heap, visited: set<nat>)
    requires h.Keys == {0, 1, 2} && ChildAddrs(h[0]) == {1} && ChildAddrs(h[2]) == {}
    requires IsFrozen(h[1]) && !IsFrozen(h[2])
    requires DeepFreezePost(h, 0, r, visited)
    ensures 2 in r && !IsFrozen(r[2])
  {
    DeepFreezeLeavesUnreached(h, 0, r, visited, 1);
    assert visited <= {0, 2};
    DeepFreezeLeavesUnreached(h, 0, r, visited, 2);
  }

  /** The shortcut of skipping frozen values: below an object that is already frozen, a mutable object
      stays mutable after deepFreeze. */
  method DeepFreezeSkipsFrozenBranch() returns (r: Heap)
    ensures 2 in r && !IsFrozen(r[2])
  {
    var h := FrozenBranchHeap();
    FrozenBranchHeapFacts();
    var visited;
    r, visited := DeepFreeze(h, 0);
    FrozenBranchUntouched(h, r, visited);
  }

  /** Object.freeze is shallow: once the object at `a` is frozen an assignment to its own property is
      ignored, but the object its property `key` refers to is neither frozen nor protected, so its
      properties can still be changed and added (the `shallowFrozen.members` example). */
  lemma FreezeIsShallow(h: Heap, a: nat, key: string, b: nat, k: string, newKey: string, v: JsValue)
    requires a in h && b in h && a != b && WellFormed(h[a]) && WellFormed(h[b])
    requires key in h[a].props && h[a].props[key].value == Ref(b)
    requires h[b].extensible && k in h[b].props && h[b].props[k].writable && newKey !in h[b].props
    ensures var h2 := h[a := FrozenCopy(h[a])];
      && IsFrozen(h2[a])
      && SetProp(h2[a], key, v) == (h2[a], false)
      && Get(h2, Ref(a), key) == Ref(b)
      && h2[b] == h[b] && !IsFrozen(h2[b])
      && SetProp(h2[b], k, v).1 && SetProp(h2[b], newKey, v).1
  {
    FrozenCopyFacts(h[a]);
  }

  /** The frozen defaults of createUser. */
  const DefaultOptions: JsObject := JsObject(PlainObject, ["theme", "language", "notifications", "autoSave"],
    map["theme" := Property(Str("dark"), false, true, false),
        "language" := Property(Str("ko"), false, true, false),
        "notifications" := Property(Bool(true), false, true, false),
        "autoSave" := Property(Bool(true), false, true, false)], false)

  /** createUser: `{ ...DEFAULT_OPTIONS, ...customOptions }`. A missing argument means `{}`, and
      spreading null or a primitive adds nothing (string indices are not part of this model). */
  function CreateUser(h: Heap, customOptions: JsValue): (r: JsObject)
    ensures WellFormed(r) && r.extensible && !IsFrozen(r)
    ensures forall k :: k in r.props ==> r.props[k].writable && r.props[k].configurable
  {
    var custom := if customOptions.Ref? && customOptions.addr in h then SpreadEntries(h[customOptions.addr]) else [];
    ObjectLiteralAllWritable(SpreadEntries(DefaultOptions) + custom);
    ObjectLiteral(SpreadEntries(DefaultOptions) + custom)
  }

  /** Enumerable own property `k` of `o`. */
  predicate OwnEnumerable(o: JsObject, k: string) {
    k in o.keys && k in o.props && o.props[k].enumerable
  }

  /** `{ ...d, ...o }` takes each name from `o` when `o` has it as an enumerable own property, and from
      `d` otherwise. */
  lemma SpreadMerge(d: JsObject, o: JsObject, k: string)
    ensures var r := ObjectLiteral(SpreadEntries(d) + SpreadEntries(o));
      && (k in r.props <==> OwnEnumerable(d, k) || OwnEnumerable(o, k))
      && (OwnEnumerable(o, k) ==> r.props[k].value == o.props[k].value)
      && (!OwnEnumerable(o, k) && OwnEnumerable(d, k) ==> r.props[k].value == d.props[k].value)
  {
    var a := SpreadEntries(d);
    var b := SpreadEntries(o);
    ObjectLiteralLastWins(a + b, k);
    LastValueAppend(a, b, k);
    SpreadValue(d, k);
    SpreadValue(o, k);
  }

  /** Every option is an enumerable own property of the frozen defaults. */
  lemma DefaultOptionsFacts(k: string)
    ensures OwnEnumerable(DefaultOptions, k) <==> k in DefaultOptions.props
    ensures IsFrozen(DefaultOptions)
  {
  }

  /** Each option comes from the caller when the caller's object has it as an enumerable own
      property, and from the defaults otherwise; the defaults themselves stay frozen. */
  lemma CreateUserMerge(h: Heap, c: nat, k: string)
    requires c in h
    ensures var r := CreateUser(h, Ref(c));
      && (k in r.props <==> (k in DefaultOptions.props || (k in h[c].keys && k in h[c].props && h[c].props[k].enumerable)))
      && (k in h[c].keys && k in h[c].props && h[c].props[k].enumerable ==> r.props[k].value == h[c].props[k].value)
      && ((!(k in h[c].keys && k in h[c].props && h[c].props[k].enumerable) && k in DefaultOptions.props)
          ==> r.props[k].value == DefaultOptions.props[k].value)
    ensures IsFrozen(DefaultOptions)
  {
    assert CreateUser(h, Ref(c)) == ObjectLiteral(SpreadEntries(DefaultOptions) + SpreadEntries(h[c]));
    SpreadMerge(DefaultOptions, h[c], k);
    DefaultOptionsFacts(k);
  }

  /** Without an argument every option is the default. */
  lemma CreateUserDefaults(h: Heap, k: string)
    ensures var r := CreateUser(h, Undefined);
      && (k in r.props <==> k in DefaultOptions.props)
      && (k in r.props ==> r.props[k].value == DefaultOptions.props[k].value)
  {
    var a := SpreadEntries(DefaultOptions);
    assert a + [] == a;
    assert CreateUser(h, Undefined) == ObjectLiteral(a);
    ObjectLiteralLastWins(a, k);
    SpreadValue(DefaultOptions, k);
    DefaultOptionsFacts(k);
  }
}

=== FILE: js_values.dfy ===
/** The JavaScript values the scripts manipulate: primitives, references into a heap of
    objects, and objects as ordered collections of data properties with attributes
    (section 6.1.7 of ECMA-262). Accessor properties and prototypes are not part of this model. */
module JsValues {
  import opened Common

  /** An IEEE-754 double as far as the scripts can tell apart: `Finite(0.0)` is +0,
      negative zero, NaN and the two infinities are separate cases. */
  datatype Number = Finite(r: real) | NegZero | NaN | PosInfinity | NegInfinity

  datatype JsValue =
    | Undefined
    | Null
    | Bool(b: bool)
    | Num(n: Number)
    | BigInt(i: int)
    | Str(s: string)
    | Ref(addr: nat)

  function Int(i: int): JsValue {
    Num(Finite(i as real))
  }

  predicate IsNullish(v: JsValue) {
    v.Undefined? || v.Null?
  }

  /** ToBoolean (section 7.1.2 of ECMA-262). */
  predicate Truthy(v: JsValue): (b: bool)
    ensures IsNullish(v) ==> !b
    ensures v.Ref? ==> b
  {
    match v
    case Undefined => false
    case Null => false
    case Bool(b) => b
    case Num(n) => (n.Finite? && n.r != 0.0) || n.PosInfinity? || n.NegInfinity?
    case BigInt(i) => i != 0
    case Str(s) => s != ""
    case Ref(_) => true
  }

  /** The numeric value of a finite number, negative zero counted as 0. */
  function RealOf(n: Number): real {
    match n
    case Finite(r) => r
    case _ => 0.0
  }

  predicate IsFiniteNumber(n: Number) {
    n.Finite? || n.NegZero?
  }

  /** Number::equal (section 6.1.6.1.13 of ECMA-262): NaN equals nothing, the zeros are equal. */
  predicate NumberEquals(x: Number, y: Number) {
    if x.NaN? || y.NaN? then false
    else if IsFiniteNumber(x) && IsFiniteNumber(y) then RealOf(x) == RealOf(y)
    else x == y
  }

  /** Number::lessThan (section 6.1.6.1.12 of ECMA-262); a comparison with NaN is false. */
  predicate NumberLess(x: Number, y: Number) {
    if x.NaN? || y.NaN? then false
    else if x.NegInfinity? then !y.NegInfinity?
    else if y.PosInfinity? then !x.PosInfinity?
    else if x.PosInfinity? || y.NegInfinity? then false
    else RealOf(x) < RealOf(y)
  }

  /** The `>=` operator on numbers (section 13.10.1 of ECMA-262): false whenever NaN is involved. */
  predicate NumberAtLeast(x: Number, y: Number) {
    !x.NaN? && !y.NaN? && !NumberLess(x, y)
  }

  /** IsStrictlyEqual, the `===` operator (section 7.2.15 of ECMA-262). */
  predicate StrictEquals(a: JsValue, b: JsValue): (eq: bool)
    ensures eq && !a.Num? ==> a == b
    ensures a == b && !(a.Num? && a.n.NaN?) ==> eq
    ensures a.Num? && a.n.NaN? ==> !eq
  {
    if a.Num? && b.Num? then NumberEquals(a.n, b.n) else a == b
  }

  /** One own data property and its attributes. */
  datatype Property = Property(value: JsValue, writable: bool, enumerable: bool, configurable: bool)

  datatype ObjectKind = PlainObject | ArrayObject | FunctionObject

  /** An ordinary object: its own property names in creation order, their properties,
      and the [[Extensible]] flag. The model keeps every key in creation order, including
      array-index keys, which an engine would list first in ascending numeric order. */
  datatype JsObject = JsObject(kind: ObjectKind, keys: seq<string>, props: map<string, Property>, extensible: bool)

  type Heap = map<nat, JsObject>

  /** The key list names every property exactly once. */
  ghost predicate WellFormed(o: JsObject) {
    && (forall i, j :: 0 <= i < j < |o.keys| ==> o.keys[i] != o.keys[j])
    && (forall k :: k in o.props <==> k in o.keys)
  }

  function EmptyObject(kind: ObjectKind): (o: JsObject)
    ensures WellFormed(o) && o.extensible && o.props == map[]
  {
    JsObject(kind, [], map[], true)
  }

  /** The `typeof` operator (section 13.5.3 of ECMA-262). */
  function TypeOf(h: Heap, v: JsValue): string {
    match v
    case Undefined => "undefined"
    case Null => "object"
    case Bool(_) => "boolean"
    case Num(_) => "number"
    case BigInt(_) => "bigint"
    case Str(_) => "string"
    case Ref(a) => if a in h && h[a].kind.FunctionObject? then "function" else "object"
  }

  /** `v[key]` on a value that is not null or undefined: an own property's value, or undefined.
      Reads of primitive values yield undefined here. */
  function Get(h: Heap, v: JsValue, key: string): (r: JsValue)
    ensures v.Ref? && v.addr in h && key in h[v.addr].props ==> r == h[v.addr].props[key].value
    ensures !(v.Ref? && v.addr in h && key in h[v.addr].props) ==> r == Undefined
  {
    if v.Ref? && v.addr in h && key in h[v.addr].props then h[v.addr].props[key].value else Undefined
  }

  /** `v?.[key]`: undefined when `v` is null or undefined, otherwise `v[key]`. */
  function OptionalGet(h: Heap, v: JsValue, key: string): (r: JsValue)
    ensures IsNullish(v) ==> r == Undefined
    ensures !IsNullish(v) ==> r == Get(h, v, key)
  {
    if IsNullish(v) then Undefined else Get(h, v, key)
  }

  /** `v[key]` where a null or undefined `v` throws a TypeError. */
  function StrictGet(h: Heap, v: JsValue, key: string): (r: Result<JsValue>)
    ensures r.Throws? <==> IsNullish(v)
    ensures r.Ok? ==> r.value == Get(h, v, key)
  {
    if IsNullish(v) then Throws(Exception("TypeError", "Cannot read properties of " + (if v.Null? then "null" else "undefined")))
    else Ok(Get(h, v, key))
  }

  /** The names of the enumerable own properties in creation order. Object.keys agrees with this
      whenever no key is an array index (section 10.1.11.1 of ECMA-262 lists those first). */
  function EnumerableKeys(o: JsObject): (r: seq<string>)
    ensures forall k :: k in r <==> k in o.keys && k in o.props && o.props[k].enumerable
    ensures |r| <= |o.keys|
    ensures (forall i, j :: 0 <= i < j < |o.keys| ==> o.keys[i] != o.keys[j]) ==> (forall i, j :: 0 <= i < j < |r| ==> r[i] != r[j])
    decreases |o.keys|
  {
    if o.keys == [] then []
    else
      var k := o.keys[|o.keys| - 1];
      var rest := EnumerableKeys(o.(keys := o.keys[..|o.keys| - 1]));
      assert o.keys == o.keys[..|o.keys| - 1] + [k];
      if k in o.props && o.props[k].enumerable then rest + [k] else rest
  }

  /** CreateDataProperty on an extensible object (section 7.3.5 of ECMA-262): an existing name keeps
      its position and takes the new value; a new name goes to the end. */
  function CreateDataProperty(o: JsObject, key: string, v: JsValue): (r: JsObject)
    requires WellFormed(o)
    ensures WellFormed(r)
    ensures r.props == o.props[key := Property(v, true, true, true)]
    ensures key in o.props ==> r.keys == o.keys
    ensures key !in o.props ==> r.keys == o.keys + [key]
    ensures r.kind == o.kind && r.extensible == o.extensible
  {
    var p := Property(v, true, true, true);
    if key in o.props then o.(props := o.props[key := p])
    else o.(keys := o.keys + [key], props := o.props[key := p])
  }

  /** An object literal `{k1: v1, k2: v2, ...}` built entry by entry, spread entries included. */
  function ObjectLiteral(entries: seq<(string, JsValue)>): (r: JsObject)
    ensures WellFormed(r) && r.kind.PlainObject? && r.extensible
  {
    if entries == [] then EmptyObject(PlainObject)
    else
      var last := entries[|entries| - 1];
      CreateDataProperty(ObjectLiteral(entries[..|entries| - 1]), last.0, last.1)
  }

  /** The entries `...o` contributes to an object literal: the enumerable own properties in order. */
  function SpreadEntries(o: JsObject): (r: seq<(string, JsValue)>)
    ensures |r| == |EnumerableKeys(o)|
    ensures forall i :: 0 <= i < |r| ==> r[i].0 == EnumerableKeys(o)[i]
  {
    var ks := EnumerableKeys(o);
    seq(|ks|, i requires 0 <= i < |ks| => (ks[i], if ks[i] in o.props then o.props[ks[i]].value else Undefined))
  }

  /** Reference reading of a list of entries: the value the LAST entry naming `k` gives. */
  function LastValue(entries: seq<(string, JsValue)>, k: string): Option<JsValue> {
    if entries == [] then None
    else if entries[|entries| - 1].0 == k then Some(entries[|entries| - 1].1)
    else LastValue(entries[..|entries| - 1], k)
  }

  /** In an object literal the later entry for a name wins. */
  lemma {:induction false} ObjectLiteralLastWins(entries: seq<(string, JsValue)>, k: string)
    ensures k in ObjectLiteral(entries).props <==> LastValue(entries, k).Some?
    ensures k in ObjectLiteral(entries).props ==> ObjectLiteral(entries).props[k].value == LastValue(entries, k).value
  {
    if entries != [] {
      ObjectLiteralLastWins(entries[..|entries| - 1], k);
    }
  }

  /** A two-entry literal with distinct names holds both values. */
  lemma PairLiteral(k1: string, v1: JsValue, k2: string, v2: JsValue)
    requires k1 != k2
    ensures var o := ObjectLiteral([(k1, v1), (k2, v2)]);
      k1 in o.props && o.props[k1].value == v1 && k2 in o.props && o.props[k2].value == v2
  {
    var entries := [(k1, v1), (k2, v2)];
    ObjectLiteralLastWins(entries, k1);
    ObjectLiteralLastWins(entries, k2);
    assert entries[..1] == [(k1, v1)];
  }

  /** A two-entry literal with distinct names has exactly those two names, in order. */
  lemma PairLiteralNames(k1: string, v1: JsValue, k2: string, v2: JsValue)
    requires k1 != k2
    ensures var o := ObjectLiteral([(k1, v1), (k2, v2)]);
      o.keys == [k1, k2] && o.props.Keys == {k1, k2}
  {
    var entries := [(k1, v1), (k2, v2)];
    assert entries[..1] == [(k1, v1)];
    SingleLiteral(k1, v1);
  }

  /** A one-entry literal has that one name. */
  lemma SingleLiteral(k: string, v: JsValue)
    ensures ObjectLiteral([(k, v)]).keys == [k] && ObjectLiteral([(k, v)]).props.Keys == {k}
  {
    assert [(k, v)][..0] == [];
  }

  /** The value the last entry for `k` in `a + b` gives: `b`'s if it has one, else `a`'s. */
  lemma {:induction false} LastValueAppend(a: seq<(string, JsValue)>, b: seq<(string, JsValue)>, k: string)
    ensures LastValue(a + b, k) == if LastValue(b, k).Some? then LastValue(b, k) else LastValue(a, k)
    decreases |b|
  {
    if b != [] {
      assert (a + b)[..|a + b| - 1] == a + b[..|b| - 1];
      LastValueAppend(a, b[..|b| - 1], k);
    } else {
      assert a + b == a;
    }
  }

  /** Spreading an object contributes, for each name, the value of its enumerable own property. */
  lemma SpreadValue(o: JsObject, k: string)
    ensures LastValue(SpreadEntries(o), k)
            == if k in o.keys && k in o.props && o.props[k].enumerable then Some(o.props[k].value) else None
  {
    var es := SpreadEntries(o);
    LastValueOfUniform(es, k, if k in o.props then o.props[k].value else Undefined);
    if k in o.keys && k in o.props && o.props[k].enumerable {
      var i :| 0 <= i < |EnumerableKeys(o)| && EnumerableKeys(o)[i] == k;
      assert es[i].0 == k;
    }
  }

  /** When every entry naming `k` carries `v`, the last one does too. */
  lemma {:induction false} LastValueOfUniform(es: seq<(string, JsValue)>, k: string, v: JsValue)
    requires forall i :: 0 <= i < |es| && es[i].0 == k ==> es[i].1 == v
    ensures LastValue(es, k).Some? <==> exists i :: 0 <= i < |es| && es[i].0 == k
    ensures LastValue(es, k).Some? ==> LastValue(es, k).value == v
    decreases |es|
  {
    if es != [] {
      var init := es[..|es| - 1];
      LastValueOfUniform(init, k, v);
      if es[|es| - 1].0 != k && exists i :: 0 <= i < |es| && es[i].0 == k {
        var i :| 0 <= i < |es| && es[i].0 == k;
        assert init[i].0 == k;
      }
    }
  }

  /** Every property an object literal creates is a plain writable, enumerable, configurable one. */
  lemma {:induction false} ObjectLiteralAllWritable(entries: seq<(string, JsValue)>)
    ensures forall k :: k in ObjectLiteral(entries).props ==>
      ObjectLiteral(entries).props[k].writable && ObjectLiteral(entries).props[k].configurable
    decreases |entries|
  {
    if entries != [] {
      ObjectLiteralAllWritable(entries[..|entries| - 1]);
    }
  }
}

=== FILE: loop_control.dfy ===
/** The `break` and `continue` loops of React/01-onebite-react/javascript-basic/07_loop_control/app.js:
    skipping values, stopping at the first match or failure, filtered collection and collecting up
    to a limit. */
module LoopControl {
  import opened Common

  /** The continue-on-even loop: `idx` from 1 to `n`, even values skipped. */
  method OddValues(n: int) returns (processed: seq<int>)
    ensures |processed| == if n < 1 then 0 else (n + 1) / 2
    ensures forall k :: 0 <= k < |processed| ==> processed[k] == 2 * k + 1
    ensures forall x :: x in processed <==> 1 <= x <= n && x % 2 == 1
  {
    processed := [];
    var idx := 1;
    while idx <= n
      invariant 1 <= idx && (idx <= n + 1 || idx == 1)
      invariant |processed| == idx / 2
      invariant forall k :: 0 <= k < |processed| ==> processed[k] == 2 * k + 1
      invariant forall x :: x in processed <==> 1 <= x < idx && x % 2 == 1
      decreases n - idx
    {
      if idx % 2 == 0 {
        idx := idx + 1;
        continue;
      }
      processed := processed + [idx];
      idx := idx + 1;
    }
  }

  /** The script's loop over 1..10 processes 1, 3, 5, 7, 9. */
  method OddValuesSample() returns (processed: seq<int>)
    ensures processed == [1, 3, 5, 7, 9]
  {
    processed := OddValues(10);
  }

  /** Reference reading of the excluded-set loop: the values 1..n outside the set, ascending. */
  function Outside(n: int, excluded: set<int>): (r: seq<int>)
    ensures |r| <= (if n < 1 then 0 else n)
    ensures forall k :: 0 <= k < |r| ==> 1 <= r[k] <= n && r[k] !in excluded
    decreases n
  {
    if n < 1 then [] else Outside(n - 1, excluded) + (if n in excluded then [] else [n])
  }

  /** The reference keeps exactly the values 1..n outside the set, in ascending order. */
  lemma {:induction false} OutsideFacts(n: int, excluded: set<int>)
    ensures forall x :: x in Outside(n, excluded) <==> 1 <= x <= n && x !in excluded
    ensures forall a, b :: 0 <= a < b < |Outside(n, excluded)| ==> Outside(n, excluded)[a] < Outside(n, excluded)[b]
    ensures forall a :: 0 <= a < |Outside(n, excluded)| ==> Outside(n, excluded)[a] <= n
    decreases n
  {
    if n >= 1 {
      OutsideFacts(n - 1, excluded);
    }
  }

  /** The excluded-set loop: `idx` from 1 to `n`, values in the set skipped, the rest kept in order. */
  method KeptValues(n: int, excluded: set<int>) returns (kept: seq<int>)
    ensures kept == Outside(n, excluded)
    ensures forall x :: x in kept <==> 1 <= x <= n && x !in excluded
    ensures forall a, b :: 0 <= a < b < |kept| ==> kept[a] < kept[b]
  {
    kept := [];
    var idx := 1;
    while idx <= n
      invariant 1 <= idx && (idx <= n + 1 || idx == 1)
      invariant kept == Outside(idx - 1, excluded)
      decreases n - idx
    {
      if idx in excluded {
        idx := idx + 1;
        continue;
      }
      kept := kept + [idx];
      idx := idx + 1;
    }
    OutsideFacts(n, excluded);
  }

  /** The three `continue` statements for 2, 4 and 6 keep what the set {2, 4, 6} keeps: 1, 3, 5. */
  method KeptValuesSample() returns (kept: seq<int>)
    ensures kept == [1, 3, 5]
  {
    kept := KeptValues(6, {2, 4, 6});
    OutsideSample({2, 4, 6});
  }

  /** Unfolding the reference over 1..6 with 2, 4 and 6 excluded. */
  lemma OutsideSample(excluded: set<int>)
    requires excluded == {2, 4, 6}
    ensures Outside(6, excluded) == [1, 3, 5]
  {
    assert 1 !in excluded && 3 !in excluded && 5 !in excluded;
    assert Outside(1, excluded) == [1];
    assert Outside(2, excluded) == [1];
    assert Outside(3, excluded) == [1, 3];
    assert Outside(4, excluded) == [1, 3];
    assert Outside(5, excluded) == [1, 3, 5];
  }

  /** The break loop: the index of the first `target`, or -1 when there is none. */
  method FoundIndex(numbers: seq<int>, target: int) returns (foundIndex: int)
    ensures -1 <= foundIndex < |numbers|
    ensures foundIndex == -1 <==> target !in numbers
    ensures foundIndex >= 0 ==> numbers[foundIndex] == target
    ensures forall j :: 0 <= j < |numbers| && (foundIndex == -1 || j < foundIndex) ==> numbers[j] != target
  {
    foundIndex := -1;
    for idx := 0 to |numbers|
      invariant forall j :: 0 <= j < idx ==> numbers[j] != target
    {
      if numbers[idx] == target {
        foundIndex := idx;
        break;
      }
    }
  }

  /** The script's search: 9 first occurs at index 3, not at the later index 5. */
  method FoundIndexSample() returns (foundIndex: int)
    ensures foundIndex == 3
  {
    var numbers := [3, 7, 2, 9, 5, 9, 1];
    foundIndex := FoundIndex(numbers, 9);
    assert numbers[3] == 9;
  }

  /** firstInvalidEmail: the first e-mail the validity test rejects, or null. `isValid` stands for the
      regular expression's test. */
  method FirstInvalid(emails: seq<string>, isValid: string -> bool) returns (first: Option<string>)
    ensures first.None? <==> forall i :: 0 <= i < |emails| ==> isValid(emails[i])
    ensures first.Some? ==> exists i :: 0 <= i < |emails| && emails[i] == first.value && !isValid(emails[i])
                                        && forall j :: 0 <= j < i ==> isValid(emails[j])
  {
    first := None;
    for idx := 0 to |emails|
      invariant forall j :: 0 <= j < idx ==> isValid(emails[j])
    {
      if !isValid(emails[idx]) {
        first := Some(emails[idx]);
        return;
      }
    }
  }

  /** The script's list: 'bad-email' is the first rejected one. */
  method FirstInvalidSample(isValid: string -> bool) returns (first: Option<string>)
    requires isValid("a@a.com") && !isValid("bad-email")
    ensures first == Some("bad-email")
  {
    var emails := ["a@a.com", "bad-email", "b@b.com"];
    first := FirstInvalid(emails, isValid);
    assert !isValid(emails[1]);
    if first.Some? {
      var i :| 0 <= i < |emails| && emails[i] == first.value && !isValid(emails[i])
               && forall j :: 0 <= j < i ==> isValid(emails[j]);
      assert i == 1;
    }
  }

  /** One user of the filtered collection. */
  datatype User = User(id: int, name: string, active: bool)

  /** Whether the loop keeps a user: active, with a name that is not blank. */
  predicate Keeps(u: User) {
    u.active && |Trim(u.name)| != 0
  }

  /** Reference reading of the collection: the kept users' names in order. */
  function KeptNames(users: seq<User>): (r: seq<string>)
    ensures |r| <= |users|
  {
    if users == [] then []
    else KeptNames(users[..|users| - 1]) + (if Keeps(users[|users| - 1]) then [users[|users| - 1].name] else [])
  }

  /** The continue loop building activeNames. */
  method ActiveNames(users: seq<User>) returns (activeNames: seq<string>)
    ensures activeNames == KeptNames(users)
    ensures forall n :: n in activeNames <==> exists u :: u in users && Keeps(u) && u.name == n
  {
    activeNames := [];
    for idx := 0 to |users|
      invariant activeNames == KeptNames(users[..idx])
    {
      var user := users[idx];
      assert users[..idx + 1][..idx] == users[..idx];
      if !user.active {
        continue;
      }
      if |Trim(user.name)| == 0 {
        continue;
      }
      activeNames := activeNames + [user.name];
    }
    assert users[..|users|] == users;
    KeptNamesMembers(users);
  }

  /** The names collected are exactly those of the kept users. */
  lemma {:induction false} KeptNamesMembers(users: seq<User>)
    ensures forall n :: n in KeptNames(users) <==> exists u :: u in users && Keeps(u) && u.name == n
  {
    if users != [] {
      var init := users[..|users| - 1];
      KeptNamesMembers(init);
      assert users == init + [users[|users| - 1]];
    }
  }

  /** The script's users. */
  function SampleUsers(): seq<User> {
    [User(1, "Jaejun", true), User(2, "", true), User(3, "Min", false), User(4, "Soo", true)]
  }

  /** The script's users give ['Jaejun', 'Soo']: the blank name and the inactive user are skipped. */
  lemma ActiveNamesSample()
    ensures KeptNames(SampleUsers()) == ["Jaejun", "Soo"]
  {
    SampleKeeps();
    KeptNamesOfFour(User(1, "Jaejun", true), User(2, "", true), User(3, "Min", false), User(4, "Soo", true));
  }

  /** Four users of which the first and the last are kept give those two names. */
  lemma KeptNamesOfFour(a: User, b: User, c: User, d: User)
    requires Keeps(a) && !Keeps(b) && !Keeps(c) && Keeps(d)
    ensures KeptNames([a, b, c, d]) == [a.name, d.name]
  {
    assert [a][..0] == [];
    assert KeptNames([a]) == [a.name];
    assert [a, b][..1] == [a];
    assert KeptNames([a, b]) == [a.name];
    assert [a, b, c][..2] == [a, b];
    assert KeptNames([a, b, c]) == [a.name];
    assert [a, b, c, d][..3] == [a, b, c];
  }

  /** Which of the script's users the loop keeps. */
  lemma SampleKeeps()
    ensures Keeps(User(1, "Jaejun", true)) && !Keeps(User(2, "", true))
    ensures !Keeps(User(3, "Min", false)) && Keeps(User(4, "Soo", true))
  {
    NotBlank("Jaejun");
    NotBlank("Soo");
    TrimEmptyIff("");
  }

  /** A string whose first character is not white space does not trim to nothing. */
  lemma NotBlank(s: string)
    requires s != [] && !IsTrimmable(s[0])
    ensures |Trim(s)| != 0
  {
    TrimEmptyIff(s);
  }

  /** The limited collection as written: each item is pushed before the count is compared with the
      limit, so at least one item is taken even when the limit is 0 or negative. */
  method PickedAsWritten(feed: seq<string>, limit: int) returns (picked: seq<string>)
    ensures feed == [] ==> picked == []
    ensures feed != [] ==> picked == feed[..if limit < 1 then 1 else if limit > |feed| then |feed| else limit]
  {
    picked := [];
    for idx := 0 to |feed|
      invariant picked == feed[..idx]
      invariant idx > 0 ==> idx < limit
    {
      picked := picked + [feed[idx]];
      assert picked == feed[..idx + 1];
      if |picked| >= limit {
        return;
      }
    }
  }

  /** With a limit of 0 the loop still takes the first post. */
  method PickedAsWrittenOverTakes() returns (picked: seq<string>)
    ensures picked == ["post1"]
  {
    picked := PickedAsWritten(["post1", "post2", "post3", "post4", "post5"], 0);
  }

  /** The limited collection with the limit checked before each push: exactly the first
      `min(limit, feed.length)` items, none for a limit of 0 or less. */
  method Picked(feed: seq<string>, limit: int) returns (picked: seq<string>)
    ensures picked == feed[..if limit < 0 then 0 else if limit > |feed| then |feed| else limit]
  {
    picked := [];
    for idx := 0 to |feed|
      invariant picked == feed[..idx]
      invariant idx <= limit || idx == 0
    {
      if |picked| >= limit {
        return;
      }
      picked := picked + [feed[idx]];
      assert picked == feed[..idx + 1];
    }
  }

  /** Both agree for every positive limit, the script's limit of 3 among them: post1 to post3. */
  method PickedSample() returns (asWritten: seq<string>, corrected: seq<string>)
    ensures asWritten == corrected == ["post1", "post2", "post3"]
  {
    var feed := ["post1", "post2", "post3", "post4", "post5"];
    asWritten := PickedAsWritten(feed, 3);
    corrected := Picked(feed, 3);
  }
}

=== FILE: operators.dfy ===
/** Comparison, logical and nullish operators as used in js-beginner/1_basics/7_operators.js. */
module Operators {
  import opened Common
  import opened JsValues

  /** getGrade: the first threshold (90, 80, 70) the score reaches picks the letter, otherwise 'F'. */
  function GetGrade(score: Number): (r: string)
    ensures r in {"A", "B", "C", "F"}
    ensures r == "A" <==> NumberAtLeast(score, Finite(90.0))
    ensures r == "B" <==> NumberAtLeast(score, Finite(80.0)) && !NumberAtLeast(score, Finite(90.0))
    ensures r == "C" <==> NumberAtLeast(score, Finite(70.0)) && !NumberAtLeast(score, Finite(80.0))
    ensures r == "F" <==> !NumberAtLeast(score, Finite(70.0))
    ensures score.NaN? ==> r == "F"
  {
    if NumberAtLeast(score, Finite(90.0)) then "A"
    else if NumberAtLeast(score, Finite(80.0)) then "B"
    else if NumberAtLeast(score, Finite(70.0)) then "C"
    else "F"
  }

  /** The letters ranked from worst to best. */
  function GradeRank(g: string): nat {
    if g == "A" then 3 else if g == "B" then 2 else if g == "C" then 1 else 0
  }

  /** The lowest score each passing letter asks for. */
  function GradeFloor(g: string): real {
    if g == "A" then 90.0 else if g == "B" then 80.0 else 70.0
  }

  /** Read letter by letter: a score earns a passing letter or a better one exactly when it reaches
      that letter's floor. */
  lemma GradeReachesFloor(score: Number, g: string)
    requires g in {"A", "B", "C"}
    ensures GradeRank(GetGrade(score)) >= GradeRank(g) <==> NumberAtLeast(score, Finite(GradeFloor(g)))
  {
  }

  /** A higher score never earns a worse grade. */
  lemma GradeMonotone(a: Number, b: Number)
    requires !a.NaN? && !b.NaN? && !NumberLess(b, a)
    ensures GradeRank(GetGrade(a)) <= GradeRank(GetGrade(b))
  {
  }

  /** The script's sample: a score of 75 is a C. */
  lemma GradeSample()
    ensures GetGrade(Finite(75.0)) == "C"
  {
  }

  /** `a ?? b` (section 13.13 of ECMA-262): `b` only when `a` is null or undefined. */
  function Coalesce(a: JsValue, b: JsValue): (r: JsValue)
    ensures r == a || r == b
    ensures !IsNullish(a) ==> r == a
    ensures IsNullish(r) <==> IsNullish(a) && IsNullish(b)
  {
    if IsNullish(a) then b else a
  }

  /** `a || b`: `a` itself when it is truthy, otherwise `b`. */
  function Or(a: JsValue, b: JsValue): (r: JsValue)
    ensures r == a || r == b
    ensures Truthy(r) <==> Truthy(a) || Truthy(b)
  {
    if Truthy(a) then a else b
  }

  /** `a && b`: `a` itself when it is falsy, otherwise `b`. */
  function And(a: JsValue, b: JsValue): (r: JsValue)
    ensures r == a || r == b
    ensures Truthy(r) <==> Truthy(a) && Truthy(b)
  {
    if Truthy(a) then b else a
  }

  /** `??` and `||` differ exactly on falsy values that are not null or undefined (0, '', false, ...):
      there `??` keeps the value and `||` takes the fallback. */
  lemma CoalesceVersusOr(a: JsValue, b: JsValue)
    ensures Truthy(a) || IsNullish(a) ==> Coalesce(a, b) == Or(a, b)
    ensures !Truthy(a) && !IsNullish(a) ==> Coalesce(a, b) == a && Or(a, b) == b
  {
  }

  /** The script's pairs: `0 || 10` is 10 but `0 ?? 10` is 0, likewise for '' and false. */
  lemma CoalesceVersusOrSamples()
    ensures Or(Int(0), Int(10)) == Int(10) && Coalesce(Int(0), Int(10)) == Int(0)
    ensures Or(Str(""), Str("기본값")) == Str("기본값") && Coalesce(Str(""), Str("기본값")) == Str("")
    ensures Or(Bool(false), Bool(true)) == Bool(true) && Coalesce(Bool(false), Bool(true)) == Bool(false)
  {
  }

  /** Once a variable holds a value, a further `x = x ?? y` leaves it alone. */
  lemma CoalesceSettles(a: JsValue, b: JsValue, c: JsValue)
    requires !IsNullish(b)
    ensures !IsNullish(Coalesce(a, b))
    ensures Coalesce(Coalesce(a, b), c) == Coalesce(a, b)
  {
  }

  /** `a && b` is truthy exactly when both operands are. */
  lemma AndTruthy(a: JsValue, b: JsValue)
    ensures Truthy(And(a, b)) <==> Truthy(a) && Truthy(b)
  {
  }

  /** checkPermission: an administrator (`role === 'admin'`) or the owner (`id === 1`). */
  function CheckPermission(h: Heap, user: JsValue): (r: bool)
    ensures IsNullish(user) ==> !r
    ensures r <==> (!IsNullish(user)
                    && (Get(h, user, "role") == Str("admin") || NumberEquals(RealNumber(Get(h, user, "id")), Finite(1.0))))
  {
    StrictEquals(OptionalGet(h, user, "role"), Str("admin")) || StrictEquals(OptionalGet(h, user, "id"), Int(1))
  }

  /** The number inside a value, NaN for anything that is not a number (never equal to 1). */
  function RealNumber(v: JsValue): Number {
    if v.Num? then v.n else NaN
  }

  /** The configuration createConfig returns. */
  datatype Config = Config(timeout: JsValue, retries: JsValue, cache: JsValue)

  const DefaultConfig := Config(Int(5000), Int(3), Bool(true))

  /** createConfig: each setting the caller gives, unless it is null or undefined, over the default. */
  function CreateConfig(h: Heap, userConfig: JsValue): (r: Config)
    ensures IsNullish(userConfig) ==> r == DefaultConfig
    ensures !IsNullish(r.timeout) && !IsNullish(r.retries) && !IsNullish(r.cache)
    ensures !IsNullish(OptionalGet(h, userConfig, "timeout")) ==> r.timeout == Get(h, userConfig, "timeout")
    ensures IsNullish(OptionalGet(h, userConfig, "timeout")) ==> r.timeout == DefaultConfig.timeout
    ensures !IsNullish(OptionalGet(h, userConfig, "retries")) ==> r.retries == Get(h, userConfig, "retries")
    ensures IsNullish(OptionalGet(h, userConfig, "retries")) ==> r.retries == DefaultConfig.retries
    ensures !IsNullish(OptionalGet(h, userConfig, "cache")) ==> r.cache == Get(h, userConfig, "cache")
    ensures IsNullish(OptionalGet(h, userConfig, "cache")) ==> r.cache == DefaultConfig.cache
  {
    Config(
      Coalesce(OptionalGet(h, userConfig, "timeout"), DefaultConfig.timeout),
      Coalesce(OptionalGet(h, userConfig, "retries"), DefaultConfig.retries),
      Coalesce(OptionalGet(h, userConfig, "cache"), DefaultConfig.cache))
  }

  /** The configuration as the object literal createConfig builds. */
  function ConfigObject(c: Config): JsObject {
    JsObject(PlainObject, ["timeout", "retries", "cache"],
      map["timeout" := Property(c.timeout, true, true, true),
          "retries" := Property(c.retries, true, true, true),
          "cache" := Property(c.cache, true, true, true)], true)
  }

  /** A configuration that names all three settings, none of them null or undefined, comes back
      exactly as given. */
  lemma CreateConfigRoundTrip(h: Heap, a: nat, c: Config)
    requires !IsNullish(c.timeout) && !IsNullish(c.retries) && !IsNullish(c.cache)
    ensures CreateConfig(h[a := ConfigObject(c)], Ref(a)) == c
  {
  }

  /** Feeding a created configuration back into createConfig returns it unchanged. */
  lemma CreateConfigIdempotent(h: Heap, a: nat, userConfig: JsValue)
    ensures var c := CreateConfig(h, userConfig);
            CreateConfig(h[a := ConfigObject(c)], Ref(a)) == c
  {
  }

  /** The script's sample: `{ timeout: 0, cache: false }` keeps 0 and false, retries defaults to 3. */
  lemma CreateConfigSample()
    ensures var user := JsObject(PlainObject, ["timeout", "cache"],
                          map["timeout" := Property(Int(0), true, true, true),
                              "cache" := Property(Bool(false), true, true, true)], true);
            CreateConfig(map[0 := user], Ref(0)) == Config(Int(0), Int(3), Bool(false))
  {
  }

  /** What validateForm returns: `isValid` is the value of `name && age && email`, not a boolean. */
  datatype FormCheck = FormCheck(isValid: JsValue, error: Option<string>)

  /** `data?.name?.trim()`: undefined when either link is null or undefined; a trimmed string for a
      string; a TypeError for any other value, which has no trim method here. */
  function TrimmedName(h: Heap, data: JsValue): (r: Result<JsValue>)
    ensures r.Throws? <==> !IsNullish(OptionalGet(h, data, "name")) && !OptionalGet(h, data, "name").Str?
    ensures r.Ok? && OptionalGet(h, data, "name").Str? ==> r.value == Str(Trim(OptionalGet(h, data, "name").s))
    ensures IsNullish(OptionalGet(h, data, "name")) ==> r == Ok(Undefined)
  {
    var name := OptionalGet(h, data, "name");
    if IsNullish(name) then Ok(Undefined)
    else if name.Str? then Ok(Str(Trim(name.s)))
    else Throws(Exception("TypeError", "name.trim is not a function"))
  }

  const NameMissing := "이름을 입력하세요"
  const AgeMissing := "나이를 입력하세요"
  const EmailMissing := "이메일을 입력하세요"

  /** validateForm: the error names the first of name, age and e-mail that is missing, and `isValid` is
      what the `&&` chain stops at: the first missing value, or the e-mail when nothing is missing. */
  function ValidateForm(h: Heap, data: JsValue): (r: Result<FormCheck>)
    ensures r.Throws? <==> TrimmedName(h, data).Throws?
    ensures r.Ok? ==> (Truthy(r.value.isValid) <==> r.value.error.None?)
    ensures r.Ok? && IsNullish(data) ==> r.value.error == Some(NameMissing)
    ensures r.Ok? ==>
      var name := TrimmedName(h, data).value;
      var age := OptionalGet(h, data, "age");
      var email := OptionalGet(h, data, "email");
      && (r.value.error == Some(NameMissing) <==> !Truthy(name))
      && (r.value.error == Some(AgeMissing) <==> Truthy(name) && !Truthy(age))
      && (r.value.error == Some(EmailMissing) <==> Truthy(name) && Truthy(age) && !Truthy(email))
      && (r.value.error == Some(NameMissing) ==> r.value.isValid == name)
      && (r.value.error == Some(AgeMissing) ==> r.value.isValid == age)
      && (r.value.error != Some(NameMissing) && r.value.error != Some(AgeMissing) ==> r.value.isValid == email)
  {
    match TrimmedName(h, data)
    case Throws(e) => Throws(e)
    case Ok(name) =>
      var age := OptionalGet(h, data, "age");
      var email := OptionalGet(h, data, "email");
      var isValid := And(And(name, age), email);
      var error :=
        if !Truthy(name) then Some(NameMissing)
        else if !Truthy(age) then Some(AgeMissing)
        else if !Truthy(email) then Some(EmailMissing)
        else None;
      Ok(FormCheck(isValid, error))
  }

  /** In terms of the form's own fields: it passes exactly when the name is a string that is not blank
      and the age and the e-mail are truthy, and a passing form's `isValid` is its e-mail. */
  lemma ValidFormIffFilled(h: Heap, data: JsValue)
    requires ValidateForm(h, data).Ok?
    ensures var name := OptionalGet(h, data, "name");
      ValidateForm(h, data).value.error.None? <==>
        name.Str? && Trim(name.s) != "" && Truthy(OptionalGet(h, data, "age")) && Truthy(OptionalGet(h, data, "email"))
    ensures ValidateForm(h, data).value.error.None? ==> ValidateForm(h, data).value.isValid == OptionalGet(h, data, "email")
  {
  }

  /** The script's first sample: the valid form's `isValid` is the e-mail string itself. */
  lemma ValidateFormSample(data: JsObject)
    requires data == JsObject(PlainObject, ["name", "age", "email"],
                       map["name" := Property(Str("안유진"), true, true, true),
                           "age" := Property(Int(21), true, true, true),
                           "email" := Property(Str("test@test.com"), true, true, true)], true)
    ensures ValidateForm(map[0 := data], Ref(0)) == Ok(FormCheck(Str("test@test.com"), None))
  {
    var h := map[0 := data];
    TrimNoChange("안유진");
    assert OptionalGet(h, Ref(0), "name") == Str("안유진");
    assert OptionalGet(h, Ref(0), "age") == Int(21);
    assert OptionalGet(h, Ref(0), "email") == Str("test@test.com");
    ValidFormIffFilled(h, Ref(0));
  }

  /** The script's second sample: without an age, `isValid` is undefined and the age is reported. */
  lemma ValidateFormMissingAge(data: JsObject)
    requires data == JsObject(PlainObject, ["name"], map["name" := Property(Str("안유진"), true, true, true)], true)
    ensures ValidateForm(map[0 := data], Ref(0)) == Ok(FormCheck(Undefined, Some("나이를 입력하세요")))
  {
    var h := map[0 := data];
    TrimNoChange("안유진");
    assert OptionalGet(h, Ref(0), "name") == Str("안유진");
    assert OptionalGet(h, Ref(0), "age") == Undefined;
    assert OptionalGet(h, Ref(0), "email") == Undefined;
    assert TrimmedName(h, Ref(0)) == Ok(Str("안유진"));
  }
}

=== FILE: property_attributes.dfy ===
/** Property attributes and the three integrity levels, as js-beginner/3_all_about_object/2_property_attribute.js
    and JavaScript/js-beginner/3_all_about_object/3_2_immutable_object.js use them: Object.defineProperty,
    assignment, `delete`, Object.preventExtensions, Object.seal and Object.freeze on ordinary objects
    with data properties (sections 10.1 and 20.1.2 of ECMA-262). The scripts run in sloppy mode, so a
    refused assignment or deletion is silently ignored while a refused defineProperty throws. */
module PropertyAttributes {
  import opened Common
  import opened JsValues

  /** A property descriptor as passed to Object.defineProperty: each field may be absent. */
  datatype Descriptor = Descriptor(
    value: Option<JsValue>,
    writable: Option<bool>,
    enumerable: Option<bool>,
    configurable: Option<bool>)

  /** The descriptor `{ value, writable, enumerable, configurable }` with every field given. */
  function FullDescriptor(v: JsValue, writable: bool, enumerable: bool, configurable: bool): Descriptor {
    Descriptor(Some(v), Some(writable), Some(enumerable), Some(configurable))
  }

  /** Object.defineProperty on an ordinary object, following ValidateAndApplyPropertyDescriptor
      (section 10.1.6.3 of ECMA-262) for data properties. A new property needs an extensible object and
      takes `false`/undefined for absent fields; an existing non-configurable property may only become
      non-writable or be given its current value. A refusal throws a TypeError. */
  function DefineOwnProperty(o: JsObject, key: string, d: Descriptor): (r: Result<JsObject>)
    requires WellFormed(o)
    ensures r.Ok? ==> WellFormed(r.value) && r.value.kind == o.kind && r.value.extensible == o.extensible
    ensures r.Throws? ==> r.error.name == "TypeError"
    ensures key !in o.props ==> (r.Ok? <==> o.extensible)
    ensures key in o.props && o.props[key].configurable ==> r.Ok?
    ensures key in o.props && !o.props[key].configurable ==>
      (r.Ok? <==> && d.configurable != Some(true)
                  && d.enumerable in {None, Some(o.props[key].enumerable)}
                  && (o.props[key].writable || (d.writable != Some(true) && d.value in {None, Some(o.props[key].value)})))
    ensures r.Ok? && key !in o.props ==>
      && r.value.keys == o.keys + [key]
      && r.value.props[key].value == d.value.GetOr(Undefined)
      && (r.value.props[key].writable <==> d.writable == Some(true))
      && (r.value.props[key].enumerable <==> d.enumerable == Some(true))
      && (r.value.props[key].configurable <==> d.configurable == Some(true))
    ensures r.Ok? && key in o.props ==>
      && r.value.keys == o.keys
      && key in r.value.props
      && r.value.props[key].value == d.value.GetOr(o.props[key].value)
      && r.value.props[key].writable == d.writable.GetOr(o.props[key].writable)
      && r.value.props[key].enumerable == d.enumerable.GetOr(o.props[key].enumerable)
      && r.value.props[key].configurable == d.configurable.GetOr(o.props[key].configurable)
    ensures r.Ok? ==> forall k :: k != key ==> (k in r.value.props <==> k in o.props)
    ensures r.Ok? ==> forall k :: k != key && k in o.props ==> r.value.props[k] == o.props[k]
  {
    if key !in o.props then
      if !o.extensible then Throws(Exception("TypeError", "Cannot define property " + key + ", object is not extensible"))
      else
        var p := Property(d.value.GetOr(Undefined), d.writable.GetOr(false), d.enumerable.GetOr(false), d.configurable.GetOr(false));
        Ok(o.(keys := o.keys + [key], props := o.props[key := p]))
    else
      var current := o.props[key];
      var refused :=
        !current.configurable &&
          (|| d.configurable == Some(true)
           || (d.enumerable.Some? && d.enumerable.value != current.enumerable)
           || (!current.writable && (d.writable == Some(true) || (d.value.Some? && d.value.value != current.value))));
      if refused then Throws(Exception("TypeError", "Cannot redefine property: " + key))
      else
        var p := Property(d.value.GetOr(current.value), d.writable.GetOr(current.writable),
                          d.enumerable.GetOr(current.enumerable), d.configurable.GetOr(current.configurable));
        Ok(o.(props := o.props[key := p]))
  }

  /** `o[key] = v` (OrdinarySet, section 10.1.9.2 of ECMA-262, without a prototype chain): the new
      object and whether the assignment took effect. A read-only property, or a new name on a
      non-extensible object, leaves the object as it was. */
  function SetProp(o: JsObject, key: string, v: JsValue): (r: (JsObject, bool))
    requires WellFormed(o)
    ensures WellFormed(r.0) && r.0.kind == o.kind && r.0.extensible == o.extensible
    ensures r.1 <==> (if key in o.props then o.props[key].writable else o.extensible)
    ensures !r.1 ==> r.0 == o
    ensures r.1 ==> key in r.0.props && r.0.props[key].value == v
    ensures r.1 && key in o.props ==> r.0.keys == o.keys && r.0.props[key] == o.props[key].(value := v)
    ensures r.1 && key !in o.props ==> r.0.keys == o.keys + [key] && r.0.props[key] == Property(v, true, true, true)
    ensures forall k :: k != key ==> (k in r.0.props <==> k in o.props)
    ensures forall k :: k != key && k in o.props ==> r.0.props[k] == o.props[k]
  {
    if key in o.props then
      if o.props[key].writable then (o.(props := o.props[key := o.props[key].(value := v)]), true)
      else (o, false)
    else if o.extensible then (CreateDataProperty(o, key, v), true)
    else (o, false)
  }

  /** An assignment that takes effect is the defineProperty call `{ value: v }` on an existing property,
      and the full descriptor with every attribute true on a new one. */
  lemma SetPropIsDefine(o: JsObject, key: string, v: JsValue)
    requires WellFormed(o)
    ensures SetProp(o, key, v).1 && key in o.props ==>
      DefineOwnProperty(o, key, Descriptor(Some(v), None, None, None)) == Ok(SetProp(o, key, v).0)
    ensures SetProp(o, key, v).1 && key !in o.props ==>
      DefineOwnProperty(o, key, FullDescriptor(v, true, true, true)) == Ok(SetProp(o, key, v).0)
  {
  }

  /** Removes every occurrence of `k` from a key list, keeping the order of the rest. */
  function RemoveKey(keys: seq<string>, k: string): (r: seq<string>)
    ensures forall x :: x in r <==> x in keys && x != k
    ensures (forall i, j :: 0 <= i < j < |keys| ==> keys[i] != keys[j]) ==> (forall i, j :: 0 <= i < j < |r| ==> r[i] != r[j])
  {
    if keys == [] then []
    else
      var rest := RemoveKey(keys[1..], k);
      if keys[0] == k then rest
      else
        assert (forall i, j :: 0 <= i < j < |keys| ==> keys[i] != keys[j]) ==> keys[0] !in keys[1..] by {
          if forall i, j :: 0 <= i < j < |keys| ==> keys[i] != keys[j] {
            forall j | 0 <= j < |keys| - 1
              ensures keys[1..][j] != keys[0]
            {
              assert keys[1..][j] == keys[j + 1];
            }
          }
        }
        [keys[0]] + rest
  }

  /** `delete o[key]` ([[Delete]], section 10.1.10.1 of ECMA-262): the new object and the operator's
      boolean result. A missing name counts as deleted; a non-configurable property stays. */
  function DeleteProp(o: JsObject, key: string): (r: (JsObject, bool))
    requires WellFormed(o)
    ensures WellFormed(r.0) && r.0.kind == o.kind && r.0.extensible == o.extensible
    ensures r.1 <==> key !in o.props || o.props[key].configurable
    ensures r.1 ==> key !in r.0.props
    ensures !r.1 ==> r.0 == o
    ensures forall k :: k != key ==> (k in r.0.props <==> k in o.props)
    ensures forall k :: k != key && k in o.props ==> r.0.props[k] == o.props[k]
  {
    if key !in o.props then (o, true)
    else if o.props[key].configurable then
      (o.(keys := RemoveKey(o.keys, key), props := o.props - {key}), true)
    else (o, false)
  }

  /** Object.preventExtensions: no new properties from now on; the existing ones are untouched. */
  function PreventExtensions(o: JsObject): (r: JsObject)
    requires WellFormed(o)
    ensures WellFormed(r) && !r.extensible
    ensures r.keys == o.keys && r.props == o.props && r.kind == o.kind
  {
    o.(extensible := false)
  }

  /** Object.isSealed (TestIntegrityLevel, section 7.3.16 of ECMA-262). */
  predicate IsSealed(o: JsObject) {
    !o.extensible && forall k :: k in o.props ==> !o.props[k].configurable
  }

  /** Object.isFrozen: sealed, and every data property read-only. */
  predicate IsFrozen(o: JsObject) {
    !o.extensible && forall k :: k in o.props ==> !o.props[k].configurable && !o.props[k].writable
  }

  /** Every frozen object is sealed, and an object without properties is frozen as soon as it stops
      being extensible. */
  lemma FrozenIsSealed(o: JsObject)
    ensures IsFrozen(o) ==> IsSealed(o)
    ensures o.props == map[] ==> (IsFrozen(o) <==> !o.extensible)
  {
  }

  /** Reference reading of Object.freeze: the same properties, all read-only and non-configurable,
      on a non-extensible object. */
  function FrozenCopy(o: JsObject): JsObject {
    o.(extensible := false,
       props := map k | k in o.props :: o.props[k].(configurable := false, writable := false))
  }

  /** Reference reading of Object.seal: the same properties, all non-configurable. */
  function SealedCopy(o: JsObject): JsObject {
    o.(extensible := false, props := map k | k in o.props :: o.props[k].(configurable := false))
  }

  /** Freezing is idempotent, a frozen object is its own frozen copy, and values are kept. */
  lemma FrozenCopyFacts(o: JsObject)
    requires WellFormed(o)
    ensures WellFormed(FrozenCopy(o)) && IsFrozen(FrozenCopy(o))
    ensures FrozenCopy(FrozenCopy(o)) == FrozenCopy(o)
    ensures IsFrozen(o) ==> FrozenCopy(o) == o
    ensures forall k :: k in o.props ==> FrozenCopy(o).props[k].value == o.props[k].value
  {
    if IsFrozen(o) {
      assert FrozenCopy(o).props == o.props;
    }
    assert FrozenCopy(FrozenCopy(o)).props == FrozenCopy(o).props;
  }

  /** The attributes seal (`freeze` false) or freeze (`freeze` true) leaves a property with. */
  function Lowered(p: Property, freeze: bool): Property {
    if freeze then p.(configurable := false, writable := false) else p.(configurable := false)
  }

  /** The descriptor seal or freeze defines on each own property. */
  function LowerDescriptor(freeze: bool): Descriptor {
    Descriptor(None, if freeze then Some(false) else None, None, Some(false))
  }

  /** After `i` steps of seal or freeze: the first `i` keys are lowered, the rest untouched. */
  ghost predicate Lowering(o: JsObject, r: JsObject, i: nat, freeze: bool) {
    && WellFormed(o) && i <= |o.keys|
    && WellFormed(r) && !r.extensible && r.keys == o.keys && r.kind == o.kind
    && (forall k :: k in r.props <==> k in o.props)
    && (forall j :: 0 <= j < i ==> o.keys[j] in o.props && r.props[o.keys[j]] == Lowered(o.props[o.keys[j]], freeze))
    && (forall j :: i <= j < |o.keys| ==> o.keys[j] in o.props && r.props[o.keys[j]] == o.props[o.keys[j]])
  }

  lemma LoweringStart(o: JsObject, freeze: bool)
    requires WellFormed(o)
    ensures Lowering(o, PreventExtensions(o), 0, freeze)
  {
  }

  /** The next defineProperty call succeeds (a property may always be made non-configurable and
      read-only) and lowers one more key. */
  lemma LoweringStep(o: JsObject, r: JsObject, i: nat, freeze: bool)
    requires Lowering(o, r, i, freeze) && i < |o.keys|
    ensures DefineOwnProperty(r, o.keys[i], LowerDescriptor(freeze)).Ok?
    ensures Lowering(o, DefineOwnProperty(r, o.keys[i], LowerDescriptor(freeze)).value, i + 1, freeze)
  {
    var k := o.keys[i];
    var res := DefineOwnProperty(r, k, LowerDescriptor(freeze));
    assert k in r.props && r.props[k] == o.props[k];
    var r2 := res.value;
    assert r2.props[k] == Lowered(o.props[k], freeze);
    forall j | 0 <= j < |o.keys| && j != i
      ensures o.keys[j] != k
    {
    }
  }

  lemma LoweringEnd(o: JsObject, r: JsObject, freeze: bool)
    requires Lowering(o, r, |o.keys|, freeze)
    ensures r == if freeze then FrozenCopy(o) else SealedCopy(o)
  {
    forall k | k in o.props
      ensures r.props[k] == Lowered(o.props[k], freeze)
    {
      var j :| 0 <= j < |o.keys| && o.keys[j] == k;
    }
    if freeze {
      assert r.props == FrozenCopy(o).props;
    } else {
      assert r.props == SealedCopy(o).props;
    }
  }

  /** Object.seal (SetIntegrityLevel, section 7.3.15 of ECMA-262): prevent extensions, then define
      `{ configurable: false }` on every own property in order. */
  method Seal(o: JsObject) returns (r: JsObject)
    requires WellFormed(o)
    ensures WellFormed(r) && IsSealed(r) && r == SealedCopy(o)
    ensures r.keys == o.keys && r.kind == o.kind
    ensures forall k :: k in r.props <==> k in o.props
    ensures forall k :: k in o.props ==> r.props[k] == o.props[k].(configurable := false)
  {
    r := PreventExtensions(o);
    LoweringStart(o, false);
    var i := 0;
    while i < |o.keys|
      invariant Lowering(o, r, i, false)
    {
      LoweringStep(o, r, i, false);
      var res := DefineOwnProperty(r, o.keys[i], Descriptor(None, None, None, Some(false)));
      r := res.value;
      i := i + 1;
    }
    LoweringEnd(o, r, false);
  }

  /** Object.freeze: prevent extensions, then define `{ configurable: false, writable: false }` on every
      own property in order. Only the object itself is frozen; objects it refers to are not touched. */
  method Freeze(o: JsObject) returns (r: JsObject)
    requires WellFormed(o)
    ensures WellFormed(r) && IsFrozen(r) && r == FrozenCopy(o)
    ensures r.keys == o.keys && r.kind == o.kind
    ensures forall k :: k in r.props <==> k in o.props
    ensures forall k :: k in o.props ==> r.props[k] == o.props[k].(configurable := false, writable := false)
  {
    r := PreventExtensions(o);
    LoweringStart(o, true);
    var i := 0;
    while i < |o.keys|
      invariant Lowering(o, r, i, true)
    {
      LoweringStep(o, r, i, true);
      var res := DefineOwnProperty(r, o.keys[i], Descriptor(None, Some(false), None, Some(false)));
      r := res.value;
      i := i + 1;
    }
    LoweringEnd(o, r, true);
  }

  /** One step a script takes on an object: a defineProperty call, an assignment or a `delete`. */
  datatype Op = Define(key: string, d: Descriptor) | Assign(key: string, v: JsValue) | Delete(key: string)

  /** Runs the steps in order in sloppy mode: refused assignments and deletions are ignored, and the
      first refused defineProperty throws and ends the run. */
  function Run(o: JsObject, ops: seq<Op>): (r: Result<JsObject>)
    requires WellFormed(o)
    ensures r.Ok? ==> WellFormed(r.value) && r.value.kind == o.kind && r.value.extensible == o.extensible
    decreases |ops|
  {
    if ops == [] then Ok(o)
    else
      match ops[0]
      case Define(k, d) =>
        (match DefineOwnProperty(o, k, d)
         case Throws(e) => Throws(e)
         case Ok(o1) => Run(o1, ops[1..]))
      case Assign(k, v) => Run(SetProp(o, k, v).0, ops[1..])
      case Delete(k) => Run(DeleteProp(o, k).0, ops[1..])
  }

  /** Once an object is not extensible, no sequence of steps gives it a new property. */
  lemma {:induction false} NonExtensibleNeverGrows(o: JsObject, ops: seq<Op>)
    requires WellFormed(o) && !o.extensible
    ensures Run(o, ops).Ok? ==> forall k :: k in Run(o, ops).value.props ==> k in o.props
    decreases |ops|
  {
    if ops != [] {
      match ops[0]
      case Define(k, d) =>
        if DefineOwnProperty(o, k, d).Ok? {
          NonExtensibleNeverGrows(DefineOwnProperty(o, k, d).value, ops[1..]);
        }
      case Assign(k, v) => NonExtensibleNeverGrows(SetProp(o, k, v).0, ops[1..]);
      case Delete(k) => NonExtensibleNeverGrows(DeleteProp(o, k).0, ops[1..]);
    }
  }

  /** A non-configurable property is there for good: it stays non-configurable with the same
      enumerability, and if it is also read-only its value never changes. */
  lemma {:induction false} NonConfigurableIsPermanent(o: JsObject, key: string, ops: seq<Op>)
    requires WellFormed(o) && key in o.props && !o.props[key].configurable
    ensures Run(o, ops).Ok? ==>
      && key in Run(o, ops).value.props
      && !Run(o, ops).value.props[key].configurable
      && Run(o, ops).value.props[key].enumerable == o.props[key].enumerable
      && (!o.props[key].writable ==> Run(o, ops).value.props[key] == o.props[key])
    decreases |ops|
  {
    if ops != [] {
      match ops[0]
      case Define(k, d) =>
        if DefineOwnProperty(o, k, d).Ok? {
          NonConfigurableIsPermanent(DefineOwnProperty(o, k, d).value, key, ops[1..]);
        }
      case Assign(k, v) => NonConfigurableIsPermanent(SetProp(o, k, v).0, key, ops[1..]);
      case Delete(k) => NonConfigurableIsPermanent(DeleteProp(o, k).0, key, ops[1..]);
    }
  }

  /** A sealed object keeps exactly its properties, whatever is tried; their values may still change. */
  lemma {:induction false} SealedKeepsItsKeys(o: JsObject, ops: seq<Op>)
    requires WellFormed(o) && IsSealed(o)
    ensures Run(o, ops).Ok? ==> IsSealed(Run(o, ops).value)
    ensures Run(o, ops).Ok? ==> Run(o, ops).value.keys == o.keys
    decreases |ops|
  {
    if ops != [] {
      match ops[0]
      case Define(k, d) =>
        if DefineOwnProperty(o, k, d).Ok? {
          SealedKeepsItsKeys(DefineOwnProperty(o, k, d).value, ops[1..]);
        }
      case Assign(k, v) => SealedKeepsItsKeys(SetProp(o, k, v).0, ops[1..]);
      case Delete(k) => SealedKeepsItsKeys(DeleteProp(o, k).0, ops[1..]);
    }
  }

  /** Nothing changes a frozen object: every step is ignored, throws, or restates what is there. */
  lemma {:induction false} FrozenNeverChanges(o: JsObject, ops: seq<Op>)
    requires WellFormed(o) && IsFrozen(o)
    ensures Run(o, ops).Ok? ==> Run(o, ops).value == o
    decreases |ops|
  {
    if ops != [] {
      match ops[0]
      case Define(k, d) =>
        var r := DefineOwnProperty(o, k, d);
        if r.Ok? {
          assert r.value.props == o.props;
          FrozenNeverChanges(r.value, ops[1..]);
        }
      case Assign(k, v) => FrozenNeverChanges(SetProp(o, k, v).0, ops[1..]);
      case Delete(k) => FrozenNeverChanges(DeleteProp(o, k).0, ops[1..]);
    }
  }

  /** On a sealed object an assignment to a writable property still goes through. */
  lemma SealedStillWritable(o: JsObject, key: string, v: JsValue)
    requires WellFormed(o) && IsSealed(o) && key in o.props && o.props[key].writable
    ensures SetProp(o, key, v).1 && SetProp(o, key, v).0.props[key].value == v
    ensures !DeleteProp(o, key).1
  {
  }

  /** A frozen property may still be "redefined" as read-only: the descriptor `{ writable: false }`
      restates what is there, so defineProperty returns normally rather than throwing. */
  lemma FrozenRedefineReadOnlySucceeds(o: JsObject, key: string)
    requires WellFormed(o) && IsFrozen(o) && key in o.props
    ensures DefineOwnProperty(o, key, Descriptor(None, Some(false), None, None)) == Ok(o)
  {
    var r := DefineOwnProperty(o, key, Descriptor(None, Some(false), None, None));
    assert r.value.props == o.props;
  }

  /** On a non-configurable property, `{ enumerable: true }` is refused but `{ writable: false }` is
      accepted, as the `apiKey` example shows. */
  lemma NonConfigurableOnlyLocksDown(o: JsObject, key: string)
    requires WellFormed(o) && key in o.props
    requires o.props[key] == Property(Str("secret_key_123"), true, false, false)
    ensures DefineOwnProperty(o, key, Descriptor(None, None, Some(true), None)).Throws?
    ensures !DeleteProp(o, key).1
    ensures DefineOwnProperty(o, key, Descriptor(None, Some(false), None, None)).Ok?
    ensures DefineOwnProperty(o, key, Descriptor(None, Some(false), None, None)).value.props[key]
            == Property(Str("secret_key_123"), false, false, false)
  {
  }

  /** A property defined with `enumerable: false` is left out of Object.keys (and so of for...in) but
      can still be read, as `internalCode` shows. */
  lemma NonEnumerableHiddenButReadable(o: JsObject, key: string, v: JsValue, writable: bool, configurable: bool)
    requires WellFormed(o) && o.extensible && key !in o.props
    ensures var r := DefineOwnProperty(o, key, FullDescriptor(v, writable, false, configurable));
            && r.Ok?
            && key !in EnumerableKeys(r.value)
            && EnumerableKeys(r.value) == EnumerableKeys(o)
            && Get(map[0 := r.value], Ref(0), key) == v
  {
    var r := DefineOwnProperty(o, key, FullDescriptor(v, writable, false, configurable)).value;
    EnumerableKeysAppend(o, r, key);
  }

  /** Appending a non-enumerable key leaves the enumerable keys as they were. */
  lemma EnumerableKeysAppend(o: JsObject, r: JsObject, key: string)
    requires r.keys == o.keys + [key] && key !in o.keys && key in r.props && !r.props[key].enumerable
    requires forall k :: k != key ==> (k in r.props <==> k in o.props)
    requires forall k :: k != key && k in o.props ==> r.props[k] == o.props[k]
    ensures EnumerableKeys(r) == EnumerableKeys(o)
  {
    assert r.keys[..|r.keys| - 1] == o.keys;
    EnumerableKeysSameProps(o, r.(keys := o.keys), key);
  }

  /** The enumerable keys depend only on the key list and the properties it names. */
  lemma {:induction false} EnumerableKeysSameProps(o: JsObject, r: JsObject, key: string)
    requires r.keys == o.keys && key !in o.keys
    requires forall k :: k != key ==> (k in r.props <==> k in o.props)
    requires forall k :: k != key && k in o.props ==> r.props[k] == o.props[k]
    ensures EnumerableKeys(r) == EnumerableKeys(o)
    decreases |o.keys|
  {
    if o.keys != [] {
      var n := |o.keys| - 1;
      EnumerableKeysSameProps(o.(keys := o.keys[..n]), r.(keys := r.keys[..n]), key);
    }
  }

  /** A configurable property may have its attributes redefined (the `theme` setting loses
      `enumerable`) and may then be deleted, after which it reads as undefined. */
  lemma ConfigurableRedefineThenDelete(o: JsObject, key: string, d: Descriptor)
    requires WellFormed(o) && key in o.props && o.props[key].configurable && d.configurable != Some(false)
    ensures DefineOwnProperty(o, key, d).Ok?
    ensures var o1 := DefineOwnProperty(o, key, d).value;
            && o1.props[key].configurable
            && DeleteProp(o1, key).1
            && key !in DeleteProp(o1, key).0.props
            && Get(map[0 := DeleteProp(o1, key).0], Ref(0), key) == Undefined
  {
  }

  /** After Object.preventExtensions a new property is silently not added, while an existing
      configurable one can still be deleted and a writable one still assigned (the `user1` example). */
  lemma PreventExtensionsRules(o: JsObject, newKey: string, v: JsValue, key: string, w: JsValue)
    requires WellFormed(o) && newKey !in o.props && key in o.props
    ensures var p := PreventExtensions(o);
            && SetProp(p, newKey, v) == (p, false)
            && (o.props[key].configurable ==> DeleteProp(p, key).1 && key !in DeleteProp(p, key).0.props)
            && (o.props[key].writable ==> SetProp(p, key, w).1 && SetProp(p, key, w).0.props[key].value == w)
  {
  }

  /** The three objects `{ a: 1 }` of the comparison table after preventExtensions, seal and freeze,
      and then `.b = 2`, `delete .a` and `.a = 10` on each. */
  method ComparisonTable() returns (obj1: JsObject, obj2: JsObject, obj3: JsObject)
    ensures obj1.props == map[] && obj1.keys == []
    ensures obj2.keys == ["a"] && "a" in obj2.props && obj2.props["a"].value == Int(10)
    ensures obj3.keys == ["a"] && "a" in obj3.props && obj3.props["a"].value == Int(1)
  {
    var start := JsObject(PlainObject, ["a"], map["a" := Property(Int(1), true, true, true)], true);
    obj1 := PreventExtensions(start);
    obj2 := Seal(start);
    obj3 := Freeze(start);
    assert "b" !in obj1.props && "b" !in obj2.props && "b" !in obj3.props;
    obj1 := SetProp(obj1, "b", Int(2)).0;
    obj2 := SetProp(obj2, "b", Int(2)).0;
    obj3 := SetProp(obj3, "b", Int(2)).0;
    assert obj1 == start.(extensible := false);
    obj1 := DeleteProp(obj1, "a").0;
    assert obj1.keys == RemoveKey(["a"], "a") == [];
    obj2 := DeleteProp(obj2, "a").0;
    obj3 := DeleteProp(obj3, "a").0;
    assert obj2.props["a"].writable && !obj3.props["a"].writable;
    obj1 := SetProp(obj1, "a", Int(10)).0;
    obj2 := SetProp(obj2, "a", Int(10)).0;
    obj3 := SetProp(obj3, "a", Int(10)).0;
  }

  /** Object.defineProperties: the descriptors applied in order; the first refusal throws, leaving the
      earlier definitions in place on the object (which this result does not return). */
  function DefineProperties(o: JsObject, ds: seq<(string, Descriptor)>): (r: Result<JsObject>)
    requires WellFormed(o)
    ensures r.Ok? ==> WellFormed(r.value) && r.value.extensible == o.extensible
    ensures r.Ok? ==> forall k :: k in o.props ==> k in r.value.props
    ensures r.Ok? ==> forall i :: 0 <= i < |ds| ==> ds[i].0 in r.value.props
    ensures r.Throws? ==> r.error.name == "TypeError"
    decreases |ds|
  {
    if ds == [] then Ok(o)
    else
      match DefineOwnProperty(o, ds[0].0, ds[0].1)
      case Throws(e) => Throws(e)
      case Ok(o1) =>
        var r := DefineProperties(o1, ds[1..]);
        assert r.Ok? ==> forall i :: 1 <= i < |ds| ==> ds[i].0 in r.value.props by {
          if r.Ok? {
            forall i | 1 <= i < |ds| ensures ds[i].0 in r.value.props {
              assert ds[1..][i - 1] == ds[i];
            }
          }
        }
        r
  }

  /** The property a descriptor creates for a name the object does not have yet: absent fields are
      undefined and false. */
  function FreshProperty(d: Descriptor): Property {
    Property(d.value.GetOr(Undefined), d.writable.GetOr(false), d.enumerable.GetOr(false), d.configurable.GetOr(false))
  }

  /** Defining distinct names an extensible object does not have never throws: each name then holds
      the property its descriptor creates, and every property the object had is left as it was. */
  lemma {:induction false} DefinePropertiesFresh(o: JsObject, ds: seq<(string, Descriptor)>)
    requires WellFormed(o) && o.extensible
    requires forall i :: 0 <= i < |ds| ==> ds[i].0 !in o.props
    requires forall i, j :: 0 <= i < j < |ds| ==> ds[i].0 != ds[j].0
    ensures DefineProperties(o, ds).Ok?
    ensures forall k :: k in o.props ==> DefineProperties(o, ds).value.props[k] == o.props[k]
    ensures forall i :: 0 <= i < |ds| ==> DefineProperties(o, ds).value.props[ds[i].0] == FreshProperty(ds[i].1)
    decreases |ds|
  {
    if ds != [] {
      var o1 := DefineOwnProperty(o, ds[0].0, ds[0].1).value;
      var rest := ds[1..];
      assert forall i :: 0 <= i < |rest| ==> rest[i] == ds[i + 1];
      assert forall i :: 0 <= i < |rest| ==> rest[i].0 !in o1.props;
      DefinePropertiesFresh(o1, rest);
      var r := DefineProperties(o1, rest);
      assert DefineProperties(o, ds) == r;
      assert o1.props[ds[0].0] == FreshProperty(ds[0].1);
      forall i | 0 <= i < |ds|
        ensures r.value.props[ds[i].0] == FreshProperty(ds[i].1)
      {
        if i > 0 {
          assert rest[i - 1] == ds[i];
        }
      }
    }
  }

  /** The CONFIG constants: three read-only, non-configurable properties that later assignments cannot
      touch. */
  lemma ConstantObjectIgnoresAssignments(url: string, hack: string)
    ensures var config := DefineProperties(EmptyObject(PlainObject), [
              ("API_URL", FullDescriptor(Str(url), false, true, false)),
              ("TIMEOUT", FullDescriptor(Int(5000), false, true, false)),
              ("MAX_RETRIES", FullDescriptor(Int(3), false, true, false))]);
            && config.Ok?
            && Run(config.value, [Assign("API_URL", Str(hack)), Assign("TIMEOUT", Int(99999))]) == config
  {
    var c0 := EmptyObject(PlainObject);
    var c1 := DefineOwnProperty(c0, "API_URL", FullDescriptor(Str(url), false, true, false)).value;
    var c2 := DefineOwnProperty(c1, "TIMEOUT", FullDescriptor(Int(5000), false, true, false)).value;
    var c3 := DefineOwnProperty(c2, "MAX_RETRIES", FullDescriptor(Int(3), false, true, false)).value;
    var ds := [("API_URL", FullDescriptor(Str(url), false, true, false)),
               ("TIMEOUT", FullDescriptor(Int(5000), false, true, false)),
               ("MAX_RETRIES", FullDescriptor(Int(3), false, true, false))];
    assert DefineProperties(c2, ds[2..]) == Ok(c3);
    assert DefineProperties(c1, ds[1..]) == Ok(c3);
    assert DefineProperties(c0, ds) == Ok(c3);
    assert SetProp(c3, "TIMEOUT", Int(99999)).0 == c3;
    assert Run(c3, [Assign("TIMEOUT", Int(99999))]) == Ok(c3);
    assert SetProp(c3, "API_URL", Str(hack)).0 == c3;
    assert [Assign("API_URL", Str(hack)), Assign("TIMEOUT", Int(99999))][1..] == [Assign("TIMEOUT", Int(99999))];
  }

  /** The User of the password example: only the login-attempt counter changes. */
  datatype LoginUser = LoginUser(username: string, password: string, loginAttempts: nat)

  /** login: the right password clears the counter and succeeds; a wrong one counts up and reports
      the running number of failures. */
  function Login(u: LoginUser, password: string): (r: (LoginUser, string))
    ensures r.0.username == u.username && r.0.password == u.password
    ensures password == u.password ==> r.0.loginAttempts == 0 && r.1 == "✅ 로그인 성공"
    ensures password != u.password ==> r.0.loginAttempts == u.loginAttempts + 1
    ensures password != u.password ==> r.1 == "❌ 로그인 실패 (" + NatToString(r.0.loginAttempts) + "회)"
  {
    if u.password == password then (u.(loginAttempts := 0), "✅ 로그인 성공")
    else
      var n := u.loginAttempts + 1;
      (u.(loginAttempts := n), "❌ 로그인 실패 (" + NatToString(n) + "회)")
  }

  /** The user after trying each password in turn. */
  function LoginAll(u: LoginUser, attempts: seq<string>): LoginUser
    decreases |attempts|
  {
    if attempts == [] then u else LoginAll(Login(u, attempts[0]).0, attempts[1..])
  }

  /** How many attempts at the end of the list are wrong, and whether some attempt was right. */
  function TrailingFailures(password: string, attempts: seq<string>): nat {
    if attempts == [] then 0
    else if attempts[|attempts| - 1] == password then 0
    else TrailingFailures(password, attempts[..|attempts| - 1]) + 1
  }

  /** After a run of attempts the counter holds the failures since the last success (added to the
      earlier count when no attempt succeeded). */
  lemma {:induction false} LoginCountsTrailingFailures(u: LoginUser, attempts: seq<string>)
    ensures (exists i :: 0 <= i < |attempts| && attempts[i] == u.password) ==>
      LoginAll(u, attempts).loginAttempts == TrailingFailures(u.password, attempts)
    ensures (forall i :: 0 <= i < |attempts| ==> attempts[i] != u.password) ==>
      LoginAll(u, attempts).loginAttempts == u.loginAttempts + |attempts|
    decreases |attempts|
  {
    if attempts != [] {
      var u1 := Login(u, attempts[0]).0;
      var rest := attempts[1..];
      LoginCountsTrailingFailures(u1, rest);
      TrailingSplit(u.password, attempts);
      if attempts[0] == u.password {
        if !(exists i :: 0 <= i < |rest| && rest[i] == u.password) {
          TrailingAllFail(u.password, rest);
        }
      } else {
        if exists i :: 0 <= i < |attempts| && attempts[i] == u.password {
          var i :| 0 <= i < |attempts| && attempts[i] == u.password;
          assert rest[i - 1] == u.password;
        }
      }
    }
  }

  /** TrailingFailures reads the list from the end; dropping a first element only matters when every
      later attempt failed. */
  lemma {:induction false} TrailingSplit(password: string, attempts: seq<string>)
    requires attempts != []
    ensures (exists i :: 0 <= i < |attempts| - 1 && attempts[1..][i] == password) ==>
      TrailingFailures(password, attempts) == TrailingFailures(password, attempts[1..])
    ensures attempts[0] == password && (forall i :: 0 <= i < |attempts| - 1 ==> attempts[1..][i] != password) ==>
      TrailingFailures(password, attempts) == |attempts| - 1
    decreases |attempts|
  {
    var rest := attempts[1..];
    if |attempts| > 1 {
      var init := attempts[..|attempts| - 1];
      TrailingSplit(password, init);
      assert init[1..] == rest[..|rest| - 1];
      assert init[0] == attempts[0];
      if exists i :: 0 <= i < |rest| && rest[i] == password {
        if rest[|rest| - 1] != password {
          var i :| 0 <= i < |rest| && rest[i] == password;
          assert init[1..][i] == password;
        }
      }
    }
  }

  /** With no right password in the list, every attempt counts. */
  lemma {:induction false} TrailingAllFail(password: string, attempts: seq<string>)
    requires forall i :: 0 <= i < |attempts| ==> attempts[i] != password
    ensures TrailingFailures(password, attempts) == |attempts|
    decreases |attempts|
  {
    if attempts != [] {
      TrailingAllFail(password, attempts[..|attempts| - 1]);
    }
  }

  /** The script's sequence: one wrong password, then the right one. */
  lemma LoginSample()
    ensures var u := LoginUser("yujin", "password123", 0);
            && Login(u, "wrong").1 == "❌ 로그인 실패 (1회)"
            && Login(Login(u, "wrong").0, "password123") == (u, "✅ 로그인 성공")
  {
  }
}

=== FILE: shop.dfy ===
/** The shop of both class-keyword scripts (JavaScript/js-beginner/2_class_and_oop/1_class_keyword.js and
    js-beginner/2_class_and_oop/1_class_keyword.js): products with a stock, cart lines, and the cart's
    add, remove, totals and stock-decrementing checkout. Prices, stocks and quantities are integers. */
module Shop {
  import opened Common

  /** A ShopProduct's private fields. */
  datatype ShopProduct = ShopProduct(id: string, name: string, price: int, stock: int)

  /** A CartItem: the product object it was added with, and a quantity. */
  datatype Line = Line(product: ShopProduct, quantity: int)

  const NonPositiveQuantity := "수량은 1 이상이어야 합니다."
  const OutOfStock := "재고가 부족합니다."

  /** decreaseStock. The JavaScript/ script's version first refuses a quantity of 0 or less
      (`rejectNonPositive`); both refuse more than the stock, and otherwise take the quantity off. */
  function DecreaseStock(p: ShopProduct, quantity: int, rejectNonPositive: bool): (r: Result<ShopProduct>)
    ensures r.Ok? <==> (!rejectNonPositive || quantity > 0) && quantity <= p.stock
    ensures r.Ok? ==> r.value.stock == p.stock - quantity && r.value.stock >= 0
                      && r.value == p.(stock := r.value.stock)
    ensures r.Throws? ==> r.error.name == "Error"
    ensures r.Throws? && rejectNonPositive && quantity <= 0 ==> r.error.message == NonPositiveQuantity
    ensures r.Throws? && !(rejectNonPositive && quantity <= 0) ==> r.error.message == OutOfStock
  {
    if rejectNonPositive && quantity <= 0 then Throws(Exception("Error", NonPositiveQuantity))
    else if p.stock < quantity then Throws(Exception("Error", OutOfStock))
    else Ok(p.(stock := p.stock - quantity))
  }

  /** Taking off a positive quantity and adding it back restores the product. */
  lemma DecreaseStockUndo(p: ShopProduct, quantity: int, rejectNonPositive: bool)
    requires 0 < quantity <= p.stock
    ensures DecreaseStock(p, quantity, rejectNonPositive).Ok?
    ensures DecreaseStock(p, quantity, rejectNonPositive).value.(stock := p.stock) == p
    ensures DecreaseStock(p, quantity, rejectNonPositive).value.stock < p.stock
  {
  }

  /** `items.findIndex(item => item.product.id === id)`. */
  function FindLine(lines: seq<Line>, id: string): (i: int)
    ensures -1 <= i < |lines|
    ensures i == -1 <==> forall j :: 0 <= j < |lines| ==> lines[j].product.id != id
    ensures i >= 0 ==> lines[i].product.id == id && forall j :: 0 <= j < i ==> lines[j].product.id != id
  {
    if lines == [] then -1
    else if lines[0].product.id == id then 0
    else
      var i := FindLine(lines[1..], id);
      if i == -1 then -1 else i + 1
  }

  /** No two lines are for the same product id. */
  predicate UniqueIds(lines: seq<Line>) {
    forall i, j :: 0 <= i < j < |lines| ==> lines[i].product.id != lines[j].product.id
  }

  /** No line has a negative price or quantity. */
  predicate NoNegatives(lines: seq<Line>) {
    forall i :: 0 <= i < |lines| ==> lines[i].quantity >= 0 && lines[i].product.price >= 0
  }

  /** `itemCount`: the quantities added up. */
  function ItemCount(lines: seq<Line>): (n: int)
    ensures NoNegatives(lines) ==> n >= 0
  {
    if lines == [] then 0 else ItemCount(lines[..|lines| - 1]) + lines[|lines| - 1].quantity
  }

  /** `totalPrice`: each line's price times quantity, added up. */
  function TotalPrice(lines: seq<Line>): (t: int)
    ensures NoNegatives(lines) ==> t >= 0
  {
    if lines == [] then 0
    else TotalPrice(lines[..|lines| - 1]) + lines[|lines| - 1].product.price * lines[|lines| - 1].quantity
  }

  /** addItem: an existing line for the product's id gets the quantity added; otherwise a new line goes
      at the end. The message names the product and, for an existing line, its new quantity. */
  function AddItem(lines: seq<Line>, product: ShopProduct, quantity: int): (r: (seq<Line>, string))
    ensures var i := FindLine(lines, product.id);
      && (i == -1 ==> r.0 == lines + [Line(product, quantity)])
      && (i >= 0 ==> r.0 == lines[i := lines[i].(quantity := lines[i].quantity + quantity)])
    ensures UniqueIds(lines) ==> UniqueIds(r.0)
    ensures exists j :: 0 <= j < |r.0| && r.0[j].product.id == product.id
  {
    var i := FindLine(lines, product.id);
    if i >= 0 then
      var q := lines[i].quantity + quantity;
      assert lines[i := lines[i].(quantity := q)][i].product.id == product.id;
      (lines[i := lines[i].(quantity := q)], "✅ " + product.name + " 수량 증가 (" + IntToString(q) + "개)")
    else
      assert (lines + [Line(product, quantity)])[|lines|].product.id == product.id;
      (lines + [Line(product, quantity)], "✅ " + product.name + " 장바구니에 추가됨")
  }

  /** `addItem(product)` with the quantity left out: the default quantity of one. */
  const DefaultQuantity := 1

  /** addItem without a quantity: the item count goes up by exactly one and the total by the price of
      the line the product lands on; a product not yet in the cart gets a new line of one. */
  function AddItemDefault(lines: seq<Line>, product: ShopProduct): (r: (seq<Line>, string))
    ensures ItemCount(r.0) == ItemCount(lines) + 1
    ensures var i := FindLine(lines, product.id);
      TotalPrice(r.0) == TotalPrice(lines) + (if i >= 0 then lines[i].product.price else product.price)
    ensures FindLine(lines, product.id) == -1 ==> r.0 == lines + [Line(product, 1)]
    ensures UniqueIds(lines) ==> UniqueIds(r.0)
  {
    AddItemTotals(lines, product, DefaultQuantity);
    AddItem(lines, product, DefaultQuantity)
  }

  /** Replacing one line by one with a different quantity changes the count by the difference and the
      total by the price times that difference. */
  lemma TotalsUpdate(lines: seq<Line>, i: int, q: int)
    requires 0 <= i < |lines|
    ensures ItemCount(lines[i := lines[i].(quantity := q)]) == ItemCount(lines) + (q - lines[i].quantity)
    ensures TotalPrice(lines[i := lines[i].(quantity := q)])
            == TotalPrice(lines) + lines[i].product.price * (q - lines[i].quantity)
  {
    CountUpdate(lines, i, q);
    PriceUpdate(lines, i, q);
  }

  lemma {:induction false} CountUpdate(lines: seq<Line>, i: int, q: int)
    requires 0 <= i < |lines|
    ensures ItemCount(lines[i := lines[i].(quantity := q)]) == ItemCount(lines) + (q - lines[i].quantity)
    decreases |lines|
  {
    var u := lines[i := lines[i].(quantity := q)];
    var n := |lines| - 1;
    if i < n {
      assert u[..n] == lines[..n][i := lines[i].(quantity := q)];
      CountUpdate(lines[..n], i, q);
    } else {
      assert u[..n] == lines[..n];
    }
  }

  lemma {:induction false} PriceUpdate(lines: seq<Line>, i: int, q: int)
    requires 0 <= i < |lines|
    ensures TotalPrice(lines[i := lines[i].(quantity := q)])
            == TotalPrice(lines) + lines[i].product.price * (q - lines[i].quantity)
    decreases |lines|
  {
    var u := lines[i := lines[i].(quantity := q)];
    var n := |lines| - 1;
    var p := lines[i].product.price;
    if i < n {
      assert u[..n] == lines[..n][i := lines[i].(quantity := q)];
      PriceUpdate(lines[..n], i, q);
    } else {
      assert u[..n] == lines[..n];
      assert p * q == p * lines[i].quantity + p * (q - lines[i].quantity);
    }
  }

  /** Appending a line adds its quantity and its price times quantity. */
  lemma TotalsAppend(lines: seq<Line>, l: Line)
    ensures ItemCount(lines + [l]) == ItemCount(lines) + l.quantity
    ensures TotalPrice(lines + [l]) == TotalPrice(lines) + l.product.price * l.quantity
  {
    assert (lines + [l])[..|lines|] == lines;
  }

  /** Adding always raises the item count by exactly the quantity added, and the total by the quantity
      times the price of the line it lands on. */
  lemma AddItemTotals(lines: seq<Line>, product: ShopProduct, quantity: int)
    ensures ItemCount(AddItem(lines, product, quantity).0) == ItemCount(lines) + quantity
    ensures var i := FindLine(lines, product.id);
      TotalPrice(AddItem(lines, product, quantity).0)
        == TotalPrice(lines) + (if i >= 0 then lines[i].product.price else product.price) * quantity
  {
    var i := FindLine(lines, product.id);
    if i >= 0 {
      assert AddItem(lines, product, quantity).0 == lines[i := lines[i].(quantity := lines[i].quantity + quantity)];
      AddToExisting(lines, i, quantity);
    } else {
      assert AddItem(lines, product, quantity).0 == lines + [Line(product, quantity)];
      TotalsAppend(lines, Line(product, quantity));
    }
  }

  /** The totals after adding to the line at `i`. */
  lemma AddToExisting(lines: seq<Line>, i: int, quantity: int)
    requires 0 <= i < |lines|
    ensures var u := lines[i := lines[i].(quantity := lines[i].quantity + quantity)];
      && ItemCount(u) == ItemCount(lines) + quantity
      && TotalPrice(u) == TotalPrice(lines) + lines[i].product.price * quantity
  {
    TotalsUpdate(lines, i, lines[i].quantity + quantity);
  }

  const NotFound := "❌ 상품을 찾을 수 없습니다."

  /** removeItem: the first line for the id is spliced out; an unknown id leaves the cart as it is. */
  function RemoveItem(lines: seq<Line>, id: string): (r: (seq<Line>, string))
    ensures FindLine(lines, id) == -1 ==> r == (lines, NotFound)
    ensures FindLine(lines, id) >= 0 ==>
      var i := FindLine(lines, id);
      && |r.0| == |lines| - 1
      && (forall j :: 0 <= j < i ==> r.0[j] == lines[j])
      && (forall j :: i <= j < |r.0| ==> r.0[j] == lines[j + 1])
      && r.1 == "✅ " + lines[i].product.name + " 제거됨"
    ensures UniqueIds(lines) ==> UniqueIds(r.0) && forall j :: 0 <= j < |r.0| ==> r.0[j].product.id != id
  {
    var i := FindLine(lines, id);
    if i == -1 then (lines, NotFound)
    else (lines[..i] + lines[i + 1..], "✅ " + lines[i].product.name + " 제거됨")
  }

  /** Removing the product just added as a new line gives the cart back. */
  lemma RemoveUndoesAdd(lines: seq<Line>, product: ShopProduct, quantity: int)
    requires FindLine(lines, product.id) == -1
    ensures RemoveItem(AddItem(lines, product, quantity).0, product.id).0 == lines
  {
    var added := lines + [Line(product, quantity)];
    assert AddItem(lines, product, quantity).0 == added;
    FindAppended(lines, Line(product, quantity));
    assert added[..|lines|] == lines && added[|lines| + 1..] == [];
    assert RemoveItem(added, product.id).0 == added[..|lines|] + added[|lines| + 1..];
  }

  /** A line for a new id, appended, is found at the end. */
  lemma FindAppended(lines: seq<Line>, l: Line)
    requires FindLine(lines, l.product.id) == -1
    ensures FindLine(lines + [l], l.product.id) == |lines|
  {
    var added := lines + [l];
    var i := FindLine(added, l.product.id);
    assert added[|lines|] == l;
  }

  /** Adding `p`, then `q`, then `p` again gives one line per product, `p`'s quantities summed. */
  lemma AddTwiceOnce(p: ShopProduct, q: ShopProduct, a: int, b: int, c: int)
    requires p.id != q.id
    ensures AddItem(AddItem(AddItem([], p, a).0, q, b).0, p, c).0 == [Line(p, a + c), Line(q, b)]
  {
    var two := AddItem(AddItem([], p, a).0, q, b).0;
    assert two == [Line(p, a), Line(q, b)];
    assert FindLine(two, p.id) == 0;
  }

  /** The totals of a two-line cart. */
  lemma TwoLineTotals(l1: Line, l2: Line)
    ensures ItemCount([l1, l2]) == l1.quantity + l2.quantity
    ensures TotalPrice([l1, l2]) == l1.product.price * l1.quantity + l2.product.price * l2.quantity
  {
    TotalsAppend([l1], l2);
    assert [l1] + [l2] == [l1, l2];
    assert [l1][..0] == [];
  }

  /** The lines after every stock has been decreased by its line's quantity. */
  function Decremented(lines: seq<Line>): (r: seq<Line>)
    ensures |r| == |lines|
    ensures forall i :: 0 <= i < |lines| ==>
      r[i] == lines[i].(product := lines[i].product.(stock := lines[i].product.stock - lines[i].quantity))
  {
    seq(|lines|, i requires 0 <= i < |lines| =>
      lines[i].(product := lines[i].product.(stock := lines[i].product.stock - lines[i].quantity)))
  }

  /** Two carts whose lines differ only in their products' stocks have the same totals. */
  lemma {:induction false} TotalsIgnoreStock(a: seq<Line>, b: seq<Line>)
    requires |a| == |b|
    requires forall i :: 0 <= i < |a| ==> a[i].quantity == b[i].quantity && a[i].product.price == b[i].product.price
    ensures ItemCount(a) == ItemCount(b) && TotalPrice(a) == TotalPrice(b)
    decreases |a|
  {
    if a != [] {
      TotalsIgnoreStock(a[..|a| - 1], b[..|b| - 1]);
    }
  }

  /** The forEach of checkout: each line's product gives up the line's quantity, in order. `failedAt` is
      the index of the line whose decreaseStock threw, or -1. There is no rollback: the lines before a
      failure keep their decreased stock, the rest are untouched. */
  method DecreaseAll(lines: seq<Line>, rejectNonPositive: bool) returns (after: seq<Line>, failedAt: int)
    ensures |after| == |lines| && -1 <= failedAt < |lines|
    ensures failedAt == -1 ==> after == Decremented(lines)
    ensures failedAt == -1 ==> forall i :: 0 <= i < |lines| ==> DecreaseStock(lines[i].product, lines[i].quantity, rejectNonPositive).Ok?
    ensures failedAt >= 0 ==> DecreaseStock(lines[failedAt].product, lines[failedAt].quantity, rejectNonPositive).Throws?
    ensures failedAt >= 0 ==> forall i :: 0 <= i < failedAt ==>
      DecreaseStock(lines[i].product, lines[i].quantity, rejectNonPositive).Ok? && after[i] == Decremented(lines)[i]
    ensures failedAt >= 0 ==> forall i :: failedAt <= i < |lines| ==> after[i] == lines[i]
    ensures forall i :: 0 <= i < |lines| ==> after[i].quantity == lines[i].quantity && after[i].product.price == lines[i].product.price
  {
    after := lines;
    failedAt := -1;
    for i := 0 to |lines|
      invariant |after| == |lines|
      invariant forall j :: 0 <= j < i ==>
        DecreaseStock(lines[j].product, lines[j].quantity, rejectNonPositive).Ok? && after[j] == Decremented(lines)[j]
      invariant forall j :: i <= j < |lines| ==> after[j] == lines[j]
    {
      var res := DecreaseStock(lines[i].product, lines[i].quantity, rejectNonPositive);
      if res.Throws? {
        failedAt := i;
        return;
      }
      after := after[i := lines[i].(product := res.value)];
    }
  }

  /** What a successful checkout hands back: the lines as they are after the stock was taken, the total
      price and the item count. The timestamp is not part of this model. */
  datatype Receipt = Receipt(items: seq<Line>, totalPrice: int, itemCount: int)

  /** How checkout answers: a receipt, a failure object with a message, or a bare message string. */
  datatype CheckoutReply = Paid(receipt: Receipt) | Failed(error: string) | Message(text: string)

  const EmptyCart := "장바구니가 비어있습니다."

  /** How a checkout that failed at line `k` leaves things: that line's decreaseStock threw with
      `message`, the lines before it keep their decreased stock (there is no rollback) and the lines from
      it on are untouched. */
  predicate StoppedAt(lines: seq<Line>, cart: seq<Line>, message: string, k: int, rejectNonPositive: bool) {
    && |cart| == |lines|
    && 0 <= k < |lines|
    && DecreaseStock(lines[k].product, lines[k].quantity, rejectNonPositive).Throws?
    && message == DecreaseStock(lines[k].product, lines[k].quantity, rejectNonPositive).error.message
    && (forall i :: 0 <= i < k ==> cart[i] == Decremented(lines)[i])
    && (forall i :: k <= i < |lines| ==> cart[i] == lines[i])
  }

  /** checkout after the cart was found non-empty: decrease every stock, then either empty the cart and
      return the receipt, or keep the (partly decremented) lines and return the failure message. */
  method CheckoutLines(lines: seq<Line>, rejectNonPositive: bool) returns (cart: seq<Line>, reply: CheckoutReply)
    ensures reply.Paid? || reply.Failed?
    ensures reply.Paid? ==> cart == [] && reply.receipt.items == Decremented(lines)
    ensures reply.Paid? ==> reply.receipt.totalPrice == TotalPrice(lines) && reply.receipt.itemCount == ItemCount(lines)
    ensures reply.Paid? <==> forall i :: 0 <= i < |lines| ==> DecreaseStock(lines[i].product, lines[i].quantity, rejectNonPositive).Ok?
    ensures reply.Failed? ==> |cart| == |lines|
    ensures reply.Failed? ==> exists k :: StoppedAt(lines, cart, reply.error, k, rejectNonPositive)
  {
    var after, failedAt := DecreaseAll(lines, rejectNonPositive);
    if failedAt >= 0 {
      cart := after;
      reply := Failed(DecreaseStock(lines[failedAt].product, lines[failedAt].quantity, rejectNonPositive).error.message);
      assert StoppedAt(lines, cart, reply.error, failedAt, rejectNonPositive);
      return;
    }
    TotalsIgnoreStock(after, lines);
    cart := [];
    reply := Paid(Receipt(after, TotalPrice(after), ItemCount(after)));
  }
}

=== FILE: static_basics.dfy ===
/** The static members of js-beginner/2_class_and_oop/3_static_keyword.js, the introductory version of
    the script: a static field that lives on the class and not on its instances, factory methods that
    check little or nothing, and a date utility that formats without padding and compares only the day
    of the month. */
module StaticBasics {
  import opened Common
  import opened JsValues
  import StaticFactories
  import DateUtils

  // ---------------------------------------------------------------- the static field

  const GroupName := "아이브"
  const GroupPrefix := "우리는 "
  const GroupSuffix := "입니다."

  /** The class IdolModel as an object: its one own static field, groupName. */
  function IdolModelClass(): (c: JsObject)
    ensures WellFormed(c) && c.kind.FunctionObject?
  {
    JsObject(FunctionObject, ["groupName"], map["groupName" := Property(Str(GroupName), true, true, true)], true)
  }

  /** `new IdolModel(name, year)`: the instance's own fields are name and year, nothing else. */
  function NewIdolModel(name: JsValue, year: JsValue): (o: JsObject)
    ensures WellFormed(o) && o.kind.PlainObject?
    ensures o.keys == ["name", "year"] && o.props.Keys == {"name", "year"}
    ensures o.props["name"].value == name && o.props["year"].value == year
  {
    PairLiteralNames("name", name, "year", year);
    PairLiteral("name", name, "year", year);
    ObjectLiteral([("name", name), ("year", year)])
  }

  /** The static field is read on the class and is undefined on an instance, which holds only what its
      constructor set (the instance's prototype, IdolModel.prototype, has no groupName either). */
  lemma StaticFieldOnClassOnly(h: Heap, cls: nat, inst: nat, name: JsValue, year: JsValue)
    requires cls != inst
    ensures var h' := h[cls := IdolModelClass()][inst := NewIdolModel(name, year)];
      && Get(h', Ref(cls), "groupName") == Str(GroupName)
      && Get(h', Ref(inst), "groupName") == Undefined
      && Get(h', Ref(inst), "name") == name && Get(h', Ref(inst), "year") == year
  {
  }

  /** returnGroupName: the class's group name inside a sentence. */
  function ReturnGroupName(groupName: string): (r: string)
    ensures |r| == |GroupPrefix| + |groupName| + |GroupSuffix|
    ensures r[..|GroupPrefix|] == GroupPrefix && r[|r| - |GroupSuffix|..] == GroupSuffix
  {
    GroupPrefix + groupName + GroupSuffix
  }

  /** The part of a returnGroupName sentence between its fixed prefix and suffix. */
  function GroupNameIn(sentence: string): string
    requires |sentence| >= |GroupPrefix| + |GroupSuffix|
  {
    sentence[|GroupPrefix|..|sentence| - |GroupSuffix|]
  }

  /** The sentence gives the group name back, so different names give different sentences. */
  lemma ReturnGroupNameRoundTrip(groupName: string)
    ensures GroupNameIn(ReturnGroupName(groupName)) == groupName
  {
    var r := ReturnGroupName(groupName);
    assert r == GroupPrefix + groupName + GroupSuffix;
    assert r[|GroupPrefix|..|r| - |GroupSuffix|] == groupName;
  }

  /** The script's sentence. */
  lemma ReturnGroupNameSample()
    ensures ReturnGroupName(GroupName) == "우리는 아이브입니다."
  {
  }

  // ---------------------------------------------------------------- User factories

  /** This script's User: the constructor stores whatever it is given. */
  datatype User = User(name: JsValue, age: JsValue)

  const Incomplete := "데이터가 불완전합니다."
  const JsonSyntax := "Unexpected token in JSON"

  /** fromObject: reading `obj.name` throws a TypeError for a null or undefined object; a falsy name or
      age (so an empty name or age 0) is refused with an Error; otherwise the two values are stored as
      they are. */
  function FromObject(h: Heap, obj: JsValue): (r: Result<User>)
    ensures IsNullish(obj) <==> r.Throws? && r.error.name == "TypeError"
    ensures !IsNullish(obj) ==>
      (r.Ok? <==> Truthy(Get(h, obj, "name")) && Truthy(Get(h, obj, "age")))
    ensures !IsNullish(obj) && r.Throws? ==> r.error == Exception("Error", Incomplete)
    ensures r.Ok? ==> r.value == User(Get(h, obj, "name"), Get(h, obj, "age"))
  {
    match StrictGet(h, obj, "name")
    case Throws(e) => Throws(e)
    case Ok(name) =>
      if !Truthy(name) || !Truthy(Get(h, obj, "age")) then Throws(Exception("Error", Incomplete))
      else Ok(User(name, Get(h, obj, "age")))
  }

  /** fromList: index 0 is the name and index 1 the age, with no check at all; only a null or undefined
      list throws, on the read of `list[0]`. */
  function FromList(h: Heap, list: JsValue): (r: Result<User>)
    ensures r.Throws? <==> IsNullish(list)
    ensures r.Throws? ==> r.error.name == "TypeError"
    ensures r.Ok? ==> r.value.name == Get(h, list, "0") && r.value.age == Get(h, list, "1")
  {
    match StrictGet(h, list, "0")
    case Throws(e) => Throws(e)
    case Ok(name) => Ok(User(name, Get(h, list, "1")))
  }

  /** fromJson: JSON.parse, then the name and age of what it produced, with no check. `parse` stands for
      JSON.parse: None when it throws its SyntaxError, else the value and the heap holding the objects it
      created. The text "null" parses to null, whose name cannot be read. */
  function FromJson(parse: string -> Option<(JsValue, Heap)>, json: string): (r: Result<User>)
    ensures parse(json).None? <==> r.Throws? && r.error.name == "SyntaxError"
    ensures parse(json).Some? ==>
      (r.Throws? <==> IsNullish(parse(json).value.0)) && (r.Throws? ==> r.error.name == "TypeError")
    ensures r.Ok? ==> var (v, h) := parse(json).value;
      r.value == User(Get(h, v, "name"), Get(h, v, "age"))
  {
    match parse(json)
    case None => Throws(Exception("SyntaxError", JsonSyntax))
    case Some((parsed, h)) =>
      match StrictGet(h, parsed, "name")
      case Throws(e) => Throws(e)
      case Ok(name) => Ok(User(name, Get(h, parsed, "age")))
  }

  /** A user written as the object literal `{ name, age }`. */
  function UserObject(u: User): JsObject {
    ObjectLiteral([("name", u.name), ("age", u.age)])
  }

  /** A user written as the array `[name, age]`. */
  function UserList(u: User): JsObject {
    ObjectLiteral([("0", u.name), ("1", u.age)]).(kind := ArrayObject)
  }

  /** fromObject gives back the user written as a literal exactly when both of its fields are truthy. */
  lemma FromObjectRoundTrip(h: Heap, a: nat, u: User)
    ensures FromObject(h[a := UserObject(u)], Ref(a)) == Ok(u) <==> Truthy(u.name) && Truthy(u.age)
    ensures !(Truthy(u.name) && Truthy(u.age)) ==>
      FromObject(h[a := UserObject(u)], Ref(a)) == Throws(Exception("Error", Incomplete))
  {
    PairLiteral("name", u.name, "age", u.age);
  }

  /** fromList gives back every user written as an array, falsy fields included. */
  lemma FromListRoundTrip(h: Heap, a: nat, u: User)
    ensures FromList(h[a := UserList(u)], Ref(a)) == Ok(u)
  {
    PairLiteral("0", u.name, "1", u.age);
  }

  /** fromJson accepts whatever fromObject accepts on the parsed value and builds the same user, and it
      also accepts the records fromObject refuses: a parsed `{"name": "", "age": 0}` becomes a user. */
  lemma FromJsonAcceptsMore(parse: string -> Option<(JsValue, Heap)>, json: string)
    requires parse(json).Some?
    ensures var (v, h) := parse(json).value;
      FromObject(h, v).Ok? ==> FromJson(parse, json) == FromObject(h, v)
    ensures var (v, h) := parse(json).value;
      !IsNullish(v) && !Truthy(Get(h, v, "name")) ==> FromJson(parse, json).Ok? && FromObject(h, v).Throws?
  {
  }

  /** The two versions of the script part ways on age 0: the validating fromObject takes a user aged 0,
      this one refuses the same record. */
  lemma AgeZeroSplitsVersions(h: Heap, a: nat, name: string)
    requires |Trim(name)| >= 2
    ensures var h' := h[a := ObjectLiteral([("name", Str(name)), ("age", Int(0))])];
      && FromObject(h', Ref(a)) == Throws(Exception("Error", Incomplete))
      && StaticFactories.FromObject(h', Ref(a)).Ok?
  {
    var u := User(Str(name), Int(0));
    assert !Truthy(u.age);
    FromObjectRoundTrip(h, a, u);
    StaticFactories.FromObjectOfLiteral(h, a, Str(name), Int(0));
  }

  /** The script's first user, from `{ name: '장원영', age: 20 }`. */
  lemma FromObjectSample(h: Heap, a: nat, u: User)
    requires u == User(Str("장원영"), Int(20))
    ensures FromObject(h[a := UserObject(u)], Ref(a)) == Ok(User(Str("장원영"), Int(20)))
  {
    assert Truthy(u.name) && Truthy(u.age);
    FromObjectRoundTrip(h, a, u);
  }

  /** The script's second user, from `['안유진', 21]`. */
  lemma FromListSample(h: Heap, a: nat, u: User)
    requires u == User(Str("안유진"), Int(21))
    ensures FromList(h[a := UserList(u)], Ref(a)) == Ok(User(Str("안유진"), Int(21)))
  {
    FromListRoundTrip(h, a, u);
  }

  /** fromJson on a text that parses to an object literal gives the literal's name and age. */
  lemma FromJsonOfLiteral(parse: string -> Option<(JsValue, Heap)>, json: string, u: User)
    requires parse(json) == Some((Ref(0), map[0 := UserObject(u)]))
    ensures FromJson(parse, json) == Ok(u)
  {
    PairLiteral("name", u.name, "age", u.age);
  }

  /** The script's third user, from '{"name": "가을", "age": 22}'. */
  lemma FromJsonSample(parse: string -> Option<(JsValue, Heap)>, json: string, u: User)
    requires json == "{\"name\": \"가을\", \"age\": 22}" && u == User(Str("가을"), Int(22))
    requires parse(json) == Some((Ref(0), map[0 := UserObject(u)]))
    ensures FromJson(parse, json) == Ok(User(Str("가을"), Int(22)))
  {
    FromJsonOfLiteral(parse, json, u);
  }

  // ---------------------------------------------------------------- DateUtils

  type CalendarDay = DateUtils.CalendarDay
  type DateArg = DateUtils.DateArg

  const NotADateMessage := "date.getFullYear is not a function"

  /** formatDate: the year, the month plus one and the day joined by '-', with no padding. An Invalid
      Date prints NaN for all three; a value that is not a Date has no getFullYear to call. */
  function FormatDate(d: DateArg): (r: Result<string>)
    ensures r.Throws? <==> d.NotADate?
    ensures r.Throws? ==> r.error.name == "TypeError"
    ensures d.InvalidDate? ==> r == Ok("NaN-NaN-NaN")
  {
    match d
    case NotADate => Throws(Exception("TypeError", NotADateMessage))
    case InvalidDate => Ok("NaN-NaN-NaN")
    case ValidDate(day) => Ok(IntToString(day.year) + "-" + NatToString(day.month + 1) + "-" + NatToString(day.date))
  }

  /** Reads Y-M-D back: split at '-', three non-empty digit strings, the middle one the one-based month. */
  function ParseDate(text: string): Option<DateUtils.Day> {
    var parts := Split(text, '-');
    if |parts| == 3 && parts[0] != [] && IsDigits(parts[0]) && parts[1] != [] && IsDigits(parts[1])
       && parts[2] != [] && IsDigits(parts[2])
    then Some(DateUtils.Day(DigitsValue(parts[0]), DigitsValue(parts[1]) - 1, DigitsValue(parts[2])))
    else None
  }

  /** Even unpadded, the formatted date loses nothing: it reads back as the same day. */
  lemma FormatDateRoundTrip(day: CalendarDay)
    requires day.year >= 0
    ensures ParseDate(FormatDate(DateUtils.ValidDate(day)).value) == Some(day)
  {
    var y := NatToString(day.year);
    var m := NatToString(day.month + 1);
    var dd := NatToString(day.date);
    NatToStringRoundTrip(day.year);
    NatToStringRoundTrip(day.month + 1);
    NatToStringRoundTrip(day.date);
    var text := FormatDate(DateUtils.ValidDate(day)).value;
    FormatDateText(day);
    DateUtils.DigitFieldsSplit(text, y, m, dd);
  }

  lemma FormatDateText(day: CalendarDay)
    requires day.year >= 0
    ensures FormatDate(DateUtils.ValidDate(day)).value
            == NatToString(day.year) + ['-'] + NatToString(day.month + 1) + ['-'] + NatToString(day.date)
  {
    assert IntToString(day.year) == NatToString(day.year);
  }

  /** One- and two-digit numbers print as one and two digits. */
  lemma ShortNumberLength(n: nat)
    requires n < 100
    ensures |NatToString(n)| == if n < 10 then 1 else 2
    ensures 10 <= n ==> NatToString(n) == DateUtils.TwoDigits(n)
  {
    if n >= 10 {
      assert NatToString(n / 10) == [DigitChar(n / 10)];
    }
  }

  /** This formatDate and the padded one of the other version of the script agree exactly on the days
      whose month number and day both have two digits. */
  lemma FormatsAgreeIffTwoDigits(day: CalendarDay)
    ensures FormatDate(DateUtils.ValidDate(day)) == DateUtils.FormatDate(DateUtils.ValidDate(day))
            <==> day.month + 1 >= 10 && day.date >= 10
  {
    var y := IntToString(day.year);
    ShortNumberLength(day.month + 1);
    ShortNumberLength(day.date);
    var plain := FormatDate(DateUtils.ValidDate(day)).value;
    var padded := DateUtils.FormatDate(DateUtils.ValidDate(day)).value;
    assert plain == y + "-" + NatToString(day.month + 1) + "-" + NatToString(day.date);
    assert padded == y + "-" + DateUtils.TwoDigits(day.month + 1) + "-" + DateUtils.TwoDigits(day.date);
    assert |padded| == |y| + 6;
  }

  /** The script's date: January 24th 2026 is written 2026-1-24. */
  lemma FormatDateSample(day: CalendarDay)
    requires day == DateUtils.Day(2026, 0, 24)
    ensures FormatDate(DateUtils.ValidDate(day)) == Ok("2026-1-24")
  {
    DateUtils.YearDigits();
    assert NatToString(24) == "24";
    var text := NatToString(2026) + "-" + NatToString(1) + "-" + NatToString(24);
    assert text == "2026-1-24";
  }

  /** isToday as written: only the day of the month is compared with today's. An Invalid Date's NaN
      equals nothing; a value that is not a Date has no getDate to call. `today` stands for `new
      Date()`. */
  function IsTodayAsWritten(d: DateArg, today: CalendarDay): (r: Result<bool>)
    ensures r.Throws? <==> d.NotADate?
    ensures d.InvalidDate? ==> r == Ok(false)
    ensures d.ValidDate? ==> (r == Ok(true) <==> d.day.date == today.date)
  {
    match d
    case NotADate => Throws(Exception("TypeError", "date.getDate is not a function"))
    case InvalidDate => Ok(false)
    case ValidDate(day) => Ok(day.date == today.date)
  }

  /** Every real today passes the check as written, but so does the same day of any other month or
      year: it is the full isToday only once the year and month are known to match. */
  lemma IsTodayAsWrittenTooLoose(d: DateArg, today: CalendarDay)
    ensures DateUtils.IsToday(d, today) ==> IsTodayAsWritten(d, today) == Ok(true)
    ensures d.ValidDate? && d.day.year == today.year && d.day.month == today.month ==>
      (IsTodayAsWritten(d, today) == Ok(true) <==> DateUtils.IsToday(d, today))
  {
  }

  /** The discrepancy on concrete days: on February 24th 2026, January 24th counts as today. */
  lemma IsTodayAsWrittenMonthSlip(d: CalendarDay, today: CalendarDay)
    requires d == DateUtils.Day(2026, 0, 24) && today == DateUtils.Day(2026, 1, 24)
    ensures IsTodayAsWritten(DateUtils.ValidDate(d), today) == Ok(true)
    ensures !DateUtils.IsToday(DateUtils.ValidDate(d), today)
  {
  }
}

=== FILE: static_factories.dfy ===
/** The static members of JavaScript/js-beginner/2_class_and_oop/3_static_keyword.js: validating factory
    methods behind one private static check, a price value type with a static factory and adder, and
    a date utility class that cannot be instantiated. */
module StaticFactories {
  import opened Common
  import opened JsValues

  // ---------------------------------------------------------------- User factories

  /** A constructed user: the stored (trimmed) name and the age as given. */
  datatype User = User(name: string, age: Number)

  const NameMessage := "name은 2자 이상 문자열이어야 합니다."
  const AgeMessage := "age는 0 이상의 유효한 숫자여야 합니다."
  const JsonMessage := "JSON 파싱 실패: 올바른 JSON 문자열을 전달하세요."

  /** A string at least two UTF-16 code units long once trimmed. */
  predicate ValidName(v: JsValue) {
    v.Str? && Utf16Length(Trim(v.s)) >= 2
  }

  /** A number that Number.isFinite accepts and that is not below zero (so -0 passes). */
  predicate NonNegativeFinite(v: JsValue) {
    v.Num? && IsFiniteNumber(v.n) && !NumberLess(v.n, Finite(0.0))
  }

  /** What every user the factories return satisfies: a name of two or more code units with nothing
      left to trim, and a finite age that is not negative. */
  predicate ValidUser(u: User) {
    Utf16Length(u.name) >= 2 && Trim(u.name) == u.name && IsFiniteNumber(u.age) && !NumberLess(u.age, Finite(0.0))
  }

  /** #assertValid: nothing when both checks pass, otherwise the TypeError of the first check that
      fails — the name is checked before the age. */
  function AssertValid(name: JsValue, age: JsValue): (r: Option<Exception>)
    ensures r.None? <==> ValidName(name) && NonNegativeFinite(age)
    ensures !ValidName(name) ==> r == Some(Exception("TypeError", NameMessage))
    ensures ValidName(name) && !NonNegativeFinite(age) ==> r == Some(Exception("TypeError", AgeMessage))
  {
    if !name.Str? || Utf16Length(Trim(name.s)) < 2 then Some(Exception("TypeError", NameMessage))
    else if !age.Num? || !IsFiniteNumber(age.n) || NumberLess(age.n, Finite(0.0)) then Some(Exception("TypeError", AgeMessage))
    else None
  }

  /** `new User(name.trim(), age)` after the check has passed. */
  function Construct(name: JsValue, age: JsValue): (u: User)
    requires ValidName(name) && NonNegativeFinite(age)
    ensures ValidUser(u)
  {
    assert Trim(Trim(name.s)) == Trim(name.s) by {
      TrimIdempotent(name.s);
    }
    User(Trim(name.s), age.n)
  }

  /** The outcome of checking a name and an age and constructing from them. */
  function Checked(name: JsValue, age: JsValue): (r: Result<User>)
    ensures r.Ok? <==> AssertValid(name, age).None?
    ensures r.Throws? ==> Some(r.error) == AssertValid(name, age)
    ensures r.Ok? ==> ValidUser(r.value) && r.value.age == age.n && r.value.name == Trim(name.s)
  {
    match AssertValid(name, age)
    case Some(e) => Throws(e)
    case None => Ok(Construct(name, age))
  }

  /** fromObject: reads `obj?.name` and `obj?.age`, so a null or undefined object fails the name check
      rather than throwing on the read. */
  function FromObject(h: Heap, obj: JsValue): (r: Result<User>)
    ensures var name := OptionalGet(h, obj, "name");
      var age := OptionalGet(h, obj, "age");
      && (r.Ok? <==> ValidName(name) && NonNegativeFinite(age))
      && (r.Ok? ==> ValidUser(r.value) && r.value == User(Trim(name.s), age.n))
    ensures IsNullish(obj) ==> r == Throws(Exception("TypeError", NameMessage))
  {
    Checked(OptionalGet(h, obj, "name"), OptionalGet(h, obj, "age"))
  }

  /** fromList: the name at index 0 and the age at index 1, under the same check. */
  function FromList(h: Heap, list: JsValue): (r: Result<User>)
    ensures var name := OptionalGet(h, list, "0");
      var age := OptionalGet(h, list, "1");
      && (r.Ok? <==> ValidName(name) && NonNegativeFinite(age))
      && (r.Ok? ==> ValidUser(r.value) && r.value == User(Trim(name.s), age.n))
  {
    Checked(OptionalGet(h, list, "0"), OptionalGet(h, list, "1"))
  }

  /** fromJson: JSON.parse, then fromObject, with every failure of either — a syntax error as much as a
      failed check — replaced by the one JSON TypeError. `parse` stands for JSON.parse: None when it
      throws, else the value and the heap holding the objects it created. */
  function FromJson(parse: string -> Option<(JsValue, Heap)>, json: string): (r: Result<User>)
    ensures r.Throws? ==> r.error == Exception("TypeError", JsonMessage)
    ensures r.Ok? <==> parse(json).Some? && FromObject(parse(json).value.1, parse(json).value.0).Ok?
    ensures r.Ok? ==> r.value == FromObject(parse(json).value.1, parse(json).value.0).value
  {
    match parse(json)
    case None => Throws(Exception("TypeError", JsonMessage))
    case Some((parsed, h)) =>
      match FromObject(h, parsed)
      case Ok(u) => Ok(u)
      case Throws(_) => Throws(Exception("TypeError", JsonMessage))
  }

  /** A user written as the object literal `{ name, age }`. */
  function UserObject(u: User): JsObject {
    ObjectLiteral([("name", Str(u.name)), ("age", Num(u.age))])
  }

  /** A user written as the array `[name, age]`. */
  function UserList(u: User): JsObject {
    ObjectLiteral([("0", Str(u.name)), ("1", Num(u.age))]).(kind := ArrayObject)
  }

  /** fromObject on a `{ name, age }` literal checks exactly the two values written. */
  lemma FromObjectOfLiteral(h: Heap, a: nat, name: JsValue, age: JsValue)
    ensures FromObject(h[a := ObjectLiteral([("name", name), ("age", age)])], Ref(a)) == Checked(name, age)
  {
    var h' := h[a := ObjectLiteral([("name", name), ("age", age)])];
    PairLiteral("name", name, "age", age);
    assert OptionalGet(h', Ref(a), "name") == name;
    assert OptionalGet(h', Ref(a), "age") == age;
  }

  /** fromList on a `[name, age]` array checks exactly the two values written. */
  lemma FromListOfLiteral(h: Heap, a: nat, name: JsValue, age: JsValue)
    ensures FromList(h[a := ObjectLiteral([("0", name), ("1", age)]).(kind := ArrayObject)], Ref(a)) == Checked(name, age)
  {
    var h' := h[a := ObjectLiteral([("0", name), ("1", age)]).(kind := ArrayObject)];
    PairLiteral("0", name, "1", age);
    assert OptionalGet(h', Ref(a), "0") == name;
    assert OptionalGet(h', Ref(a), "1") == age;
  }

  /** Every valid user survives being written out as an object and read back by fromObject. */
  lemma FromObjectRoundTrip(h: Heap, a: nat, u: User)
    requires ValidUser(u)
    ensures FromObject(h[a := UserObject(u)], Ref(a)) == Ok(u)
  {
    FromObjectOfLiteral(h, a, Str(u.name), Num(u.age));
  }

  /** Every valid user survives being written out as an array and read back by fromList. */
  lemma FromListRoundTrip(h: Heap, a: nat, u: User)
    requires ValidUser(u)
    ensures FromList(h[a := UserList(u)], Ref(a)) == Ok(u)
  {
    FromListOfLiteral(h, a, Str(u.name), Num(u.age));
  }

  /** Surrounding white space is what the factories strip: one space on each side of a name that does
      not start or end with white space is removed. */
  lemma TrimSpaced(s: string)
    requires s != [] && !IsTrimmable(s[0]) && !IsTrimmable(s[|s| - 1])
    ensures Trim(" " + s + " ") == s
  {
    var t := " " + s + " ";
    assert t[1] == s[0] && t[|t| - 2] == s[|s| - 1];
    assert StartIndex(t, 1) == 1;
    assert StartIndex(t, 0) == 1;
    assert EndIndex(t, 1, |t| - 1) == |t| - 1;
    assert EndIndex(t, 1, |t|) == |t| - 1;
    assert t[1..|t| - 1] == s;
  }

  /** A name of two or more characters padded with one space each side passes the check, trimmed. */
  lemma CheckedSpaced(name: string, age: int)
    requires |name| >= 2 && !IsTrimmable(name[0]) && !IsTrimmable(name[|name| - 1]) && age >= 0
    ensures Checked(Str(" " + name + " "), Int(age)) == Ok(User(name, Finite(age as real)))
  {
    TrimSpaced(name);
  }

  /** The script's first user: ' 장원영 ' is stored as '장원영' at 20. */
  lemma SpacedNameSample()
    ensures FromObject(map[0 := ObjectLiteral([("name", Str(" 장원영 ")), ("age", Int(20))])], Ref(0))
            == Ok(User("장원영", Finite(20.0)))
  {
    var name := "장원영";
    var spaced := " " + name + " ";
    assert spaced == " 장원영 ";
    CheckedSpaced(name, 20);
    FromObjectOfLiteral(map[], 0, Str(spaced), Int(20));
    assert map[][0 := ObjectLiteral([("name", Str(" 장원영 ")), ("age", Int(20))])]
        == map[0 := ObjectLiteral([("name", Str(" 장원영 ")), ("age", Int(20))])];
  }

  /** ['안유진', 21] passes fromList. */
  lemma ListSample()
    ensures FromList(map[0 := UserList(User("안유진", Finite(21.0)))], Ref(0)) == Ok(User("안유진", Finite(21.0)))
  {
    TrimNoChange("안유진");
    FromListRoundTrip(map[], 0, User("안유진", Finite(21.0)));
    assert map[][0 := UserList(User("안유진", Finite(21.0)))] == map[0 := UserList(User("안유진", Finite(21.0)))];
  }

  /** The parsed JSON object for 가을 at 22 passes fromJson; text that does not parse fails with the
      JSON TypeError. */
  lemma JsonSample(parse: string -> Option<(JsValue, Heap)>)
    requires parse("{\"name\":\"가을\",\"age\":22}") == Some((Ref(0), map[0 := UserObject(User("가을", Finite(22.0)))]))
    requires parse("{broken json}") == None
    ensures FromJson(parse, "{\"name\":\"가을\",\"age\":22}") == Ok(User("가을", Finite(22.0)))
    ensures FromJson(parse, "{broken json}") == Throws(Exception("TypeError", JsonMessage))
  {
    TrimNoChange("가을");
    FromObjectRoundTrip(map[], 0, User("가을", Finite(22.0)));
    assert map[][0 := UserObject(User("가을", Finite(22.0)))] == map[0 := UserObject(User("가을", Finite(22.0)))];
  }

  /** {name: 'A', age: -1} fails, and on the name, which is checked first. */
  lemma ShortNameSample()
    ensures FromObject(map[0 := ObjectLiteral([("name", Str("A")), ("age", Int(-1))])], Ref(0))
            == Throws(Exception("TypeError", NameMessage))
  {
    TrimShortens("A");
    Utf16LengthOfBmp("A");
    assert Checked(Str("A"), Int(-1)) == Throws(Exception("TypeError", NameMessage));
    FromObjectOfLiteral(map[], 0, Str("A"), Int(-1));
    assert map[][0 := ObjectLiteral([("name", Str("A")), ("age", Int(-1))])]
        == map[0 := ObjectLiteral([("name", Str("A")), ("age", Int(-1))])];
  }

  // ---------------------------------------------------------------- Price

  /** A price: a finite number that is not negative. */
  datatype Price = Price(value: Number)

  const PriceMessage := "가격은 0 이상의 유효한 숫자여야 합니다."

  /** `new Price(value)` / `Price.of(value)`. */
  function PriceOf(v: JsValue): (r: Result<Price>)
    ensures r.Ok? <==> NonNegativeFinite(v)
    ensures r.Ok? ==> r.value.value == v.n
    ensures r.Throws? ==> r.error == Exception("TypeError", PriceMessage)
  {
    if !v.Num? || !IsFiniteNumber(v.n) || NumberLess(v.n, Finite(0.0)) then Throws(Exception("TypeError", PriceMessage))
    else Ok(Price(v.n))
  }

  /** The `+` of two finite numbers (section 6.1.6.1.7 of ECMA-262): -0 only when both are -0; the
      rounding of the sum to a double is not modelled. */
  function AddFinite(x: Number, y: Number): (r: Number)
    requires IsFiniteNumber(x) && IsFiniteNumber(y)
    ensures IsFiniteNumber(r) && RealOf(r) == RealOf(x) + RealOf(y)
  {
    if x.NegZero? && y.NegZero? then NegZero else Finite(RealOf(x) + RealOf(y))
  }

  /** Price.add: both operands go through Price.of, the first one first, and the values are added. */
  function PriceAdd(a: JsValue, b: JsValue): (r: Result<Number>)
    ensures r.Ok? <==> NonNegativeFinite(a) && NonNegativeFinite(b)
    ensures r.Ok? ==> RealOf(r.value) == RealOf(a.n) + RealOf(b.n)
    ensures r.Throws? ==> r.error == Exception("TypeError", PriceMessage)
  {
    match PriceOf(a)
    case Throws(e) => Throws(e)
    case Ok(pa) =>
      match PriceOf(b)
      case Throws(e) => Throws(e)
      case Ok(pb) => Ok(AddFinite(pa.value, pb.value))
  }

  /** The sum of two prices is again a price, and the order of the operands does not matter. */
  lemma PriceAddLaws(a: JsValue, b: JsValue)
    ensures PriceAdd(a, b).Ok? ==> PriceOf(Num(PriceAdd(a, b).value)).Ok?
    ensures PriceAdd(a, b) == PriceAdd(b, a)
  {
  }

  /** The script's prices: 19900 is a price, 1000 + 2500 is 3500, and -1 or NaN are refused. */
  lemma PriceSample()
    ensures PriceOf(Int(19900)) == Ok(Price(Finite(19900.0)))
    ensures PriceAdd(Int(1000), Int(2500)) == Ok(Finite(3500.0))
    ensures PriceOf(Int(-1)).Throws? && PriceOf(Num(NaN)).Throws?
  {
  }
}

=== FILE: type_guards.dfy ===
/** The user-defined type guards of TypeScript/onebite-typescript/02_ts_basics/src/06_any_unknown_safety.ts:
    an `unknown` value is inspected with `typeof` and property reads before it is trusted. */
module TypeGuards {
  import opened Common
  import opened JsValues

  /** `typeof value === 'object' && value !== null`: arrays and plain objects pass, functions do not. */
  predicate IsNonNullObject(h: Heap, value: JsValue) {
    TypeOf(h, value) == "object" && value != Null
  }

  lemma NonNullObjectIsRef(h: Heap, value: JsValue)
    ensures IsNonNullObject(h, value) <==> value.Ref? && !(value.addr in h && h[value.addr].kind.FunctionObject?)
  {
  }

  /** The `User` type the guard narrows to. */
  datatype User = User(id: string, name: string)

  /** isUser: a non-null object whose `id` and `name` are both strings. */
  function IsUser(h: Heap, value: JsValue): (r: bool)
    ensures r ==> value.Ref?
    ensures r <==> IsNonNullObject(h, value) && Get(h, value, "id").Str? && Get(h, value, "name").Str?
  {
    if TypeOf(h, value) != "object" || StrictEquals(value, Null) then false
    else TypeOf(h, Get(h, value, "id")) == "string" && TypeOf(h, Get(h, value, "name")) == "string"
  }

  /** The `User` a value narrowed by isUser denotes. */
  function UserOf(h: Heap, value: JsValue): User
    requires IsUser(h, value)
  {
    User(Get(h, value, "id").s, Get(h, value, "name").s)
  }

  /** A user written as an object literal `{ id, name }`. */
  function UserObject(u: User): JsObject {
    ObjectLiteral([("id", Str(u.id)), ("name", Str(u.name))])
  }

  /** Every `User` stored as an object passes isUser, and narrowing gives it back. */
  lemma UserRoundTrip(h: Heap, a: nat, u: User)
    ensures IsUser(h[a := UserObject(u)], Ref(a))
    ensures UserOf(h[a := UserObject(u)], Ref(a)) == u
  {
    var entries := [("id", Str(u.id)), ("name", Str(u.name))];
    ObjectLiteralLastWins(entries, "id");
    ObjectLiteralLastWins(entries, "name");
    assert entries[..1] == [("id", Str(u.id))];
  }

  /** The guard rejects null, functions and primitives, but accepts an array carrying the two fields. */
  lemma IsUserEdges(h: Heap, a: nat, u: User)
    ensures !IsUser(h, Null) && !IsUser(h, Undefined) && !IsUser(h, Str(u.id))
    ensures var f := UserObject(u).(kind := FunctionObject); !IsUser(h[a := f], Ref(a))
    ensures var arr := UserObject(u).(kind := ArrayObject); IsUser(h[a := arr], Ref(a))
  {
    UserRoundTrip(h, a, u);
  }

  /** The `Settings` type: a theme of 'light' or 'dark' and a numeric font size. */
  datatype Settings = Settings(theme: string, fontSize: Number)

  const DefaultSettings := Settings("light", Finite(14.0))

  predicate ValidSettings(s: Settings) {
    s.theme in {"light", "dark"}
  }

  /** isSettings: a non-null object whose theme is 'light' or 'dark' and whose fontSize is a number
      (`typeof NaN` is 'number', so NaN passes). */
  function IsSettings(h: Heap, value: JsValue): (r: bool)
    ensures r ==> value.Ref?
    ensures r <==> IsNonNullObject(h, value)
                   && Get(h, value, "theme") in {Str("light"), Str("dark")}
                   && Get(h, value, "fontSize").Num?
  {
    if TypeOf(h, value) != "object" || StrictEquals(value, Null) then false
    else
      var themeOk := StrictEquals(Get(h, value, "theme"), Str("light")) || StrictEquals(Get(h, value, "theme"), Str("dark"));
      var fontOk := TypeOf(h, Get(h, value, "fontSize")) == "number";
      themeOk && fontOk
  }

  /** The `Settings` a value narrowed by isSettings denotes. */
  function SettingsOf(h: Heap, value: JsValue): (s: Settings)
    requires IsSettings(h, value)
    ensures ValidSettings(s)
  {
    Settings(Get(h, value, "theme").s, Get(h, value, "fontSize").n)
  }

  function SettingsObject(s: Settings): JsObject {
    ObjectLiteral([("theme", Str(s.theme)), ("fontSize", Num(s.fontSize))])
  }

  /** Exactly the valid settings survive being stored as an object and checked again. */
  lemma SettingsRoundTrip(h: Heap, a: nat, s: Settings)
    ensures IsSettings(h[a := SettingsObject(s)], Ref(a)) <==> ValidSettings(s)
    ensures ValidSettings(s) ==> SettingsOf(h[a := SettingsObject(s)], Ref(a)) == s
  {
    var entries := [("theme", Str(s.theme)), ("fontSize", Num(s.fontSize))];
    ObjectLiteralLastWins(entries, "theme");
    ObjectLiteralLastWins(entries, "fontSize");
    assert entries[..1] == [("theme", Str(s.theme))];
  }

  /** parseSettings: the parsed value when it passes isSettings, otherwise the defaults, including when
      JSON.parse throws. `parse` stands for JSON.parse: None when it throws, else the value and the
      heap holding the objects it created. The script returns the parsed object itself, any extra keys
      included; the result here is its theme and fontSize only (`SettingsOf`), which is all a caller
      typed as Settings can read. */
  function ParseSettings(parse: string -> Option<(JsValue, Heap)>, json: string): (r: Settings)
    ensures ValidSettings(r)
    ensures parse(json).None? ==> r == DefaultSettings
    ensures parse(json).Some? && IsSettings(parse(json).value.1, parse(json).value.0)
            ==> r == SettingsOf(parse(json).value.1, parse(json).value.0)
    ensures parse(json).Some? && !IsSettings(parse(json).value.1, parse(json).value.0) ==> r == DefaultSettings
  {
    match parse(json)
    case None => DefaultSettings
    case Some((parsed, h)) => if IsSettings(h, parsed) then SettingsOf(h, parsed) else DefaultSettings
  }

  /** The three inputs of the script: a valid object, one with a bad theme and a string font size,
      and text that is not JSON. */
  lemma ParseSettingsSamples(parse: string -> Option<(JsValue, Heap)>)
    requires parse("{\"theme\":\"dark\",\"fontSize\":16}")
             == Some((Ref(0), map[0 := SettingsObject(Settings("dark", Finite(16.0)))]))
    requires parse("{\"theme\":\"purple\",\"fontSize\":\"big\"}")
             == Some((Ref(0), map[0 := ObjectLiteral([("theme", Str("purple")), ("fontSize", Str("big"))])]))
    requires parse("not-json") == None
    ensures ParseSettings(parse, "{\"theme\":\"dark\",\"fontSize\":16}") == Settings("dark", Finite(16.0))
    ensures ParseSettings(parse, "{\"theme\":\"purple\",\"fontSize\":\"big\"}") == DefaultSettings
    ensures ParseSettings(parse, "not-json") == DefaultSettings
  {
    SettingsRoundTrip(map[], 0, Settings("dark", Finite(16.0)));
    var bad := [("theme", Str("purple")), ("fontSize", Str("big"))];
    ObjectLiteralLastWins(bad, "theme");
    assert bad[..1] == [("theme", Str("purple"))];
  }
}

=== FILE: value_reference.dfy ===
/** Values versus references in JavaScript/js-beginner/1_basics/15_value_reference.js: content
    comparison of two objects, spread copies and their override order, the shallow-copy trap,
    path updates of nested state and immutable array updates. */
module ValueReference {
  import opened Common
  import opened JsValues
  import opened PropertyAttributes

  /** `Object.keys(v)`: the enumerable own names of an object, none for a primitive here. */
  function KeysOf(h: Heap, v: JsValue): (r: seq<string>)
    ensures v.Ref? && v.addr in h ==> r == EnumerableKeys(h[v.addr])
    ensures !(v.Ref? && v.addr in h) ==> r == []
  {
    if v.Ref? && v.addr in h then EnumerableKeys(h[v.addr]) else []
  }

  /** The key lists of the objects a value may point to name each property once. */
  ghost predicate DistinctKeys(h: Heap, v: JsValue) {
    v.Ref? && v.addr in h ==> forall i, j :: 0 <= i < j < |h[v.addr].keys| ==> h[v.addr].keys[i] != h[v.addr].keys[j]
  }

  /** `ks.every((k) => a[k] === b[k])`. */
  function EveryKeyEqual(h: Heap, a: JsValue, b: JsValue, ks: seq<string>): (r: bool)
    ensures r <==> forall k :: k in ks ==> StrictEquals(Get(h, a, k), Get(h, b, k))
  {
    if ks == [] then true
    else StrictEquals(Get(h, a, ks[0]), Get(h, b, ks[0])) && EveryKeyEqual(h, a, b, ks[1..])
  }

  /** shallowEqual as the script writes it: the same reference is equal, a falsy operand is not,
      key counts must agree, then each key of `a` must read the same in both. A key `b` lacks
      reads as undefined there. */
  function ShallowEqualAsWritten(h: Heap, a: JsValue, b: JsValue): (r: bool)
    ensures StrictEquals(a, b) ==> r
    ensures !StrictEquals(a, b) && (!Truthy(a) || !Truthy(b)) ==> !r
    ensures !StrictEquals(a, b) && |KeysOf(h, a)| != |KeysOf(h, b)| ==> !r
    ensures !StrictEquals(a, b) && Truthy(a) && Truthy(b) && |KeysOf(h, a)| == |KeysOf(h, b)|
            ==> (r <==> forall k :: k in KeysOf(h, a) ==> StrictEquals(Get(h, a, k), Get(h, b, k)))
  {
    if StrictEquals(a, b) then true
    else if !Truthy(a) || !Truthy(b) then false
    else
      var aKeys := KeysOf(h, a);
      var bKeys := KeysOf(h, b);
      if |aKeys| != |bKeys| then false
      else EveryKeyEqual(h, a, b, aKeys)
  }

  /** `ks.every((k) => bKeys.includes(k) && a[k] === b[k])`. */
  function EveryKeySharedAndEqual(h: Heap, a: JsValue, b: JsValue, ks: seq<string>): (r: bool)
    ensures r <==> forall k :: k in ks ==> k in KeysOf(h, b) && StrictEquals(Get(h, a, k), Get(h, b, k))
  {
    if ks == [] then true
    else (ks[0] in KeysOf(h, b) && StrictEquals(Get(h, a, ks[0]), Get(h, b, ks[0])))
         && EveryKeySharedAndEqual(h, a, b, ks[1..])
  }

  /** shallowEqual with the intended content comparison: each key of `a` must also be a key of `b`. */
  function ShallowEqual(h: Heap, a: JsValue, b: JsValue): (r: bool)
    ensures StrictEquals(a, b) ==> r
    ensures !StrictEquals(a, b) && (!Truthy(a) || !Truthy(b)) ==> !r
    ensures !StrictEquals(a, b) && |KeysOf(h, a)| != |KeysOf(h, b)| ==> !r
  {
    if StrictEquals(a, b) then true
    else if !Truthy(a) || !Truthy(b) then false
    else
      var aKeys := KeysOf(h, a);
      var bKeys := KeysOf(h, b);
      if |aKeys| != |bKeys| then false
      else EveryKeySharedAndEqual(h, a, b, aKeys)
  }

  /** The two readings agree whenever every key of `a` is also a key of `b`. */
  lemma ShallowEqualAgreesOnSharedKeys(h: Heap, a: JsValue, b: JsValue)
    requires forall k :: k in KeysOf(h, a) ==> k in KeysOf(h, b)
    ensures ShallowEqual(h, a, b) == ShallowEqualAsWritten(h, a, b)
  {
  }

  /** `{ x: undefined }` and `{ y: 1 }` side by side. */
  function AsymmetryHeap(): Heap {
    map[0 := JsObject(PlainObject, ["x"], map["x" := Property(Undefined, true, true, true)], true),
        1 := JsObject(PlainObject, ["y"], map["y" := Property(Int(1), true, true, true)], true)]
  }

  /** With `{ x: undefined }` and `{ y: 1 }` the script's comparison calls the first equal to the
      second but not the second to the first; the corrected one calls them different both ways. */
  lemma ShallowEqualAsWrittenIsAsymmetric()
    ensures ShallowEqualAsWritten(AsymmetryHeap(), Ref(0), Ref(1))
    ensures !ShallowEqualAsWritten(AsymmetryHeap(), Ref(1), Ref(0))
    ensures !ShallowEqual(AsymmetryHeap(), Ref(0), Ref(1)) && !ShallowEqual(AsymmetryHeap(), Ref(1), Ref(0))
  {
    var h := AsymmetryHeap();
    assert KeysOf(h, Ref(0)) == ["x"];
    assert KeysOf(h, Ref(1)) == ["y"];
    assert Get(h, Ref(1), "x") == Undefined;
    assert Get(h, Ref(0), "x") == Undefined;
    assert Get(h, Ref(0), "y") == Undefined;
    assert Get(h, Ref(1), "y") == Int(1);
  }

  /** A sequence without repeats has as many distinct elements as positions. */
  lemma {:induction false} DistinctCardinality(s: seq<string>)
    requires forall i, j :: 0 <= i < j < |s| ==> s[i] != s[j]
    ensures |set k | k in s| == |s|
  {
    if s != [] {
      var init := s[..|s| - 1];
      DistinctCardinality(init);
      assert (set k | k in s) == (set k | k in init) + {s[|s| - 1]};
    }
  }

  /** Two repeat-free key lists of the same length, one inside the other, hold the same names. */
  lemma SameNames(a: seq<string>, b: seq<string>)
    requires forall i, j :: 0 <= i < j < |a| ==> a[i] != a[j]
    requires forall i, j :: 0 <= i < j < |b| ==> b[i] != b[j]
    requires |a| == |b| && forall k :: k in a ==> k in b
    ensures forall k :: k in b ==> k in a
  {
    var sa := set k | k in a;
    var sb := set k | k in b;
    DistinctCardinality(a);
    DistinctCardinality(b);
    forall k | k in b
      ensures k in a
    {
      if k !in a {
        SubsetCardinality(sa, sb - {k});
      }
    }
  }

  lemma SubsetCardinality(x: set<string>, y: set<string>)
    requires x <= y
    ensures |x| <= |y|
  {
    assert y == x + (y - x);
    assert x * (y - x) == {};
  }

  lemma StrictEqualsSymmetric(x: JsValue, y: JsValue)
    ensures StrictEquals(x, y) == StrictEquals(y, x)
  {
  }

  /** The corrected comparison is symmetric. */
  lemma ShallowEqualSymmetric(h: Heap, a: JsValue, b: JsValue)
    requires DistinctKeys(h, a) && DistinctKeys(h, b)
    ensures ShallowEqual(h, a, b) == ShallowEqual(h, b, a)
  {
    StrictEqualsSymmetric(a, b);
    if ShallowEqual(h, a, b) && !StrictEquals(a, b) {
      SameNames(KeysOf(h, a), KeysOf(h, b));
      forall k | k in KeysOf(h, b)
        ensures k in KeysOf(h, a) && StrictEquals(Get(h, b, k), Get(h, a, k))
      {
        StrictEqualsSymmetric(Get(h, a, k), Get(h, b, k));
      }
    }
    if ShallowEqual(h, b, a) && !StrictEquals(a, b) {
      SameNames(KeysOf(h, b), KeysOf(h, a));
      forall k | k in KeysOf(h, a)
        ensures k in KeysOf(h, b) && StrictEquals(Get(h, a, k), Get(h, b, k))
      {
        StrictEqualsSymmetric(Get(h, b, k), Get(h, a, k));
      }
    }
  }

  /** For two distinct objects the corrected comparison holds exactly when they have the same
      enumerable names and each name reads strictly equal in both. */
  lemma ShallowEqualObjects(h: Heap, a: nat, b: nat)
    requires a != b && a in h && b in h && DistinctKeys(h, Ref(a)) && DistinctKeys(h, Ref(b))
    ensures ShallowEqual(h, Ref(a), Ref(b))
            <==> (&& (forall k :: k in KeysOf(h, Ref(a)) <==> k in KeysOf(h, Ref(b)))
                  && (forall k :: k in KeysOf(h, Ref(a)) ==> StrictEquals(Get(h, Ref(a), k), Get(h, Ref(b), k))))
  {
    var ka, kb := KeysOf(h, Ref(a)), KeysOf(h, Ref(b));
    ShallowEqualOfRefs(h, Ref(a), Ref(b));
    if ShallowEqual(h, Ref(a), Ref(b)) {
      SameNames(ka, kb);
    }
    if (forall k :: k in ka <==> k in kb) {
      SameNamesSameLength(ka, kb);
    }
  }

  /** Two different references go through the content comparison. */
  lemma ShallowEqualOfRefs(h: Heap, x: JsValue, y: JsValue)
    requires x.Ref? && y.Ref? && x != y
    ensures ShallowEqual(h, x, y) == (|KeysOf(h, x)| == |KeysOf(h, y)| && EveryKeySharedAndEqual(h, x, y, KeysOf(h, x)))
  {
  }

  /** Two repeat-free key lists with the same names have the same length. */
  lemma SameNamesSameLength(a: seq<string>, b: seq<string>)
    requires forall i, j :: 0 <= i < j < |a| ==> a[i] != a[j]
    requires forall i, j :: 0 <= i < j < |b| ==> b[i] != b[j]
    requires forall k :: k in a <==> k in b
    ensures |a| == |b|
  {
    DistinctCardinality(a);
    DistinctCardinality(b);
    assert (set k | k in a) == (set k | k in b);
  }

  /** `{ ...o, ...overrides }`: a new object with the enumerable own properties of `o` and then the overrides. */
  function SpreadWith(o: JsObject, overrides: seq<(string, JsValue)>): (r: JsObject)
    ensures WellFormed(r) && r.extensible
  {
    ObjectLiteral(SpreadEntries(o) + overrides)
  }

  /** `{ ...overrides, ...o }`: the same entries with the object spread last. */
  function SpreadUnder(overrides: seq<(string, JsValue)>, o: JsObject): (r: JsObject)
    ensures WellFormed(r) && r.extensible
  {
    ObjectLiteral(overrides + SpreadEntries(o))
  }

  /** Whether `o` has an enumerable own property `k`, which a spread copies. */
  predicate Spreads(o: JsObject, k: string) {
    k in o.keys && k in o.props && o.props[k].enumerable
  }

  /** `{ ...o, ...overrides }` reads each name from the last override naming it, otherwise from `o`. */
  lemma SpreadWithValue(o: JsObject, overrides: seq<(string, JsValue)>, k: string)
    ensures k in SpreadWith(o, overrides).props <==> LastValue(overrides, k).Some? || Spreads(o, k)
    ensures LastValue(overrides, k).Some? ==> SpreadWith(o, overrides).props[k].value == LastValue(overrides, k).value
    ensures LastValue(overrides, k).None? && Spreads(o, k) ==> SpreadWith(o, overrides).props[k].value == o.props[k].value
  {
    ObjectLiteralLastWins(SpreadEntries(o) + overrides, k);
    LastValueAppend(SpreadEntries(o), overrides, k);
    SpreadValue(o, k);
  }

  /** With the order reversed the spread object's own value wins, so the override is lost whenever
      the object already has that name. */
  lemma OverrideThenSpread(o: JsObject, k: string, v: JsValue)
    ensures k in SpreadUnder([(k, v)], o).props
    ensures SpreadUnder([(k, v)], o).props[k].value == if Spreads(o, k) then o.props[k].value else v
  {
    ObjectLiteralLastWins([(k, v)] + SpreadEntries(o), k);
    LastValueAppend([(k, v)], SpreadEntries(o), k);
    SpreadValue(o, k);
    assert [(k, v)][..0] == [];
  }

  /** `{ name: '안유진', group: '아이브' }`. */
  function YuJin(): JsObject {
    JsObject(PlainObject, ["name", "group"],
             map["name" := Property(Str("안유진"), true, true, true),
                 "group" := Property(Str("아이브"), true, true, true)], true)
  }

  /** The script's objects: `{ ...yuJin1, group: '코드팩토리', year: 2003 }` takes the new group,
      `{ group: '코드팩토리', ...yuJin1 }` keeps '아이브'. */
  lemma OverrideOrderSample()
    ensures "group" in SpreadWith(YuJin(), [("group", Str("코드팩토리")), ("year", Int(2003))]).props
    ensures SpreadWith(YuJin(), [("group", Str("코드팩토리")), ("year", Int(2003))]).props["group"].value == Str("코드팩토리")
    ensures SpreadUnder([("group", Str("코드팩토리"))], YuJin()).props["group"].value == Str("아이브")
  {
    var next := [("group", Str("코드팩토리")), ("year", Int(2003))];
    assert next[..1] == [("group", Str("코드팩토리"))];
    assert LastValue(next, "group") == Some(Str("코드팩토리"));
    SpreadWithValue(YuJin(), next, "group");
    OverrideThenSpread(YuJin(), "group", Str("코드팩토리"));
  }

  /** `{ ...heap[a] }` stored at the unused address `c`. */
  function ShallowCopy(h: Heap, a: nat, c: nat): (r: Heap)
    requires a in h && c !in h
    ensures r.Keys == h.Keys + {c}
    ensures forall b :: b in h ==> r[b] == h[b]
  {
    h[c := SpreadWith(h[a], [])]
  }

  /** The copy is a different object whose enumerable names read as in the original, so a nested
      object is shared by reference; assigning a top-level name of the copy leaves the original alone. */
  lemma ShallowCopyShares(h: Heap, a: nat, c: nat, k: string, v: JsValue)
    requires a in h && c !in h && Spreads(h[a], k)
    ensures Get(ShallowCopy(h, a, c), Ref(c), k) == Get(h, Ref(a), k)
    ensures var h2 := ShallowCopy(h, a, c);
            h2[c := SetProp(h2[c], k, v).0][a] == h[a]
    ensures var h2 := ShallowCopy(h, a, c);
            Get(h2[c := SetProp(h2[c], k, v).0], Ref(c), k) == v
  {
    SpreadWithValue(h[a], [], k);
    ObjectLiteralAllWritable(SpreadEntries(h[a]) + []);
  }

  /** The nested trap: a write through the copy's nested object is a write to the original's. */
  lemma ShallowCopyNestedWrite(h: Heap, a: nat, c: nat, k: string, inner: string, v: JsValue)
    requires a in h && c !in h && Spreads(h[a], k)
    requires var child := Get(h, Ref(a), k); child.Ref? && child.addr in h && child.addr != a && WellFormed(h[child.addr])
    requires var child := Get(h, Ref(a), k); SetProp(h[child.addr], inner, v).1
    ensures var h2 := ShallowCopy(h, a, c);
            var child := Get(h, Ref(a), k);
            var h3 := h2[child.addr := SetProp(h2[child.addr], inner, v).0];
            Get(h3, Get(h3, Ref(a), k), inner) == v && Get(h3, Get(h3, Ref(c), k), inner) == v
  {
    var h2 := ShallowCopy(h, a, c);
    var child := Get(h, Ref(a), k);
    SpreadWithValue(h[a], [], k);
    assert Get(h2, Ref(c), k) == child;
    var h3 := h2[child.addr := SetProp(h2[child.addr], inner, v).0];
    assert h3[a] == h[a] && h3[c] == h2[c];
    assert Get(h3, Ref(a), k) == child && Get(h3, Ref(c), k) == child;
  }

  /** The state after the path update, and where its three new objects live. */
  datatype PathUpdated = PathUpdated(heap: Heap, state: nat)

  /** The spread entries of a value: an object's enumerable own properties, nothing for a primitive. */
  function SpreadOf(h: Heap, v: JsValue): seq<(string, JsValue)> {
    if v.Ref? && v.addr in h then SpreadEntries(h[v.addr]) else []
  }

  /** `{ ...v, name: x }`. */
  function SetOn(h: Heap, v: JsValue, name: string, x: JsValue): JsObject {
    ObjectLiteral(SpreadOf(h, v) + [(name, x)])
  }

  /** Stores three new objects at three distinct unused addresses. */
  function Put3(h: Heap, p: nat, po: JsObject, u: nat, uo: JsObject, s: nat, so: JsObject): (r: Heap)
    requires s !in h && u !in h && p !in h && s != u && u != p && s != p
    ensures r.Keys == h.Keys + {s, u, p}
    ensures forall b :: b in h ==> r[b] == h[b]
    ensures r[s] == so && r[u] == uo && r[p] == po
  {
    h[p := po][u := uo][s := so]
  }

  /** `{ ...state, user: { ...state.user, profile: { ...state.user.profile, city } } }` with the three
      new objects at the unused addresses `s`, `u` and `p`; reading `profile` of a missing user throws. */
  function PathUpdate(h: Heap, state: nat, city: JsValue, s: nat, u: nat, p: nat): (r: Result<PathUpdated>)
    requires state in h && s !in h && u !in h && p !in h && s != u && u != p && s != p
    ensures r.Throws? <==> IsNullish(Get(h, Ref(state), "user"))
    ensures r.Ok? ==> r.value.state == s && r.value.heap.Keys == h.Keys + {s, u, p}
    ensures r.Ok? ==> forall b :: b in h ==> r.value.heap[b] == h[b]
  {
    var user := Get(h, Ref(state), "user");
    match StrictGet(h, user, "profile")
    case Throws(e) => Throws(e)
    case Ok(profile) =>
      Ok(PathUpdated(Put3(h, p, SetOn(h, profile, "city", city), u, SetOn(h, user, "profile", Ref(p)),
                          s, SetOn(h, Ref(state), "user", Ref(u))), s))
  }

  /** `{ ...v, name: x }` reads `x` under `name` and, under every other name `v` spreads, `v`'s value. */
  lemma SpreadOfThenSet(h: Heap, v: JsValue, name: string, x: JsValue, k: string)
    ensures var r := SetOn(h, v, name, x);
            k == name ==> k in r.props && r.props[k].value == x
    ensures var r := SetOn(h, v, name, x);
            k != name && v.Ref? && v.addr in h && Spreads(h[v.addr], k) ==> k in r.props && r.props[k].value == Get(h, v, k)
  {
    if v.Ref? && v.addr in h {
      SpreadWithValue(h[v.addr], [(name, x)], k);
    } else {
      ObjectLiteralLastWins([] + [(name, x)], k);
      assert [(name, x)][..0] == [];
    }
  }

  /** After a path update the new state reads the new city through fresh user and profile objects,
      every other name of the profile reads as before, and the old profile is not reused. */
  lemma PathUpdateChangesOnlyCity(h: Heap, state: nat, city: JsValue, s: nat, u: nat, p: nat, other: string)
    requires state in h && s !in h && u !in h && p !in h && s != u && u != p && s != p
    requires PathUpdate(h, state, city, s, u, p).Ok? && other != "city"
    ensures var r := PathUpdate(h, state, city, s, u, p).value;
            Get(r.heap, Ref(r.state), "user") == Ref(u) && Get(r.heap, Ref(u), "profile") == Ref(p)
    ensures var r := PathUpdate(h, state, city, s, u, p).value;
            Get(r.heap, Ref(p), "city") == city
    ensures var r := PathUpdate(h, state, city, s, u, p).value;
            var oldProfile := Get(h, Get(h, Ref(state), "user"), "profile");
            oldProfile.Ref? && oldProfile.addr in h && Spreads(h[oldProfile.addr], other)
            ==> Ref(p) != oldProfile && Get(r.heap, Ref(p), other) == Get(h, oldProfile, other)
  {
    var user := Get(h, Ref(state), "user");
    var profile := Get(h, user, "profile");
    var h2 := Put3(h, p, SetOn(h, profile, "city", city), u, SetOn(h, user, "profile", Ref(p)),
                   s, SetOn(h, Ref(state), "user", Ref(u)));
    assert PathUpdate(h, state, city, s, u, p).value == PathUpdated(h2, s);
    SpreadOfThenSet(h, Ref(state), "user", Ref(u), "user");
    SpreadOfThenSet(h, user, "profile", Ref(p), "profile");
    SpreadOfThenSet(h, profile, "city", city, "city");
    SpreadOfThenSet(h, profile, "city", city, other);
  }

  /** One entry of the todo list. */
  datatype Todo = Todo(id: int, text: string, done: bool)

  /** `[...todos, todo]`. */
  function AddTodo(todos: seq<Todo>, todo: Todo): (r: seq<Todo>)
    ensures |r| == |todos| + 1 && r[..|todos|] == todos && r[|todos|] == todo
  {
    todos + [todo]
  }

  /** `todos.map((t) => (t.id === id ? { ...t, done: true } : t))`: the matching entries become done. */
  function MarkDone(todos: seq<Todo>, id: int): (r: seq<Todo>)
    ensures |r| == |todos|
    ensures forall i :: 0 <= i < |r| ==> r[i].id == todos[i].id && r[i].text == todos[i].text
    ensures forall i :: 0 <= i < |r| ==> r[i].done == (todos[i].done || todos[i].id == id)
  {
    if todos == [] then []
    else (if todos[0].id == id then [todos[0].(done := true)] else [todos[0]]) + MarkDone(todos[1..], id)
  }

  /** `todos.filter((t) => t.id !== id)`. */
  function RemoveTodo(todos: seq<Todo>, id: int): (r: seq<Todo>)
    ensures |r| <= |todos|
    ensures forall t :: t in r <==> t in todos && t.id != id
  {
    if todos == [] then []
    else (if todos[0].id != id then [todos[0]] else []) + RemoveTodo(todos[1..], id)
  }

  /** Marking an entry done twice changes nothing more. */
  lemma {:induction false} MarkDoneIdempotent(todos: seq<Todo>, id: int)
    ensures MarkDone(MarkDone(todos, id), id) == MarkDone(todos, id)
  {
    if todos != [] {
      MarkDoneIdempotent(todos[1..], id);
      assert MarkDone(todos, id)[1..] == MarkDone(todos[1..], id);
    }
  }

  /** Filtering keeps the surviving entries in their order: it works piecewise on a concatenation. */
  lemma {:induction false} RemoveTodoAppend(a: seq<Todo>, b: seq<Todo>, id: int)
    ensures RemoveTodo(a + b, id) == RemoveTodo(a, id) + RemoveTodo(b, id)
  {
    if a == [] {
      assert a + b == b;
    } else {
      assert (a + b)[1..] == a[1..] + b;
      RemoveTodoAppend(a[1..], b, id);
    }
  }

  /** Removing one id never touches another id's entries, so removal and marking commute. */
  lemma {:induction false} RemoveAfterMarkDone(todos: seq<Todo>, doneId: int, removeId: int)
    ensures RemoveTodo(MarkDone(todos, doneId), removeId) == MarkDone(RemoveTodo(todos, removeId), doneId)
  {
    if todos != [] {
      RemoveAfterMarkDone(todos[1..], doneId, removeId);
      assert MarkDone(todos, doneId)[1..] == MarkDone(todos[1..], doneId);
    }
  }

  /** The script's pipeline: add entry 3, mark entry 2 done, remove entry 1; the original list is a
      value of its own and is left as it was. */
  lemma TodoPipelineSample()
    ensures var todos := [Todo(1, "공부하기", false), Todo(2, "커밋하기", false)];
            var added := AddTodo(todos, Todo(3, "복습하기", false));
            RemoveTodo(MarkDone(added, 2), 1) == [Todo(2, "커밋하기", true), Todo(3, "복습하기", false)]
  {
    var added := [Todo(1, "공부하기", false), Todo(2, "커밋하기", false), Todo(3, "복습하기", false)];
    var toggled := [Todo(1, "공부하기", false), Todo(2, "커밋하기", true), Todo(3, "복습하기", false)];
    assert added[1..] == [Todo(2, "커밋하기", false), Todo(3, "복습하기", false)];
    assert added[1..][1..] == [Todo(3, "복습하기", false)];
    assert MarkDone(added, 2) == toggled;
    assert toggled[1..] == [Todo(2, "커밋하기", true), Todo(3, "복습하기", false)];
    assert toggled[1..][1..] == [Todo(3, "복습하기", false)];
  }
}
